=== FILE: README.md ===
# Financial dashboards and project list: a verified model

This project models the computational core of a React/Supabase back-office
application. It covers five pages.

- **Contas a Pagar** (payables) and **Contas a Receber** (receivables) share
  one ledger pipeline:
  - each row's reference date and due date are normalised to `yyyy-mm-dd`;
  - rows are filtered to the selected *data base* (or all of them), then
    classified as `VENCIDO` (due on or before the reference date) or
    `A VENCER`;
  - when a date is missing, the row falls back to its file status;
  - classified rows are grouped into aging buckets;
  - rows are arranged into a six-level hierarchy of totals (payables), or
    three trees (receivables: *Hierarquia* sorted by name, *Fundos* and
    *Inadimplência* sorted by descending sum);
  - open aging axes spread a status total over one column per bucket;
  - receivables also has the days breakdown (`0`, `1-7`, …, `90+`,
    `(sem dias)`) of an A VENCER bucket.
- **Disponibilidade MP**:
  - computes daily figures: the available base (`disponibilidade +
    saldo_anterior`), the MP forecast and realised shares, and the daily
    saldo;
  - aggregates them over a period, with base-weighted percentages;
  - nests dated rows into months and weeks;
  - offers cascading Ano/Mês/Semana filters and month/week expansion state,
    and opens the newest month and its last two weeks on load.
- **Faturamento**:
  - reads pt-BR numeric text (`num`);
  - classifies products into groups and states into regions;
  - auto-detects the quantity column;
  - accumulates by key (`groupAgg`) and takes the top N;
  - derives the year range and month count;
  - builds the month-by-month evolution series;
  - sorts the mini tables with a key/direction toggle.
- **Projects status**:
  - formats Brazilian phone numbers;
  - classifies a status into a display tone;
  - applies the search/status filter;
  - builds the submit payload;
  - updates the in-memory list after an edit or an insert.

Shared pieces live in their own modules:

| Module | What it holds |
|---|---|
| `Text` | trimming, ASCII/Latin-1 case, code-point order |
| `JsNumbers` | `Number(...)` on decimal text |
| `IsoDates` | `toISO`, the date comparators |
| `Grouping` | `uniq`, `filter`, `groupBy`, keyed sums |
| `Hierarchy` | the nested `Map` trees, `collectRows`, recursive sorts |
| `Nesting` | the month/week grouping |
| `Sorting` | insertion sorts and permutation facts |
| `Toggles` | set membership flips |

Amounts are modelled as follows:

- Ledger amounts are integers.
- The Disponibilidade and Faturamento figures are reals.
- JavaScript's `Number` parsing is modelled for decimal text: digits, an optional point, and an optional sign.

Where the code and its comments disagree, the model follows the code:

- **Faturamento's `num`.** Its doc comment says it accepts `"1234.56"`. The code drops every `.` before turning the first `,` into a point, so `"1234.56"` reads as 123456 (`Faturamento.ReadNumberExamples`).
- **Receivables' `normStatus`.** Its `A VENCER` branch can never be reached, because a text that contains `A VENC` also contains `VENC` (`Ledger.NormStatusNeverAVencer`).

## Model

| member | source | states |
|---|---|---|
| Text.TrimStart | src/pages/dashboards/ContasPagarDashboard.jsx:14-17 | the result is a suffix of the input, starts with a non-space, and everything dropped is white space |
| Text.TrimEnd | src/pages/dashboards/ContasPagarDashboard.jsx:14-17 | the result is a prefix of the input, ends with a non-space, and everything dropped is white space |
| Text.TrimEmptyIffBlank | src/pages/dashboards/ContasPagarDashboard.jsx:14-17 | `trim()` is empty exactly when every character is white space |
| Text.TrimIdempotent | src/pages/dashboards/ContasPagarDashboard.jsx:14-17 | trimming twice equals trimming once |
| Text.DigitsOf | src/pages/ProjectsStatusPage.jsx:59 | `replace(/\D/g, "")` yields only digits, keeps a text of digits whole, and is empty exactly when the text has no digit; with `DigitsOfAppend` each digit is kept and each other character dropped, in order |
| Text.DigitsOfAppend | src/pages/ProjectsStatusPage.jsx:59 | stripping non-digits distributes over concatenation |
| Text.LexLeTotal | src/pages/dashboards/ContasPagarDashboard.jsx:65-72 | string `<=` is total |
| Text.LexLeAntisymmetric | src/pages/dashboards/ContasPagarDashboard.jsx:65-72 | string `<=` both ways means equal |
| Text.LexLeTransitive | src/pages/dashboards/ContasPagarDashboard.jsx:65-72 | string `<=` is transitive |
| Text.LexLeOrGreater | src/pages/dashboards/ContasPagarDashboard.jsx:65-72 | exactly one of `a <= b` and `b < a` holds |
| Toggles.Toggled | src/pages/dashboards/ContasPagarDashboard.jsx:347-355 | the copied set flips membership of the key and of no other element |
| Toggles.ToggleTwice | src/pages/dashboards/ContasPagarDashboard.jsx:347-355 | toggling the same key twice restores the set |
| Toggles.TogglesCommute | src/pages/dashboards/ContasReceberDashboard.jsx:305-313 | toggles of two keys commute |
| JsNumbers.NatToString | src/pages/dashboards/ContasPagarDashboard.jsx:360-372 | a number's decimal text (`String(n)`) is non-empty, all digits, denotes that number, and starts with `0` only when it is `"0"` |
| JsNumbers.DecValueConcat | src/pages/dashboards/DisponibilidadeMPDashboard.jsx:26-29 | the value of concatenated digit strings is the first shifted by the length of the second, plus the second |
| JsNumbers.DecValueInjective | src/pages/dashboards/DisponibilidadeMPDashboard.jsx:26-29 | equal-length digit strings with equal values are equal |
| JsNumbers.IndexOf | src/pages/dashboards/FaturamentoDashboard.jsx:72-86 | the index found holds the character and none occurs before it; no index means no occurrence |
| JsNumbers.Fraction | src/pages/dashboards/FaturamentoDashboard.jsx:72-86 | the digits after a decimal point denote a value in [0, 1) |
| JsNumbers.NumOrZero | src/pages/dashboards/DisponibilidadeMPDashboard.jsx:26-29 | `Number(v)` when that is finite, else 0 (`NaN`/`Infinity` become 0) |
| JsNumbers.BlankIsZero | src/pages/dashboards/DisponibilidadeMPDashboard.jsx:26-29 | `Number` of blank text is 0 |
| JsNumbers.NatRoundTrip | src/pages/dashboards/DisponibilidadeMPDashboard.jsx:26-29 | `Number` of a natural number's decimal text gives that number back |
| JsNumbers.NegatedNatRoundTrip | src/pages/dashboards/DisponibilidadeMPDashboard.jsx:26-29 | `Number` of `"-"` plus a natural number's text gives the negated number |
| IsoDates.BrToIso | src/pages/dashboards/ContasPagarDashboard.jsx:40-42 | `dd/mm/yyyy` becomes `yyyy-mm-dd` with year, month and day moved to their places |
| IsoDates.IsoToBr | src/pages/dashboards/ContasPagarDashboard.jsx:40-42 | the inverse layout, `yyyy-mm-dd` to `dd/mm/yyyy` |
| IsoDates.BrIsoRoundTrip | src/pages/dashboards/ContasPagarDashboard.jsx:37-42 | rewriting an ISO date as `dd/mm/yyyy` and back gives it unchanged |
| IsoDates.ToIso | src/pages/dashboards/ContasPagarDashboard.jsx:30-62 | missing values, numbers and blank text give `null` |
| IsoDates.ToIsoNoBr | src/pages/dashboards/DisponibilidadeMPDashboard.jsx:45-65 | the same error cases for the page whose `toISO` has no `dd/mm/yyyy` branch |
| IsoDates.ToIsoKeepsIso | src/pages/dashboards/ContasPagarDashboard.jsx:33-38 | an ISO date is returned unchanged by both `toISO` variants |
| IsoDates.ToIsoRewritesBr | src/pages/dashboards/ContasPagarDashboard.jsx:40-42 | a `dd/mm/yyyy` date becomes the ISO date it names |
| IsoDates.ToIsoIdempotent | src/pages/dashboards/ContasPagarDashboard.jsx:30-62 | normalising an ISO result again changes nothing |
| IsoDates.ComparatorsSplit | src/pages/dashboards/ContasPagarDashboard.jsx:65-72 | with both dates present exactly one of `isBeforeOrEq`/`isAfter` holds; with either missing both are false |
| IsoDates.DigitsLexLe | src/pages/dashboards/ContasPagarDashboard.jsx:65-72 | on equal-length digit strings, string `<=` is numeric `<=` |
| IsoDates.IsoOrderIsChronological | src/pages/dashboards/ContasPagarDashboard.jsx:65-72 | on ISO dates, string `<=` is (year, month, day) order |
| Grouping.DistinctKeys | src/pages/dashboards/ContasPagarDashboard.jsx:21-23 | `uniq` has no duplicates |
| Grouping.DistinctKeysMembers | src/pages/dashboards/ContasPagarDashboard.jsx:21-23 | `uniq` holds exactly the keys that occur |
| Grouping.SelectMembers | src/pages/dashboards/ContasReceberDashboard.jsx:25-33 | a group holds only input rows with its key, and every such row |
| Grouping.GroupsPartition | src/pages/dashboards/ContasReceberDashboard.jsx:25-33 | the groups, concatenated in key order, are a permutation of the input |
| Grouping.GroupsSum | src/pages/dashboards/ContasReceberDashboard.jsx:16-18 | summing group by group gives the overall `sumValor` |
| Grouping.SumGroupsCovers | src/pages/dashboards/ContasReceberDashboard.jsx:282-300 | over duplicate-free keys covering every row, the group sums add up to the total |
| Grouping.GroupSums | src/pages/dashboards/ContasReceberDashboard.jsx:754-757 | one sum per key: the sum of the rows with that key |
| Grouping.Bump | src/pages/dashboards/ContasReceberDashboard.jsx:762-766 | `m.set(k, (m.get(k) \|\| 0) + v)` adds `v` to `k` (from 0 when absent) and leaves other keys alone |
| Grouping.ZeroKeys | src/pages/dashboards/ContasPagarDashboard.jsx:310-313 | every global bucket key starts at 0 |
| Grouping.AccumulateByKey | src/pages/dashboards/ContasReceberDashboard.jsx:762-766 | the accumulation loop yields the per-key sums over the whole input |
| Grouping.GroupBy | src/pages/dashboards/ContasReceberDashboard.jsx:25-33 | keys in first-appearance order, each group exactly the rows with that key in input order |
| Sorting.SumByPermutation | src/pages/dashboards/ContasPagarDashboard.jsx:283-290 | reordering never changes a sum |
| Sorting.FlatMapPermutation | src/pages/dashboards/ContasPagarDashboard.jsx:292-297 | reordering nodes keeps the multiset of collected rows |
| Sorting.SortDesc | src/pages/dashboards/FaturamentoDashboard.jsx:116-125 | sorted by non-increasing total and a permutation of the input |
| Sorting.SortByOrdered | src/pages/dashboards/ContasReceberDashboard.jsx:411-415 | sorting with a total preorder yields an ordered permutation |
| Sorting.SortDescStable | src/pages/dashboards/FaturamentoDashboard.jsx:116-125 | elements with equal totals keep their input order |
| Sorting.SortByStable | src/pages/dashboards/ContasReceberDashboard.jsx:411-415 | elements the comparator ties keep their input order |
| Sorting.SortedDistinct | src/pages/dashboards/ContasPagarDashboard.jsx:219-233 | `uniq(...).sort()` is strictly ascending with the same members |
| Sorting.SortedDistinctDesc | src/pages/dashboards/ContasPagarDashboard.jsx:177-186 | the reverse of a strictly ascending list is strictly descending with the same members |
| Hierarchy.Labels | src/pages/dashboards/ContasPagarDashboard.jsx:283-290 | the node labels of a level, in order |
| Hierarchy.PartitionLabels | src/pages/dashboards/ContasPagarDashboard.jsx:252-257 | the top-level nodes appear in first-appearance order of their keys |
| Hierarchy.PartitionCollectsAll | src/pages/dashboards/ContasPagarDashboard.jsx:259-275 | no row is dropped or duplicated: the collected rows are a permutation of the input |
| Hierarchy.PartitionShaped | src/pages/dashboards/ContasPagarDashboard.jsx:259-275 | every leaf sits at the last level and each node's rows carry its labels along the path |
| Hierarchy.FindLabel | src/pages/dashboards/ContasPagarDashboard.jsx:252-257 | the first sibling with the label, or none when no sibling has it |
| Hierarchy.GetNode | src/pages/dashboards/ContasPagarDashboard.jsx:252-257 | returns a level and an index whose node has the label (existing or new) |
| Hierarchy.InsertPreservesPartition | src/pages/dashboards/ContasPagarDashboard.jsx:259-275 | inserting one more row into the tree of `s` gives the tree of `s + [x]` |
| Hierarchy.BuildByInsertion | src/pages/dashboards/ContasPagarDashboard.jsx:259-275 | the row-by-row loop builds exactly the grouped tree |
| Hierarchy.BuildLevels | src/pages/dashboards/ContasReceberDashboard.jsx:363-408 | the nested `groupBy` loops build exactly the grouped tree with rows kept at every node |
| Hierarchy.PartitionNested | src/pages/dashboards/ContasReceberDashboard.jsx:363-408 | each inner node's rows are the concatenation of its children's rows |
| Hierarchy.SortForestOrdered | src/pages/dashboards/ContasReceberDashboard.jsx:411-415 | after the recursive sort every sibling list is ordered |
| Hierarchy.SortForestCollects | src/pages/dashboards/ContasReceberDashboard.jsx:411-415 | the recursive sort keeps the collected rows |
| Hierarchy.SortForestShaped | src/pages/dashboards/ContasReceberDashboard.jsx:411-415 | the recursive sort keeps depth and placement |
| Hierarchy.SortForestNested | src/pages/dashboards/ContasReceberDashboard.jsx:411-415 | the recursive sort keeps inner rows equal to their children's rows |
| Nesting.AssembleMonths | src/pages/dashboards/DisponibilidadeMPDashboard.jsx:229-242 | the loop over month keys builds exactly the month groups, weeks sorted |
| Nesting.NestPartition | src/pages/dashboards/DisponibilidadeMPDashboard.jsx:196-243 | the months' rows together are a permutation of the dated rows |
| Nesting.WeeksPartition | src/pages/dashboards/DisponibilidadeMPDashboard.jsx:196-243 | a month's rows are a permutation of the union of its weeks' rows |
| Nesting.MonthHoldsItsRows | src/pages/dashboards/DisponibilidadeMPDashboard.jsx:196-243 | a month is non-empty and holds exactly the dated rows of its key |
| Nesting.NestKeys | src/pages/dashboards/DisponibilidadeMPDashboard.jsx:196-243 | month keys are distinct and every dated row has its month |
| Nesting.WeeksAscendNumerically | src/pages/dashboards/DisponibilidadeMPDashboard.jsx:233-238 | weeks with numeric labels ascend numerically |
| Nesting.WeeksAscendAsText | src/pages/dashboards/DisponibilidadeMPDashboard.jsx:233-238 | weeks with non-numeric labels ascend as text |
| Ledger.SafeStr | src/pages/dashboards/ContasReceberDashboard.jsx:20-23 | blank gives the fallback, otherwise the trimmed text |
| Ledger.AgingLabel | src/pages/dashboards/ContasPagarDashboard.jsx:24-27 | never empty; a blank aging gives the page's no-aging label; otherwise as long as the trimmed text |
| Ledger.AgingLabelOf | src/pages/dashboards/ContasPagarDashboard.jsx:24-27 | white space around the aging is ignored and the label is the upper-cased text that remains |
| Ledger.AgingLabelIgnoresCase | src/pages/dashboards/ContasPagarDashboard.jsx:24-27 | agings that differ only in letter case get the same label |
| Ledger.AgingLabelIdempotent | src/pages/dashboards/ContasPagarDashboard.jsx:24-27 | a label read back as an aging gives itself, the sentinel included |
| Ledger.FileStatus | src/pages/dashboards/ContasPagarDashboard.jsx:204-205 | a blank file status gives `SEM STATUS`; otherwise the trimmed upper-cased status |
| Ledger.NormStatus | src/pages/dashboards/ContasReceberDashboard.jsx:36-42 | blank gives `SEM STATUS`; text containing `VENC` gives `VENCIDO`; never empty |
| Ledger.NormStatusKeepsOther | src/pages/dashboards/ContasReceberDashboard.jsx:36-42 | a non-blank status without `VENC` is passed through, trimmed and upper-cased |
| Ledger.NormStatusNeverAVencer | src/pages/dashboards/ContasReceberDashboard.jsx:39-40 | the `A VENCER` branch cannot be reached |
| Ledger.Normalise | src/pages/dashboards/ContasPagarDashboard.jsx:158-162 | each row gains its ISO base and due dates and is otherwise unchanged |
| Ledger.ActiveBase | src/pages/dashboards/ContasPagarDashboard.jsx:192-196 | a date is active exactly when the selection is neither `__ALL__` nor empty |
| Ledger.Classify | src/pages/dashboards/ContasPagarDashboard.jsx:199-212 | a classified row is a copy differing at most in its computed status |
| Ledger.ClassifyByDates | src/pages/dashboards/ContasPagarDashboard.jsx:199-210 | with both dates present: `VENCIDO` iff due ≤ reference, `A VENCER` iff reference < due |
| Ledger.DueOnReferenceIsVencido | src/pages/dashboards/ContasPagarDashboard.jsx:65-68 | a row due on its reference date is `VENCIDO` |
| Ledger.ClassifyIsChronological | src/pages/dashboards/ContasPagarDashboard.jsx:199-210 | on ISO dates, `VENCIDO` iff the due date is not after the reference date in calendar order |
| Ledger.ClassifyFallsBack | src/pages/dashboards/ContasPagarDashboard.jsx:204-205 | with a date missing, the status is the page's fallback |
| Ledger.VisibleAll | src/pages/dashboards/ContasPagarDashboard.jsx:194-197 | with no active date every row is visible |
| Ledger.VisibleSelected | src/pages/dashboards/ContasPagarDashboard.jsx:194-197 | with an active date exactly the rows of that base date are visible |
| Ledger.ClassifyAll | src/pages/dashboards/ContasPagarDashboard.jsx:199-212 | every visible row is classified, in order |
| Ledger.FilterAllDates | src/pages/dashboards/ContasPagarDashboard.jsx:191-213 | with `__ALL__` every row survives, classified against its own base date |
| Ledger.FilterSelectedDate | src/pages/dashboards/ContasPagarDashboard.jsx:191-213 | with a selected date exactly its rows survive, all classified against it |
| Ledger.DataBaseOptions | src/pages/dashboards/ContasPagarDashboard.jsx:177-186 | strictly descending, exactly the non-empty base dates |
| Ledger.StatusLabelsMembers | src/pages/dashboards/ContasPagarDashboard.jsx:219-233 | the labels collected are exactly the labels of the rows with that status |
| Ledger.AgingBuckets | src/pages/dashboards/ContasPagarDashboard.jsx:219-233 | strictly ascending, exactly the aging labels of the rows with that status |
| Ledger.KpiTotalsSplit | src/pages/dashboards/ContasPagarDashboard.jsx:238-243 | when every row is `VENCIDO` or `A VENCER`, total = vencido + a vencer |
| Ledger.BucketsCoverStatus | src/pages/dashboards/ContasReceberDashboard.jsx:282-300 | the bucket sums of a status add up to that status's total |
| Payables.TotalOfCollects | src/pages/dashboards/ContasPagarDashboard.jsx:277-297 | `totalOf` of a node is the sum of its collected rows |
| Payables.SortKeepsTotal | src/pages/dashboards/ContasPagarDashboard.jsx:283-290 | sorting a subtree keeps its total |
| Payables.BuildTree | src/pages/dashboards/ContasPagarDashboard.jsx:249-290 | the imperative build yields the six-level tree sorted by absolute total |
| Payables.PayablesTreeSound | src/pages/dashboards/ContasPagarDashboard.jsx:259-290 | the tree's rows are a permutation of the filtered rows, all leaves at depth 6 under their labels, siblings by non-increasing absolute total |
| Payables.ChildrenSums | src/pages/dashboards/ContasPagarDashboard.jsx:299-333 | the totals of a level add up to the total, vencido and a vencer sums of its rows |
| Payables.InnerNodeAddsUp | src/pages/dashboards/ContasPagarDashboard.jsx:299-333 | an inner node's `__total`, `__vencido` and `__aVencer` are the sums over its children |
| Payables.AxisCells | src/pages/dashboards/ContasPagarDashboard.jsx:360-372 | an axis renders one cell per grid track |
| Payables.LookupBucket | src/pages/dashboards/ContasPagarDashboard.jsx:310-322 | a bucket's by-aging entry is the sum of the rows with that label |
| Payables.ByAgingKeys | src/pages/dashboards/ContasPagarDashboard.jsx:310-316 | every global bucket key is present in the by-aging object, and no other key |
| Payables.AxisCellsAddUp | src/pages/dashboards/ContasPagarDashboard.jsx:310-322 | an axis's cells add up to the node's status total, open or closed |
| Payables.PayablesView.constructor | src/pages/dashboards/ContasPagarDashboard.jsx:89-96 | the initial state: nothing expanded, both axes closed, all dates |
| Payables.PayablesView.LoadProject | src/pages/dashboards/ContasPagarDashboard.jsx:141-146 | a load clears expansion, closes both axes and selects all dates |
| Payables.PayablesView.ToggleNode | src/pages/dashboards/ContasPagarDashboard.jsx:341-355 | flips the `" > "`-joined path key and changes nothing else |
| Payables.PayablesView.SetAgingVencido | src/pages/dashboards/ContasPagarDashboard.jsx:386-407 | sets the VENCIDO axis state and changes nothing else |
| Payables.PayablesView.SetAgingAVencer | src/pages/dashboards/ContasPagarDashboard.jsx:419-440 | sets the A VENCER axis state and changes nothing else |
| Payables.PayablesView.SelectDataBase | src/pages/dashboards/ContasPagarDashboard.jsx:538 | sets the selected base date and changes nothing else |
| Receivables.BuildHier | src/pages/dashboards/ContasReceberDashboard.jsx:363-415 | the imperative build yields the Hierarquia tree |
| Receivables.BuildFundos | src/pages/dashboards/ContasReceberDashboard.jsx:562-585 | the imperative build yields the Fundos tree |
| Receivables.BuildInad | src/pages/dashboards/ContasReceberDashboard.jsx:729-752 | the imperative build yields the Inadimplência tree |
| Receivables.HierTreeSound | src/pages/dashboards/ContasReceberDashboard.jsx:363-415 | a permutation of the filtered rows, six levels, inner rows = children's rows, siblings by label |
| Receivables.FundosTreeSound | src/pages/dashboards/ContasReceberDashboard.jsx:562-585 | a permutation of the filtered rows, two levels, nested, siblings by descending sum |
| Receivables.InadTreeSound | src/pages/dashboards/ContasReceberDashboard.jsx:729-752 | a permutation of the filtered rows, two levels, nested, siblings by descending sum |
| Receivables.BucketCellsAddUp | src/pages/dashboards/ContasReceberDashboard.jsx:754-757 | per-bucket sums over distinct buckets covering the status add up to the status sum |
| Receivables.StatusRowsInBuckets | src/pages/dashboards/ContasReceberDashboard.jsx:282-300 | every row of a status has its label among the global buckets |
| Receivables.AxisBucketsAddUp | src/pages/dashboards/ContasReceberDashboard.jsx:282-300 | the open axis's bucket sums add up to the status sum |
| Receivables.AxisCols | src/pages/dashboards/ContasReceberDashboard.jsx:326-354 | a closed axis has one column, an open one has one per bucket (one `SEM AGING` column when there are none) |
| Receivables.ColsHierLayout | src/pages/dashboards/ContasReceberDashboard.jsx:326-354 | the columns are the VENCIDO columns, then the A VENCER columns, then TOTAL |
| Receivables.BucketColValue | src/pages/dashboards/ContasReceberDashboard.jsx:356-361 | a bucket column shows the sum for that status and aging |
| Receivables.AxisColsAddUp | src/pages/dashboards/ContasReceberDashboard.jsx:326-361 | an axis's column values add up to the node's status sum, open or closed |
| Receivables.HierRowAddsUp | src/pages/dashboards/ContasReceberDashboard.jsx:326-361 | a Hierarquia row's VENCIDO cells sum to the vencido total, its A VENCER cells to the a vencer total, and its last cell is the node's total |
| Receivables.FundosBuckets | src/pages/dashboards/ContasReceberDashboard.jsx:555-560 | closed: none; open: strictly ascending, exactly the labels of the filtered rows |
| Receivables.FundosBucketsAsWritten | src/pages/dashboards/ContasReceberDashboard.jsx:954-956 | as written, the bucket cells sum to the number of buckets times the A VENCER sum |
| Receivables.FundosBucketsAddUp | src/pages/dashboards/ContasReceberDashboard.jsx:587-591 | with the aging-aware `sumByStatus`, the bucket cells add up to the A VENCER sum |
| Receivables.InadBucketsAddUp | src/pages/dashboards/ContasReceberDashboard.jsx:754-757 | the Inadimplência bucket cells add up to the A VENCER sum |
| Receivables.RowTracksAsWrittenMismatch | src/pages/dashboards/ContasReceberDashboard.jsx:597 | an open row's `colCount` is one more than both its cells and the header's labels |
| Receivables.RowTracksAlign | src/pages/dashboards/ContasReceberDashboard.jsx:657-670 | with one track per cell, rows line up with the header, open or closed |
| Receivables.ReceivablesView.FundosRowAsWritten | src/pages/dashboards/ContasReceberDashboard.jsx:593-648 | the Fundos row as the page renders it: as many cells as header labels, but one more grid track than cells when open, and every open bucket cell showing the whole A VENCER sum |
| Receivables.ReceivablesView.FundosRow | src/pages/dashboards/ContasReceberDashboard.jsx:593-648 | the corrected Fundos row: one track per cell and per header label, VENCIDO first, TOTAL last, and, open, bucket cells that add up to the A VENCER sum |
| Receivables.ReceivablesView.InadRowAsWritten | src/pages/dashboards/ContasReceberDashboard.jsx:776-843 | the Inadimplência row as the page renders it: as many cells as header labels, but one more grid track than cells when open |
| Receivables.ReceivablesView.InadRow | src/pages/dashboards/ContasReceberDashboard.jsx:776-843 | the corrected Inadimplência row: one track per cell and per header label, VENCIDO first, TOTAL last, and, open, bucket cells that add up to the A VENCER sum |
| Receivables.DayBucket | src/pages/dashboards/ContasReceberDashboard.jsx:94-100 | a finite count goes to the first of the limits 0, 7, 15, 30, 60, 90 that it does not exceed, or to the open bucket above 90 |
| Receivables.DiasBucketLabel | src/pages/dashboards/ContasReceberDashboard.jsx:91-101 | a non-finite `Number(d)` gives `(sem dias)`; a finite one gives `0` exactly when at most 0, `1-7` exactly when in (0, 7], and so on up to `90+` exactly when above 90 |
| Receivables.DiasBucketsFollowDays | src/pages/dashboards/ContasReceberDashboard.jsx:91-101 | more days never give an earlier label, and `(sem dias)` comes last |
| Receivables.IndexIn | src/pages/dashboards/ContasReceberDashboard.jsx:769-770 | `indexOf`: the position of the label, −1 exactly when absent |
| Receivables.LinesSound | src/pages/dashboards/ContasReceberDashboard.jsx:759-773 | lines in the fixed order, exactly the present keys, each with its sum, totalling the input |
| Receivables.DiasBucketsFor | src/pages/dashboards/ContasReceberDashboard.jsx:759-773 | day buckets strictly in the fixed order, exactly those present, each with its sum, adding up to the status-and-aging sum |
| Receivables.ReceivablesView.constructor | src/pages/dashboards/ContasReceberDashboard.jsx:122-142 | the initial state: everything closed, all dates, the Fundos view |
| Receivables.ReceivablesView.LoadProject | src/pages/dashboards/ContasReceberDashboard.jsx:183-192 | a load closes everything and selects all dates, keeping the view |
| Receivables.ReceivablesView.ToggleHier | src/pages/dashboards/ContasReceberDashboard.jsx:433-438 | flips one Hierarquia node key, nothing else changes |
| Receivables.ReceivablesView.ToggleFundos | src/pages/dashboards/ContasReceberDashboard.jsx:608-613 | flips one Fundos node key, nothing else changes |
| Receivables.ReceivablesView.ToggleInad | src/pages/dashboards/ContasReceberDashboard.jsx:791-796 | flips one Inadimplência node key, nothing else changes |
| Receivables.ReceivablesView.ToggleAgingDias | src/pages/dashboards/ContasReceberDashboard.jsx:305-313 | flips one days-breakdown key, nothing else changes |
| Receivables.ReceivablesView.SetHierAging | src/pages/dashboards/ContasReceberDashboard.jsx:483-528 | sets the two Hierarquia axis states, nothing else changes |
| Receivables.ReceivablesView.SetFundosAging | src/pages/dashboards/ContasReceberDashboard.jsx:685-700 | sets the Fundos axis state, nothing else changes |
| Receivables.ReceivablesView.SetInadAging | src/pages/dashboards/ContasReceberDashboard.jsx:920-935 | sets the Inadimplência axis state, nothing else changes |
| Receivables.ReceivablesView.SelectDataBase | src/pages/dashboards/ContasReceberDashboard.jsx:978 | sets the selected base date, nothing else changes |
| Receivables.ReceivablesView.SelectView | src/pages/dashboards/ContasReceberDashboard.jsx:1018-1034 | switches the view, nothing else changes |
| ReceivablesExample.FundosBucketCellCounterexample | src/pages/dashboards/ContasReceberDashboard.jsx:639 | rows of 100 in bucket "30" and 50 in "60" show [0, 150, 150, 150] as written, [0, 100, 50, 150] as intended |
| Disponibilidade.CapMonthName | src/pages/dashboards/DisponibilidadeMPDashboard.jsx:66-70 | `—` for empty text, else only the first character upper-cased |
| Disponibilidade.CapMonthNameIdempotent | src/pages/dashboards/DisponibilidadeMPDashboard.jsx:66-70 | capitalising twice equals once |
| Disponibilidade.SafeKey | src/pages/dashboards/DisponibilidadeMPDashboard.jsx:71-73 | the key has no white space and is no longer than the text |
| Disponibilidade.SafeKeyRun | src/pages/dashboards/DisponibilidadeMPDashboard.jsx:71-73 | each maximal run of white space becomes exactly one `_` and the text around it is kept |
| Disponibilidade.SafeKeyFixed | src/pages/dashboards/DisponibilidadeMPDashboard.jsx:71-73 | a text without white space is its own key |
| Disponibilidade.SafeKeyIdempotent | src/pages/dashboards/DisponibilidadeMPDashboard.jsx:71-73 | applying `safeKey` twice equals once |
| Disponibilidade.IsoYear | src/pages/dashboards/DisponibilidadeMPDashboard.jsx:74-76 | the 4-character prefix, empty for a missing date |
| Disponibilidade.IsoMonthKey | src/pages/dashboards/DisponibilidadeMPDashboard.jsx:77-79 | the 7-character prefix, empty for a missing date |
| Disponibilidade.SameMonthSameYear | src/pages/dashboards/DisponibilidadeMPDashboard.jsx:74-79 | dates of one month key have one year |
| Disponibilidade.Share | src/pages/dashboards/DisponibilidadeMPDashboard.jsx:132-145 | 0 for a zero base, else the quotient that times the base gives the numerator |
| Disponibilidade.RealMpPct | src/pages/dashboards/DisponibilidadeMPDashboard.jsx:132-145 | 0 for a zero base, else the realised MP share of the base |
| Disponibilidade.MpShareRecovered | src/pages/dashboards/DisponibilidadeMPDashboard.jsx:119-125 | the MP forecast share is recovered from the daily MP forecast total |
| Disponibilidade.SaldoFromShares | src/pages/dashboards/DisponibilidadeMPDashboard.jsx:147-150 | saldo = (realised share − forecast share) × base + reserve + previous balance |
| Disponibilidade.KpisOf | src/pages/dashboards/DisponibilidadeMPDashboard.jsx:538-548 | counts the rows, zero KPIs for none, saldo = realised − forecast |
| Disponibilidade.KpisAreNewestRow | src/pages/dashboards/DisponibilidadeMPDashboard.jsx:484-489 | over `rowsByDateAsc`, the strip counts the dated rows and shows the four figures of a dated row with the newest date; all zero without dated rows |
| Disponibilidade.NormaliseRows | src/pages/dashboards/DisponibilidadeMPDashboard.jsx:437-440 | each fetched row keeps every column and only gains its `toISO` date |
| Disponibilidade.NormalisedDate | src/pages/dashboards/DisponibilidadeMPDashboard.jsx:45-65 | a fetched ISO date text is kept as it is, and a missing or numeric `data` leaves the row undated |
| Disponibilidade.Dated | src/pages/dashboards/DisponibilidadeMPDashboard.jsx:156 | only rows with an ISO date are kept |
| Disponibilidade.DatedConcat | src/pages/dashboards/DisponibilidadeMPDashboard.jsx:156 | keeping dated rows distributes over concatenation |
| Disponibilidade.Aggregate | src/pages/dashboards/DisponibilidadeMPDashboard.jsx:155-191 | the base total is over dated rows; a zero total base gives zero percentages |
| Disponibilidade.TotalsOf | src/pages/dashboards/DisponibilidadeMPDashboard.jsx:164-190 | the aggregate percentages times the base give their numerators; saldo = realised − forecast |
| Disponibilidade.AggregateIgnoresUndated | src/pages/dashboards/DisponibilidadeMPDashboard.jsx:156 | rows without an ISO date do not affect the totals |
| Disponibilidade.AggregateSaldo | src/pages/dashboards/DisponibilidadeMPDashboard.jsx:179 | the aggregate saldo is the sum of the daily saldos |
| Disponibilidade.AggregateMpIsWeightedMean | src/pages/dashboards/DisponibilidadeMPDashboard.jsx:164-165 | the aggregate MP forecast percentage is the base-weighted mean of the daily ones |
| Disponibilidade.AggregateRealIsWeightedMean | src/pages/dashboards/DisponibilidadeMPDashboard.jsx:167-178 | with non-zero daily bases, the aggregate realised percentage is the base-weighted mean |
| Disponibilidade.AggregateOneDay | src/pages/dashboards/DisponibilidadeMPDashboard.jsx:155-191 | the aggregate of one dated day reproduces that day's figures |
| Disponibilidade.AggregateAdds | src/pages/dashboards/DisponibilidadeMPDashboard.jsx:158-162 | the sum totals of two periods add up |
| Disponibilidade.BuildGroups | src/pages/dashboards/DisponibilidadeMPDashboard.jsx:196-243 | the imperative grouping yields the month/week nesting of the dated rows |
| Disponibilidade.GroupsHoldDatedRows | src/pages/dashboards/DisponibilidadeMPDashboard.jsx:196-243 | the months hold a permutation of the dated rows |
| Disponibilidade.RowsByDateAscSound | src/pages/dashboards/DisponibilidadeMPDashboard.jsx:484-489 | a permutation of the dated rows in ascending date order |
| Disponibilidade.MonthGroupsOrdered | src/pages/dashboards/DisponibilidadeMPDashboard.jsx:552-559 | the month groups, ascending or descending by key as toggled |
| Disponibilidade.YearOptions | src/pages/dashboards/DisponibilidadeMPDashboard.jsx:492-498 | strictly ascending, exactly the non-empty years present |
| Disponibilidade.MonthOptionsForYear | src/pages/dashboards/DisponibilidadeMPDashboard.jsx:500-510 | strictly ascending, exactly the month keys of the selected year |
| Disponibilidade.WeekOptionsForYearMonth | src/pages/dashboards/DisponibilidadeMPDashboard.jsx:513-536 | empty while the month is `__ALL__`; otherwise exactly the month's weeks, distinct, in week order |
| Disponibilidade.SeriesRows | src/pages/dashboards/DisponibilidadeMPDashboard.jsx:562-578 | exactly the rows passing the year, month and week filters |
| Disponibilidade.SeriesPercent | src/pages/dashboards/DisponibilidadeMPDashboard.jsx:562-578 | one point per filtered row |
| Disponibilidade.SeriesKeepsOrder | src/pages/dashboards/DisponibilidadeMPDashboard.jsx:562-578 | the series keeps date order |
| Disponibilidade.SeriesOfMonthIsItsGroup | src/pages/dashboards/DisponibilidadeMPDashboard.jsx:562-578 | a month filter alone selects that month's group |
| Disponibilidade.TotalGeralCoversYear | src/pages/dashboards/DisponibilidadeMPDashboard.jsx:581-587 | the total row covers exactly the selected year (all rows for `__ALL__`) |
| Disponibilidade.NewestMonthKey | src/pages/dashboards/DisponibilidadeMPDashboard.jsx:451-454 | the largest month key, present exactly when there are months |
| Disponibilidade.FindMonth | src/pages/dashboards/DisponibilidadeMPDashboard.jsx:463 | the month with the key, or none when absent |
| Disponibilidade.LastTwo | src/pages/dashboards/DisponibilidadeMPDashboard.jsx:464-465 | the last two weeks (fewer when there are fewer) |
| Disponibilidade.AutoExpand | src/pages/dashboards/DisponibilidadeMPDashboard.jsx:444-472 | the months and weeks opened on load |
| Disponibilidade.AutoMonthIsNewest | src/pages/dashboards/DisponibilidadeMPDashboard.jsx:449-461 | at most one month opens, and it is the newest |
| Disponibilidade.AutoWeeksAreLastTwo | src/pages/dashboards/DisponibilidadeMPDashboard.jsx:463-470 | at most two weeks open: the newest month's last two |
| Disponibilidade.DispView.constructor | src/pages/dashboards/DisponibilidadeMPDashboard.jsx:359-374 | the initial state: no rows, nothing open, ascending months, all filters `__ALL__` |
| Disponibilidade.DispView.LoadProject | src/pages/dashboards/DisponibilidadeMPDashboard.jsx:407-481 | filters reset; a failed fetch empties rows and flags failure; a fetched set is stored and the newest month/weeks open |
| Disponibilidade.DispView.OpenNewest | src/pages/dashboards/DisponibilidadeMPDashboard.jsx:444-472 | adds the newest month and its last two weeks, nothing else changes |
| Disponibilidade.DispView.ToggleMonth | src/pages/dashboards/DisponibilidadeMPDashboard.jsx:589-596 | flips one month key, nothing else changes |
| Disponibilidade.DispView.ToggleWeek | src/pages/dashboards/DisponibilidadeMPDashboard.jsx:598-605 | flips one week key, nothing else changes |
| Disponibilidade.DispView.ToggleMonthSort | src/pages/dashboards/DisponibilidadeMPDashboard.jsx:723 | flips the month order, nothing else changes |
| Disponibilidade.DispView.PickYear | src/pages/dashboards/DisponibilidadeMPDashboard.jsx:610-614 | sets the year and resets month and week |
| Disponibilidade.DispView.PickMonth | src/pages/dashboards/DisponibilidadeMPDashboard.jsx:615-618 | sets the month, resets the week, keeps the year |
| Disponibilidade.DispView.PickWeek | src/pages/dashboards/DisponibilidadeMPDashboard.jsx:619-621 | sets the week, keeps year and month |
| Faturamento.NoSpaces | src/pages/dashboards/FaturamentoDashboard.jsx:79 | the result has no white space and is empty exactly when the text is blank |
| Faturamento.NoSpacesChar | src/pages/dashboards/FaturamentoDashboard.jsx:79 | a white-space character is dropped and any other character kept |
| Faturamento.NoSpacesConcat | src/pages/dashboards/FaturamentoDashboard.jsx:79 | removing white space distributes over concatenation, so with `NoSpacesChar` every non-space character is kept in order |
| Faturamento.Without | src/pages/dashboards/FaturamentoDashboard.jsx:80 | the text without any `.` |
| Faturamento.ReplaceFirst | src/pages/dashboards/FaturamentoDashboard.jsx:80 | only the first `,` becomes `.`; unchanged when there is none |
| Faturamento.ReadNumber | src/pages/dashboards/FaturamentoDashboard.jsx:72-86 | `null`/`undefined` and blank text read 0; a finite number reads as itself, a non-finite number as 0 |
| Faturamento.ReadsBrazilianAmount | src/pages/dashboards/FaturamentoDashboard.jsx:79-82 | `a.b,f` reads as the integer `ab` plus the fraction `0.f` |
| Faturamento.DropsDecimalPoint | src/pages/dashboards/FaturamentoDashboard.jsx:80-82 | `w.f` reads as the integer `wf`: the point is dropped |
| Faturamento.ReadNumberExamples | src/pages/dashboards/FaturamentoDashboard.jsx:66-86 | `"1.234,56"` reads 1234.56 and `"1234.56"` reads 123456 |
| Faturamento.SafeStr | src/pages/dashboards/FaturamentoDashboard.jsx:88-90 | trimmed text, empty exactly for blank or missing input |
| Faturamento.FirstWord | src/pages/dashboards/FaturamentoDashboard.jsx:131 | the prefix up to the first space |
| Faturamento.InferGroup | src/pages/dashboards/FaturamentoDashboard.jsx:128-133 | `Sem grupo` exactly for blank input, else the upper-cased first word |
| Faturamento.RegionName | src/pages/dashboards/FaturamentoDashboard.jsx:136-169 | each region shows as one of the five region names |
| Faturamento.RegionFromUF | src/pages/dashboards/FaturamentoDashboard.jsx:171-175 | `—` exactly for blank input, `Outros` exactly for an unknown state, else a region name |
| Faturamento.UfCodeShape | src/pages/dashboards/FaturamentoDashboard.jsx:136-169 | every table code is two upper-case letters |
| Faturamento.RegionIgnoresCaseAndSpaces | src/pages/dashboards/FaturamentoDashboard.jsx:171-175 | a state code in any case, surrounded by spaces, maps to its region |
| Faturamento.KeyOrder | src/pages/dashboards/FaturamentoDashboard.jsx:101-114 | the `Map`'s keys: distinct, exactly the keys present |
| Faturamento.Agg | src/pages/dashboards/FaturamentoDashboard.jsx:101-114 | one accumulator per key present |
| Faturamento.GroupAgg | src/pages/dashboards/FaturamentoDashboard.jsx:101-114 | the accumulation loop yields exactly the keyed sums in first-appearance order |
| Faturamento.AggSums | src/pages/dashboards/FaturamentoDashboard.jsx:101-114 | each key's accumulator holds its items' summed amount and quantity |
| Faturamento.GroupAggTotals | src/pages/dashboards/FaturamentoDashboard.jsx:101-114 | the accumulators add up to the overall amount and quantity |
| Faturamento.Entries | src/pages/dashboards/FaturamentoDashboard.jsx:117-122 | one entry per key in map order, with its totals |
| Faturamento.TopN | src/pages/dashboards/FaturamentoDashboard.jsx:116-125 | min(n, keys) entries, by non-increasing total, drawn from the map |
| Faturamento.TopNKeepsLargest | src/pages/dashboards/FaturamentoDashboard.jsx:116-125 | no entry left out has a larger total than one kept |
| Faturamento.Get | src/pages/dashboards/FaturamentoDashboard.jsx:185-186 | a column the row does not have reads `undefined`, one it has reads its value |
| Faturamento.QtyLike | src/pages/dashboards/FaturamentoDashboard.jsx:191-192 | exactly the keys matching `qtd\|qtde\|quant\|quantidade`, case-insensitively |
| Faturamento.FirstNonZero | src/pages/dashboards/FaturamentoDashboard.jsx:183-197 | the first nonzero value, 0 exactly when all are zero |
| Faturamento.CandidateWins | src/pages/dashboards/FaturamentoDashboard.jsx:183-189 | the first present candidate that reads nonzero is the quantity |
| Faturamento.FallbackWins | src/pages/dashboards/FaturamentoDashboard.jsx:191-196 | with no candidate hit, the first matching key that reads nonzero is the quantity |
| Faturamento.NothingWins | src/pages/dashboards/FaturamentoDashboard.jsx:198 | with no hit anywhere the quantity is 0 |
| Faturamento.ScanQty | src/pages/dashboards/FaturamentoDashboard.jsx:183-198 | the two loops with early return compute the specified quantity |
| Faturamento.QtyFromRowAuto | src/pages/dashboards/FaturamentoDashboard.jsx:180-198 | 0 for a missing row, else the scan over `QTY_CANDIDATES` then the matching keys |
| Faturamento.AvailableYears | src/pages/dashboards/FaturamentoDashboard.jsx:406-413 | the consecutive years from the last date's year down to the first date's, none when there is no date or when the first or last date is invalid |
| Faturamento.StampsBound | src/pages/dashboards/FaturamentoDashboard.jsx:554-563 | there are never more distinct months than dated rows |
| Faturamento.MonthsCount | src/pages/dashboards/FaturamentoDashboard.jsx:554-563 | the number of distinct months, at least 1 and at most the dated rows |
| Faturamento.MonthSlots | src/pages/dashboards/FaturamentoDashboard.jsx:486-496 | the month indices 0..n−1 |
| Faturamento.AllSlots | src/pages/dashboards/FaturamentoDashboard.jsx:475-496 | the twelve months plus the invalid-date keys cover every row |
| Faturamento.EvolutionMes | src/pages/dashboards/FaturamentoDashboard.jsx:475-497 | always 12 points, each its month's sums (0 when empty), totalling the dated rows |
| Faturamento.ToggleSort | src/pages/dashboards/FaturamentoDashboard.jsx:1187-1194 | a new key sorts descending; the same key flips the direction |
| Faturamento.ToggleTwice | src/pages/dashboards/FaturamentoDashboard.jsx:1187-1194 | toggling the current key twice restores the state |
| Faturamento.Divisor | src/pages/dashboards/FaturamentoDashboard.jsx:1173 | the month count, never below 1 |
| Faturamento.MiniRowOf | src/pages/dashboards/FaturamentoDashboard.jsx:1164-1176 | the monthly average times the divisor is the total; price per unit times quantity is the total (0 without quantity) |
| Faturamento.TableRowsSorted | src/pages/dashboards/FaturamentoDashboard.jsx:1164-1185 | the table rows are a permutation of the entries, ordered by the key in the chosen direction |
| Projects.FormatPhone | src/pages/ProjectsStatusPage.jsx:57-74 | `—` for a falsy phone; any digit count other than 10 or 11 returns the input |
| Projects.DigitsOfMobile | src/pages/ProjectsStatusPage.jsx:61-66 | the 11-digit layout keeps the digits in order |
| Projects.DigitsOfLandline | src/pages/ProjectsStatusPage.jsx:68-71 | the 10-digit layout keeps the digits in order |
| Projects.MobileMask | src/pages/ProjectsStatusPage.jsx:61-66 | 11 digits fill `(##) # ####-####` |
| Projects.LandlineMask | src/pages/ProjectsStatusPage.jsx:68-71 | 10 digits fill `(##) ####-####` |
| Projects.FormatPhoneLayout | src/pages/ProjectsStatusPage.jsx:57-74 | 11 or 10 digits give their masks with the input's digits |
| Projects.FormatPhoneIdempotent | src/pages/ProjectsStatusPage.jsx:57-74 | formatting a formatted phone changes nothing |
| Projects.StatusConfigOf | src/pages/ProjectsStatusPage.jsx:10-55 | `Sem status` for a missing status, else the status text; the tone is chosen by the first of these substrings of the lower-cased status: "andamento", then "análise" or "analise", then "susp" or "hold", else the default |
| Projects.FilterProjects | src/pages/ProjectsStatusPage.jsx:343-359 | an order-preserving subsequence holding exactly the matching projects |
| Projects.FilterKeepsAll | src/pages/ProjectsStatusPage.jsx:343-359 | an empty search with `todos` keeps every project |
| Projects.FilterIdempotent | src/pages/ProjectsStatusPage.jsx:343-359 | filtering twice equals once |
| Projects.TrimOrNull | src/pages/ProjectsStatusPage.jsx:254-261 | `null` exactly for blank text, else the trimmed text |
| Projects.Submit | src/pages/ProjectsStatusPage.jsx:247-262 | nothing without a user or with a blank `empresa`; otherwise the trimmed title, the status as chosen (`null` if empty), and each other optional field trimmed or `null` |
| Projects.CleanRoundTrip | src/pages/ProjectsStatusPage.jsx:228-261 | a stored trimmed-or-null value survives the edit form unchanged |
| Projects.EditRoundTrip | src/pages/ProjectsStatusPage.jsx:228-261 | for a project whose stored fields are trimmed (title present), opening it for edit and submitting sends its fields back, except that a missing status is sent as `Em Andamento` and a missing product as the description |
| Projects.ReplaceById | src/pages/ProjectsStatusPage.jsx:288-290 | same length; exactly the entries with the saved id are replaced |
| Projects.ReplaceByIdIdempotent | src/pages/ProjectsStatusPage.jsx:288-290 | replacing twice equals once |
| Projects.ReplaceByIdKeepsIds | src/pages/ProjectsStatusPage.jsx:288-290 | every id stays in place |
| Projects.Prepend | src/pages/ProjectsStatusPage.jsx:317 | the new project first, then the old list |
| Projects.InsertedShowsFirst | src/pages/ProjectsStatusPage.jsx:317 | a new project that passes the filter is shown first |

## Left out

**Services and rendering**

- Supabase access, authentication, logging (`registerProjectLog`), loading and error flags, the projects modal, and page rendering are not modelled. Fetched rows are parameters.
- The `alive` guards against stale responses are not modelled, because they are asynchronous cancellation.
- The daily-difference SVG chart (`DiffFillHatched`) and chart geometry are not modelled.
- Month titles and other display labels, `brl`/percent formatting and `date-fns` `parseISO`/`format` are not modelled.
- Disponibilidade.MonthOf: calendar validity is not checked. A date such as `2024-02-30` passes the `yyyy-mm-dd` test of `toISO` (DisponibilidadeMPDashboard.jsx line 50) and is filed under its first seven characters. On the page, `format(parseISO(...))` (lines 202-203) throws a RangeError for it. During the load that error is caught (line 475): the error text is set and nothing is opened. The month table (lines 552-559) and the chart labels (lines 570-573) fail to render.
- Disponibilidade.BuildGroups: on a date that is not a calendar date, it groups the row by its text (see `Disponibilidade.MonthOf`), where the page throws.
- Disponibilidade.AutoExpand: on a date that is not a calendar date, it opens the newest month and weeks, where the page opens nothing (see `Disponibilidade.MonthOf`).
- Disponibilidade.DispView.LoadProject: on a date that is not a calendar date, it stores the rows and opens the newest month and weeks. The page stores the rows too (line 443), but then sets its error text (line 477) and opens nothing (see `Disponibilidade.MonthOf`).
- Style objects are reduced to a tone (`Projects.StatusConfigOf`).

**Host behaviour replaced by parameters or simpler orders**

- The `new Date(s)` fallback of `toISO` is a host date-parser parameter. Only its result is used.
- pt-BR `localeCompare` is replaced by code-point order on strings.
- Case mapping covers ASCII and Latin-1 letters only. White space is JavaScript's `trim` set.
- `Number(...)` on text is modelled for decimal text with an optional sign and for `Infinity`. Exponent and hexadecimal forms read as `NaN`.
- Faturamento.ReadNumber: the text `Infinity`, `+Infinity` or `-Infinity` reads 0, where `num` returns ±Infinity. Amounts are reals here, and the sums built on them have no infinite value.
- Receivables.DiasBucketLabel: `Number(dias)` on text with an exponent or in hexadecimal falls in `(sem dias)`, unlike the page.
- Ledger amounts are integers and the Disponibilidade/Faturamento figures are reals. IEEE rounding is not modelled.
- `Object.keys` ordering of integer-like keys is not modelled. A row's columns keep the order they are given in.

**Values in place of mutation**

- Maps, sets and arrays that the source mutates in place are modelled as values; the loops build them step by step. In-place `sort` is a stable insertion sort on a sequence, so aliasing is not captured.
- Disponibilidade.RowsByDateAsc: the page's comparator never returns 0, so the order of rows with the same date is left to the JavaScript engine. The model keeps such rows in input order. With duplicate dates, the row behind the KPI strip and the order of rows inside a week may differ from the page's.
- Disponibilidade week order: the page's comparator mixes numeric and text comparison. It is proved ordered only when all of a month's labels are numeric, or all are text (`Nesting.WeeksAscendNumerically`, `Nesting.WeeksAscendAsText`). On mixed labels that comparator is not a total order.

**Weaker contracts**

- Disponibilidade.Aggregate: its own contract states only the base total and the zero-base case. The share identities are on `Disponibilidade.TotalsOf` and the weighted-mean lemmas.
- Payables.AxisCells: states the cell count. The cell values are stated by `Payables.AxisCellsAddUp` and `Payables.LookupBucket`.
- Receivables.ReceivablesView.ToggleHier, ToggleFundos, ToggleInad: require a path of one up to the number of tree levels, because only such paths name a node.

**Faturamento and Disponibilidade parts not modelled**

- Faturamento: the "ano" and "semana" branches of the evolution chart are not modelled.
- Faturamento: the year/month filters of the view (`filteredRows`, `onPickYear`, `onPickMonth`) and the `kpis` block are not modelled. They are one-line filters and sums over the same rows.
- Faturamento.MonthsCount: a month is keyed by its (year, month) pair, not the page's `year-month` text. The two identify the same months. Which rows are counted (all rows or the filtered ones, by view) is the caller's choice.

## Findings

| source | as written | input that shows it | evidently intended | confidence | as-written member | corrected member |
|---|---|---|---|---|---|---|
| src/pages/dashboards/ContasReceberDashboard.jsx:954-956 | `sumByStatus` is declared twice in one component; the later, two-argument declaration wins, so the Fundos bucket cell `sumByStatus(node.rows, STATUS_A_VENCER, a)` at line 639 ignores the bucket and shows the whole A VENCER sum | two A VENCER rows, 100 with aging "30" and 50 with aging "60", with the Fundos aging axis open | each bucket cell shows the A VENCER sum for its own aging (100 and 50), so the bucket cells add up to the A VENCER sum | not executed | ReceivablesExample.FundosBucketCellCounterexample | Receivables.FundosBucketsAddUp |
| src/pages/dashboards/ContasReceberDashboard.jsx:597 | an open Fundos/Inadimplência row uses `1 + buckets + 2` grid tracks (also at line 780) while it renders VENCIDO, one cell per bucket and TOTAL, and the header has the same `buckets + 2` labels | any open axis, for example one bucket: 4 tracks for 3 cells | one track per rendered cell (`buckets + 2`) so the row lines up with the header | not executed | Receivables.RowTracksAsWrittenMismatch | Receivables.RowTracksAlign |

=== FILE: disponibilidade.dfy ===
/**
 * The Disponibilidade × Matéria-Prima page: daily rows of available funds
 * and raw-material (MP) spending, the daily derived quantities, the
 * totaliser over a week, month or year, the month → week grouping of the
 * table, the Ano / Mês / Semana filter lists and the page state.
 *
 * Values are real numbers: `num(v)` is `Number(v)` when finite and 0
 * otherwise (JsNumbers.NumOrZero).
 */
module Disponibilidade {
  import opened Wrappers
  import opened Text
  import opened Sorting
  import opened Grouping
  import opened JsNumbers
  import opened IsoDates
  import opened Toggles
  import opened Nesting

  /** The value of every "(Todos)" option. */
  const All: string := "__ALL__"

  /**
   * One row of `disp_mp_v1`. `semana` is the week as text (`String(semana)`,
   * absent for null); `dataIso` is `toISO(data)`, as `NormaliseRows` computes it.
   */
  datatype DayRow = DayRow(
    saldoAnterior: Cell, disponibilidade: Cell, mpPrevistaPercent: Cell,
    captacaoFomento: Cell, reservaMp: Cell, realizadoMp: Cell, amortizacaoFom: Cell,
    semana: Option<string>, dataIso: Option<string>)

  /**
   * `(data || []).map((r) => ({ ...r, __data_iso: toISO(r.data) }))`: each
   * fetched row, paired with its raw `data`, keeps its columns and gets the
   * normalised date.
   */
  function NormaliseRows(fetched: seq<(DayRow, RawDate)>, hostParse: HostDateParser): (r: seq<DayRow>)
    ensures |r| == |fetched|
    ensures forall i :: 0 <= i < |r| ==> r[i].(dataIso := fetched[i].0.dataIso) == fetched[i].0
  {
    seq(|fetched|, i requires 0 <= i < |fetched| => fetched[i].0.(dataIso := ToIsoNoBr(fetched[i].1, hostParse)))
  }

  /** An ISO date text is kept as it is; a missing or numeric `data` leaves the row undated. */
  lemma NormalisedDate(fetched: seq<(DayRow, RawDate)>, hostParse: HostDateParser, i: int)
    requires 0 <= i < |fetched|
    ensures var d := fetched[i].1;
      && (d.DateText? && IsIsoShape(d.s) ==> NormaliseRows(fetched, hostParse)[i].dataIso == Some(d.s))
      && (d.Missing? || d.Numeric? ==> !IsDated(NormaliseRows(fetched, hostParse)[i]))
  {
    var d := fetched[i].1;
    if d.DateText? && IsIsoShape(d.s) {
      ToIsoKeepsIso(d.s, hostParse);
    }
  }

  // ---------------------------------------------------------------------------
  // Text helpers
  // ---------------------------------------------------------------------------

  /** `capMonthName(s)`: the first character upper-cased, "—" for an empty name. */
  function CapMonthName(s: string): (r: string)
    ensures s == "" ==> r == "—"
    ensures s != "" ==> |r| == |s| && r[1..] == s[1..] && r[0] == UpperChar(s[0])
  {
    if s == "" then "—" else [UpperChar(s[0])] + s[1..]
  }

  /** Capitalising a capitalised name changes nothing. */
  lemma CapMonthNameIdempotent(s: string)
    requires s != ""
    ensures CapMonthName(CapMonthName(s)) == CapMonthName(s)
  {
    UpperCharIdempotent(s[0]);
    var r := CapMonthName(s);
    assert CapMonthName(r) == [UpperChar(r[0])] + r[1..];
    assert r == [r[0]] + r[1..];
  }

  /** The rest of `s` after its leading white space. */
  function DropSpaces(s: string): (r: string)
    ensures |r| <= |s|
    ensures r == [] || !IsSpace(r[0])
  {
    if |s| > 0 && IsSpace(s[0]) then DropSpaces(s[1..]) else s
  }

  /** `safeKey(s)`: every run of white space replaced by one `_`. */
  function SafeKey(s: string): (r: string)
    ensures NoSpace(r)
    ensures |r| <= |s|
    decreases |s|
  {
    if |s| == 0 then ""
    else if IsSpace(s[0]) then "_" + SafeKey(DropSpaces(s[1..]))
    else [s[0]] + SafeKey(s[1..])
  }

  /** A key without white space is its own safe key; in particular `safeKey` is idempotent. */
  lemma {:induction false} SafeKeyFixed(s: string)
    requires NoSpace(s)
    ensures SafeKey(s) == s
  {
    if |s| > 0 {
      SafeKeyFixed(s[1..]);
    }
  }

  /**
   * A run of white space becomes exactly one `_`, wherever it stands: with
   * `SafeKeyFixed` this fixes the key of every text, run by run.
   */
  lemma {:induction false} SafeKeyRun(a: string, w: string, b: string)
    requires NoSpace(a)
    requires |w| > 0 && forall i :: 0 <= i < |w| ==> IsSpace(w[i])
    requires b == [] || !IsSpace(b[0])
    ensures SafeKey(a + w + b) == a + "_" + SafeKey(b)
  {
    if |a| == 0 {
      assert a + w + b == w + b;
      assert (w + b)[0] == w[0] && (w + b)[1..] == w[1..] + b;
      DropSpacesRun(w[1..], b);
    } else {
      assert (a + w + b)[0] == a[0] && (a + w + b)[1..] == a[1..] + w + b;
      SafeKeyRun(a[1..], w, b);
      assert a == [a[0]] + a[1..];
    }
  }

  lemma {:induction false} DropSpacesRun(w: string, b: string)
    requires forall i :: 0 <= i < |w| ==> IsSpace(w[i])
    requires b == [] || !IsSpace(b[0])
    ensures DropSpaces(w + b) == b
  {
    if |w| == 0 {
      assert w + b == b;
    } else {
      assert (w + b)[1..] == w[1..] + b;
      DropSpacesRun(w[1..], b);
    }
  }

  lemma SafeKeyIdempotent(s: string)
    ensures SafeKey(SafeKey(s)) == SafeKey(s)
  {
    SafeKeyFixed(SafeKey(s));
  }

  /** `isoYear(iso)`: the first four characters, "" for a missing date. */
  function IsoYear(iso: Option<string>): (r: string)
    ensures !Truthy(iso) ==> r == ""
    ensures Truthy(iso) ==> IsPrefix(r, iso.value) && |r| == if |iso.value| < 4 then |iso.value| else 4
  {
    if !Truthy(iso) then "" else if |iso.value| < 4 then iso.value else iso.value[..4]
  }

  /** `isoMonthKey(iso)`: the first seven characters (`yyyy-MM`), "" for a missing date. */
  function IsoMonthKey(iso: Option<string>): (r: string)
    ensures !Truthy(iso) ==> r == ""
    ensures Truthy(iso) ==> IsPrefix(r, iso.value) && |r| == if |iso.value| < 7 then |iso.value| else 7
  {
    if !Truthy(iso) then "" else if |iso.value| < 7 then iso.value else iso.value[..7]
  }

  /** Two dates in the same month key are in the same year. */
  lemma SameMonthSameYear(a: Option<string>, b: Option<string>)
    requires IsoMonthKey(a) == IsoMonthKey(b)
    ensures IsoYear(a) == IsoYear(b)
  {
    if Truthy(a) && Truthy(b) {
      var ka, kb := IsoMonthKey(a), IsoMonthKey(b);
      if |ka| >= 4 {
        assert IsoYear(a) == ka[..4];
        assert IsoYear(b) == kb[..4];
      }
    }
  }

  // ---------------------------------------------------------------------------
  // Daily quantities
  // ---------------------------------------------------------------------------

  /** `calcDisponibilidadeBase`: disponibilidade plus the previous balance. */
  function DispBase(r: DayRow): real {
    NumOrZero(r.disponibilidade) + NumOrZero(r.saldoAnterior)
  }

  /** `calcMpPrevTotDia`: the MP share of the base plus the fomento raised. */
  function MpPrevTot(r: DayRow): real {
    NumOrZero(r.mpPrevistaPercent) * DispBase(r) + NumOrZero(r.captacaoFomento)
  }

  /** `calcRealizTotDia`: MP realised plus fomento amortised. */
  function RealizTot(r: DayRow): real {
    NumOrZero(r.realizadoMp) + NumOrZero(r.amortizacaoFom)
  }

  /** The numerator of the realised MP share. */
  function RealNumer(r: DayRow): real {
    NumOrZero(r.realizadoMp) + NumOrZero(r.amortizacaoFom) - NumOrZero(r.captacaoFomento)
    - NumOrZero(r.reservaMp) - NumOrZero(r.saldoAnterior)
  }

  /** A quotient that is 0 when the divisor is 0, as both shares are computed. */
  function Share(n: real, d: real): (q: real)
    ensures d == 0.0 ==> q == 0.0
    ensures d != 0.0 ==> q * d == n
  {
    if d == 0.0 then 0.0 else QuotientTimes(n, d); n / d
  }

  lemma QuotientTimes(n: real, d: real)
    requires d != 0.0
    ensures (n / d) * d == n
  {
  }

  /** `calcRealMpPctDia`: the realised MP share of the base, 0 when the base is 0. */
  function RealMpPct(r: DayRow): (p: real)
    ensures DispBase(r) == 0.0 ==> p == 0.0
    ensures DispBase(r) != 0.0 ==> p * DispBase(r) == RealNumer(r)
  {
    Share(RealNumer(r), DispBase(r))
  }

  /** `calcSaldoDia`: realised total minus the planned MP total. */
  function SaldoDia(r: DayRow): real {
    RealizTot(r) - MpPrevTot(r)
  }

  /** The planned MP share is recovered from the planned total, as the totaliser assumes. */
  lemma MpShareRecovered(r: DayRow)
    requires DispBase(r) != 0.0
    ensures (MpPrevTot(r) - NumOrZero(r.captacaoFomento)) / DispBase(r) == NumOrZero(r.mpPrevistaPercent)
  {
    var m, b := NumOrZero(r.mpPrevistaPercent), DispBase(r);
    assert MpPrevTot(r) - NumOrZero(r.captacaoFomento) == m * b;
    ProductQuotient(m, b);
  }

  lemma ProductQuotient(m: real, b: real)
    requires b != 0.0
    ensures (m * b) / b == m
  {
  }

  /**
   * The day's balance is the gap between the realised and the planned MP
   * share of the base, plus the reserve and the previous balance.
   */
  lemma SaldoFromShares(r: DayRow)
    requires DispBase(r) != 0.0
    ensures SaldoDia(r) == (RealMpPct(r) - NumOrZero(r.mpPrevistaPercent)) * DispBase(r)
                           + NumOrZero(r.reservaMp) + NumOrZero(r.saldoAnterior)
  {
    SaldoAlgebra(RealMpPct(r), NumOrZero(r.mpPrevistaPercent), DispBase(r), RealNumer(r), RealizTot(r), MpPrevTot(r),
                 NumOrZero(r.captacaoFomento), NumOrZero(r.reservaMp), NumOrZero(r.saldoAnterior));
  }

  /** The arithmetic behind `SaldoFromShares`, over plain numbers. */
  lemma SaldoAlgebra(p: real, m: real, b: real, numer: real, realiz: real, mpPrev: real, cf: real, rs: real, sa: real)
    requires p * b == numer
    requires realiz == numer + cf + rs + sa
    requires mpPrev == m * b + cf
    ensures realiz - mpPrev == (p - m) * b + rs + sa
  {
    assert (p - m) * b == p * b - m * b;
  }

  /** The KPI strip: the number of dated rows and the last row's quantities (0 without rows). */
  datatype Kpis = Kpis(linhas: nat, disponibilidadeBase: real, mpPrevTot: real, realizTot: real, saldo: real)

  function KpisOf(byDate: seq<DayRow>): (k: Kpis)
    ensures k.linhas == |byDate|
    ensures |byDate| == 0 ==> k == Kpis(0, 0.0, 0.0, 0.0, 0.0)
    ensures |byDate| > 0 ==> k.saldo == k.realizTot - k.mpPrevTot
  {
    if |byDate| == 0 then Kpis(0, 0.0, 0.0, 0.0, 0.0)
    else
      var last := byDate[|byDate| - 1];
      Kpis(|byDate|, DispBase(last), MpPrevTot(last), RealizTot(last), SaldoDia(last))
  }

  /**
   * The KPI strip over `rowsByDateAsc` counts the dated rows and shows the
   * figures of a row with the newest date (the last row of the dataset);
   * without dated rows every figure is 0.
   */
  lemma KpisAreNewestRow(rows: seq<DayRow>)
    ensures KpisOf(RowsByDateAsc(rows)).linhas == |Dated(rows)|
    ensures Dated(rows) == [] ==> KpisOf(RowsByDateAsc(rows)) == Kpis(0, 0.0, 0.0, 0.0, 0.0)
    ensures Dated(rows) != [] ==>
      exists x :: (
        && x in rows && IsDated(x)
        && (forall y :: y in rows && IsDated(y) ==> LexLe(IsoOf(y), IsoOf(x)))
        && KpisOf(RowsByDateAsc(rows)) == Kpis(|Dated(rows)|, DispBase(x), MpPrevTot(x), RealizTot(x), SaldoDia(x)))
  {
    var r := RowsByDateAsc(rows);
    RowsByDateAscSound(rows);
    assert |r| == |multiset(r)| == |multiset(Dated(rows))| == |Dated(rows)|;
    if |r| > 0 {
      var x := r[|r| - 1];
      assert x in r;
      forall y | y in rows && IsDated(y) ensures LexLe(IsoOf(y), IsoOf(x)) {
        assert y in r;
        var i :| 0 <= i < |r| && r[i] == y;
        if i == |r| - 1 {
          LexLeTotal(IsoOf(x), IsoOf(x));
        }
      }
    }
  }

  // ---------------------------------------------------------------------------
  // The totaliser (`aggregateTotals`)
  // ---------------------------------------------------------------------------

  /** `rows.reduce((acc, r) => acc + f(r), 0)`. */
  function SumR(s: seq<DayRow>, f: DayRow -> real): real {
    if |s| == 0 then 0.0 else f(s[0]) + SumR(s[1..], f)
  }

  lemma {:induction false} SumRConcat(a: seq<DayRow>, b: seq<DayRow>, f: DayRow -> real)
    ensures SumR(a + b, f) == SumR(a, f) + SumR(b, f)
  {
    if |a| == 0 {
      assert a + b == b;
    } else {
      assert (a + b)[1..] == a[1..] + b;
      SumRConcat(a[1..], b, f);
    }
  }

  predicate IsDated(r: DayRow) {
    Truthy(r.dataIso)
  }

  /** `rows.filter(r => r && r.__data_iso)`. */
  function Dated(rows: seq<DayRow>): (r: seq<DayRow>)
    ensures |r| <= |rows|
    ensures forall i :: 0 <= i < |r| ==> IsDated(r[i])
  {
    if |rows| == 0 then []
    else (if IsDated(rows[0]) then [rows[0]] else []) + Dated(rows[1..])
  }

  lemma {:induction false} DatedMembers(rows: seq<DayRow>)
    ensures forall x :: x in Dated(rows) <==> x in rows && IsDated(x)
  {
    if |rows| > 0 {
      DatedMembers(rows[1..]);
      assert rows == [rows[0]] + rows[1..];
    }
  }

  lemma {:induction false} DatedIdempotent(rows: seq<DayRow>)
    ensures Dated(Dated(rows)) == Dated(rows)
  {
    if |rows| > 0 {
      DatedIdempotent(rows[1..]);
      DatedConcat(if IsDated(rows[0]) then [rows[0]] else [], Dated(rows[1..]));
      if IsDated(rows[0]) {
        assert Dated([rows[0]]) == [rows[0]];
      }
    }
  }

  lemma {:induction false} DatedConcat(a: seq<DayRow>, b: seq<DayRow>)
    ensures Dated(a + b) == Dated(a) + Dated(b)
  {
    if |a| == 0 {
      assert a + b == b;
    } else {
      assert (a + b)[1..] == a[1..] + b;
      DatedConcat(a[1..], b);
    }
  }

  /** The totaliser's result. */
  datatype Totals = Totals(
    totDispBase: real, totCapt: real, totMpPrevTot: real, totAmort: real, totRealiz: real,
    mpPrevPctAgg: real, realMpPctAgg: real, saldoAgg: real)

  function Capt(r: DayRow): real {
    NumOrZero(r.captacaoFomento)
  }

  function Amort(r: DayRow): real {
    NumOrZero(r.amortizacaoFom)
  }

  /**
   * `aggregateTotals(periodRows)`: sums over the dated rows; the two shares
   * are totals divided by the total base, 0 when that base is 0.
   */
  function Aggregate(periodRows: seq<DayRow>): (t: Totals)
    ensures t.totDispBase == SumR(Dated(periodRows), DispBase)
    ensures t.totDispBase == 0.0 ==> t.mpPrevPctAgg == 0.0 && t.realMpPctAgg == 0.0
  {
    var rows := Dated(periodRows);
    TotalsOf(SumR(rows, DispBase), SumR(rows, Capt), SumR(rows, MpPrevTot), SumR(rows, Amort),
             SumR(rows, RealizTot), SumR(rows, RealNumer))
  }

  /** The period record built from its six sums: both shares divide by the base. */
  function TotalsOf(base: real, capt: real, mpPrev: real, amort: real, realiz: real, realNumer: real): (t: Totals)
    ensures t.totDispBase == base && t.totCapt == capt && t.totMpPrevTot == mpPrev
    ensures t.totAmort == amort && t.totRealiz == realiz && t.saldoAgg == realiz - mpPrev
    ensures base == 0.0 ==> t.mpPrevPctAgg == 0.0 && t.realMpPctAgg == 0.0
    ensures base != 0.0 ==> t.mpPrevPctAgg * base == mpPrev - capt && t.realMpPctAgg * base == realNumer
  {
    Totals(base, capt, mpPrev, amort, realiz, Share(mpPrev - capt, base), Share(realNumer, base), realiz - mpPrev)
  }

  /** Rows without a date contribute nothing. */
  lemma AggregateIgnoresUndated(rows: seq<DayRow>)
    ensures Aggregate(rows) == Aggregate(Dated(rows))
  {
    DatedIdempotent(rows);
  }

  lemma {:induction false} SaldoSum(s: seq<DayRow>)
    ensures SumR(s, SaldoDia) == SumR(s, RealizTot) - SumR(s, MpPrevTot)
  {
    if |s| > 0 {
      SaldoSum(s[1..]);
    }
  }

  /** The period balance is the sum of the daily balances of its dated rows. */
  lemma AggregateSaldo(rows: seq<DayRow>)
    ensures Aggregate(rows).saldoAgg == SumR(Dated(rows), SaldoDia)
  {
    SaldoSum(Dated(rows));
  }

  function WeightedMp(r: DayRow): real {
    NumOrZero(r.mpPrevistaPercent) * DispBase(r)
  }

  lemma {:induction false} MpPrevSum(s: seq<DayRow>)
    ensures SumR(s, MpPrevTot) - SumR(s, Capt) == SumR(s, WeightedMp)
  {
    if |s| > 0 {
      MpPrevSum(s[1..]);
    }
  }

  /** The period's planned MP share is the base-weighted mean of the daily shares. */
  lemma AggregateMpIsWeightedMean(rows: seq<DayRow>)
    ensures Aggregate(rows).totDispBase != 0.0 ==>
      Aggregate(rows).mpPrevPctAgg == SumR(Dated(rows), WeightedMp) / Aggregate(rows).totDispBase
  {
    MpPrevSum(Dated(rows));
  }

  function WeightedReal(r: DayRow): real {
    RealMpPct(r) * DispBase(r)
  }

  lemma {:induction false} RealNumerSum(s: seq<DayRow>)
    requires forall i :: 0 <= i < |s| ==> DispBase(s[i]) != 0.0
    ensures SumR(s, RealNumer) == SumR(s, WeightedReal)
  {
    if |s| > 0 {
      RealNumerSum(s[1..]);
    }
  }

  /**
   * When no dated row has a zero base, the period's realised MP share is the
   * base-weighted mean of the daily realised shares.
   */
  lemma AggregateRealIsWeightedMean(rows: seq<DayRow>)
    requires forall i :: 0 <= i < |Dated(rows)| ==> DispBase(Dated(rows)[i]) != 0.0
    ensures Aggregate(rows).totDispBase != 0.0 ==>
      Aggregate(rows).realMpPctAgg == SumR(Dated(rows), WeightedReal) / Aggregate(rows).totDispBase
  {
    RealNumerSum(Dated(rows));
  }

  /** Over one dated day the totaliser gives back that day's quantities. */
  lemma AggregateOneDay(r: DayRow)
    requires IsDated(r)
    ensures var t := Aggregate([r]);
      && t.totDispBase == DispBase(r)
      && t.realMpPctAgg == RealMpPct(r)
      && t.saldoAgg == SaldoDia(r)
      && (DispBase(r) != 0.0 ==> t.mpPrevPctAgg == NumOrZero(r.mpPrevistaPercent))
  {
    assert Dated([r]) == [r];
    assert [r][1..] == [];
    assert SumR([r], RealNumer) == RealNumer(r);
    assert SumR([r], DispBase) == DispBase(r);
    assert SumR([r], RealizTot) == RealizTot(r);
    assert SumR([r], MpPrevTot) == MpPrevTot(r);
    assert SumR([r], Capt) == Capt(r);
    var t, b := Aggregate([r]), DispBase(r);
    if b != 0.0 {
      assert t.realMpPctAgg == RealNumer(r) / b;
      assert RealMpPct(r) == RealNumer(r) / b;
      assert t.mpPrevPctAgg == (MpPrevTot(r) - Capt(r)) / b;
      MpShareRecovered(r);
    }
  }

  /** The totals of two periods add up (all but the shares, which are ratios). */
  lemma AggregateAdds(a: seq<DayRow>, b: seq<DayRow>)
    ensures var ta, tb, t := Aggregate(a), Aggregate(b), Aggregate(a + b);
      && t.totDispBase == ta.totDispBase + tb.totDispBase
      && t.totCapt == ta.totCapt + tb.totCapt
      && t.totMpPrevTot == ta.totMpPrevTot + tb.totMpPrevTot
      && t.totAmort == ta.totAmort + tb.totAmort
      && t.totRealiz == ta.totRealiz + tb.totRealiz
      && t.saldoAgg == ta.saldoAgg + tb.saldoAgg
  {
    var da, db := Dated(a), Dated(b);
    DatedConcat(a, b);
    SumRConcat(da, db, DispBase);
    SumRConcat(da, db, Capt);
    SumRConcat(da, db, MpPrevTot);
    SumRConcat(da, db, Amort);
    SumRConcat(da, db, RealizTot);
  }

  // ---------------------------------------------------------------------------
  // Month → week grouping (`buildGroups`)
  // ---------------------------------------------------------------------------

  /** The month key of a dated row; `format(parseISO(iso), "yyyy-MM")` for a well-formed date. */
  function MonthOf(r: DayRow): string {
    IsoMonthKey(r.dataIso)
  }

  /** `r.semana ?? "—"`. */
  function WeekOf(r: DayRow): string {
    r.semana.GetOr("—")
  }

  /** `${monthKey}::${safeKey(week)}`. */
  function WeekKeyOf(r: DayRow): string {
    MonthOf(r) + "::" + SafeKey(WeekOf(r))
  }

  /** The keys this page groups its rows by. */
  const DayKeys: Keys<DayRow> := Keys(MonthOf, WeekKeyOf, WeekOf)

  /** What `buildGroups(rows)` returns: the months of the dated rows in order of first appearance. */
  function Groups(rows: seq<DayRow>): seq<MonthGroup<DayRow>> {
    Nest(Dated(rows), DayKeys)
  }

  /** Keeping the dated rows of a prefix one row further. */
  lemma DatedSnoc(rows: seq<DayRow>, i: nat)
    requires i < |rows|
    ensures Dated(rows[..i + 1]) == Dated(rows[..i]) + (if IsDated(rows[i]) then [rows[i]] else [])
  {
    PrefixSnoc(rows, i);
    DatedConcat(rows[..i], [rows[i]]);
    assert [rows[i]][1..] == [];
  }

  /**
   * `buildGroups(rows)`: one pass over the rows, skipping undated ones,
   * pushing each into its month (created on first sight) and its week within
   * the month; then each month's weeks are sorted.
   */
  method BuildGroups(rows: seq<DayRow>) returns (months: seq<MonthGroup<DayRow>>)
    ensures months == Groups(rows)
  {
    var monthKeys: seq<string> := [];
    var byMonth: map<string, MonthAcc<DayRow>> := map[];
    ghost var seen: seq<DayRow> := [];
    for i := 0 to |rows|
      invariant seen == Dated(rows[..i])
      invariant monthKeys == DistinctKeys(seen, DayKeys.month)
      invariant byMonth == Records(seen, DayKeys)
    {
      var r := rows[i];
      DatedSnoc(rows, i);
      if !IsDated(r) {
        continue;
      }
      var k := MonthOf(r);
      RecordsSnoc(seen, r, DayKeys);
      var m := if k in byMonth then byMonth[k] else EmptyMonth();
      if k !in byMonth {
        monthKeys := monthKeys + [k];
      }
      byMonth := byMonth[k := Push(m, r, DayKeys)];
      seen := seen + [r];
    }
    assert rows[..|rows|] == rows;
    months := AssembleMonths(monthKeys, byMonth, seen, DayKeys);
  }

  /** `buildGroups` puts every dated row in exactly one month and no undated row anywhere. */
  lemma GroupsHoldDatedRows(rows: seq<DayRow>)
    ensures multiset(FlatMap(Groups(rows), RowsOfMonth)) == multiset(Dated(rows))
    ensures forall x :: x in multiset(FlatMap(Groups(rows), RowsOfMonth)) ==> x in rows && IsDated(x)
  {
    NestPartition(Dated(rows), DayKeys);
    DatedMembers(rows);
  }

  // ---------------------------------------------------------------------------
  // The rows in date order, and the month order of the table
  // ---------------------------------------------------------------------------

  function IsoOf(r: DayRow): string {
    r.dataIso.GetOr("")
  }

  /** `(a, b) => (a.__data_iso > b.__data_iso ? 1 : -1)`, read as "a may come first". */
  predicate IsoLe(a: DayRow, b: DayRow) {
    LexLe(IsoOf(a), IsoOf(b))
  }

  /** `rowsByDateAsc`: the dated rows, sorted by date. */
  function RowsByDateAsc(rows: seq<DayRow>): seq<DayRow> {
    SortBy(Dated(rows), IsoLe)
  }

  lemma IsoPreorder(s: seq<DayRow>)
    ensures TotalPreorderOn(s, IsoLe)
  {
    forall i, j | 0 <= i < |s| && 0 <= j < |s| ensures IsoLe(s[i], s[j]) || IsoLe(s[j], s[i]) {
      LexLeTotal(IsoOf(s[i]), IsoOf(s[j]));
    }
    forall i, j, l | 0 <= i < |s| && 0 <= j < |s| && 0 <= l < |s| && IsoLe(s[i], s[j]) && IsoLe(s[j], s[l])
      ensures IsoLe(s[i], s[l])
    {
      LexLeTransitive(IsoOf(s[i]), IsoOf(s[j]), IsoOf(s[l]));
    }
  }

  /** `rowsByDateAsc` holds each dated row once, none undated, in ascending date order. */
  lemma RowsByDateAscSound(rows: seq<DayRow>)
    ensures multiset(RowsByDateAsc(rows)) == multiset(Dated(rows))
    ensures forall x :: x in RowsByDateAsc(rows) <==> x in rows && IsDated(x)
    ensures forall i, j :: 0 <= i < j < |RowsByDateAsc(rows)| ==> LexLe(IsoOf(RowsByDateAsc(rows)[i]), IsoOf(RowsByDateAsc(rows)[j]))
  {
    var d := Dated(rows);
    IsoPreorder(d);
    SortByOrdered(d, IsoLe);
    DatedMembers(rows);
    var r := SortBy(d, IsoLe);
    forall x ensures x in r <==> x in d {
      assert x in r <==> x in multiset(r);
    }
  }

  /** Sorting the dated rows leaves nothing undated: `rowsByDateAsc` is its own `Dated`. */
  lemma RowsByDateAscDated(rows: seq<DayRow>)
    ensures Dated(RowsByDateAsc(rows)) == RowsByDateAsc(rows)
  {
    var r := RowsByDateAsc(rows);
    RowsByDateAscSound(rows);
    assert forall i :: 0 <= i < |r| ==> r[i] in r;
    DatedAll(r);
  }

  lemma {:induction false} DatedAll(s: seq<DayRow>)
    requires forall i :: 0 <= i < |s| ==> IsDated(s[i])
    ensures Dated(s) == s
  {
    if |s| > 0 {
      DatedAll(s[1..]);
      assert s == [s[0]] + s[1..];
    }
  }

  /** `a.monthKey > b.monthKey ? 1 : -1`, read as "a may come first". */
  predicate MonthAscLe(a: MonthGroup<DayRow>, b: MonthGroup<DayRow>) {
    LexLe(a.monthKey, b.monthKey)
  }

  /** `a.monthKey < b.monthKey ? 1 : -1`, read as "a may come first". */
  predicate MonthDescLe(a: MonthGroup<DayRow>, b: MonthGroup<DayRow>) {
    LexLe(b.monthKey, a.monthKey)
  }

  /** `monthGroups`: the months of `rowsByDateAsc`, oldest first or newest first. */
  function MonthGroups(byDate: seq<DayRow>, monthSortAsc: bool): seq<MonthGroup<DayRow>> {
    SortBy(Groups(byDate), if monthSortAsc then MonthAscLe else MonthDescLe)
  }

  lemma MonthPreorders(s: seq<MonthGroup<DayRow>>)
    ensures TotalPreorderOn(s, MonthAscLe) && TotalPreorderOn(s, MonthDescLe)
  {
    forall i, j | 0 <= i < |s| && 0 <= j < |s| ensures MonthAscLe(s[i], s[j]) || MonthAscLe(s[j], s[i]) {
      LexLeTotal(s[i].monthKey, s[j].monthKey);
    }
    forall i, j, l | 0 <= i < |s| && 0 <= j < |s| && 0 <= l < |s| && MonthAscLe(s[i], s[j]) && MonthAscLe(s[j], s[l])
      ensures MonthAscLe(s[i], s[l])
    {
      LexLeTransitive(s[i].monthKey, s[j].monthKey, s[l].monthKey);
    }
    forall i, j, l | 0 <= i < |s| && 0 <= j < |s| && 0 <= l < |s| && MonthDescLe(s[i], s[j]) && MonthDescLe(s[j], s[l])
      ensures MonthDescLe(s[i], s[l])
    {
      LexLeTransitive(s[l].monthKey, s[j].monthKey, s[i].monthKey);
    }
  }

  /** The month order the table shows: the same months, ascending or descending by month key as the arrow says. */
  lemma MonthGroupsOrdered(byDate: seq<DayRow>, monthSortAsc: bool)
    ensures multiset(MonthGroups(byDate, monthSortAsc)) == multiset(Groups(byDate))
    ensures monthSortAsc ==> forall i, j :: 0 <= i < j < |MonthGroups(byDate, monthSortAsc)| ==>
      LexLe(MonthGroups(byDate, monthSortAsc)[i].monthKey, MonthGroups(byDate, monthSortAsc)[j].monthKey)
    ensures !monthSortAsc ==> forall i, j :: 0 <= i < j < |MonthGroups(byDate, monthSortAsc)| ==>
      LexLe(MonthGroups(byDate, monthSortAsc)[j].monthKey, MonthGroups(byDate, monthSortAsc)[i].monthKey)
  {
    MonthPreorders(Groups(byDate));
    if monthSortAsc {
      SortByOrdered(Groups(byDate), MonthAscLe);
    } else {
      SortByOrdered(Groups(byDate), MonthDescLe);
    }
  }

  // ---------------------------------------------------------------------------
  // The Ano / Mês / Semana option lists
  // ---------------------------------------------------------------------------

  /** `.filter(Boolean)` on strings: drops the empty ones. */
  function NonEmptyOnly(s: seq<string>): (r: seq<string>)
    ensures forall x :: x in r <==> x in s && x != ""
  {
    if |s| == 0 then []
    else (if s[0] != "" then [s[0]] else []) + NonEmptyOnly(s[1..])
  }

  /** `yearOptions`: the distinct non-empty years of the rows, ascending. */
  method YearOptions(byDate: seq<DayRow>) returns (opts: seq<string>)
    ensures StrictlyAscending(opts)
    ensures forall y :: y in opts <==> y != "" && exists i :: 0 <= i < |byDate| && IsoYear(byDate[i].dataIso) == y
  {
    var found: seq<string> := [];
    for i := 0 to |byDate|
      invariant forall y :: y in found <==> exists j :: 0 <= j < i && IsoYear(byDate[j].dataIso) == y
    {
      var y := IsoYear(byDate[i].dataIso);
      if y !in found {
        found := found + [y];
      }
    }
    opts := SortedDistinct(NonEmptyOnly(found));
  }

  /** A row passes the year filter. */
  predicate InYear(r: DayRow, yearSel: string) {
    yearSel == All || IsoYear(r.dataIso) == yearSel
  }

  /** `monthOptionsForYear`: the distinct non-empty month keys of the rows in the selected year, ascending. */
  method MonthOptionsForYear(byDate: seq<DayRow>, yearSel: string) returns (opts: seq<string>)
    ensures StrictlyAscending(opts)
    ensures forall mk :: mk in opts <==> mk != "" && exists i :: 0 <= i < |byDate| && InYear(byDate[i], yearSel) && IsoMonthKey(byDate[i].dataIso) == mk
  {
    var found: seq<string> := [];
    for i := 0 to |byDate|
      invariant forall mk :: mk in found <==> exists j :: 0 <= j < i && InYear(byDate[j], yearSel) && IsoMonthKey(byDate[j].dataIso) == mk
    {
      var r := byDate[i];
      if !InYear(r, yearSel) {
        continue;
      }
      var mk := IsoMonthKey(r.dataIso);
      if mk !in found {
        found := found + [mk];
      }
    }
    opts := SortedDistinct(NonEmptyOnly(found));
  }

  /** A row's week is offered: it is in the selected year and month and its week is not blank. */
  predicate OffersWeek(r: DayRow, yearSel: string, monthSel: string, w: string) {
    InYear(r, yearSel) && IsoMonthKey(r.dataIso) == monthSel && r.semana == Some(w) && Trim(w) != ""
  }

  /**
   * `weekOptionsForYearMonth`: nothing until a month is chosen; then the
   * distinct non-blank weeks of that month (within the selected year),
   * sorted by the week order.
   */
  method WeekOptionsForYearMonth(byDate: seq<DayRow>, yearSel: string, monthSel: string) returns (opts: seq<string>)
    ensures monthSel == All ==> opts == []
    ensures forall w :: w in opts <==> monthSel != All && exists i :: 0 <= i < |byDate| && OffersWeek(byDate[i], yearSel, monthSel, w)
    ensures Distinct(opts)
    ensures InWeekOrder(opts)
  {
    if monthSel == All {
      return [];
    }
    var found: seq<string> := [];
    for i := 0 to |byDate|
      invariant Distinct(found)
      invariant forall w :: w in found <==> exists j :: 0 <= j < i && OffersWeek(byDate[j], yearSel, monthSel, w)
    {
      var r := byDate[i];
      if !InYear(r, yearSel) || IsoMonthKey(r.dataIso) != monthSel {
        continue;
      }
      if r.semana.Some? && Trim(r.semana.value) != "" && r.semana.value !in found {
        found := found + [r.semana.value];
      }
    }
    opts := SortBy(found, WeekTextLe);
    WeekOptionsOrder(found, opts);
  }

  /** What sorting the collected weeks keeps and what order it gives them. */
  lemma WeekOptionsOrder(found: seq<string>, opts: seq<string>)
    requires Distinct(found) && opts == SortBy(found, WeekTextLe)
    ensures forall w :: w in opts <==> w in found
    ensures Distinct(opts)
    ensures InWeekOrder(opts)
  {
    SortedSame(found, opts);
    DistinctPermutation(found, opts);
    if forall t :: 0 <= t < |opts| ==> IsNumeric(opts[t]) {
      NumericWeeksAscend(found, opts);
    }
    if forall t :: 0 <= t < |opts| ==> NotNumeric(opts[t]) {
      TextWeeksAscend(found, opts);
    }
  }

  lemma SortedSame(found: seq<string>, opts: seq<string>)
    requires opts == SortBy(found, WeekTextLe)
    ensures forall w :: w in opts <==> w in found
  {
    forall w ensures w in opts <==> w in found {
      assert w in opts <==> w in multiset(opts);
      assert w in found <==> w in multiset(found);
    }
  }

  lemma NumericWeeksAscend(found: seq<string>, opts: seq<string>)
    requires opts == SortBy(found, WeekTextLe)
    requires forall t :: 0 <= t < |opts| ==> IsNumeric(opts[t])
    ensures forall i, j :: 0 <= i < j < |opts| ==> WeekNumber(opts[i]) <= WeekNumber(opts[j])
  {
    SortedSame(found, opts);
    forall t | 0 <= t < |found| ensures IsNumeric(found[t]) {
      assert found[t] in opts;
    }
    NumericLabelsPreorder(found);
    SortByOrdered(found, WeekTextLe);
  }

  lemma TextWeeksAscend(found: seq<string>, opts: seq<string>)
    requires opts == SortBy(found, WeekTextLe)
    requires forall t :: 0 <= t < |opts| ==> NotNumeric(opts[t])
    ensures forall i, j :: 0 <= i < j < |opts| ==> LexLe(opts[i], opts[j])
  {
    SortedSame(found, opts);
    forall t | 0 <= t < |found| ensures NotNumeric(found[t]) {
      assert found[t] in opts;
    }
    TextLabelsPreorder(found);
    SortByOrdered(found, WeekTextLe);
  }

  // ---------------------------------------------------------------------------
  // The percentage chart and the "Total geral" line
  // ---------------------------------------------------------------------------

  /** A row passes the Ano, Mês and Semana filters (`String(r.semana ?? "") === String(weekSel)`). */
  predicate InSeries(r: DayRow, yearSel: string, monthSel: string, weekSel: string) {
    && InYear(r, yearSel)
    && (monthSel == All || IsoMonthKey(r.dataIso) == monthSel)
    && (weekSel == All || r.semana.GetOr("") == weekSel)
  }

  /** The rows `seriesPercent` plots: the date-ordered rows that pass the three filters, in their order. */
  function SeriesRows(byDate: seq<DayRow>, yearSel: string, monthSel: string, weekSel: string): (r: seq<DayRow>)
    ensures forall x :: x in r <==> x in byDate && InSeries(x, yearSel, monthSel, weekSel)
  {
    if |byDate| == 0 then []
    else
      var init := byDate[..|byDate| - 1];
      var x := byDate[|byDate| - 1];
      assert byDate == init + [x];
      SeriesRows(init, yearSel, monthSel, weekSel) + (if InSeries(x, yearSel, monthSel, weekSel) then [x] else [])
  }

  /** One point of the chart; its `dd/MM` label is not part of this model. */
  datatype SeriesPoint = SeriesPoint(iso: string, mpPrevistaPercent: real, realMpPercent: real)

  function PointOf(r: DayRow): SeriesPoint {
    SeriesPoint(IsoOf(r), NumOrZero(r.mpPrevistaPercent), RealMpPct(r))
  }

  /** `seriesPercent`: one point per filtered row, planned and realised MP share. */
  function SeriesPercent(byDate: seq<DayRow>, yearSel: string, monthSel: string, weekSel: string): (pts: seq<SeriesPoint>)
    ensures var rs := SeriesRows(byDate, yearSel, monthSel, weekSel);
            |pts| == |rs| && forall i :: 0 <= i < |rs| ==> pts[i] == PointOf(rs[i])
  {
    var rs := SeriesRows(byDate, yearSel, monthSel, weekSel);
    seq(|rs|, i requires 0 <= i < |rs| => PointOf(rs[i]))
  }

  /** The rows are in ascending date order. */
  predicate DateOrdered(s: seq<DayRow>) {
    forall i, j :: 0 <= i < j < |s| ==> IsoLe(s[i], s[j])
  }

  /** Filtering keeps the date order: a date-ordered input gives a date-ordered series. */
  lemma {:induction false} SeriesKeepsOrder(byDate: seq<DayRow>, yearSel: string, monthSel: string, weekSel: string)
    requires DateOrdered(byDate)
    ensures DateOrdered(SeriesRows(byDate, yearSel, monthSel, weekSel))
  {
    if |byDate| > 0 {
      var init := byDate[..|byDate| - 1];
      var x := byDate[|byDate| - 1];
      assert DateOrdered(init) by {
        forall i, j | 0 <= i < j < |init| ensures IsoLe(init[i], init[j]) {
          assert init[i] == byDate[i] && init[j] == byDate[j];
        }
      }
      SeriesKeepsOrder(init, yearSel, monthSel, weekSel);
      var p := SeriesRows(init, yearSel, monthSel, weekSel);
      forall i | 0 <= i < |p| ensures IsoLe(p[i], x) {
        assert p[i] in init;
        var k :| 0 <= k < |init| && init[k] == p[i];
        assert byDate[k] == init[k];
      }
      var r := SeriesRows(byDate, yearSel, monthSel, weekSel);
      assert r == p + (if InSeries(x, yearSel, monthSel, weekSel) then [x] else []);
      forall i, j | 0 <= i < j < |r| ensures IsoLe(r[i], r[j]) {
        if j < |p| {
          assert r[i] == p[i] && r[j] == p[j];
        } else {
          assert r[i] == p[i] && r[j] == x;
        }
      }
    }
  }

  /**
   * With only a month chosen, the chart plots exactly the rows of that
   * month's group in the table, in the same order.
   */
  lemma {:induction false} SeriesOfMonthIsItsGroup(byDate: seq<DayRow>, monthSel: string)
    requires monthSel != All
    ensures SeriesRows(byDate, All, monthSel, All) == Select(byDate, MonthOf, monthSel)
  {
    if |byDate| > 0 {
      var init := byDate[..|byDate| - 1];
      var x := byDate[|byDate| - 1];
      SeriesOfMonthIsItsGroup(init, monthSel);
      assert InSeries(x, All, monthSel, All) <==> MonthOf(x) == monthSel;
      assert SeriesRows(byDate, All, monthSel, All) == SeriesRows(init, All, monthSel, All) + (if InSeries(x, All, monthSel, All) then [x] else []);
      assert Select(byDate, MonthOf, monthSel) == Select(init, MonthOf, monthSel) + (if MonthOf(x) == monthSel then [x] else []);
    }
  }

  /** `totalGeralRows`: the date-ordered rows of the selected year (all of them for "(Todos)"). */
  function TotalGeralRows(byDate: seq<DayRow>, yearSel: string): seq<DayRow> {
    SeriesRows(byDate, yearSel, All, All)
  }

  /** Without a year the "Total geral" line totals every row; with one, exactly that year's rows. */
  lemma TotalGeralCoversYear(byDate: seq<DayRow>, yearSel: string)
    ensures yearSel == All ==> TotalGeralRows(byDate, yearSel) == byDate
    ensures forall x :: x in TotalGeralRows(byDate, yearSel) <==> x in byDate && InYear(x, yearSel)
  {
    if yearSel == All {
      AllPass(byDate);
    }
  }

  lemma {:induction false} AllPass(byDate: seq<DayRow>)
    ensures SeriesRows(byDate, All, All, All) == byDate
  {
    if |byDate| > 0 {
      AllPass(byDate[..|byDate| - 1]);
    }
  }

  // ---------------------------------------------------------------------------
  // Opening the newest month on load
  // ---------------------------------------------------------------------------

  function MonthKeys(months: seq<MonthGroup<DayRow>>): (ks: seq<string>)
    ensures |ks| == |months| && forall i :: 0 <= i < |months| ==> ks[i] == months[i].monthKey
  {
    if |months| == 0 then [] else [months[0].monthKey] + MonthKeys(months[1..])
  }

  /** `months.map(m => m.monthKey).sort((a, b) => (a < b ? 1 : -1))[0]`: the greatest month key. */
  function NewestMonthKey(months: seq<MonthGroup<DayRow>>): (r: Option<string>)
    ensures r.Some? <==> |months| > 0
    ensures r.Some? ==> (exists i :: 0 <= i < |months| && months[i].monthKey == r.value)
    ensures r.Some? ==> forall i :: 0 <= i < |months| ==> LexLe(months[i].monthKey, r.value)
  {
    if |months| == 0 then None
    else
      var keys := MonthKeys(months);
      var sorted := SortedDistinctDesc(keys);
      assert keys[0] in sorted;
      var top := sorted[0];
      assert forall i :: 0 <= i < |months| ==> LexLe(months[i].monthKey, top) by {
        forall i | 0 <= i < |months| ensures LexLe(months[i].monthKey, top) {
          assert keys[i] in sorted;
          var j :| 0 <= j < |sorted| && sorted[j] == keys[i];
          LexLeTotal(top, top);
        }
      }
      assert top in keys;
      Some(top)
  }

  /** `months.find(m => m.monthKey === k)`. */
  function FindMonth(months: seq<MonthGroup<DayRow>>, k: string): (r: Option<MonthGroup<DayRow>>)
    ensures r.Some? ==> r.value in months && r.value.monthKey == k
    ensures r.None? ==> forall i :: 0 <= i < |months| ==> months[i].monthKey != k
  {
    if |months| == 0 then None
    else if months[0].monthKey == k then Some(months[0])
    else FindMonth(months[1..], k)
  }

  /** `w.slice(Math.max(0, w.length - 2))`: the last two weeks (fewer when there are fewer). */
  function LastTwo(weeks: seq<WeekGroup<DayRow>>): (r: seq<WeekGroup<DayRow>>)
    ensures |r| == if |weeks| < 2 then |weeks| else 2
    ensures forall i :: 0 <= i < |r| ==> r[i] == weeks[|weeks| - |r| + i]
  {
    if |weeks| < 2 then weeks else weeks[|weeks| - 2..]
  }

  function WeekKeysOf(ws: seq<WeekGroup<DayRow>>): (r: set<string>)
    ensures forall k :: k in r <==> exists i :: 0 <= i < |ws| && ws[i].weekKey == k
  {
    set i | 0 <= i < |ws| :: ws[i].weekKey
  }

  /** The month keys the load opens: the newest month (when there is one with a non-empty key). */
  function AutoMonths(months: seq<MonthGroup<DayRow>>): set<string> {
    match NewestMonthKey(months)
    case Some(k) => if k != "" then {k} else {}
    case None => {}
  }

  /** The week keys the load opens: the last two weeks of the newest month. */
  function AutoWeeks(months: seq<MonthGroup<DayRow>>): set<string> {
    var nk := NewestMonthKey(months);
    if nk.None? || nk.value == "" then {}
    else
      var m := FindMonth(months, nk.value);
      if m.None? then {} else WeekKeysOf(LastTwo(m.value.weeks))
  }

  /** The month keys a load of `rows` opens. */
  function LoadMonths(rows: seq<DayRow>): set<string> {
    AutoMonths(Groups(RowsByDateAsc(rows)))
  }

  /** The week keys a load of `rows` opens. */
  function LoadWeeks(rows: seq<DayRow>): set<string> {
    AutoWeeks(Groups(RowsByDateAsc(rows)))
  }

  /** The month and week keys a load opens, over the groups the page's loop builds. */
  method AutoExpand(rows: seq<DayRow>) returns (am: set<string>, aw: set<string>)
    ensures am == LoadMonths(rows)
    ensures aw == LoadWeeks(rows)
  {
    var months := BuildGroups(RowsByDateAsc(rows));
    am := AutoMonths(months);
    aw := AutoWeeks(months);
  }

  /** The load opens at most one month: one holding the greatest month key. */
  lemma AutoMonthIsNewest(months: seq<MonthGroup<DayRow>>)
    ensures |AutoMonths(months)| <= 1
    ensures forall k :: k in AutoMonths(months) ==>
      (exists j :: 0 <= j < |months| && months[j].monthKey == k) && forall i :: 0 <= i < |months| ==> LexLe(months[i].monthKey, k)
  {
  }

  /** The load opens at most two weeks, each among the last two weeks of the newest month. */
  lemma AutoWeeksAreLastTwo(months: seq<MonthGroup<DayRow>>)
    ensures |AutoWeeks(months)| <= 2
    ensures AutoWeeks(months) != {} ==>
      && NewestMonthKey(months).Some?
      && FindMonth(months, NewestMonthKey(months).value).Some?
      && LastWeeksOf(FindMonth(months, NewestMonthKey(months).value).value.weeks, AutoWeeks(months))
  {
    var nk := NewestMonthKey(months);
    if nk.Some? && nk.value != "" {
      var f := FindMonth(months, nk.value);
      if f.Some? {
        LastTwoKeys(f.value.weeks);
      }
    }
  }

  /** Every key in `ks` is the key of one of the last two weeks of `ws`. */
  ghost predicate LastWeeksOf(ws: seq<WeekGroup<DayRow>>, ks: set<string>) {
    forall wk :: wk in ks ==> exists i :: 0 <= i < |ws| && |ws| - 2 <= i && ws[i].weekKey == wk
  }

  lemma LastTwoKeys(ws: seq<WeekGroup<DayRow>>)
    ensures |WeekKeysOf(LastTwo(ws))| <= 2
    ensures LastWeeksOf(ws, WeekKeysOf(LastTwo(ws)))
  {
    var lt := LastTwo(ws);
    CardOfImage(lt);
    forall wk | wk in WeekKeysOf(lt) ensures exists i :: 0 <= i < |ws| && |ws| - 2 <= i && ws[i].weekKey == wk {
      var t :| 0 <= t < |lt| && lt[t].weekKey == wk;
      assert ws[|ws| - |lt| + t].weekKey == wk;
    }
  }

  lemma CardOfImage(ws: seq<WeekGroup<DayRow>>)
    requires |ws| <= 2
    ensures |WeekKeysOf(ws)| <= |ws|
  {
    if |ws| == 0 {
      assert WeekKeysOf(ws) == {};
    } else if |ws| == 1 {
      assert WeekKeysOf(ws) == {ws[0].weekKey};
    } else {
      assert WeekKeysOf(ws) == {ws[0].weekKey, ws[1].weekKey};
    }
  }

  // ---------------------------------------------------------------------------
  // Page state
  // ---------------------------------------------------------------------------

  /** The state the page keeps between renders. */
  class DispView {
    var rows: seq<DayRow>
    var failed: bool
    var expandedMonths: set<string>
    var expandedWeeks: set<string>
    var monthSortAsc: bool
    var yearSel: string
    var monthSel: string
    var weekSel: string

    /** The initial `useState` values. */
    constructor ()
      ensures rows == [] && !failed
      ensures expandedMonths == {} && expandedWeeks == {}
      ensures monthSortAsc
      ensures yearSel == All && monthSel == All && weekSel == All
    {
      rows := [];
      failed := false;
      expandedMonths := {};
      expandedWeeks := {};
      monthSortAsc := true;
      yearSel := All;
      monthSel := All;
      weekSel := All;
    }

    /**
     * Loading a project's rows: the filters go back to "(Todos)"; on success
     * the rows are stored and the newest month and its last two weeks are
     * opened on top of what was open; on a failed query no rows remain.
     */
    method LoadProject(fetched: Option<seq<DayRow>>)
      modifies this
      ensures yearSel == All && monthSel == All && weekSel == All
      ensures monthSortAsc == old(monthSortAsc)
      ensures fetched.None? ==> rows == [] && failed
      ensures fetched.None? ==> expandedMonths == old(expandedMonths) && expandedWeeks == old(expandedWeeks)
      ensures fetched.Some? ==> rows == fetched.value && !failed
      ensures fetched.Some? ==> expandedMonths == old(expandedMonths) + LoadMonths(fetched.value)
      ensures fetched.Some? ==> expandedWeeks == old(expandedWeeks) + LoadWeeks(fetched.value)
    {
      rows, failed := [], false;
      yearSel, monthSel, weekSel := All, All, All;
      if fetched.None? {
        failed := true;
        return;
      }
      OpenNewest(fetched.value);
      rows := fetched.value;
    }

    /** Opening the newest month and its last two weeks after a load. */
    method OpenNewest(fetchedRows: seq<DayRow>)
      modifies this
      ensures expandedMonths == old(expandedMonths) + LoadMonths(fetchedRows)
      ensures expandedWeeks == old(expandedWeeks) + LoadWeeks(fetchedRows)
      ensures rows == old(rows) && failed == old(failed) && monthSortAsc == old(monthSortAsc)
      ensures yearSel == old(yearSel) && monthSel == old(monthSel) && weekSel == old(weekSel)
    {
      var am, aw := AutoExpand(fetchedRows);
      expandedMonths, expandedWeeks := expandedMonths + am, expandedWeeks + aw;
    }

    /** `toggleMonth`. */
    method ToggleMonth(monthKey: string)
      modifies this
      ensures expandedMonths == Toggled(old(expandedMonths), monthKey)
      ensures rows == old(rows) && failed == old(failed) && expandedWeeks == old(expandedWeeks) && monthSortAsc == old(monthSortAsc)
      ensures yearSel == old(yearSel) && monthSel == old(monthSel) && weekSel == old(weekSel)
    {
      expandedMonths := Toggled(expandedMonths, monthKey);
    }

    /** `toggleWeek`. */
    method ToggleWeek(weekKey: string)
      modifies this
      ensures expandedWeeks == Toggled(old(expandedWeeks), weekKey)
      ensures rows == old(rows) && failed == old(failed) && expandedMonths == old(expandedMonths) && monthSortAsc == old(monthSortAsc)
      ensures yearSel == old(yearSel) && monthSel == old(monthSel) && weekSel == old(weekSel)
    {
      expandedWeeks := Toggled(expandedWeeks, weekKey);
    }

    /** The month-order button: `setMonthSortAsc(v => !v)`. */
    method ToggleMonthSort()
      modifies this
      ensures monthSortAsc == !old(monthSortAsc)
      ensures rows == old(rows) && failed == old(failed) && expandedMonths == old(expandedMonths) && expandedWeeks == old(expandedWeeks)
      ensures yearSel == old(yearSel) && monthSel == old(monthSel) && weekSel == old(weekSel)
    {
      monthSortAsc := !monthSortAsc;
    }

    /** `pickYear`: a new year clears the month and the week. */
    method PickYear(y: string)
      modifies this
      ensures yearSel == y && monthSel == All && weekSel == All
      ensures rows == old(rows) && failed == old(failed) && expandedMonths == old(expandedMonths) && expandedWeeks == old(expandedWeeks)
      ensures monthSortAsc == old(monthSortAsc)
    {
      yearSel := y;
      monthSel := All;
      weekSel := All;
    }

    /** `pickMonth`: a new month clears the week. */
    method PickMonth(mk: string)
      modifies this
      ensures monthSel == mk && weekSel == All && yearSel == old(yearSel)
      ensures rows == old(rows) && failed == old(failed) && expandedMonths == old(expandedMonths) && expandedWeeks == old(expandedWeeks)
      ensures monthSortAsc == old(monthSortAsc)
    {
      monthSel := mk;
      weekSel := All;
    }

    /** `pickWeek`. */
    method PickWeek(w: string)
      modifies this
      ensures weekSel == w && yearSel == old(yearSel) && monthSel == old(monthSel)
      ensures rows == old(rows) && failed == old(failed) && expandedMonths == old(expandedMonths) && expandedWeeks == old(expandedWeeks)
      ensures monthSortAsc == old(monthSortAsc)
    {
      weekSel := w;
    }
  }
}

=== FILE: faturamento.dfy ===
/**
 * The Faturamento (invoicing) page: the number reader for amounts typed
 * the Brazilian way, the keyed accumulation behind every ranking
 * (`groupAgg`) and its top-N cut, the product-group and region
 * classifiers, the detection of the quantity column, the year range and
 * month count of the period, the month-by-month evolution series and the
 * sort state of the small ranking tables.
 */
module Faturamento {
  import opened Wrappers
  import opened Text
  import opened Sorting
  import opened JsNumbers

  // ---------------------------------------------------------------------------
  // Reading numbers: `num`
  // ---------------------------------------------------------------------------

  /** `s.replace(/\s| /g, "")`: `s` without its white space; empty exactly when `s` is blank. */
  function NoSpaces(s: string): (r: string)
    ensures NoSpace(r) && |r| <= |s|
    ensures r == [] <==> forall i :: 0 <= i < |s| ==> IsSpace(s[i])
  {
    if |s| == 0 then ""
    else if IsSpace(s[0]) then NoSpaces(s[1..])
    else [s[0]] + NoSpaces(s[1..])
  }

  /** `s.replace(/\./g, "")` for `c == '.'`: `s` without any `c`. */
  function Without(s: string, c: char): (r: string)
    ensures c !in r && |r| <= |s|
  {
    if |s| == 0 then ""
    else if s[0] == c then Without(s[1..], c)
    else [s[0]] + Without(s[1..], c)
  }

  /** `s.replace(",", ".")`: only the first `from` is replaced. */
  function ReplaceFirst(s: string, from: char, to: char): (r: string)
    ensures |r| == |s|
    ensures from !in s ==> r == s
    ensures from in s ==> exists k :: 0 <= k < |s| && s[k] == from && from !in s[..k] && r == s[..k] + [to] + s[k + 1..]
  {
    match IndexOf(s, from)
    case None => s
    case Some(k) => s[..k] + [to] + s[k + 1..]
  }

  /**
   * `num(n)`: 0 for `null`/`undefined`, a finite number as it is, and for a
   * text: 0 when blank, else white space removed, every `.` dropped and the
   * first `,` read as the decimal point; when that is not a number the text
   * without white space is tried as it is, and 0 when neither reads.
   */
  function ReadNumber(c: Cell): (r: real)
    ensures c.Null? || c.Undefined? ==> r == 0.0
    ensures c.Num? ==> r == (if c.n.Finite? then c.n.v else 0.0)
    ensures c.Str? && Trim(c.s) == "" ==> r == 0.0
  {
    match c
    case Undefined => 0.0
    case Null => 0.0
    case Num(n) => if n.Finite? then n.v else 0.0
    case Str(text) =>
      var s0 := Trim(text);
      if s0 == "" then 0.0 else ReadCompact(NoSpaces(s0))
  }

  /** The reading of a text without white space: the pt-BR form first, then the text as it is. */
  function ReadCompact(s: string): real {
    var pt := ReplaceFirst(Without(s, '.'), ',', '.');
    match StringToNumber(pt)
    case Finite(v) => v
    case Infinite(_) => 0.0
    case NaN => (match StringToNumber(s) case Finite(v2) => v2 case _ => 0.0)
  }

  lemma {:induction false} NoSpacesKeeps(s: string)
    requires NoSpace(s)
    ensures NoSpaces(s) == s
  {
    if |s| > 0 {
      NoSpacesKeeps(s[1..]);
    }
  }

  /** Removing white space distributes over concatenation. */
  lemma {:induction false} NoSpacesConcat(a: string, b: string)
    ensures NoSpaces(a + b) == NoSpaces(a) + NoSpaces(b)
  {
    if |a| == 0 {
      assert a + b == b;
    } else {
      assert (a + b)[1..] == a[1..] + b;
      NoSpacesConcat(a[1..], b);
    }
  }

  /**
   * A single character: white space is dropped, anything else is kept. With
   * `NoSpacesConcat` this fixes the result of every text, in order.
   */
  lemma NoSpacesChar(c: char)
    ensures NoSpaces([c]) == if IsSpace(c) then "" else [c]
  {
  }

  lemma {:induction false} WithoutConcat(a: string, b: string, c: char)
    ensures Without(a + b, c) == Without(a, c) + Without(b, c)
  {
    if |a| == 0 {
      assert a + b == b;
    } else {
      assert (a + b)[1..] == a[1..] + b;
      WithoutConcat(a[1..], b, c);
    }
  }

  lemma {:induction false} WithoutAbsent(s: string, c: char)
    requires c !in s
    ensures Without(s, c) == s
  {
    if |s| > 0 {
      WithoutAbsent(s[1..], c);
    }
  }

  lemma DigitsHaveNo(s: string, c: char)
    requires AllDigits(s) && !IsDigit(c)
    ensures c !in s
  {
  }

  /** The first `c` of `a + [c] + b` sits right after `a` when `a` holds none. */
  lemma IndexOfAfter(a: string, b: string, c: char)
    requires c !in a
    ensures IndexOf(a + [c] + b, c) == Some(|a|)
  {
    var s := a + [c] + b;
    assert s[|a|] == c && s[..|a|] == a;
  }

  /** The value of a decimal literal whose point sits at `k`. */
  function PointValue(t: string, k: nat): real
    requires k < |t| && AllDigits(t[..k]) && AllDigits(t[k + 1..])
  {
    DecValue(t[..k]) as real + Fraction(t[k + 1..])
  }

  lemma ParseAtPoint(t: string, k: nat)
    requires k < |t| && IndexOf(t, '.') == Some(k) && k > 0
    requires AllDigits(t[..k]) && AllDigits(t[k + 1..])
    ensures ParseDecimal(t) == Some(PointValue(t, k))
  {
  }

  /** A trimmed text starting with a digit has no sign and is not `Infinity`. */
  lemma DigitLed(t: string)
    requires Trim(t) == t && |t| > 0 && IsDigit(t[0])
    ensures StringToNumber(t) == (match ParseDecimal(t) case Some(v) => Finite(v) case None => NaN)
  {
    assert t != "Infinity" by {
      assert "Infinity"[0] == 'I';
    }
  }

  lemma UnsignedDecimal(t: string, k: nat)
    requires k < |t| && IndexOf(t, '.') == Some(k) && k > 0
    requires AllDigits(t[..k]) && AllDigits(t[k + 1..])
    ensures StringToNumber(t) == Finite(PointValue(t, k))
  {
    assert IsDigit(t[0]) by {
      assert t[..k][0] == t[0];
    }
    assert t[|t| - 1] == '.' || IsDigit(t[|t| - 1]) by {
      if |t| - 1 > k {
        assert t[k + 1..][|t| - 1 - (k + 1)] == t[|t| - 1];
      }
    }
    TrimNoSpaceEnds(t);
    ParseAtPoint(t, k);
    DigitLed(t);
  }

  lemma SplitAtPoint(w: string, f: string)
    ensures (w + "." + f)[..|w|] == w && (w + "." + f)[|w| + 1..] == f
  {
  }

  lemma DecimalTextAtPoint(w: string, f: string)
    requires AllDigits(w) && AllDigits(f) && |w| > 0
    ensures StringToNumber(w + "." + f) == Finite(PointValue(w + "." + f, |w|))
  {
    SplitAtPoint(w, f);
    DigitsHaveNo(w, '.');
    IndexOfAfter(w, f, '.');
    UnsignedDecimal(w + "." + f, |w|);
  }

  lemma PointValueSplit(w: string, f: string, t: string)
    requires AllDigits(w) && AllDigits(f) && |w| > 0 && t == w + "." + f
    ensures PointValue(t, |w|) == DecValue(w) as real + Fraction(f)
  {
    SplitAtPoint(w, f);
  }

  /** `Number(w + "." + f)` for two digit strings. */
  lemma {:induction false} DecimalText(w: string, f: string)
    requires AllDigits(w) && AllDigits(f) && |w| > 0
    ensures StringToNumber(w + "." + f) == Finite(DecValue(w) as real + Fraction(f))
  {
    DecimalTextAtPoint(w, f);
    PointValueSplit(w, f, w + "." + f);
  }

  /** A text with no white space at all reads through `ReadCompact` directly. */
  lemma CompactText(t: string)
    requires |t| > 0 && NoSpace(t)
    ensures ReadNumber(Str(t)) == ReadCompact(t)
  {
    TrimNoSpaceEnds(t);
    NoSpacesKeeps(t);
  }

  lemma WithoutLeading(rest: string, c: char)
    ensures Without([c] + rest, c) == Without(rest, c)
  {
    assert ([c] + rest)[1..] == rest;
  }

  lemma NoPointInAmount(b: string, f: string)
    requires AllDigits(b) && AllDigits(f)
    ensures '.' !in b + "," + f
  {
    DigitsHaveNo(b, '.');
    DigitsHaveNo(f, '.');
  }

  lemma {:induction false} DropDotsBr(a: string, b: string, f: string)
    requires AllDigits(a) && AllDigits(b) && AllDigits(f)
    ensures Without(a + "." + b + "," + f, '.') == a + b + "," + f
  {
    var rest := b + "," + f;
    assert a + "." + b + "," + f == a + ("." + rest);
    WithoutConcat(a, "." + rest, '.');
    WithoutLeading(rest, '.');
    DigitsHaveNo(a, '.');
    WithoutAbsent(a, '.');
    NoPointInAmount(b, f);
    WithoutAbsent(rest, '.');
    assert a + rest == a + b + "," + f;
  }

  lemma FirstCommaToPoint(d: string, f: string)
    requires AllDigits(d)
    ensures ReplaceFirst(d + "," + f, ',', '.') == d + "." + f
  {
    DigitsHaveNo(d, ',');
    IndexOfAfter(d, f, ',');
    var t := d + "," + f;
    assert t[..|d|] == d && t[|d| + 1..] == f;
  }

  lemma IntegerText(d: string)
    requires AllDigits(d) && |d| > 0
    ensures StringToNumber(d) == Finite(DecValue(d) as real)
  {
    assert IsDigit(d[0]) && IsDigit(d[|d| - 1]);
    TrimNoSpaceEnds(d);
    DigitsHaveNo(d, '.');
    DigitLed(d);
  }

  /**
   * A Brazilian amount `a.b,f` (thousands dot, decimal comma) reads as the
   * number with digits `a + b` and fraction `f`.
   */
  lemma {:induction false} ReadsBrazilianAmount(a: string, b: string, f: string)
    requires AllDigits(a) && AllDigits(b) && AllDigits(f) && |a| > 0
    ensures ReadNumber(Str(a + "." + b + "," + f)) == DecValue(a + b) as real + Fraction(f)
  {
    var t := a + "." + b + "," + f;
    assert NoSpace(t) by {
      forall i | 0 <= i < |t| ensures !IsSpace(t[i]) {
        assert t[i] == '.' || t[i] == ',' || IsDigit(t[i]);
      }
    }
    CompactText(t);
    DropDotsBr(a, b, f);
    AllDigitsConcat(a, b);
    FirstCommaToPoint(a + b, f);
    DecimalText(a + b, f);
  }

  lemma {:induction false} DropDotsPlain(w: string, f: string)
    requires AllDigits(w) && AllDigits(f)
    ensures Without(w + "." + f, '.') == w + f
  {
    DigitsHaveNo(w, '.');
    DigitsHaveNo(f, '.');
    assert w + "." + f == w + ("." + f);
    WithoutConcat(w, "." + f, '.');
    assert ("." + f)[1..] == f;
    assert Without("." + f, '.') == Without(f, '.');
    WithoutAbsent(w, '.');
    WithoutAbsent(f, '.');
  }

  /**
   * Every `.` is dropped before parsing, so an amount written with a decimal
   * point, `w.f`, reads as the whole number `wf`.
   */
  lemma {:induction false} DropsDecimalPoint(w: string, f: string)
    requires AllDigits(w) && AllDigits(f) && |w| > 0
    ensures ReadNumber(Str(w + "." + f)) == DecValue(w + f) as real
  {
    var t := w + "." + f;
    assert NoSpace(t) by {
      forall i | 0 <= i < |t| ensures !IsSpace(t[i]) {
        assert t[i] == '.' || IsDigit(t[i]);
      }
    }
    CompactText(t);
    DropDotsPlain(w, f);
    var d := w + f;
    AllDigitsConcat(w, f);
    DigitsHaveNo(d, ',');
    assert ReplaceFirst(Without(t, '.'), ',', '.') == d;
    IntegerText(d);
  }

  lemma DigitsValue1234()
    ensures AllDigits("1234") && DecValue("1234") == 1234
    ensures AllDigits("123456") && DecValue("123456") == 123456
  {
    assert "1234"[..3] == "123" && "123"[..2] == "12" && "12"[..1] == "1" && "1"[..0] == "";
    assert "123456"[..5] == "12345" && "12345"[..4] == "1234";
  }

  lemma DigitsValue56()
    ensures AllDigits("56") && Fraction("56") == 0.56
  {
    assert "56"[..1] == "5" && "5"[..0] == "";
    assert DecValue("56") == 56;
  }

  lemma ExampleTexts()
    ensures "1" + "." + "234" + "," + "56" == "1.234,56" && "1" + "234" == "1234"
    ensures "1234" + "." + "56" == "1234.56" && "1234" + "56" == "123456"
  {
  }

  /** "1.234,56" reads as 1234.56, and "1234.56" as 123456. */
  lemma ReadNumberExamples()
    ensures ReadNumber(Str("1.234,56")) == 1234.56
    ensures ReadNumber(Str("1234.56")) == 123456.0
  {
    DigitsValue1234();
    DigitsValue56();
    ExampleTexts();
    ReadsBrazilianAmount("1", "234", "56");
    DropsDecimalPoint("1234", "56");
  }

  // ---------------------------------------------------------------------------
  // Labels: `safeStr`, `inferGroup`, `regionFromUF`
  // ---------------------------------------------------------------------------

  /** `safeStr(s)`: the trimmed text of a text column, "" for `null`. */
  function SafeStr(s: Option<string>): (r: string)
    ensures Trim(r) == r
    ensures r == "" <==> forall i :: 0 <= i < |s.GetOr("")| ==> IsSpace(s.GetOr("")[i])
  {
    TrimIdempotent(s.GetOr(""));
    TrimEmptyIffBlank(s.GetOr(""));
    Trim(s.GetOr(""))
  }

  /** `d.split(" ")[0]`: the text up to the first space. */
  function FirstWord(d: string): (r: string)
    ensures IsPrefix(r, d) && ' ' !in r
    ensures |r| == |d| || d[|r|] == ' '
  {
    match IndexOf(d, ' ')
    case None => d
    case Some(k) => d[..k]
  }

  const NoGroup: string := "Sem grupo"

  /**
   * `inferGroup(desc)`: the first space-delimited word of the description,
   * upper-cased, or "Sem grupo" when the description is blank.
   */
  function InferGroup(desc: Option<string>): (r: string)
    ensures r == NoGroup <==> SafeStr(desc) == ""
    ensures SafeStr(desc) != "" ==> r != "" && r == ToUpper(FirstWord(SafeStr(desc))) && ' ' !in r
  {
    var d := SafeStr(desc);
    if d == "" then NoGroup
    else
      var first := FirstWord(d);
      UpperFirstWord(d);
      NoGroupHasSpace();
      if first != "" then ToUpper(first) else NoGroup
  }

  lemma NoGroupHasSpace()
    ensures ' ' in NoGroup
  {
    assert NoGroup[3] == ' ';
  }

  /** The upper-cased first word of a trimmed, non-blank text is a non-empty word. */
  lemma UpperFirstWord(d: string)
    requires d != "" && Trim(d) == d
    ensures FirstWord(d) != "" && ToUpper(FirstWord(d)) != "" && ' ' !in ToUpper(FirstWord(d))
  {
    var first := FirstWord(d);
    assert d[0] != ' ' by {
      assert Trim(d) == d;
    }
    assert first != "";
    var up := ToUpper(first);
    forall i | 0 <= i < |up| ensures up[i] != ' ' {
      assert first[i] != ' ';
      UpperKeepsSpaces(first[i]);
    }
  }

  /** The five regions of Brazil, and the label each is shown with. */
  datatype Region = Norte | Nordeste | CentroOeste | Sudeste | Sul

  function RegionName(g: Region): (r: string)
    ensures r != NoState && r != OtherRegion
    ensures r in {"Norte", "Nordeste", "Centro-Oeste", "Sudeste", "Sul"}
  {
    match g
    case Norte => "Norte"
    case Nordeste => "Nordeste"
    case CentroOeste => "Centro-Oeste"
    case Sudeste => "Sudeste"
    case Sul => "Sul"
  }

  /** The 27 federative units (`UF_TO_REGION`) and their regions. */
  const UfToRegion: map<string, Region> := map[
    "AC" := Norte, "AP" := Norte, "AM" := Norte, "PA" := Norte,
    "RO" := Norte, "RR" := Norte, "TO" := Norte,
    "AL" := Nordeste, "BA" := Nordeste, "CE" := Nordeste, "MA" := Nordeste,
    "PB" := Nordeste, "PE" := Nordeste, "PI" := Nordeste, "RN" := Nordeste,
    "SE" := Nordeste,
    "DF" := CentroOeste, "GO" := CentroOeste, "MT" := CentroOeste, "MS" := CentroOeste,
    "ES" := Sudeste, "MG" := Sudeste, "RJ" := Sudeste, "SP" := Sudeste,
    "PR" := Sul, "RS" := Sul, "SC" := Sul]

  const NoState: string := "—"
  const OtherRegion: string := "Outros"

  /**
   * `regionFromUF(uf)`: "—" for a blank state, the region of a known state
   * code (trimmed, upper-cased), "Outros" for anything else.
   */
  function RegionFromUF(uf: Option<string>): (r: string)
    ensures SafeStr(uf) == "" <==> r == NoState
    ensures r in {NoState, OtherRegion, "Norte", "Nordeste", "Centro-Oeste", "Sudeste", "Sul"}
    ensures r == OtherRegion <==> SafeStr(uf) != "" && ToUpper(SafeStr(uf)) !in UfToRegion
  {
    var u := ToUpper(SafeStr(uf));
    if u == "" then NoState
    else if u in UfToRegion then RegionName(UfToRegion[u])
    else OtherRegion
  }

  predicate IsAsciiUpper(c: char) {
    'A' <= c <= 'Z'
  }

  /** Every state code is two upper-case ASCII letters. */
  lemma UfCodeShape(code: string)
    requires code in UfToRegion
    ensures |code| == 2 && IsAsciiUpper(code[0]) && IsAsciiUpper(code[1])
  {
  }

  /**
   * The region of a known state code does not depend on letter case or on
   * surrounding white space: "sp", " Sp " and "SP" are all "Sudeste".
   */
  lemma RegionIgnoresCaseAndSpaces(code: string, pre: string, y: string, post: string)
    requires code in UfToRegion && ToUpper(y) == code
    requires forall i :: 0 <= i < |pre| ==> IsSpace(pre[i])
    requires forall i :: 0 <= i < |post| ==> IsSpace(post[i])
    ensures RegionFromUF(Some(pre + y + post)) == RegionName(UfToRegion[code])
  {
    UfCodeShape(code);
    assert !IsSpace(y[0]) && !IsSpace(y[1]) by {
      assert UpperChar(y[0]) == code[0] && UpperChar(y[1]) == code[1];
    }
    TrimAround(pre, y, post);
  }

  // ---------------------------------------------------------------------------
  // Keyed accumulation: `groupAgg` and `topNFromMapAgg`
  // ---------------------------------------------------------------------------

  /** The accumulator of one key: the summed amount and quantity. */
  datatype Totals = Totals(total: real, qty: real)

  const Zero: Totals := Totals(0.0, 0.0)

  /** The three functions `groupAgg` is called with: the key, the amount and the quantity of an item. */
  datatype Measure<!T, K> = Measure(key: T -> K, value: T -> real, qty: T -> real)

  function Add<T, K>(t: Totals, x: T, ms: Measure<T, K>): Totals {
    Totals(t.total + ms.value(x), t.qty + ms.qty(x))
  }

  /** The keys of `items` in order of first appearance: the iteration order of the page's `Map`. */
  function KeyOrder<T, K(==, !new)>(items: seq<T>, key: T -> K): (ks: seq<K>)
    ensures Distinct(ks)
    ensures forall k :: k in ks <==> exists i :: 0 <= i < |items| && key(items[i]) == k
  {
    if |items| == 0 then []
    else
      var init := items[..|items| - 1];
      var x := items[|items| - 1];
      var ks := KeyOrder(init, key);
      assert forall i :: 0 <= i < |init| ==> init[i] == items[i];
      if key(x) in ks then ks else ks + [key(x)]
  }

  /** The `Map` `groupAgg` returns, as a map from key to accumulator. */
  function Agg<T, K(==, !new)>(items: seq<T>, ms: Measure<T, K>): (m: map<K, Totals>)
    ensures forall k :: k in m <==> k in KeyOrder(items, ms.key)
  {
    if |items| == 0 then map[]
    else
      var init := items[..|items| - 1];
      var x := items[|items| - 1];
      var m := Agg(init, ms);
      var k := ms.key(x);
      m[k := Add(if k in m then m[k] else Zero, x, ms)]
  }

  /** The sum of `f` over the items whose key is `k`. */
  function SumWhere<T, K(==, !new)>(items: seq<T>, key: T -> K, k: K, f: T -> real): real {
    if |items| == 0 then 0.0
    else
      var x := items[|items| - 1];
      SumWhere(items[..|items| - 1], key, k, f) + (if key(x) == k then f(x) else 0.0)
  }

  /** The sum of `f` over all items. */
  function Sum<T>(items: seq<T>, f: T -> real): real {
    if |items| == 0 then 0.0 else Sum(items[..|items| - 1], f) + f(items[|items| - 1])
  }

  /** `groupAgg(items, keyFn, valueFn, qtyFn)`: one pass, adding each item into the accumulator of its key. */
  method GroupAgg<T, K(==, !new)>(items: seq<T>, ms: Measure<T, K>) returns (order: seq<K>, m: map<K, Totals>)
    ensures order == KeyOrder(items, ms.key) && m == Agg(items, ms)
  {
    order, m := [], map[];
    var i := 0;
    while i < |items|
      invariant 0 <= i <= |items|
      invariant order == KeyOrder(items[..i], ms.key) && m == Agg(items[..i], ms)
    {
      var it := items[i];
      var k := ms.key(it);
      var prev := if k in m then m[k] else Zero;
      if k !in m {
        order := order + [k];
      }
      m := m[k := Add(prev, it, ms)];
      assert items[..i + 1][..i] == items[..i];
      i := i + 1;
    }
    assert items[..|items|] == items;
  }

  /** Each key's accumulator holds the sums of its items; a key with no item sums to zero. */
  lemma {:induction false} AggSums<T, K(!new)>(items: seq<T>, ms: Measure<T, K>, k: K)
    ensures k in Agg(items, ms) ==> Agg(items, ms)[k] == Totals(SumWhere(items, ms.key, k, ms.value), SumWhere(items, ms.key, k, ms.qty))
    ensures k !in Agg(items, ms) ==> SumWhere(items, ms.key, k, ms.value) == 0.0 && SumWhere(items, ms.key, k, ms.qty) == 0.0
  {
    if |items| > 0 {
      var init := items[..|items| - 1];
      AggSums(init, ms, k);
      assert KeyOrder(init, ms.key) <= KeyOrder(items, ms.key) || KeyOrder(init, ms.key) == KeyOrder(items, ms.key);
    }
  }

  /** The sum over the keys `ks` of each key's item sum. */
  function SumKeys<T, K(==, !new)>(items: seq<T>, key: T -> K, ks: seq<K>, f: T -> real): real {
    if |ks| == 0 then 0.0
    else SumKeys(items, key, ks[..|ks| - 1], f) + SumWhere(items, key, ks[|ks| - 1], f)
  }

  lemma {:induction false} SumKeysSnoc<T, K(!new)>(init: seq<T>, x: T, key: T -> K, ks: seq<K>, f: T -> real)
    requires Distinct(ks)
    ensures SumKeys(init + [x], key, ks, f) == SumKeys(init, key, ks, f) + (if key(x) in ks then f(x) else 0.0)
  {
    var items := init + [x];
    assert items[..|items| - 1] == init;
    if |ks| > 0 {
      var ks0 := ks[..|ks| - 1];
      var k := ks[|ks| - 1];
      assert Distinct(ks0);
      SumKeysSnoc(init, x, key, ks0, f);
      assert ks == ks0 + [k];
      assert key(x) in ks <==> key(x) in ks0 || key(x) == k;
      assert k !in ks0;
    }
  }

  /** Summing item sums over a duplicate-free list of keys that covers every item gives the grand total. */
  lemma {:induction false} PartitionSum<T, K(!new)>(items: seq<T>, key: T -> K, ks: seq<K>, f: T -> real)
    requires Distinct(ks)
    requires forall i :: 0 <= i < |items| ==> key(items[i]) in ks
    ensures SumKeys(items, key, ks, f) == Sum(items, f)
  {
    if |items| == 0 {
      SumKeysOfNothing(key, ks, f);
    } else {
      var init := items[..|items| - 1];
      var x := items[|items| - 1];
      PartitionSum(init, key, ks, f);
      assert items == init + [x];
      SumKeysSnoc(init, x, key, ks, f);
    }
  }

  lemma {:induction false} SumKeysOfNothing<T, K(!new)>(key: T -> K, ks: seq<K>, f: T -> real)
    ensures SumKeys([], key, ks, f) == 0.0
  {
    if |ks| > 0 {
      SumKeysOfNothing(key, ks[..|ks| - 1], f);
    }
  }

  function TotalPart(t: Totals): real {
    t.total
  }

  function QtyPart(t: Totals): real {
    t.qty
  }

  /** The sum of one part of the accumulators of the keys `ks`. */
  function MapSum<K>(m: map<K, Totals>, ks: seq<K>, part: Totals -> real): real
    requires forall k :: k in ks ==> k in m
  {
    if |ks| == 0 then 0.0 else MapSum(m, ks[..|ks| - 1], part) + part(m[ks[|ks| - 1]])
  }

  lemma {:induction false} MapSumMatches<T, K(!new)>(m: map<K, Totals>, ks: seq<K>, part: Totals -> real, items: seq<T>, key: T -> K, f: T -> real)
    requires forall k :: k in ks ==> k in m && part(m[k]) == SumWhere(items, key, k, f)
    ensures MapSum(m, ks, part) == SumKeys(items, key, ks, f)
  {
    if |ks| > 0 {
      MapSumMatches(m, ks[..|ks| - 1], part, items, key, f);
    }
  }

  /** The accumulators of all keys add up to the overall amount and the overall quantity. */
  lemma GroupAggTotals<T, K(!new)>(items: seq<T>, ms: Measure<T, K>)
    ensures var m, ks := Agg(items, ms), KeyOrder(items, ms.key);
            MapSum(m, ks, TotalPart) == Sum(items, ms.value) && MapSum(m, ks, QtyPart) == Sum(items, ms.qty)
  {
    var m, ks := Agg(items, ms), KeyOrder(items, ms.key);
    forall k | k in ks ensures k in m && TotalPart(m[k]) == SumWhere(items, ms.key, k, ms.value) && QtyPart(m[k]) == SumWhere(items, ms.key, k, ms.qty) {
      AggSums(items, ms, k);
    }
    MapSumMatches(m, ks, TotalPart, items, ms.key, ms.value);
    MapSumMatches(m, ks, QtyPart, items, ms.key, ms.qty);
    forall i | 0 <= i < |items| ensures ms.key(items[i]) in ks {
    }
    PartitionSum(items, ms.key, ks, ms.value);
    PartitionSum(items, ms.key, ks, ms.qty);
  }

  /** One line of a ranking: `{ name, total, qty }`. */
  datatype Entry<K> = Entry(name: K, total: real, qty: real)

  function EntryTotal<K>(e: Entry<K>): real {
    e.total
  }

  /** `Array.from(map.entries()).map(...)`: the entries in the map's order. */
  function Entries<K>(order: seq<K>, m: map<K, Totals>): (es: seq<Entry<K>>)
    requires forall k :: k in order ==> k in m
    ensures |es| == |order|
    ensures forall i :: 0 <= i < |order| ==> es[i] == Entry(order[i], m[order[i]].total, m[order[i]].qty)
  {
    seq(|order|, i requires 0 <= i < |order| => Entry(order[i], m[order[i]].total, m[order[i]].qty))
  }

  function Min(a: nat, b: nat): nat {
    if a < b then a else b
  }

  /**
   * `topNFromMapAgg(map, n)`: the entries sorted by total, largest first
   * (a stable sort), cut to the first `n`.
   */
  function TopN<K>(order: seq<K>, m: map<K, Totals>, n: nat): (r: seq<Entry<K>>)
    requires forall k :: k in order ==> k in m
    ensures |r| == Min(n, |order|)
    ensures SortedDesc(r, EntryTotal)
    ensures multiset(r) <= multiset(Entries(order, m))
  {
    var s := SortDesc(Entries(order, m), EntryTotal);
    assert s == s[..Min(n, |s|)] + s[Min(n, |s|)..];
    s[..Min(n, |s|)]
  }

  /** No entry left out of the top `n` has a larger total than an entry kept. */
  lemma TopNKeepsLargest<K>(order: seq<K>, m: map<K, Totals>, n: nat)
    requires forall k :: k in order ==> k in m
    ensures var r := TopN(order, m, n);
            forall e, x :: e in Entries(order, m) && e !in r && x in r ==> e.total <= x.total
  {
    var es := Entries(order, m);
    var s := SortDesc(es, EntryTotal);
    var r := TopN(order, m, n);
    assert r == s[..|r|];
    PrefixDominates(s, EntryTotal, |r|);
    forall e | e in es ensures e in s {
      assert e in multiset(es);
    }
  }

  /** In a sequence sorted by decreasing key, nothing after a prefix outranks what is in it. */
  lemma PrefixDominates<T>(s: seq<T>, key: T -> real, k: nat)
    requires k <= |s| && SortedDesc(s, key)
    ensures forall e, x :: e in s && e !in s[..k] && x in s[..k] ==> key(e) <= key(x)
  {
    forall e, x | e in s && e !in s[..k] && x in s[..k] ensures key(e) <= key(x) {
      var j :| 0 <= j < |s| && s[j] == e;
      var i :| 0 <= i < k && s[..k][i] == x;
      assert s[i] == x;
    }
  }

  // ---------------------------------------------------------------------------
  // The quantity column: `qtyFromRowAuto`
  // ---------------------------------------------------------------------------

  /** One column of a database row. */
  datatype Field = Field(name: string, cell: Cell)

  /** A row of `faturamento` as the page receives it: its columns in `Object.keys` order. */
  type Record = seq<Field>

  /** `Object.prototype.hasOwnProperty.call(r, k)`. */
  predicate HasOwn(r: Record, k: string) {
    exists i :: 0 <= i < |r| && r[i].name == k
  }

  /** `r[k]`: the column's value, `undefined` when the row has no such column. */
  function Get(r: Record, k: string): (c: Cell)
    ensures !HasOwn(r, k) ==> c == Undefined
    ensures HasOwn(r, k) ==> exists i :: 0 <= i < |r| && r[i].name == k && r[i].cell == c
  {
    if |r| == 0 then Undefined
    else if r[0].name == k then r[0].cell
    else
      assert forall i :: 0 <= i < |r[1..]| ==> r[1..][i] == r[i + 1];
      Get(r[1..], k)
  }

  /** `Object.keys(r)`. */
  function Names(r: Record): (ks: seq<string>)
    ensures |ks| == |r| && forall i :: 0 <= i < |r| ==> ks[i] == r[i].name
  {
    seq(|r|, i requires 0 <= i < |r| => r[i].name)
  }

  /** `QTY_CANDIDATES`: the column names tried first, in this order. */
  const QtyCandidates: seq<string> := [
    "quantidade", "qtd", "qtde", "quant", "quantidade_vendida", "qtd_vendida",
    "qtd_item", "qtd_itens", "quantidade_itens", "quantidade_produtos", "qtd_produtos"]

  /** `/qtd|qtde|quant|quantidade/i.test(k)`. */
  predicate LooksLikeQty(k: string) {
    var l := ToLower(k);
    Contains(l, "qtd") || Contains(l, "qtde") || Contains(l, "quant") || Contains(l, "quantidade")
  }

  /** `keys.filter(k => /qtd|qtde|quant|quantidade/i.test(k))`. */
  function QtyLike(ks: seq<string>): (r: seq<string>)
    ensures forall k :: k in r <==> k in ks && LooksLikeQty(k)
  {
    if |ks| == 0 then []
    else QtyLike(ks[..|ks| - 1]) + (if LooksLikeQty(ks[|ks| - 1]) then [ks[|ks| - 1]] else [])
  }

  /** The readings of those of `names` the row has, in the order of `names`. */
  function Present(r: Record, names: seq<string>, read: Cell -> real): seq<real> {
    if |names| == 0 then []
    else
      var k := names[|names| - 1];
      Present(r, names[..|names| - 1], read) + (if HasOwn(r, k) then [read(Get(r, k))] else [])
  }

  /** The readings of the columns `names`, in order. */
  function ReadAll(r: Record, names: seq<string>, read: Cell -> real): (vs: seq<real>)
    ensures |vs| == |names| && forall i :: 0 <= i < |names| ==> vs[i] == read(Get(r, names[i]))
  {
    seq(|names|, i requires 0 <= i < |names| => read(Get(r, names[i])))
  }

  /** The first nonzero value of `vs`, 0 when there is none. */
  function FirstNonZero(vs: seq<real>): (v: real)
    ensures v == 0.0 <==> forall i :: 0 <= i < |vs| ==> vs[i] == 0.0
    ensures v != 0.0 ==> exists i :: 0 <= i < |vs| && vs[i] == v && forall j :: 0 <= j < i ==> vs[j] == 0.0
  {
    if |vs| == 0 then 0.0
    else if vs[0] != 0.0 then vs[0]
    else
      var v := FirstNonZero(vs[1..]);
      assert forall i :: 1 <= i < |vs| ==> vs[i] == vs[1..][i - 1];
      v
  }

  /**
   * The quantity of a row given the candidate column names: the first nonzero
   * reading among the candidate columns the row has, then among its columns
   * whose name looks like a quantity, else 0.
   */
  function QtyFrom(rec: Record, cands: seq<string>, read: Cell -> real): real {
    FirstNonZero(Present(rec, cands, read) + ReadAll(rec, QtyLike(Names(rec)), read))
  }

  /** The quantity of a row, 0 for a missing row. */
  function QtyOf(r: Option<Record>): real {
    match r
    case None => 0.0
    case Some(rec) => QtyFrom(rec, QtyCandidates, ReadNumber)
  }

  lemma {:induction false} PresentConcat(r: Record, a: seq<string>, b: seq<string>, read: Cell -> real)
    ensures Present(r, a + b, read) == Present(r, a, read) + Present(r, b, read)
  {
    if |b| == 0 {
      assert a + b == a;
    } else {
      var b0 := b[..|b| - 1];
      assert (a + b)[..|a + b| - 1] == a + b0;
      PresentConcat(r, a, b0, read);
    }
  }

  lemma {:induction false} PresentZeros(r: Record, names: seq<string>, read: Cell -> real)
    requires forall j :: 0 <= j < |names| && HasOwn(r, names[j]) ==> read(Get(r, names[j])) == 0.0
    ensures forall v :: v in Present(r, names, read) ==> v == 0.0
  {
    if |names| > 0 {
      PresentZeros(r, names[..|names| - 1], read);
    }
  }

  lemma {:induction false} SkipZeros(zs: seq<real>, vs: seq<real>)
    requires forall v :: v in zs ==> v == 0.0
    ensures FirstNonZero(zs + vs) == FirstNonZero(vs)
  {
    if |zs| > 0 {
      assert zs[0] in zs;
      assert (zs + vs)[0] == 0.0;
      assert (zs + vs)[1..] == zs[1..] + vs;
      assert forall v :: v in zs[1..] ==> v in zs;
      SkipZeros(zs[1..], vs);
    } else {
      assert zs + vs == vs;
    }
  }

  /** The readings of `names` split around a present column `names[i]`. */
  lemma PresentAround(r: Record, names: seq<string>, read: Cell -> real, i: nat)
    requires i < |names| && HasOwn(r, names[i])
    ensures Present(r, names, read) == Present(r, names[..i], read) + [read(Get(r, names[i]))] + Present(r, names[i + 1..], read)
  {
    assert names == names[..i] + [names[i]] + names[i + 1..];
    PresentConcat(r, names[..i] + [names[i]], names[i + 1..], read);
    PresentConcat(r, names[..i], [names[i]], read);
    assert [names[i]][..0] == [];
  }

  /** Among readings split around a nonzero one, the first nonzero is that one. */
  lemma FirstNonZeroAt(zs: seq<real>, v: real, rest: seq<real>)
    requires forall z :: z in zs ==> z == 0.0
    requires v != 0.0
    ensures FirstNonZero(zs + [v] + rest) == v
  {
    assert zs + [v] + rest == zs + ([v] + rest);
    SkipZeros(zs, [v] + rest);
  }

  /**
   * The candidate columns are tried in list order: the first one the row has
   * that reads nonzero is the row's quantity.
   */
  /** No candidate before position `i` that the row has reads nonzero. */
  ghost predicate NoOwnHit(rec: Record, cands: seq<string>, read: Cell -> real, i: nat)
    requires i <= |cands|
  {
    forall j :: 0 <= j < i && HasOwn(rec, cands[j]) ==> read(Get(rec, cands[j])) == 0.0
  }

  /** No name before position `j` reads nonzero. */
  ghost predicate NoHit(rec: Record, names: seq<string>, read: Cell -> real, j: nat)
    requires j <= |names|
  {
    forall l :: 0 <= l < j ==> read(Get(rec, names[l])) == 0.0
  }

  lemma NoOwnHitStep(rec: Record, cands: seq<string>, read: Cell -> real, i: nat)
    requires i < |cands| && NoOwnHit(rec, cands, read, i)
    requires HasOwn(rec, cands[i]) ==> read(Get(rec, cands[i])) == 0.0
    ensures NoOwnHit(rec, cands, read, i + 1)
  {
  }

  lemma NoHitStep(rec: Record, names: seq<string>, read: Cell -> real, j: nat)
    requires j < |names| && NoHit(rec, names, read, j)
    requires read(Get(rec, names[j])) == 0.0
    ensures NoHit(rec, names, read, j + 1)
  {
  }

  lemma CandidateWins(rec: Record, cands: seq<string>, read: Cell -> real, i: nat)
    requires i < |cands| && HasOwn(rec, cands[i]) && read(Get(rec, cands[i])) != 0.0
    requires NoOwnHit(rec, cands, read, i)
    ensures QtyFrom(rec, cands, read) == read(Get(rec, cands[i]))
  {
    var v := read(Get(rec, cands[i]));
    PresentAround(rec, cands, read, i);
    PresentZeros(rec, cands[..i], read);
    var tail := ReadAll(rec, QtyLike(Names(rec)), read);
    assert Present(rec, cands, read) + tail == Present(rec, cands[..i], read) + [v] + (Present(rec, cands[i + 1..], read) + tail);
    FirstNonZeroAt(Present(rec, cands[..i], read), v, Present(rec, cands[i + 1..], read) + tail);
  }

  /**
   * When no candidate column reads nonzero, the columns whose names look like
   * a quantity are tried in column order.
   */
  /** The first nonzero value at index `j` is what `FirstNonZero` picks. */
  lemma FirstNonZeroIndex(vs: seq<real>, j: nat)
    requires j < |vs| && vs[j] != 0.0
    requires forall l :: 0 <= l < j ==> vs[l] == 0.0
    ensures FirstNonZero(vs) == vs[j]
  {
    assert vs == vs[..j] + [vs[j]] + vs[j + 1..];
    FirstNonZeroAt(vs[..j], vs[j], vs[j + 1..]);
  }

  lemma FallbackWins(rec: Record, cands: seq<string>, read: Cell -> real, j: nat)
    requires NoOwnHit(rec, cands, read, |cands|)
    requires j < |QtyLike(Names(rec))|
    requires read(Get(rec, QtyLike(Names(rec))[j])) != 0.0
    requires NoHit(rec, QtyLike(Names(rec)), read, j)
    ensures QtyFrom(rec, cands, read) == read(Get(rec, QtyLike(Names(rec))[j]))
  {
    var qs := QtyLike(Names(rec));
    var vs := ReadAll(rec, qs, read);
    var ps := Present(rec, cands, read);
    assert QtyFrom(rec, cands, read) == FirstNonZero(ps + vs);
    assert FirstNonZero(ps + vs) == FirstNonZero(vs) by {
      PresentZeros(rec, cands, read);
      SkipZeros(ps, vs);
    }
    assert FirstNonZero(vs) == vs[j] by {
      assert forall l :: 0 <= l < j ==> vs[l] == read(Get(rec, qs[l]));
      FirstNonZeroIndex(vs, j);
    }
  }

  /** Nothing reads nonzero: the quantity is 0. */
  lemma NothingWins(rec: Record, cands: seq<string>, read: Cell -> real)
    requires NoOwnHit(rec, cands, read, |cands|)
    requires NoHit(rec, QtyLike(Names(rec)), read, |QtyLike(Names(rec))|)
    ensures QtyFrom(rec, cands, read) == 0.0
  {
    var vs := ReadAll(rec, QtyLike(Names(rec)), read);
    PresentZeros(rec, cands, read);
    SkipZeros(Present(rec, cands, read), vs);
  }

  /**
   * The two loops of `qtyFromRowAuto` with their early returns, over any list
   * of candidate names and any reading of a cell.
   */
  method ScanQty(rec: Record, cands: seq<string>, read: Cell -> real) returns (q: real)
    ensures q == QtyFrom(rec, cands, read)
  {
    var i := 0;
    while i < |cands|
      invariant 0 <= i <= |cands|
      invariant NoOwnHit(rec, cands, read, i)
    {
      var k := cands[i];
      if HasOwn(rec, k) {
        var v := read(Get(rec, k));
        if v != 0.0 {
          CandidateWins(rec, cands, read, i);
          return v;
        }
      }
      NoOwnHitStep(rec, cands, read, i);
      i := i + 1;
    }
    var possible := QtyLike(Names(rec));
    var j := 0;
    while j < |possible|
      invariant 0 <= j <= |possible|
      invariant NoHit(rec, possible, read, j)
    {
      var v := read(Get(rec, possible[j]));
      if v != 0.0 {
        FallbackWins(rec, cands, read, j);
        return v;
      }
      NoHitStep(rec, possible, read, j);
      j := j + 1;
    }
    NothingWins(rec, cands, read);
    return 0.0;
  }

  /** `qtyFromRowAuto(r)`: 0 for a missing row, else the scan with `QTY_CANDIDATES` and `num`. */
  method QtyFromRowAuto(r: Option<Record>) returns (q: real)
    ensures q == QtyOf(r)
  {
    if r.None? {
      return 0.0;
    }
    q := ScanQty(r.value, QtyCandidates, ReadNumber);
  }

  // ---------------------------------------------------------------------------
  // Dates: `availableYears` and `monthsCount`
  // ---------------------------------------------------------------------------

  /** `Date.getMonth()`: 0 for January up to 11 for December. */
  type MonthIndex = m: int | 0 <= m < 12

  /**
   * What `parseDate` gives back for a present date: `parseISO` turns text it
   * cannot read into an invalid date, whose year and month are `NaN`.
   */
  datatype ParsedDate = InvalidDate | ValidDate(year: int, month: MonthIndex)

  /** Every date is valid and the years never go down. */
  predicate YearsAscending(dates: seq<ParsedDate>) {
    && (forall i :: 0 <= i < |dates| ==> dates[i].ValidDate?)
    && (forall i, j :: 0 <= i < j < |dates| ==> dates[i].year <= dates[j].year)
  }

  /**
   * `availableYears`, given the parsed dates of the rows (missing ones
   * dropped) in row order: every year from that of the last date down to that
   * of the first. Comparisons with `NaN` are false, so an invalid first or
   * last date gives no year at all.
   */
  method AvailableYears(dates: seq<ParsedDate>) returns (ys: seq<int>)
    ensures |dates| == 0 || dates[0].InvalidDate? || dates[|dates| - 1].InvalidDate? ==> ys == []
    ensures |dates| > 0 && dates[0].ValidDate? && dates[|dates| - 1].ValidDate? ==>
              var lo, hi := dates[0].year, dates[|dates| - 1].year;
              && |ys| == (if lo <= hi then hi - lo + 1 else 0)
              && (forall i :: 0 <= i < |ys| ==> ys[i] == hi - i)
              && (forall y :: y in ys <==> lo <= y <= hi)
    ensures YearsAscending(dates) ==> forall i :: 0 <= i < |dates| ==> dates[i].year in ys
  {
    ys := [];
    if |dates| == 0 || dates[0].InvalidDate? || dates[|dates| - 1].InvalidDate? {
      return;
    }
    var lo, hi := dates[0].year, dates[|dates| - 1].year;
    var y := hi;
    while y >= lo
      invariant y <= hi
      invariant lo <= hi ==> y >= lo - 1
      invariant lo > hi ==> y == hi
      invariant |ys| == hi - y
      invariant forall i :: 0 <= i < |ys| ==> ys[i] == hi - i
      decreases y - lo + 1
    {
      ys := ys + [y];
      y := y - 1;
    }
    forall x | lo <= x <= hi ensures x in ys {
      assert ys[hi - x] == x;
    }
  }

  /** The key `monthsCount` puts in its set: `"<year>-<month>"`, or `"NaN-NaN"` for an invalid date. */
  datatype MonthStamp = Stamp(year: int, month: MonthIndex) | NaNStamp

  function StampOf(d: ParsedDate): MonthStamp {
    match d
    case InvalidDate => NaNStamp
    case ValidDate(y, m) => Stamp(y, m)
  }

  /** The distinct months of the dated rows. */
  function Stamps(emitted: seq<Option<ParsedDate>>): set<MonthStamp> {
    set i | 0 <= i < |emitted| && emitted[i].Some? :: StampOf(emitted[i].value)
  }

  /** The number of dated rows. */
  function DatedCount(emitted: seq<Option<ParsedDate>>): (n: nat)
    ensures n <= |emitted|
  {
    if |emitted| == 0 then 0
    else DatedCount(emitted[..|emitted| - 1]) + (if emitted[|emitted| - 1].Some? then 1 else 0)
  }

  /** One more row adds its month, if it has a date. */
  lemma StampsSnoc(emitted: seq<Option<ParsedDate>>, i: nat)
    requires i < |emitted|
    ensures Stamps(emitted[..i + 1])
         == Stamps(emitted[..i]) + (if emitted[i].Some? then {StampOf(emitted[i].value)} else {})
  {
    var p, q := emitted[..i], emitted[..i + 1];
    var extra: set<MonthStamp> := if emitted[i].Some? then {StampOf(emitted[i].value)} else {};
    forall m | m in Stamps(q)
      ensures m in Stamps(p) + extra
    {
      var j :| 0 <= j < |q| && q[j].Some? && StampOf(q[j].value) == m;
      if j < i {
        assert p[j] == q[j];
      }
    }
    forall m | m in Stamps(p) + extra
      ensures m in Stamps(q)
    {
      if m in Stamps(p) {
        var j :| 0 <= j < |p| && p[j].Some? && StampOf(p[j].value) == m;
        assert q[j] == p[j];
      } else {
        assert q[i] == emitted[i];
      }
    }
  }

  /** There are never more distinct months than dated rows. */
  lemma {:induction false} StampsBound(emitted: seq<Option<ParsedDate>>)
    ensures |Stamps(emitted)| <= DatedCount(emitted)
  {
    if |emitted| > 0 {
      var init := emitted[..|emitted| - 1];
      StampsBound(init);
      StampsSnoc(emitted, |emitted| - 1);
      assert emitted[..|emitted|] == emitted;
    }
  }

  /**
   * `monthsCount` over the rows' parsed dates (`None` for a missing date): the
   * number of distinct months, at least 1.
   */
  method MonthsCount(emitted: seq<Option<ParsedDate>>) returns (n: nat)
    ensures n == if |Stamps(emitted)| > 1 then |Stamps(emitted)| else 1
    ensures 1 <= n && (DatedCount(emitted) > 0 ==> n <= DatedCount(emitted))
  {
    var seen: set<MonthStamp> := {};
    var i := 0;
    while i < |emitted|
      invariant 0 <= i <= |emitted|
      invariant seen == Stamps(emitted[..i])
    {
      StampsSnoc(emitted, i);
      match emitted[i] {
        case None =>
        case Some(d) => seen := seen + {StampOf(d)};
      }
      i := i + 1;
    }
    assert emitted[..i] == emitted;
    n := if |seen| > 1 then |seen| else 1;
    StampsBound(emitted);
  }

  // ---------------------------------------------------------------------------
  // The month view of the evolution chart
  // ---------------------------------------------------------------------------

  /** A row of `faturamento`: its parsed emission date and its columns. */
  datatype Sale = Sale(emitted: Option<ParsedDate>, columns: Record)

  /** `num(r.valor_total)`. */
  function SaleValue(s: Sale): real {
    ReadNumber(Get(s.columns, "valor_total"))
  }

  /** `qtyFromRowAuto(r)`. */
  function SaleQty(s: Sale): real {
    QtyOf(Some(s.columns))
  }

  /** The month key of the chart: `-1` for a missing date, `NaN` for an invalid one. */
  datatype MonthSlot = Slot(m: int) | NaNSlot

  function MonthKey(s: Sale): MonthSlot {
    match s.emitted
    case None => Slot(-1)
    case Some(InvalidDate) => NaNSlot
    case Some(ValidDate(_, m)) => Slot(m)
  }

  /** `MONTHS[m].label`. */
  const MonthLabels: seq<string> := ["Jan", "Fev", "Mar", "Abr", "Mai", "Jun", "Jul", "Ago", "Set", "Out", "Nov", "Dez"]

  /** One point of the chart: `{ label, monthIndex, total, quantidade }` (`label` is `monthLabel` here). */
  datatype MonthPoint = MonthPoint(monthLabel: string, monthIndex: int, total: real, quantidade: real)

  function SumPoints(arr: seq<MonthPoint>): real {
    if |arr| == 0 then 0.0 else SumPoints(arr[..|arr| - 1]) + arr[|arr| - 1].total
  }

  /** The slots of the months `0 .. n-1`. */
  function MonthSlots(n: nat): (ks: seq<MonthSlot>)
    ensures |ks| == n && forall i :: 0 <= i < n ==> ks[i] == Slot(i)
  {
    seq(n, i => Slot(i))
  }

  /** The twelve months, the missing dates and the invalid dates take in every row exactly once. */
  lemma AllSlots(rows: seq<Sale>, f: Sale -> real)
    ensures SumKeys(rows, MonthKey, MonthSlots(12), f) + SumWhere(rows, MonthKey, Slot(-1), f)
              + SumWhere(rows, MonthKey, NaNSlot, f) == Sum(rows, f)
  {
    var ks := MonthSlots(12) + [Slot(-1), NaNSlot];
    assert Distinct(ks) by {
      forall i, j | 0 <= i < j < |ks| ensures ks[i] != ks[j] {
      }
    }
    forall i | 0 <= i < |rows| ensures MonthKey(rows[i]) in ks {
      match rows[i].emitted {
        case None => assert ks[12] == Slot(-1);
        case Some(InvalidDate) => assert ks[13] == NaNSlot;
        case Some(ValidDate(_, m)) => assert ks[m] == Slot(m);
      }
    }
    PartitionSum(rows, MonthKey, ks, f);
    assert ks[..13] == MonthSlots(12) + [Slot(-1)];
    assert ks[..13][..12] == MonthSlots(12);
  }

  /** Points carrying the month sums of the first `n` months add up to those sums. */
  lemma {:induction false} PointsSum(arr: seq<MonthPoint>, rows: seq<Sale>, value: Sale -> real, n: nat)
    requires n <= |arr|
    requires forall j :: 0 <= j < n ==> arr[j].total == SumWhere(rows, MonthKey, Slot(j), value)
    ensures SumPoints(arr[..n]) == SumKeys(rows, MonthKey, MonthSlots(n), value)
  {
    if n > 0 {
      PointsSum(arr, rows, value, n - 1);
      assert arr[..n][..n - 1] == arr[..n - 1];
      assert MonthSlots(n)[..n - 1] == MonthSlots(n - 1);
    }
  }

  lemma PointsWhole(arr: seq<MonthPoint>)
    ensures arr[..|arr|] == arr
  {
  }

  /** One more month point, for the month after the ones already built. */
  lemma PointsSnoc(arr: seq<MonthPoint>, point: MonthPoint, rows: seq<Sale>, value: Sale -> real, qty: Sale -> real)
    requires |arr| < 12
    requires forall j :: 0 <= j < |arr| ==>
               arr[j] == MonthPoint(MonthLabels[j], j, SumWhere(rows, MonthKey, Slot(j), value), SumWhere(rows, MonthKey, Slot(j), qty))
    requires point == MonthPoint(MonthLabels[|arr|], |arr|, SumWhere(rows, MonthKey, Slot(|arr|), value),
                                 SumWhere(rows, MonthKey, Slot(|arr|), qty))
    ensures forall j :: 0 <= j < |arr| + 1 ==>
              (arr + [point])[j] == MonthPoint(MonthLabels[j], j, SumWhere(rows, MonthKey, Slot(j), value), SumWhere(rows, MonthKey, Slot(j), qty))
  {
  }

  /**
   * The month view of `evolution`: `groupAgg` by month, then one point per
   * month, zero for a month without rows. The twelve points hold every row
   * with a valid date.
   */
  method EvolutionMes(rows: seq<Sale>, value: Sale -> real, qty: Sale -> real) returns (arr: seq<MonthPoint>)
    ensures |arr| == 12
    ensures forall m :: 0 <= m < 12 ==>
              arr[m] == MonthPoint(MonthLabels[m], m, SumWhere(rows, MonthKey, Slot(m), value), SumWhere(rows, MonthKey, Slot(m), qty))
    ensures SumPoints(arr) == Sum(rows, value) - SumWhere(rows, MonthKey, Slot(-1), value) - SumWhere(rows, MonthKey, NaNSlot, value)
  {
    var ms := Measure(MonthKey, value, qty);
    var order, groups := GroupAgg(rows, ms);
    arr := [];
    var m := 0;
    while m < 12
      invariant 0 <= m <= 12 && |arr| == m
      invariant forall j :: 0 <= j < m ==>
                  arr[j] == MonthPoint(MonthLabels[j], j, SumWhere(rows, MonthKey, Slot(j), value), SumWhere(rows, MonthKey, Slot(j), qty))
    {
      var obj := if Slot(m) in groups then groups[Slot(m)] else Zero;
      AggSums(rows, ms, Slot(m));
      var point := MonthPoint(MonthLabels[m], m, obj.total, obj.qty);
      PointsSnoc(arr, point, rows, value, qty);
      arr := arr + [point];
      m := m + 1;
    }
    PointsSum(arr, rows, value, 12);
    PointsWhole(arr);
    AllSlots(rows, value);
  }

  // ---------------------------------------------------------------------------
  // The ranking table: `toggleSort` and the sorted rows
  // ---------------------------------------------------------------------------

  datatype SortKey = Total | AvgMoney | Qty | Pmv
  datatype SortDir = Asc | Desc

  /** `sortKey` and `sortDir` of a table. */
  datatype SortState = SortState(key: SortKey, dir: SortDir)

  /** A table starts sorted by total, largest first. */
  const InitialSort := SortState(Total, Desc)

  /** `toggleSort(nextKey)`: a new column sorts descending; the current column flips direction. */
  function ToggleSort(st: SortState, next: SortKey): (r: SortState)
    ensures r.key == next
    ensures st.key != next ==> r.dir == Desc
    ensures st.key == next ==> r.dir != st.dir
  {
    if st.key != next then SortState(next, Desc)
    else SortState(next, if st.dir == Desc then Asc else Desc)
  }

  /** Clicking the same column twice restores the table's order. */
  lemma {:induction false} ToggleTwice(st: SortState, k: SortKey)
    ensures ToggleSort(ToggleSort(st, k), k) == (if st.key == k then st else SortState(k, Asc))
  {
    if st.key == k {
      assert st.dir == Desc || st.dir == Asc;
    }
  }

  /** A line of the table: the ranking entry with its monthly average and its average price. */
  datatype MiniRow = MiniRow(name: string, total: real, qty: real, avgMoney: real, pmv: real)

  /** `Math.max(1, monthsCount || 1)`. */
  function Divisor(monthsCount: int): (d: int)
    ensures d >= 1 && (monthsCount >= 1 ==> d == monthsCount)
  {
    if monthsCount > 1 then monthsCount else 1
  }

  /** One line of the table, from an entry of the ranking. */
  function MiniRowOf(e: Entry<string>, monthsCount: int): (r: MiniRow)
    ensures r.name == e.name && r.total == e.total && r.qty == e.qty
    ensures r.avgMoney * Divisor(monthsCount) as real == e.total
    ensures e.qty != 0.0 ==> r.pmv * e.qty == e.total
    ensures e.qty == 0.0 ==> r.pmv == 0.0
  {
    MiniRow(e.name, e.total, e.qty, e.total / Divisor(monthsCount) as real,
            if e.qty != 0.0 then e.total / e.qty else 0.0)
  }

  /** `Number(a[sortKey] || 0)`. */
  function SortValue(r: MiniRow, k: SortKey): real {
    match k
    case Total => r.total
    case AvgMoney => r.avgMoney
    case Qty => r.qty
    case Pmv => r.pmv
  }

  /** "The comparator does not put `a` after `b`." */
  function Before(st: SortState): (MiniRow, MiniRow) -> bool {
    (a: MiniRow, b: MiniRow) =>
      if st.dir == Asc then SortValue(a, st.key) <= SortValue(b, st.key)
      else SortValue(a, st.key) >= SortValue(b, st.key)
  }

  /** The lines of the table in the order the sort state asks for (a stable sort, as `Array.prototype.sort`). */
  function TableRows(data: seq<Entry<string>>, monthsCount: int, st: SortState): seq<MiniRow> {
    SortBy(seq(|data|, i requires 0 <= i < |data| => MiniRowOf(data[i], monthsCount)), Before(st))
  }

  /** The table shows every entry once, ordered by the chosen column in the chosen direction. */
  lemma TableRowsSorted(data: seq<Entry<string>>, monthsCount: int, st: SortState)
    ensures var rows := TableRows(data, monthsCount, st);
            && multiset(rows) == multiset(seq(|data|, i requires 0 <= i < |data| => MiniRowOf(data[i], monthsCount)))
            && (forall i, j :: 0 <= i < j < |rows| && st.dir == Asc ==> SortValue(rows[i], st.key) <= SortValue(rows[j], st.key))
            && (forall i, j :: 0 <= i < j < |rows| && st.dir == Desc ==> SortValue(rows[i], st.key) >= SortValue(rows[j], st.key))
  {
    var base := seq(|data|, i requires 0 <= i < |data| => MiniRowOf(data[i], monthsCount));
    var le := Before(st);
    assert TotalPreorderOn(base, le);
    SortByOrdered(base, le);
  }
}

=== FILE: grouping.dfy ===
/**
 * Grouping by a string key, as the pages do with a `Map` from key to array:
 * keys in order of first appearance, each group the elements with that key in
 * their original order. GroupBy is the loop that builds the map; DistinctKeys
 * and Select are its specification.
 */
module Grouping {
  import opened Sorting

  /** The distinct keys of `s`, in order of first appearance (a `Map`'s key order). */
  function DistinctKeys<T>(s: seq<T>, key: T -> string): (r: seq<string>)
    ensures forall i, j :: 0 <= i < j < |r| ==> r[i] != r[j]
  {
    if |s| == 0 then []
    else
      var prev := DistinctKeys(s[..|s| - 1], key);
      var k := key(s[|s| - 1]);
      if k in prev then prev else prev + [k]
  }

  /** The keys listed are exactly the keys that occur. */
  lemma {:induction false} DistinctKeysMembers<T>(s: seq<T>, key: T -> string)
    ensures forall k :: k in DistinctKeys(s, key) <==> exists i :: 0 <= i < |s| && key(s[i]) == k
  {
    if |s| > 0 {
      var init := s[..|s| - 1];
      DistinctKeysMembers(init, key);
      assert forall i :: 0 <= i < |init| ==> init[i] == s[i];
    }
  }

  /** `s.filter(x => key(x) === k)`. */
  function Select<T>(s: seq<T>, key: T -> string, k: string): (r: seq<T>)
    ensures |r| <= |s|
  {
    if |s| == 0 then []
    else
      var x := s[|s| - 1];
      Select(s[..|s| - 1], key, k) + (if key(x) == k then [x] else [])
  }

  /** The group of `k` holds elements of `s` with key `k`, and every such element. */
  lemma {:induction false} SelectMembers<T>(s: seq<T>, key: T -> string, k: string)
    ensures forall i :: 0 <= i < |Select(s, key, k)| ==> Select(s, key, k)[i] in s && key(Select(s, key, k)[i]) == k
    ensures forall i :: 0 <= i < |s| && key(s[i]) == k ==> s[i] in Select(s, key, k)
  {
    if |s| > 0 {
      var init := s[..|s| - 1];
      SelectMembers(init, key, k);
      assert s == init + [s[|s| - 1]];
    }
  }

  lemma SelectAppend<T>(s: seq<T>, x: T, key: T -> string, k: string)
    ensures Select(s + [x], key, k) == Select(s, key, k) + (if key(x) == k then [x] else [])
  {
    assert (s + [x])[..|s|] == s;
  }

  lemma {:induction false} SelectConcat<T>(a: seq<T>, b: seq<T>, key: T -> string, k: string)
    ensures Select(a + b, key, k) == Select(a, key, k) + Select(b, key, k)
  {
    if |b| == 0 {
      assert a + b == a;
    } else {
      var b' := b[..|b| - 1];
      var x := b[|b| - 1];
      assert a + b == (a + b') + [x];
      assert b == b' + [x];
      SelectConcat(a, b', key, k);
      SelectAppend(a + b', x, key, k);
      SelectAppend(b', x, key, k);
    }
  }

  lemma {:induction false} SelectEmpty<T>(s: seq<T>, key: T -> string, k: string)
    requires k !in DistinctKeys(s, key)
    ensures Select(s, key, k) == []
  {
    if |s| > 0 {
      var init := s[..|s| - 1];
      assert DistinctKeys(init, key) <= DistinctKeys(s, key);
      SelectEmpty(init, key, k);
    }
  }

  lemma SelectNonEmpty<T>(s: seq<T>, key: T -> string, k: string)
    requires k in DistinctKeys(s, key)
    ensures Select(s, key, k) != []
  {
    DistinctKeysMembers(s, key);
    SelectMembers(s, key, k);
    var i :| 0 <= i < |s| && key(s[i]) == k;
    assert s[i] in Select(s, key, k);
  }

  /** The groups of `keys`, one after the other. */
  function Concat<T>(s: seq<T>, key: T -> string, keys: seq<string>): seq<T> {
    if |keys| == 0 then [] else Select(s, key, keys[0]) + Concat(s, key, keys[1..])
  }

  lemma {:induction false} ConcatAppendKey<T>(s: seq<T>, key: T -> string, keys: seq<string>, k: string)
    ensures Concat(s, key, keys + [k]) == Concat(s, key, keys) + Select(s, key, k)
  {
    if |keys| == 0 {
      assert keys + [k] == [k];
    } else {
      assert (keys + [k])[1..] == keys[1..] + [k];
      ConcatAppendKey(s, key, keys[1..], k);
    }
  }

  lemma {:induction false} ConcatAppendOther<T>(s: seq<T>, x: T, key: T -> string, keys: seq<string>)
    requires key(x) !in keys
    ensures Concat(s + [x], key, keys) == Concat(s, key, keys)
  {
    if |keys| > 0 {
      ConcatAppendOther(s, x, key, keys[1..]);
      SelectAppend(s, x, key, keys[0]);
    }
  }

  /** Adding `x` to `s` adds it once to the groups when its key is listed once. */
  lemma {:induction false} ConcatAppendRow<T>(s: seq<T>, x: T, key: T -> string, keys: seq<string>)
    requires forall i, j :: 0 <= i < j < |keys| ==> keys[i] != keys[j]
    requires key(x) in keys
    ensures multiset(Concat(s + [x], key, keys)) == multiset(Concat(s, key, keys)) + multiset{x}
  {
    if key(x) == keys[0] {
      assert key(x) !in keys[1..];
      ConcatAppendHead(s, x, key, keys);
    } else {
      ConcatAppendRow(s, x, key, keys[1..]);
      ConcatAppendTail(s, x, key, keys);
    }
  }

  lemma ConcatAppendHead<T>(s: seq<T>, x: T, key: T -> string, keys: seq<string>)
    requires |keys| > 0 && key(x) == keys[0] && key(x) !in keys[1..]
    ensures multiset(Concat(s + [x], key, keys)) == multiset(Concat(s, key, keys)) + multiset{x}
  {
    SelectAppend(s, x, key, keys[0]);
    ConcatAppendOther(s, x, key, keys[1..]);
    var g, rest := Select(s, key, keys[0]), Concat(s, key, keys[1..]);
    assert Concat(s + [x], key, keys) == (g + [x]) + rest;
  }

  lemma ConcatAppendTail<T>(s: seq<T>, x: T, key: T -> string, keys: seq<string>)
    requires |keys| > 0 && key(x) != keys[0]
    requires multiset(Concat(s + [x], key, keys[1..])) == multiset(Concat(s, key, keys[1..])) + multiset{x}
    ensures multiset(Concat(s + [x], key, keys)) == multiset(Concat(s, key, keys)) + multiset{x}
  {
    SelectAppend(s, x, key, keys[0]);
    assert Concat(s + [x], key, keys) == Select(s, key, keys[0]) + Concat(s + [x], key, keys[1..]);
  }

  /** Every element of `s` lies in exactly one group: the groups partition `s`. */
  lemma {:induction false} GroupsPartition<T>(s: seq<T>, key: T -> string)
    ensures multiset(Concat(s, key, DistinctKeys(s, key))) == multiset(s)
  {
    if |s| > 0 {
      var init := s[..|s| - 1];
      var x := s[|s| - 1];
      assert s == init + [x];
      GroupsPartition(init, key);
      var keys := DistinctKeys(init, key);
      if key(x) in keys {
        ConcatAppendRow(init, x, key, keys);
      } else {
        ConcatAppendOther(init, x, key, keys);
        ConcatAppendKey(s, key, keys, key(x));
        SelectAppend(init, x, key, key(x));
        SelectEmpty(init, key, key(x));
      }
    }
  }

  /** The groups' sums add up to the sum of `s`. */
  lemma GroupsSum<T>(s: seq<T>, key: T -> string, f: T -> int)
    ensures SumBy(Concat(s, key, DistinctKeys(s, key)), f) == SumBy(s, f)
  {
    GroupsPartition(s, key);
    SumByPermutation(Concat(s, key, DistinctKeys(s, key)), s, f);
  }

  lemma {:induction false} ConcatOfEmpty<T>(key: T -> string, keys: seq<string>)
    ensures Concat([], key, keys) == []
  {
    if |keys| > 0 {
      ConcatOfEmpty(key, keys[1..]);
    }
  }

  /**
   * When `keys` lists every key of `s` once, the groups of `keys` hold every
   * element of `s` once, whatever the order of `keys`.
   */
  lemma {:induction false} ConcatCovers<T>(s: seq<T>, key: T -> string, keys: seq<string>)
    requires forall i, j :: 0 <= i < j < |keys| ==> keys[i] != keys[j]
    requires forall i :: 0 <= i < |s| ==> key(s[i]) in keys
    ensures multiset(Concat(s, key, keys)) == multiset(s)
  {
    if |s| == 0 {
      ConcatOfEmpty(key, keys);
    } else {
      var init := s[..|s| - 1];
      var x := s[|s| - 1];
      assert s == init + [x];
      assert key(x) in keys;
      ConcatCovers(init, key, keys);
      ConcatAppendRow(init, x, key, keys);
    }
  }

  /** The sum of `f` over each group of `keys`, added up. */
  function SumGroups<T>(s: seq<T>, key: T -> string, keys: seq<string>, f: T -> int): int {
    if |keys| == 0 then 0 else SumBy(Select(s, key, keys[0]), f) + SumGroups(s, key, keys[1..], f)
  }

  lemma {:induction false} SumGroupsIsConcat<T>(s: seq<T>, key: T -> string, keys: seq<string>, f: T -> int)
    ensures SumGroups(s, key, keys, f) == SumBy(Concat(s, key, keys), f)
  {
    if |keys| > 0 {
      SumGroupsIsConcat(s, key, keys[1..], f);
      SumByConcat(Select(s, key, keys[0]), Concat(s, key, keys[1..]), f);
    }
  }

  /** Group sums over a list holding every key once add up to the whole sum. */
  lemma SumGroupsCovers<T>(s: seq<T>, key: T -> string, keys: seq<string>, f: T -> int)
    requires forall i, j :: 0 <= i < j < |keys| ==> keys[i] != keys[j]
    requires forall i :: 0 <= i < |s| ==> key(s[i]) in keys
    ensures SumGroups(s, key, keys, f) == SumBy(s, f)
  {
    SumGroupsIsConcat(s, key, keys, f);
    ConcatCovers(s, key, keys);
    SumByPermutation(Concat(s, key, keys), s, f);
  }

  /** The sum of `f` over each group of `keys`, one entry per key. */
  function GroupSums<T>(s: seq<T>, key: T -> string, keys: seq<string>, f: T -> int): (r: seq<int>)
    ensures |r| == |keys|
    ensures forall i :: 0 <= i < |keys| ==> r[i] == SumBy(Select(s, key, keys[i]), f)
  {
    seq(|keys|, i requires 0 <= i < |keys| => SumBy(Select(s, key, keys[i]), f))
  }

  lemma {:induction false} SumSeqGroupSums<T>(s: seq<T>, key: T -> string, keys: seq<string>, f: T -> int)
    ensures SumSeq(GroupSums(s, key, keys, f)) == SumGroups(s, key, keys, f)
  {
    if |keys| > 0 {
      SumSeqGroupSums(s, key, keys[1..], f);
      assert GroupSums(s, key, keys, f)[1..] == GroupSums(s, key, keys[1..], f);
    }
  }

  /** The keys that occur in `s`. */
  function KeysOf<T>(s: seq<T>, key: T -> string): set<string> {
    set i | 0 <= i < |s| :: key(s[i])
  }

  function SeqSet(ks: seq<string>): set<string> {
    set k | k in ks
  }

  /**
   * A keyed accumulation: each key of `init` and each key occurring in `s`
   * mapped to the sum of `f` over the elements with that key.
   */
  function KeySums<T>(s: seq<T>, key: T -> string, f: T -> int, init: seq<string>): map<string, int> {
    map k | k in SeqSet(init) + KeysOf(s, key) :: SumBy(Select(s, key, k), f)
  }

  lemma KeysOfAppend<T>(s: seq<T>, x: T, key: T -> string)
    ensures KeysOf(s + [x], key) == KeysOf(s, key) + {key(x)}
  {
    assert forall i :: 0 <= i < |s| ==> (s + [x])[i] == s[i];
    assert (s + [x])[|s|] == x;
  }

  /** A key that does not occur selects nothing. */
  lemma NotAKey<T>(s: seq<T>, key: T -> string, k: string)
    requires k !in KeysOf(s, key)
    ensures Select(s, key, k) == []
  {
    assert forall i :: 0 <= i < |s| ==> key(s[i]) in KeysOf(s, key);
    DistinctKeysMembers(s, key);
    SelectEmpty(s, key, k);
  }

  /** A prefix one element longer. */
  lemma PrefixSnoc<T>(s: seq<T>, i: nat)
    requires i < |s|
    ensures s[..i + 1] == s[..i] + [s[i]]
  {
  }

  /** `m` with `v` added under `k`, a missing key counting as 0. */
  function Bump(m: map<string, int>, k: string, v: int): (r: map<string, int>)
    ensures r.Keys == m.Keys + {k}
    ensures r[k] == (if k in m then m[k] else 0) + v
    ensures forall l :: l in m && l != k ==> r[l] == m[l]
  {
    m[k := (if k in m then m[k] else 0) + v]
  }

  /** One step of the accumulation loop: add `f(x)` under `key(x)`, starting from 0. */
  lemma KeySumsStep<T>(seen: seq<T>, x: T, key: T -> string, f: T -> int, init: seq<string>)
    ensures KeySums(seen + [x], key, f, init) == Bump(KeySums(seen, key, f, init), key(x), f(x))
  {
    var m := KeySums(seen, key, f, init);
    var k := key(x);
    var m' := Bump(m, k, f(x));
    KeysOfAppend(seen, x, key);
    assert m'.Keys == SeqSet(init) + KeysOf(seen + [x], key);
    forall l | l in m'
      ensures m'[l] == SumBy(Select(seen + [x], key, l), f)
    {
      SelectAppend(seen, x, key, l);
      if l == k {
        if k !in m {
          NotAKey(seen, key, k);
        }
        SumByConcat(Select(seen, key, k), [x], f);
      } else {
        assert Select(seen + [x], key, l) == Select(seen, key, l) + [];
        assert Select(seen, key, l) + [] == Select(seen, key, l);
      }
    }
    assert KeySums(seen + [x], key, f, init) == m';
  }

  /** Before the first element every key of `init` sums to 0. */
  lemma KeySumsStart<T>(key: T -> string, f: T -> int, init: seq<string>)
    ensures KeySums([], key, f, init) == map k | k in SeqSet(init) :: 0
  {
  }

  /** A map that holds 0 under every key of `init`. */
  method ZeroKeys(init: seq<string>) returns (m: map<string, int>)
    ensures m == map k | k in SeqSet(init) :: 0
  {
    m := map[];
    var j := 0;
    while j < |init|
      invariant 0 <= j <= |init|
      invariant m == map k | k in SeqSet(init[..j]) :: 0
    {
      PrefixSnoc(init, j);
      m := m[init[j] := 0];
      j := j + 1;
    }
    assert init[..|init|] == init;
  }

  /**
   * The accumulation loop the pages write with a `Map` or an object: every
   * key of `init` starts at 0, then each element adds `f(x)` under `key(x)`.
   */
  method AccumulateByKey<T>(s: seq<T>, key: T -> string, f: T -> int, init: seq<string>) returns (m: map<string, int>)
    ensures m == KeySums(s, key, f, init)
  {
    m := ZeroKeys(init);
    KeySumsStart(key, f, init);
    assert s[..0] == [];
    var i := 0;
    while i < |s|
      invariant 0 <= i <= |s|
      invariant m == KeySums(s[..i], key, f, init)
    {
      var x := s[i];
      KeySumsStep(s[..i], x, key, f, init);
      PrefixSnoc(s, i);
      m := Bump(m, key(x), f(x));
      i := i + 1;
    }
    assert s[..|s|] == s;
  }

  /** The state of the `groupBy` loop after the first `i` elements. */
  ghost predicate GroupedUpTo<T>(s: seq<T>, key: T -> string, i: nat, keys: seq<string>, groups: map<string, seq<T>>)
    requires i <= |s|
  {
    && keys == DistinctKeys(s[..i], key)
    && (forall k :: k in groups <==> k in keys)
    && (forall k :: k in groups ==> groups[k] == Select(s[..i], key, k))
  }

  /** One step of the `groupBy` loop: element `i` joins the group of its key, opened if new. */
  lemma GroupStep<T>(s: seq<T>, key: T -> string, i: nat, keys: seq<string>, groups: map<string, seq<T>>,
                     keys': seq<string>, groups': map<string, seq<T>>)
    requires i < |s| && GroupedUpTo(s, key, i, keys, groups)
    requires keys' == if key(s[i]) in groups then keys else keys + [key(s[i])]
    requires groups' == groups[key(s[i]) := (if key(s[i]) in groups then groups[key(s[i])] else []) + [s[i]]]
    ensures GroupedUpTo(s, key, i + 1, keys', groups')
  {
    var x, k := s[i], key(s[i]);
    var prefix := s[..i + 1];
    assert prefix[..i] == s[..i];
    assert prefix == s[..i] + [x];
    if k !in groups {
      SelectEmpty(s[..i], key, k);
    }
    forall k' | k' in groups'
      ensures groups'[k'] == Select(prefix, key, k')
    {
      SelectAppend(s[..i], x, key, k');
    }
  }

  /**
   * `groupBy(arr, keyFn)`: a `Map` from each key to the array of elements
   * with that key, keys in order of first appearance.
   */
  method GroupBy<T>(s: seq<T>, key: T -> string) returns (keys: seq<string>, groups: map<string, seq<T>>)
    ensures keys == DistinctKeys(s, key)
    ensures forall k :: k in groups <==> k in keys
    ensures forall k :: k in groups ==> groups[k] == Select(s, key, k)
  {
    keys := [];
    groups := map[];
    var i := 0;
    while i < |s|
      invariant 0 <= i <= |s|
      invariant GroupedUpTo(s, key, i, keys, groups)
    {
      var x := s[i];
      var k := key(x);
      ghost var keys0, groups0 := keys, groups;
      if k !in groups {
        keys := keys + [k];
        groups := groups[k := []];
      }
      groups := groups[k := groups[k] + [x]];
      GroupStep(s, key, i, keys0, groups0, keys, groups);
      i := i + 1;
    }
    assert s[..|s|] == s;
  }
}

=== FILE: hierarchy.dfy ===
/**
 * The N-level hierarchy both ledger pages draw: rows grouped by a list of
 * level extractors (tipo, subtipo, ...), one tree level per extractor,
 * siblings in order of first appearance. Partition is the declarative
 * description; InsertRow is the payables page's `getNode` walk that pushes a
 * row into the leaf for its path, and InsertPreservesPartition shows that
 * inserting rows one by one builds the partition.
 */
module Hierarchy {
  import opened Wrappers
  import opened Sorting
  import opened Grouping
  import opened Text

  /** A tree node: its label, the rows it holds and its children. */
  datatype Tree<T> = Node(name: string, rows: seq<T>, children: seq<Tree<T>>)

  // ---------------------------------------------------------------------------
  // The partition
  // ---------------------------------------------------------------------------

  /**
   * The node for key `k` at the first of `levels`: its group of `s`, held
   * by the node when `keepAll` is set or when this is the last level, and
   * the partition of the group by the remaining levels.
   */
  function Grow<T>(s: seq<T>, levels: seq<T -> string>, keepAll: bool, k: string): (t: Tree<T>)
    requires |levels| > 0
    ensures t.name == k
    decreases |levels|, 0
  {
    var g := Select(s, levels[0], k);
    Node(k,
         if keepAll || |levels| == 1 then g else [],
         if |levels| == 1 then [] else Forest(g, levels[1..], keepAll, DistinctKeys(g, levels[1])))
  }

  /** The nodes for `keys`, in that order. */
  function Forest<T>(s: seq<T>, levels: seq<T -> string>, keepAll: bool, keys: seq<string>): (f: seq<Tree<T>>)
    requires |levels| > 0
    ensures |f| == |keys|
    decreases |levels|, |keys|
  {
    if |keys| == 0 then [] else [Grow(s, levels, keepAll, keys[0])] + Forest(s, levels, keepAll, keys[1..])
  }

  lemma {:induction false} ForestAt<T>(s: seq<T>, levels: seq<T -> string>, keepAll: bool, keys: seq<string>, i: int)
    requires |levels| > 0 && 0 <= i < |keys|
    ensures Forest(s, levels, keepAll, keys)[i] == Grow(s, levels, keepAll, keys[i])
    decreases |keys|
  {
    if i > 0 {
      ForestAt(s, levels, keepAll, keys[1..], i - 1);
    }
  }

  lemma ForestEvery<T>(s: seq<T>, levels: seq<T -> string>, keepAll: bool, keys: seq<string>)
    requires |levels| > 0
    ensures forall i :: 0 <= i < |keys| ==> Forest(s, levels, keepAll, keys)[i] == Grow(s, levels, keepAll, keys[i])
  {
    forall i | 0 <= i < |keys| ensures Forest(s, levels, keepAll, keys)[i] == Grow(s, levels, keepAll, keys[i]) {
      ForestAt(s, levels, keepAll, keys, i);
    }
  }

  /** `s` grouped level by level; one root per distinct first-level key. */
  function Partition<T>(s: seq<T>, levels: seq<T -> string>, keepAll: bool): seq<Tree<T>> {
    if |levels| == 0 then [] else Forest(s, levels, keepAll, DistinctKeys(s, levels[0]))
  }

  function Labels<T>(f: seq<Tree<T>>): (r: seq<string>)
    ensures |r| == |f| && forall i :: 0 <= i < |f| ==> r[i] == f[i].name
  {
    seq(|f|, i requires 0 <= i < |f| => f[i].name)
  }

  /** Siblings carry the distinct keys of their group, in order of first appearance. */
  lemma PartitionLabels<T>(s: seq<T>, levels: seq<T -> string>, keepAll: bool)
    requires |levels| > 0
    ensures Labels(Partition(s, levels, keepAll)) == DistinctKeys(s, levels[0])
  {
    ForestEvery(s, levels, keepAll, DistinctKeys(s, levels[0]));
  }

  // ---------------------------------------------------------------------------
  // Collecting rows (`collectRows`)
  // ---------------------------------------------------------------------------

  /** `collectRows(node)`: the node's own rows when it has any, else its children's, in order. */
  function CollectRows<T>(t: Tree<T>): seq<T> {
    if |t.rows| > 0 then t.rows else CollectForest(t.children)
  }

  function CollectForest<T>(f: seq<Tree<T>>): seq<T> {
    if |f| == 0 then [] else CollectRows(f[0]) + CollectForest(f[1..])
  }

  lemma {:induction false} CollectForestIsFlatMap<T>(f: seq<Tree<T>>)
    ensures CollectForest(f) == FlatMap(f, CollectRows)
  {
    if |f| > 0 {
      CollectForestIsFlatMap(f[1..]);
    }
  }

  lemma CollectForestAppend<T>(f: seq<Tree<T>>, g: seq<Tree<T>>)
    ensures CollectForest(f + g) == CollectForest(f) + CollectForest(g)
  {
    CollectForestIsFlatMap(f + g);
    CollectForestIsFlatMap(f);
    CollectForestIsFlatMap(g);
    FlatMapConcat(f, g, CollectRows);
  }

  /** A group's node collects exactly the rows of its group (in another order when it splits them). */
  lemma {:induction false} GrowCollects<T>(s: seq<T>, levels: seq<T -> string>, keepAll: bool, k: string)
    requires |levels| > 0 && k in DistinctKeys(s, levels[0])
    ensures multiset(CollectRows(Grow(s, levels, keepAll, k))) == multiset(Select(s, levels[0], k))
    ensures keepAll ==> CollectRows(Grow(s, levels, keepAll, k)) == Select(s, levels[0], k)
    decreases |levels|, 0
  {
    SelectNonEmpty(s, levels[0], k);
    var g := Select(s, levels[0], k);
    if !keepAll && |levels| > 1 {
      ForestCollects(g, levels[1..], keepAll, DistinctKeys(g, levels[1]));
      GroupsPartition(g, levels[1]);
    }
  }

  lemma {:induction false} ForestCollects<T>(s: seq<T>, levels: seq<T -> string>, keepAll: bool, keys: seq<string>)
    requires |levels| > 0
    requires forall k :: k in keys ==> k in DistinctKeys(s, levels[0])
    ensures multiset(CollectForest(Forest(s, levels, keepAll, keys))) == multiset(Concat(s, levels[0], keys))
    decreases |levels|, |keys|
  {
    if |keys| > 0 {
      GrowCollects(s, levels, keepAll, keys[0]);
      ForestCollects(s, levels, keepAll, keys[1..]);
      var f := Forest(s, levels, keepAll, keys);
      assert f[1..] == Forest(s, levels, keepAll, keys[1..]);
    }
  }

  /** No row is lost or duplicated: the roots collect exactly the input rows. */
  lemma PartitionCollectsAll<T>(s: seq<T>, levels: seq<T -> string>, keepAll: bool)
    requires |levels| > 0
    ensures multiset(CollectForest(Partition(s, levels, keepAll))) == multiset(s)
  {
    ForestCollects(s, levels, keepAll, DistinctKeys(s, levels[0]));
    GroupsPartition(s, levels[0]);
  }

  // ---------------------------------------------------------------------------
  // Shape and placement
  // ---------------------------------------------------------------------------

  /**
   * The leaves of `t` lie exactly `n` levels down, every node collects some
   * row, and without `keepAll` only the leaves hold rows.
   */
  ghost predicate TreeShaped<T>(t: Tree<T>, n: nat, keepAll: bool)
    decreases n, 0
  {
    && |CollectRows(t)| > 0
    && (n <= 1 ==> t.children == [] && |t.rows| > 0)
    && (n > 1 ==> t.children != [] && (keepAll <==> |t.rows| > 0) && AllShaped(t.children, n - 1, keepAll))
  }

  ghost predicate AllShaped<T>(f: seq<Tree<T>>, n: nat, keepAll: bool)
    decreases n, 1
  {
    forall i :: 0 <= i < |f| ==> TreeShaped(f[i], n, keepAll)
  }

  /** Every row collected under `t` has `t`'s label at `t`'s level, and so on down. */
  ghost predicate TreePlaced<T>(t: Tree<T>, levels: seq<T -> string>)
    decreases |levels|, 0
  {
    && |levels| > 0
    && (forall j :: 0 <= j < |CollectRows(t)| ==> levels[0](CollectRows(t)[j]) == t.name)
    && AllPlaced(t.children, levels[1..])
  }

  ghost predicate AllPlaced<T>(f: seq<Tree<T>>, levels: seq<T -> string>)
    decreases |levels|, 1
  {
    forall i :: 0 <= i < |f| ==> TreePlaced(f[i], levels)
  }

  lemma {:induction false} GrowShaped<T>(s: seq<T>, levels: seq<T -> string>, keepAll: bool, k: string)
    requires |levels| > 0 && k in DistinctKeys(s, levels[0])
    ensures TreeShaped(Grow(s, levels, keepAll, k), |levels|, keepAll)
    ensures TreePlaced(Grow(s, levels, keepAll, k), levels)
    decreases |levels|, 1
  {
    var t := Grow(s, levels, keepAll, k);
    GrowRows(s, levels, keepAll, k);
    if |levels| > 1 {
      GrowChildren(s, levels, keepAll, k);
    } else {
      assert t.children == [];
    }
  }

  /** The node of an occurring key collects some rows, all with that key. */
  lemma GrowRows<T>(s: seq<T>, levels: seq<T -> string>, keepAll: bool, k: string)
    requires |levels| > 0 && k in DistinctKeys(s, levels[0])
    ensures var g := Select(s, levels[0], k);
            var c := CollectRows(Grow(s, levels, keepAll, k));
            |g| > 0 && |c| > 0 && forall j :: 0 <= j < |c| ==> levels[0](c[j]) == k
  {
    var g := Select(s, levels[0], k);
    var c := CollectRows(Grow(s, levels, keepAll, k));
    SelectNonEmpty(s, levels[0], k);
    SelectMembers(s, levels[0], k);
    GrowCollects(s, levels, keepAll, k);
    assert |c| == |multiset(c)| == |multiset(g)| == |g|;
    forall j | 0 <= j < |c| ensures levels[0](c[j]) == k {
      assert c[j] in multiset(g);
      var m :| 0 <= m < |g| && g[m] == c[j];
    }
  }

  /** Below the first level, the node of an occurring key has shaped, placed children. */
  lemma {:induction false} GrowChildren<T>(s: seq<T>, levels: seq<T -> string>, keepAll: bool, k: string)
    requires |levels| > 1 && k in DistinctKeys(s, levels[0])
    ensures var t := Grow(s, levels, keepAll, k);
            |t.children| > 0 && AllShaped(t.children, |levels| - 1, keepAll) && AllPlaced(t.children, levels[1..])
    decreases |levels|, 0
  {
    var g := Select(s, levels[0], k);
    var t := Grow(s, levels, keepAll, k);
    var rest := levels[1..];
    var keys := DistinctKeys(g, levels[1]);
    assert t.children == Forest(g, rest, keepAll, keys);
    GrowRows(s, levels, keepAll, k);
    assert rest[0] == levels[1] && |rest| == |levels| - 1;
    DistinctKeysMembers(g, levels[1]);
    assert levels[1](g[0]) in keys;
    ForestShaped(g, rest, keepAll, keys);
  }

  lemma {:induction false} ForestShaped<T>(s: seq<T>, levels: seq<T -> string>, keepAll: bool, keys: seq<string>)
    requires |levels| > 0
    requires forall k :: k in keys ==> k in DistinctKeys(s, levels[0])
    ensures AllShaped(Forest(s, levels, keepAll, keys), |levels|, keepAll)
    ensures AllPlaced(Forest(s, levels, keepAll, keys), levels)
    decreases |levels|, |keys| + 1
  {
    var f := Forest(s, levels, keepAll, keys);
    forall i | 0 <= i < |keys|
      ensures TreeShaped(f[i], |levels|, keepAll) && TreePlaced(f[i], levels)
    {
      ForestAt(s, levels, keepAll, keys, i);
      GrowShaped(s, levels, keepAll, keys[i]);
    }
  }

  /** The partition has uniform depth, rows only where the page keeps them, and every row under its own labels. */
  lemma PartitionShaped<T>(s: seq<T>, levels: seq<T -> string>, keepAll: bool)
    requires |levels| > 0
    ensures AllShaped(Partition(s, levels, keepAll), |levels|, keepAll)
    ensures AllPlaced(Partition(s, levels, keepAll), levels)
  {
    ForestShaped(s, levels, keepAll, DistinctKeys(s, levels[0]));
  }

  // ---------------------------------------------------------------------------
  // Building by insertion (`getNode` ... `n6.rows.push(r)`)
  // ---------------------------------------------------------------------------

  /** The position of the sibling labelled `k` (`map.has(k)`). */
  function FindLabel<T>(f: seq<Tree<T>>, k: string): (r: Option<nat>)
    ensures r.Some? ==> r.value < |f| && f[r.value].name == k && forall i :: 0 <= i < r.value ==> f[i].name != k
    ensures r.None? ==> forall i :: 0 <= i < |f| ==> f[i].name != k
  {
    if |f| == 0 then None
    else if f[0].name == k then Some(0)
    else match FindLabel(f[1..], k)
      case None => None
      case Some(j) => Some(j + 1)
  }

  /** `getNode(map, k)`: the siblings, with an empty node labelled `k` appended when none exists, and its position. */
  function GetNode<T>(f: seq<Tree<T>>, k: string): (r: (seq<Tree<T>>, nat))
    ensures r.1 < |r.0| && r.0[r.1].name == k
  {
    match FindLabel(f, k)
    case Some(j) => (f, j)
    case None => (f + [Node(k, [], [])], |f|)
  }

  /** `x` pushed into node `n` at the first of `levels`, or into its subtree. */
  function InsertIntoNode<T>(n: Tree<T>, x: T, levels: seq<T -> string>): Tree<T>
    requires |levels| > 0
    decreases |levels|, 0
  {
    if |levels| == 1 then Node(n.name, n.rows + [x], n.children)
    else Node(n.name, n.rows, InsertRow(n.children, x, levels[1..]))
  }

  /** One turn of the build loop: walk `x`'s path, creating nodes on the way, and push `x` into the last one. */
  function InsertRow<T>(f: seq<Tree<T>>, x: T, levels: seq<T -> string>): seq<Tree<T>>
    requires |levels| > 0
    decreases |levels|, 1
  {
    var (g, j) := GetNode(f, levels[0](x));
    g[j := InsertIntoNode(g[j], x, levels)]
  }

  lemma GrowUnaffected<T>(s: seq<T>, x: T, levels: seq<T -> string>, keepAll: bool, k: string)
    requires |levels| > 0 && levels[0](x) != k
    ensures Grow(s + [x], levels, keepAll, k) == Grow(s, levels, keepAll, k)
  {
    SelectAppend(s, x, levels[0], k);
    assert Select(s + [x], levels[0], k) == Select(s, levels[0], k);
  }

  lemma DistinctKeysAppend<T>(s: seq<T>, x: T, key: T -> string)
    ensures DistinctKeys(s + [x], key) ==
      if key(x) in DistinctKeys(s, key) then DistinctKeys(s, key) else DistinctKeys(s, key) + [key(x)]
  {
    assert (s + [x])[..|s|] == s;
  }

  /** Pushing `x` into the node of its key gives that key's node for `s` followed by `x`. */
  lemma {:induction false} InsertIntoGrow<T>(s: seq<T>, x: T, levels: seq<T -> string>)
    requires |levels| > 0
    ensures InsertIntoNode(Grow(s, levels, false, levels[0](x)), x, levels) == Grow(s + [x], levels, false, levels[0](x))
    decreases |levels|, 0
  {
    var k := levels[0](x);
    var sub := Select(s, levels[0], k);
    SelectAppend(s, x, levels[0], k);
    if |levels| > 1 {
      InsertPreservesPartition(sub, x, levels[1..]);
    }
  }

  /** Pushing `x` into a fresh node gives the node of the one-row group `[x]`. */
  lemma {:induction false} InsertIntoFresh<T>(x: T, levels: seq<T -> string>)
    requires |levels| > 0
    ensures InsertIntoNode(Node(levels[0](x), [], []), x, levels) == Grow([x], levels, false, levels[0](x))
    decreases |levels|, 0
  {
    var k := levels[0](x);
    SelectAppend([], x, levels[0], k);
    assert [] + [x] == [x];
    if |levels| > 1 {
      InsertPreservesPartition([], x, levels[1..]);
      assert Partition([], levels[1..], false) == [];
    }
  }

  /** Inserting a row into the partition of `s` gives the partition of `s` followed by that row. */
  lemma {:induction false} InsertPreservesPartition<T>(s: seq<T>, x: T, levels: seq<T -> string>)
    requires |levels| > 0
    ensures InsertRow(Partition(s, levels, false), x, levels) == Partition(s + [x], levels, false)
    decreases |levels|, 2
  {
    if levels[0](x) in DistinctKeys(s, levels[0]) {
      InsertIntoExisting(s, x, levels);
    } else {
      InsertIntoNew(s, x, levels);
    }
  }

  /** A row whose label already has a node goes into that node; the other nodes stay. */
  lemma {:induction false} InsertIntoExisting<T>(s: seq<T>, x: T, levels: seq<T -> string>)
    requires |levels| > 0 && levels[0](x) in DistinctKeys(s, levels[0])
    ensures InsertRow(Partition(s, levels, false), x, levels) == Partition(s + [x], levels, false)
    decreases |levels|, 1
  {
    var key := levels[0];
    var k := key(x);
    var keys := DistinctKeys(s, key);
    var f := Forest(s, levels, false, keys);
    var target := Forest(s + [x], levels, false, keys);
    var inserted := InsertRow(f, x, levels);
    assert DistinctKeys(s + [x], key) == keys by {
      DistinctKeysAppend(s, x, key);
    }
    var m :| 0 <= m < |keys| && keys[m] == k;
    assert inserted == f[m := InsertIntoNode(f[m], x, levels)] by {
      ForestEvery(s, levels, false, keys);
      assert f[m].name == k;
      var j := FindLabel(f, k).value;
      assert f[j].name == keys[j];
      assert j == m;
    }
    forall i | 0 <= i < |keys| ensures inserted[i] == target[i] {
      ForestAt(s, levels, false, keys, i);
      ForestAt(s + [x], levels, false, keys, i);
      if i != m {
        GrowUnaffected(s, x, levels, false, keys[i]);
      } else {
        InsertIntoGrow(s, x, levels);
      }
    }
  }

  /** A row with a new label gets a new last node; the other nodes stay. */
  lemma {:induction false} InsertIntoNew<T>(s: seq<T>, x: T, levels: seq<T -> string>)
    requires |levels| > 0 && levels[0](x) !in DistinctKeys(s, levels[0])
    ensures InsertRow(Partition(s, levels, false), x, levels) == Partition(s + [x], levels, false)
    decreases |levels|, 1
  {
    var key := levels[0];
    var k := key(x);
    var keys := DistinctKeys(s, key);
    var keys' := keys + [k];
    var f := Forest(s, levels, false, keys);
    var target := Forest(s + [x], levels, false, keys');
    var inserted := InsertRow(f, x, levels);
    assert DistinctKeys(s + [x], key) == keys' by {
      DistinctKeysAppend(s, x, key);
    }
    assert inserted == f + [InsertIntoNode(Node(k, [], []), x, levels)] by {
      ForestEvery(s, levels, false, keys);
      assert FindLabel(f, k).None?;
    }
    forall i | 0 <= i < |keys'| ensures inserted[i] == target[i] {
      ForestAt(s + [x], levels, false, keys', i);
      if i < |keys| {
        ForestAt(s, levels, false, keys, i);
        GrowUnaffected(s, x, levels, false, keys[i]);
      } else {
        assert Grow(s + [x], levels, false, k) == Grow([x], levels, false, k) by {
          SelectEmpty(s, key, k);
          SelectAppend(s, x, key, k);
          SelectAppend([], x, key, k);
          assert [] + [x] == [x];
        }
        InsertIntoFresh(x, levels);
      }
    }
  }

  /** The loop of the payables page: insert the rows one after the other. */
  method BuildByInsertion<T>(rows: seq<T>, levels: seq<T -> string>) returns (f: seq<Tree<T>>)
    requires |levels| > 0
    ensures f == Partition(rows, levels, false)
  {
    f := [];
    var i := 0;
    while i < |rows|
      invariant 0 <= i <= |rows|
      invariant f == Partition(rows[..i], levels, false)
    {
      InsertPreservesPartition(rows[..i], rows[i], levels);
      PrefixSnoc(rows, i);
      f := InsertRow(f, rows[i], levels);
      i := i + 1;
    }
    assert rows[..|rows|] == rows;
  }

  // ---------------------------------------------------------------------------
  // Building by nested grouping (`groupBy` per level, the receivables page)
  // ---------------------------------------------------------------------------

  lemma {:induction false} ForestSnoc<T>(s: seq<T>, levels: seq<T -> string>, keepAll: bool, keys: seq<string>, k: string)
    requires |levels| > 0
    ensures Forest(s, levels, keepAll, keys + [k]) == Forest(s, levels, keepAll, keys) + [Grow(s, levels, keepAll, k)]
    decreases |keys|
  {
    if |keys| == 0 {
      assert keys + [k] == [k];
    } else {
      assert (keys + [k])[1..] == keys[1..] + [k];
      ForestSnoc(s, levels, keepAll, keys[1..], k);
    }
  }

  /**
   * The nested loops of the receivables page: group the rows by the first
   * level, and for each group, in order of first appearance, make a node
   * that keeps the whole group and holds the nodes of the next level.
   */
  lemma GrowNode<T>(rows: seq<T>, levels: seq<T -> string>, k: string, g: seq<T>, children: seq<Tree<T>>)
    requires |levels| > 0 && g == Select(rows, levels[0], k)
    requires |levels| == 1 ==> children == []
    requires |levels| > 1 ==> children == Partition(g, levels[1..], true)
    ensures Grow(rows, levels, true, k) == Node(k, g, children)
  {
    if |levels| > 1 {
      assert levels[1..][0] == levels[1];
    }
  }

  method BuildLevels<T>(rows: seq<T>, levels: seq<T -> string>) returns (f: seq<Tree<T>>)
    requires |levels| > 0
    ensures f == Partition(rows, levels, true)
    decreases |levels|
  {
    var keys, groups := GroupBy(rows, levels[0]);
    f := [];
    var i := 0;
    while i < |keys|
      invariant 0 <= i <= |keys|
      invariant f == Forest(rows, levels, true, keys[..i])
    {
      var k := keys[i];
      assert k in groups;
      var g := groups[k];
      assert g == Select(rows, levels[0], k);
      var children: seq<Tree<T>> := [];
      if |levels| > 1 {
        children := BuildLevels(g, levels[1..]);
      }
      GrowNode(rows, levels, k, g, children);
      ForestSnoc(rows, levels, true, keys[..i], k);
      PrefixSnoc(keys, i);
      f := f + [Node(k, g, children)];
      i := i + 1;
    }
    assert keys[..|keys|] == keys;
  }

  // ---------------------------------------------------------------------------
  // Nodes that keep their rows
  // ---------------------------------------------------------------------------

  /** Every inner node under `t` holds, up to order, exactly the rows its children collect. */
  ghost predicate TreeNested<T>(t: Tree<T>) {
    && (|t.children| > 0 ==> multiset(t.rows) == multiset(CollectForest(t.children)))
    && AllNested(t.children)
  }

  ghost predicate AllNested<T>(f: seq<Tree<T>>) {
    forall i :: 0 <= i < |f| ==> TreeNested(f[i])
  }

  lemma {:induction false} GrowNested<T>(s: seq<T>, levels: seq<T -> string>, k: string)
    requires |levels| > 0
    ensures TreeNested(Grow(s, levels, true, k))
    decreases |levels|, 0
  {
    if |levels| > 1 {
      var g := Select(s, levels[0], k);
      var keys := DistinctKeys(g, levels[1]);
      ForestCollects(g, levels[1..], true, keys);
      GroupsPartition(g, levels[1]);
      ForestNested(g, levels[1..], keys);
    }
  }

  lemma {:induction false} ForestNested<T>(s: seq<T>, levels: seq<T -> string>, keys: seq<string>)
    requires |levels| > 0
    ensures AllNested(Forest(s, levels, true, keys))
    decreases |levels|, |keys|
  {
    var f := Forest(s, levels, true, keys);
    forall i | 0 <= i < |keys| ensures TreeNested(f[i]) {
      ForestAt(s, levels, true, keys, i);
      GrowNested(s, levels, keys[i]);
    }
  }

  /** When every node keeps its group, each inner node's rows are its children's rows. */
  lemma PartitionNested<T>(s: seq<T>, levels: seq<T -> string>)
    ensures AllNested(Partition(s, levels, true))
  {
    if |levels| > 0 {
      ForestNested(s, levels, DistinctKeys(s, levels[0]));
    }
  }

  // ---------------------------------------------------------------------------
  // Sorting siblings at every level (`mapToArr`, `sortRec`)
  // ---------------------------------------------------------------------------

  /** How siblings are ordered: by a numeric key, largest first, or by label. */
  datatype Order<!T> = ByKeyDesc(key: Tree<T> -> real) | ByName

  /** Label order (`a.label.localeCompare(b.label) <= 0`). */
  predicate NameLe<T>(a: Tree<T>, b: Tree<T>) {
    LexLe(a.name, b.name)
  }

  lemma NameOrderConsistent<T>(f: seq<Tree<T>>)
    ensures TotalPreorderOn(f, NameLe)
  {
    forall i, j | 0 <= i < |f| && 0 <= j < |f| ensures NameLe(f[i], f[j]) || NameLe(f[j], f[i]) {
      LexLeTotal(f[i].name, f[j].name);
    }
    forall i, j, k | 0 <= i < |f| && 0 <= j < |f| && 0 <= k < |f| && NameLe(f[i], f[j]) && NameLe(f[j], f[k])
      ensures NameLe(f[i], f[k])
    {
      LexLeTransitive(f[i].name, f[j].name, f[k].name);
    }
  }

  /** One stable sort of a list of siblings. */
  function SortLevel<T>(f: seq<Tree<T>>, o: Order<T>): (r: seq<Tree<T>>)
    ensures multiset(r) == multiset(f) && |r| == |f|
  {
    match o
    case ByKeyDesc(key) => SortDesc(f, key)
    case ByName => SortBy(f, NameLe)
  }

  /** `t` with its children sorted, recursively. */
  function SortTree<T>(t: Tree<T>, o: Order<T>): Tree<T> {
    Node(t.name, t.rows, SortLevel(SortEach(t.children, o), o))
  }

  function SortEach<T>(f: seq<Tree<T>>, o: Order<T>): (r: seq<Tree<T>>)
    ensures |r| == |f|
  {
    if |f| == 0 then [] else [SortTree(f[0], o)] + SortEach(f[1..], o)
  }

  /** The siblings sorted at every level. */
  function SortForest<T>(f: seq<Tree<T>>, o: Order<T>): seq<Tree<T>> {
    SortLevel(SortEach(f, o), o)
  }

  lemma {:induction false} SortEachAt<T>(f: seq<Tree<T>>, o: Order<T>, i: int)
    requires 0 <= i < |f|
    ensures SortEach(f, o)[i] == SortTree(f[i], o)
  {
    var head, rest := [SortTree(f[0], o)], SortEach(f[1..], o);
    assert SortEach(f, o) == head + rest;
    if i > 0 {
      SortEachAt(f[1..], o, i - 1);
      assert (head + rest)[i] == rest[i - 1];
    }
  }

  ghost predicate OrderedLevel<T>(f: seq<Tree<T>>, o: Order<T>) {
    match o
    case ByKeyDesc(key) => SortedDesc(f, key)
    case ByName => Ordered(f, NameLe)
  }

  /** Siblings are in order at every level under `t`. */
  ghost predicate TreeOrdered<T>(t: Tree<T>, o: Order<T>) {
    OrderedLevel(t.children, o) && AllOrdered(t.children, o)
  }

  ghost predicate AllOrdered<T>(f: seq<Tree<T>>, o: Order<T>) {
    if |f| == 0 then true else TreeOrdered(f[0], o) && AllOrdered(f[1..], o)
  }

  lemma AllOrderedAt<T>(f: seq<Tree<T>>, o: Order<T>)
    ensures AllOrdered(f, o) <==> forall i :: 0 <= i < |f| ==> TreeOrdered(f[i], o)
  {
    if |f| > 0 {
      AllOrderedAt(f[1..], o);
      assert forall i :: 1 <= i < |f| ==> f[i] == f[1..][i - 1];
    }
  }

  lemma SortLevelOrdered<T>(f: seq<Tree<T>>, o: Order<T>)
    ensures OrderedLevel(SortLevel(f, o), o)
  {
    if o.ByName? {
      NameOrderConsistent(f);
      SortByOrdered(f, NameLe);
    }
  }

  /** After sorting, siblings are in order at every level. */
  lemma {:induction false} SortTreeOrdered<T>(t: Tree<T>, o: Order<T>)
    ensures TreeOrdered(SortTree(t, o), o)
  {
    var each := SortEach(t.children, o);
    SortLevelOrdered(each, o);
    SortEachOrdered(t.children, o);
    var sorted := SortLevel(each, o);
    AllOrderedAt(each, o);
    AllOrderedAt(sorted, o);
    forall i | 0 <= i < |sorted| ensures TreeOrdered(sorted[i], o) {
      assert sorted[i] in multiset(each);
      var j :| 0 <= j < |each| && each[j] == sorted[i];
    }
  }

  lemma {:induction false} SortEachOrdered<T>(f: seq<Tree<T>>, o: Order<T>)
    ensures AllOrdered(SortEach(f, o), o)
  {
    if |f| > 0 {
      SortTreeOrdered(f[0], o);
      SortEachOrdered(f[1..], o);
    }
  }

  /** After sorting a forest, siblings are in order at every level. */
  lemma SortForestOrdered<T>(f: seq<Tree<T>>, o: Order<T>)
    ensures OrderedLevel(SortForest(f, o), o)
    ensures AllOrdered(SortForest(f, o), o)
  {
    var each := SortEach(f, o);
    SortLevelOrdered(each, o);
    SortEachOrdered(f, o);
    var sorted := SortLevel(each, o);
    AllOrderedAt(each, o);
    AllOrderedAt(sorted, o);
    forall i | 0 <= i < |sorted| ensures TreeOrdered(sorted[i], o) {
      assert sorted[i] in multiset(each);
      var j :| 0 <= j < |each| && each[j] == sorted[i];
    }
  }

  /** A permutation of siblings collects the same rows. */
  lemma CollectForestPermutation<T>(f: seq<Tree<T>>, g: seq<Tree<T>>)
    requires multiset(f) == multiset(g)
    ensures multiset(CollectForest(f)) == multiset(CollectForest(g))
  {
    CollectForestIsFlatMap(f);
    CollectForestIsFlatMap(g);
    FlatMapPermutation(f, g, CollectRows);
  }

  /** Sorting keeps the rows each node collects. */
  lemma {:induction false} SortTreeCollects<T>(t: Tree<T>, o: Order<T>)
    ensures multiset(CollectRows(SortTree(t, o))) == multiset(CollectRows(t))
    ensures |t.rows| > 0 ==> CollectRows(SortTree(t, o)) == CollectRows(t)
  {
    if |t.rows| == 0 {
      SortEachCollects(t.children, o);
      CollectForestPermutation(SortLevel(SortEach(t.children, o), o), SortEach(t.children, o));
    }
  }

  lemma {:induction false} SortEachCollects<T>(f: seq<Tree<T>>, o: Order<T>)
    ensures multiset(CollectForest(SortEach(f, o))) == multiset(CollectForest(f))
  {
    if |f| > 0 {
      SortTreeCollects(f[0], o);
      SortEachCollects(f[1..], o);
    }
  }

  lemma SortForestCollects<T>(f: seq<Tree<T>>, o: Order<T>)
    ensures multiset(CollectForest(SortForest(f, o))) == multiset(CollectForest(f))
  {
    SortEachCollects(f, o);
    CollectForestPermutation(SortForest(f, o), SortEach(f, o));
  }

  lemma SortTreeKeepsPlacement<T>(t: Tree<T>, o: Order<T>, key: T -> string)
    requires forall j :: 0 <= j < |CollectRows(t)| ==> key(CollectRows(t)[j]) == t.name
    ensures |CollectRows(SortTree(t, o))| == |CollectRows(t)|
    ensures forall j :: 0 <= j < |CollectRows(SortTree(t, o))| ==> key(CollectRows(SortTree(t, o))[j]) == t.name
  {
    SortTreeCollects(t, o);
    var c, c' := CollectRows(t), CollectRows(SortTree(t, o));
    assert |c'| == |multiset(c')| == |multiset(c)| == |c|;
    forall j | 0 <= j < |c'| ensures key(c'[j]) == t.name {
      assert c'[j] in multiset(c);
      var m :| 0 <= m < |c| && c[m] == c'[j];
    }
  }

  /** Sorting keeps the shape and the placement of rows. */
  lemma {:induction false} SortTreeShaped<T>(t: Tree<T>, o: Order<T>, levels: seq<T -> string>, keepAll: bool)
    requires TreeShaped(t, |levels|, keepAll) && TreePlaced(t, levels)
    ensures TreeShaped(SortTree(t, o), |levels|, keepAll) && TreePlaced(SortTree(t, o), levels)
    decreases |levels|, 1
  {
    SortTreeKeepsPlacement(t, o, levels[0]);
    var sorted := SortTree(t, o).children;
    assert |sorted| == |t.children|;
    if |levels| > 1 {
      forall i | 0 <= i < |sorted|
        ensures TreeShaped(sorted[i], |levels| - 1, keepAll) && TreePlaced(sorted[i], levels[1..])
      {
        SortedChildShaped(t, o, levels, keepAll, i);
      }
      assert AllShaped(sorted, |levels| - 1, keepAll);
      assert AllPlaced(sorted, levels[1..]);
    }
  }

  /** Every child of a sorted node is some original child, sorted. */
  lemma SortedChildFrom<T>(t: Tree<T>, o: Order<T>, i: int) returns (j: int)
    requires 0 <= i < |SortTree(t, o).children|
    ensures 0 <= j < |t.children| && SortTree(t, o).children[i] == SortTree(t.children[j], o)
  {
    var each := SortEach(t.children, o);
    var x := SortTree(t, o).children[i];
    assert x in multiset(each);
    j :| 0 <= j < |each| && each[j] == x;
    SortEachAt(t.children, o, j);
  }

  /** One child of a sorted node keeps the shape and placement of the child it came from. */
  lemma {:induction false} SortedChildShaped<T>(t: Tree<T>, o: Order<T>, levels: seq<T -> string>, keepAll: bool, i: int)
    requires |levels| > 1 && TreeShaped(t, |levels|, keepAll) && TreePlaced(t, levels)
    requires 0 <= i < |SortTree(t, o).children|
    ensures TreeShaped(SortTree(t, o).children[i], |levels| - 1, keepAll)
    ensures TreePlaced(SortTree(t, o).children[i], levels[1..])
    decreases |levels|, 0
  {
    var j := SortedChildFrom(t, o, i);
    var c, rest := t.children[j], levels[1..];
    assert |rest| == |levels| - 1;
    assert AllShaped(t.children, |rest|, keepAll) && AllPlaced(t.children, rest);
    assert TreeShaped(c, |rest|, keepAll) && TreePlaced(c, rest);
    SortTreeShaped(c, o, rest, keepAll);
  }

  lemma SortForestShaped<T>(f: seq<Tree<T>>, o: Order<T>, levels: seq<T -> string>, keepAll: bool)
    requires AllShaped(f, |levels|, keepAll) && AllPlaced(f, levels)
    ensures AllShaped(SortForest(f, o), |levels|, keepAll) && AllPlaced(SortForest(f, o), levels)
  {
    var each := SortEach(f, o);
    var sorted := SortForest(f, o);
    forall i | 0 <= i < |sorted|
      ensures TreeShaped(sorted[i], |levels|, keepAll) && TreePlaced(sorted[i], levels)
    {
      assert sorted[i] in multiset(each);
      var j :| 0 <= j < |each| && each[j] == sorted[i];
      SortEachAt(f, o, j);
      SortTreeShaped(f[j], o, levels, keepAll);
    }
  }

  /** Sorting keeps every node's rows and the rows its children collect. */
  lemma {:induction false} SortTreeNested<T>(t: Tree<T>, o: Order<T>)
    requires TreeNested(t)
    ensures TreeNested(SortTree(t, o))
  {
    var each := SortEach(t.children, o);
    var sorted := SortLevel(each, o);
    assert SortTree(t, o).children == sorted;
    assert multiset(CollectForest(sorted)) == multiset(CollectForest(t.children)) by {
      SortEachCollects(t.children, o);
      CollectForestPermutation(sorted, each);
    }
    assert AllNested(sorted) by {
      forall i | 0 <= i < |sorted| ensures TreeNested(sorted[i]) {
        assert sorted[i] in multiset(each);
        var j :| 0 <= j < |each| && each[j] == sorted[i];
        SortEachAt(t.children, o, j);
        SortTreeNested(t.children[j], o);
      }
    }
  }

  lemma SortForestNested<T>(f: seq<Tree<T>>, o: Order<T>)
    requires AllNested(f)
    ensures AllNested(SortForest(f, o))
  {
    var each := SortEach(f, o);
    var sorted := SortForest(f, o);
    forall i | 0 <= i < |sorted| ensures TreeNested(sorted[i]) {
      assert sorted[i] in multiset(each);
      var j :| 0 <= j < |each| && each[j] == sorted[i];
      SortEachAt(f, o, j);
      SortTreeNested(f[j], o);
    }
  }
}

=== FILE: isodates.dfy ===
/**
 * Calendar dates as the dashboards handle them: `toISO` turns a date cell
 * into the `full-date` form of section 5.6 of RFC 3339 (`yyyy-mm-dd`), and
 * dates are then compared as strings. Section 5.1 of RFC 3339 promises that
 * for this fixed-width form string order is chronological order; the lemma
 * IsoOrderIsChronological proves it.
 */
module IsoDates {
  import opened Wrappers
  import opened Text
  import JsNumbers

  /**
   * A date cell: missing (`null`, `undefined`), a number, a string, or a
   * JavaScript `Date`, given by the local `yyyy-mm-dd` rendering the page
   * would build from it (None for an invalid `Date`).
   */
  datatype RawDate = Missing | Numeric(n: real) | DateText(s: string) | DateObject(local: Option<string>)

  /**
   * The host's `new Date(s)` parser, followed by the page's local
   * `yyyy-mm-dd` rendering: None when the host yields an invalid date.
   */
  type HostDateParser = string -> Option<string>

  /** `/^\d{4}-\d{2}-\d{2}$/` */
  predicate IsIsoShape(s: string) {
    |s| == 10 && AllDigits(s[..4]) && s[4] == '-' && AllDigits(s[5..7]) && s[7] == '-' && AllDigits(s[8..])
  }

  /** `/^(\d{2})\/(\d{2})\/(\d{4})$/` */
  predicate IsBrShape(s: string) {
    |s| == 10 && AllDigits(s[..2]) && s[2] == '/' && AllDigits(s[3..5]) && s[5] == '/' && AllDigits(s[6..])
  }

  /** `dd/mm/yyyy` rewritten as `yyyy-mm-dd`. */
  function BrToIso(s: string): (r: string)
    requires IsBrShape(s)
    ensures IsIsoShape(r)
    ensures r[..4] == s[6..] && r[5..7] == s[3..5] && r[8..] == s[..2]
  {
    var r := s[6..] + "-" + s[3..5] + "-" + s[..2];
    assert r[..4] == s[6..] && r[5..7] == s[3..5] && r[8..] == s[..2];
    r
  }

  /** `yyyy-mm-dd` written as `dd/mm/yyyy`: the inverse of BrToIso. */
  function IsoToBr(s: string): (r: string)
    requires IsIsoShape(s)
    ensures IsBrShape(r)
    ensures r[..2] == s[8..] && r[3..5] == s[5..7] && r[6..] == s[..4]
  {
    var r := s[8..] + "/" + s[5..7] + "/" + s[..4];
    assert r[..2] == s[8..] && r[3..5] == s[5..7] && r[6..] == s[..4];
    r
  }

  lemma BrIsoRoundTrip(iso: string)
    requires IsIsoShape(iso)
    ensures BrToIso(IsoToBr(iso)) == iso
  {
    var r := BrToIso(IsoToBr(iso));
    assert r == r[..4] + "-" + r[5..7] + "-" + r[8..];
    assert iso == iso[..4] + "-" + iso[5..7] + "-" + iso[8..];
  }

  /** `toISO` of the payables and receivables pages. */
  function ToIso(d: RawDate, hostParse: HostDateParser): (r: Option<string>)
    ensures d.Missing? || d.Numeric? ==> r == None
    ensures d.DateText? && Trim(d.s) == "" ==> r == None
  {
    match d
    case Missing => None
    case Numeric(_) => None
    case DateObject(local) => local
    case DateText(s) =>
      var t := Trim(s);
      if t == "" then None
      else if IsIsoShape(t) then Some(t)
      else if IsBrShape(t) then Some(BrToIso(t))
      else hostParse(t)
  }

  /** `toISO` of the Disponibilidade page, which has no `dd/mm/yyyy` branch. */
  function ToIsoNoBr(d: RawDate, hostParse: HostDateParser): (r: Option<string>)
    ensures d.Missing? || d.Numeric? ==> r == None
    ensures d.DateText? && Trim(d.s) == "" ==> r == None
  {
    match d
    case Missing => None
    case Numeric(_) => None
    case DateObject(local) => local
    case DateText(s) =>
      var t := Trim(s);
      if t == "" then None
      else if IsIsoShape(t) then Some(t)
      else hostParse(t)
  }

  lemma IsoShapeTrimmed(s: string)
    requires IsIsoShape(s) || IsBrShape(s)
    ensures Trim(s) == s
  {
    assert IsDigit(s[0]) && IsDigit(s[9]);
    TrimKeeps(s);
  }

  /** An ISO date passes through unchanged, whatever the host parser does. */
  lemma ToIsoKeepsIso(iso: string, hostParse: HostDateParser)
    requires IsIsoShape(iso)
    ensures ToIso(DateText(iso), hostParse) == Some(iso)
    ensures ToIsoNoBr(DateText(iso), hostParse) == Some(iso)
  {
    IsoShapeTrimmed(iso);
  }

  /** A `dd/mm/yyyy` date becomes the ISO date it spells. */
  lemma ToIsoRewritesBr(iso: string, hostParse: HostDateParser)
    requires IsIsoShape(iso)
    ensures ToIso(DateText(IsoToBr(iso)), hostParse) == Some(iso)
  {
    var br := IsoToBr(iso);
    IsoShapeTrimmed(br);
    assert !IsIsoShape(br) by {
      assert br[4] == br[3..5][1];
      assert IsDigit(br[4]);
    }
    BrIsoRoundTrip(iso);
  }

  /** Normalising an ISO result again changes nothing. */
  lemma ToIsoIdempotent(d: RawDate, hostParse: HostDateParser)
    requires ToIso(d, hostParse).Some? && IsIsoShape(ToIso(d, hostParse).value)
    ensures ToIso(DateText(ToIso(d, hostParse).value), hostParse) == ToIso(d, hostParse)
  {
    ToIsoKeepsIso(ToIso(d, hostParse).value, hostParse);
  }

  /** JavaScript truthiness of a date value: present and not the empty string. */
  predicate Truthy(o: Option<string>) {
    o.Some? && o.value != ""
  }

  /** `isBeforeOrEq(a, b)`: false unless both dates are present. */
  predicate IsBeforeOrEq(a: Option<string>, b: Option<string>) {
    Truthy(a) && Truthy(b) && LexLe(a.value, b.value)
  }

  /** `isAfter(a, b)`: false unless both dates are present. */
  predicate IsAfter(a: Option<string>, b: Option<string>) {
    Truthy(a) && Truthy(b) && LexLt(b.value, a.value)
  }

  /** With both dates present exactly one comparator holds; otherwise neither does. */
  lemma ComparatorsSplit(a: Option<string>, b: Option<string>)
    ensures Truthy(a) && Truthy(b) ==> IsBeforeOrEq(a, b) != IsAfter(a, b)
    ensures !(Truthy(a) && Truthy(b)) ==> !IsBeforeOrEq(a, b) && !IsAfter(a, b)
  {
    if Truthy(a) && Truthy(b) {
      LexLeOrGreater(a.value, b.value);
    }
  }

  // ---------------------------------------------------------------------------
  // String order of ISO dates is chronological order
  // ---------------------------------------------------------------------------

  function Year(s: string): nat
    requires IsIsoShape(s)
  {
    JsNumbers.DecValue(s[..4])
  }

  function Month(s: string): nat
    requires IsIsoShape(s)
  {
    JsNumbers.DecValue(s[5..7])
  }

  function Day(s: string): nat
    requires IsIsoShape(s)
  {
    JsNumbers.DecValue(s[8..])
  }

  /** Calendar order: earlier year, or the same year and an earlier month, or the same month and a day no later. */
  predicate ChronoLe(a: string, b: string)
    requires IsIsoShape(a) && IsIsoShape(b)
  {
    Year(a) < Year(b)
    || (Year(a) == Year(b) && (Month(a) < Month(b) || (Month(a) == Month(b) && Day(a) <= Day(b))))
  }

  lemma LeadingDigit(s: string)
    requires |s| > 0 && AllDigits(s)
    ensures JsNumbers.DecValue(s) == JsNumbers.DigitValue(s[0]) * JsNumbers.Pow10(|s| - 1) + JsNumbers.DecValue(s[1..])
  {
    var h, t := [s[0]], s[1..];
    assert AllDigits(h) && AllDigits(t);
    assert JsNumbers.DecValue(h) == JsNumbers.DigitValue(s[0]) by {
      assert h[..0] == [];
    }
    JsNumbers.DecValueConcat(h, t);
    assert h + t == s;
  }

  lemma LeadingDigitDominates(da: nat, db: nat, p: nat, ra: nat, rb: nat)
    requires da < db && ra < p
    ensures da * p + ra < db * p + rb
  {
    var k: nat := db - da - 1;
    assert db * p == da * p + p + k * p;
    assert k * p >= 0;
  }

  /** For digit strings of one length, string order is numeric order. */
  lemma {:induction false} DigitsLexLe(a: string, b: string)
    requires AllDigits(a) && AllDigits(b) && |a| == |b|
    ensures LexLe(a, b) <==> JsNumbers.DecValue(a) <= JsNumbers.DecValue(b)
  {
    if |a| > 0 {
      LeadingDigit(a);
      LeadingDigit(b);
      var p := JsNumbers.Pow10(|a| - 1);
      var da, db := JsNumbers.DigitValue(a[0]), JsNumbers.DigitValue(b[0]);
      var ra, rb := JsNumbers.DecValue(a[1..]), JsNumbers.DecValue(b[1..]);
      if a[0] < b[0] {
        LeadingDigitDominates(da, db, p, ra, rb);
      } else if b[0] < a[0] {
        LeadingDigitDominates(db, da, p, rb, ra);
      } else {
        DigitsLexLe(a[1..], b[1..]);
      }
    }
  }

  lemma DigitsLexLt(a: string, b: string)
    requires AllDigits(a) && AllDigits(b) && |a| == |b|
    ensures LexLt(a, b) <==> JsNumbers.DecValue(a) < JsNumbers.DecValue(b)
  {
    DigitsLexLe(a, b);
    if JsNumbers.DecValue(a) == JsNumbers.DecValue(b) {
      JsNumbers.DecValueInjective(a, b);
    }
  }

  /** Comparing two strings that start with equal-length prefixes. */
  lemma {:induction false} LexLeSplit(p: string, x: string, q: string, y: string)
    requires |p| == |q|
    ensures LexLe(p + x, q + y) <==> LexLt(p, q) || (p == q && LexLe(x, y))
  {
    if |p| == 0 {
      assert p + x == x && q + y == y;
    } else {
      assert (p + x)[1..] == p[1..] + x && (q + y)[1..] == q[1..] + y;
      LexLeSplit(p[1..], x, q[1..], y);
      assert p == [p[0]] + p[1..] && q == [q[0]] + q[1..];
    }
  }

  /** Two ISO-shaped strings compare field by field: year, then month, then day. */
  lemma IsoLexFields(a: string, b: string)
    requires |a| == 10 && |b| == 10 && a[4] == b[4] && a[7] == b[7]
    ensures LexLe(a, b) <==>
              (LexLt(a[..4], b[..4])
               || (a[..4] == b[..4] && (LexLt(a[5..7], b[5..7]) || (a[5..7] == b[5..7] && LexLe(a[8..], b[8..])))))
  {
    assert LexLe(a, b) <==> LexLt(a[..4], b[..4]) || (a[..4] == b[..4] && LexLe(a[4..], b[4..])) by {
      assert a == a[..4] + a[4..] && b == b[..4] + b[4..];
      LexLeSplit(a[..4], a[4..], b[..4], b[4..]);
    }
    assert LexLe(a[4..], b[4..]) <==> LexLe(a[5..], b[5..]) by {
      assert a[4..][1..] == a[5..] && b[4..][1..] == b[5..];
    }
    assert LexLe(a[5..], b[5..]) <==> LexLt(a[5..7], b[5..7]) || (a[5..7] == b[5..7] && LexLe(a[7..], b[7..])) by {
      assert a[5..] == a[5..7] + a[7..] && b[5..] == b[5..7] + b[7..];
      LexLeSplit(a[5..7], a[7..], b[5..7], b[7..]);
    }
    assert LexLe(a[7..], b[7..]) <==> LexLe(a[8..], b[8..]) by {
      assert a[7..][1..] == a[8..] && b[7..][1..] == b[8..];
    }
  }

  /** Section 5.1 of RFC 3339: ISO full-dates sort chronologically as strings. */
  lemma IsoOrderIsChronological(a: string, b: string)
    requires IsIsoShape(a) && IsIsoShape(b)
    ensures LexLe(a, b) <==> ChronoLe(a, b)
  {
    IsoLexFields(a, b);
    DigitsLexLt(a[..4], b[..4]);
    DigitsLexLt(a[5..7], b[5..7]);
    DigitsLexLe(a[8..], b[8..]);
    if Year(a) == Year(b) {
      JsNumbers.DecValueInjective(a[..4], b[..4]);
    }
    if Month(a) == Month(b) {
      JsNumbers.DecValueInjective(a[5..7], b[5..7]);
    }
  }
}

=== FILE: jsnumbers.dfy ===
/**
 * JavaScript's `Number(x)` conversion for the values that reach the pages
 * from the database: `null`, `undefined`, numbers and strings. A string is
 * trimmed; an empty result is 0, a decimal literal (optional sign, digits,
 * optional fraction) or `Infinity` is converted, anything else is NaN.
 */
module JsNumbers {
  import opened Wrappers
  import opened Text

  /** The outcome of `Number(x)`. */
  datatype JsNum = Finite(v: real) | Infinite(negative: bool) | NaN

  /** A field of a database row as the page sees it. */
  datatype Cell = Undefined | Null | Num(n: JsNum) | Str(s: string)

  function Pow10(n: nat): (r: nat)
    ensures r >= 1
  {
    if n == 0 then 1 else 10 * Pow10(n - 1)
  }

  function DigitValue(c: char): nat
    requires IsDigit(c)
  {
    c as int - '0' as int
  }

  /** The value of a string of decimal digits ("" is 0). */
  function DecValue(s: string): (r: nat)
    requires AllDigits(s)
    ensures r < Pow10(|s|)
  {
    if |s| == 0 then 0 else DecValue(s[..|s| - 1]) * 10 + DigitValue(s[|s| - 1])
  }

  lemma AllDigitsConcat(a: string, b: string)
    requires AllDigits(a) && AllDigits(b)
    ensures AllDigits(a + b)
  {
    forall i | 0 <= i < |a + b| ensures IsDigit((a + b)[i]) {
      if i >= |a| {
        assert (a + b)[i] == b[i - |a|];
      }
    }
  }

  lemma ShiftDistributes(x: int, p: int, y: int)
    ensures (x * p + y) * 10 == x * (p * 10) + y * 10
  {
  }

  lemma {:induction false} DecValueConcat(a: string, b: string)
    requires AllDigits(a) && AllDigits(b)
    ensures AllDigits(a + b)
    ensures DecValue(a + b) == DecValue(a) * Pow10(|b|) + DecValue(b)
  {
    AllDigitsConcat(a, b);
    if |b| > 0 {
      var b' := b[..|b| - 1];
      var c := b[|b| - 1];
      var ab := a + b;
      assert ab[..|ab| - 1] == a + b';
      assert ab[|ab| - 1] == c;
      AllDigitsConcat(a, b');
      DecValueConcat(a, b');
      var x, p, y := DecValue(a), Pow10(|b'|), DecValue(b');
      assert DecValue(ab) == DecValue(a + b') * 10 + DigitValue(c);
      assert DecValue(a + b') == x * p + y;
      ShiftDistributes(x, p, y);
      assert Pow10(|b|) == p * 10;
      assert DecValue(b) == y * 10 + DigitValue(c);
    } else {
      assert a + b == a;
    }
  }

  /** Two digit strings of the same length are equal exactly when their values are. */
  lemma {:induction false} DecValueInjective(a: string, b: string)
    requires AllDigits(a) && AllDigits(b) && |a| == |b|
    requires DecValue(a) == DecValue(b)
    ensures a == b
  {
    if |a| > 0 {
      var n := |a| - 1;
      LastDigitUnique(DecValue(a[..n]), DigitValue(a[n]), DecValue(b[..n]), DigitValue(b[n]));
      DecValueInjective(a[..n], b[..n]);
      assert a[n] == b[n];
      assert a == a[..n] + [a[n]] && b == b[..n] + [b[n]];
    }
  }

  /** The last decimal digit and the rest of a number are determined by the number. */
  lemma LastDigitUnique(x: int, d: int, y: int, e: int)
    requires 0 <= d < 10 && 0 <= e < 10 && x * 10 + d == y * 10 + e
    ensures x == y && d == e
  {
  }

  /** The decimal spelling of a natural number, without leading zeros. */
  function NatToString(n: nat): (r: string)
    ensures |r| > 0 && AllDigits(r) && DecValue(r) == n
    ensures r[0] == '0' <==> n == 0
    ensures n == 0 ==> r == "0"
  {
    var d := ['0' + (n % 10) as char];
    if n < 10 then d else
      var r := NatToString(n / 10) + d;
      assert r[..|r| - 1] == NatToString(n / 10);
      r
  }

  function IndexOf(s: string, c: char): (r: Option<nat>)
    ensures r.Some? ==> r.value < |s| && s[r.value] == c && c !in s[..r.value]
    ensures r.None? ==> c !in s
  {
    if |s| == 0 then None
    else if s[0] == c then Some(0)
    else match IndexOf(s[1..], c)
      case None => None
      case Some(k) =>
        assert s[..k + 1] == [s[0]] + s[1..][..k];
        Some(k + 1)
  }

  /** The value of the digits `f` written after a decimal point. */
  function Fraction(f: string): (r: real)
    requires AllDigits(f)
    ensures 0.0 <= r < 1.0
  {
    var n, d := DecValue(f) as real, Pow10(|f|) as real;
    UnitQuotient(n, d);
    n / d
  }

  lemma UnitQuotient(n: real, d: real)
    requires 0.0 <= n < d
    ensures 0.0 <= n / d < 1.0
  {
    var q := n / d;
    assert q * d == n;
  }

  /** An unsigned decimal literal: digits, optionally `.` and digits, at least one digit in all. */
  function ParseDecimal(t: string): (r: Option<real>)
    ensures r.Some? ==> r.value >= 0.0
  {
    match IndexOf(t, '.')
    case None =>
      if |t| > 0 && AllDigits(t) then Some(DecValue(t) as real) else None
    case Some(k) =>
      var whole := t[..k];
      var frac := t[k + 1..];
      if AllDigits(whole) && AllDigits(frac) && |whole| + |frac| > 0 then
        Some(DecValue(whole) as real + Fraction(frac))
      else None
  }

  function ParseUnsigned(t: string): JsNum {
    if t == "Infinity" then Infinite(false)
    else match ParseDecimal(t)
      case Some(v) => Finite(v)
      case None => NaN
  }

  function Negate(n: JsNum): JsNum {
    match n
    case Finite(v) => Finite(-v)
    case Infinite(neg) => Infinite(!neg)
    case NaN => NaN
  }

  /** `Number(s)` for a string `s`. */
  function StringToNumber(s: string): JsNum {
    var t := Trim(s);
    if t == "" then Finite(0.0)
    else if t[0] == '+' then ParseUnsigned(t[1..])
    else if t[0] == '-' then Negate(ParseUnsigned(t[1..]))
    else ParseUnsigned(t)
  }

  /** `Number(x)`: `null` is 0, `undefined` is NaN. */
  function ToNumber(c: Cell): JsNum {
    match c
    case Undefined => NaN
    case Null => Finite(0.0)
    case Num(n) => n
    case Str(s) => StringToNumber(s)
  }

  /** `const n = Number(v); return Number.isFinite(n) ? n : 0;` */
  function NumOrZero(c: Cell): (r: real)
    ensures ToNumber(c).Finite? ==> r == ToNumber(c).v
    ensures !ToNumber(c).Finite? ==> r == 0.0
  {
    match ToNumber(c)
    case Finite(v) => v
    case _ => 0.0
  }

  lemma TrimNoSpaceEnds(s: string)
    requires |s| > 0 && !IsSpace(s[0]) && !IsSpace(s[|s| - 1])
    ensures Trim(s) == s
  {
    TrimKeeps(s);
  }

  /** A white-space-only string converts to 0. */
  lemma BlankIsZero(s: string)
    requires forall i :: 0 <= i < |s| ==> IsSpace(s[i])
    ensures StringToNumber(s) == Finite(0.0)
  {
    TrimEmptyIffBlank(s);
  }

  /** The decimal spelling of a natural number converts back to it. */
  lemma NatRoundTrip(n: nat)
    ensures StringToNumber(NatToString(n)) == Finite(n as real)
  {
    var d := NatToString(n);
    assert !IsSpace(d[0]) && !IsSpace(d[|d| - 1]);
    TrimNoSpaceEnds(d);
    assert d[0] != '+' && d[0] != '-';
    assert IndexOf(d, '.') == None;
  }

  /** With a minus sign in front, it converts back to its negation. */
  lemma NegatedNatRoundTrip(n: nat)
    ensures StringToNumber("-" + NatToString(n)) == Finite(-(n as real))
  {
    var d := NatToString(n);
    assert IndexOf(d, '.') == None;
    assert d != "Infinity" by { assert !IsDigit('I'); }
    assert ParseUnsigned(d) == Finite(n as real);
    var m := "-" + d;
    assert m[1..] == d;
    assert !IsSpace(m[0]) && !IsSpace(m[|m| - 1]);
    TrimNoSpaceEnds(m);
  }
}

=== FILE: ledger.dfy ===
/**
 * The aging engine shared by the payables (Contas a Pagar) and receivables
 * (Contas a Receber) dashboards: every row gets ISO dates, the rows are cut
 * down to the selected reference date (`data_base`), each row is classified
 * VENCIDO (due on or before its reference date) or A VENCER (due after it),
 * falling back to the status in the file when a date is missing, and the
 * classified rows are summed by status and by aging bucket.
 */
module Ledger {
  import opened Wrappers
  import opened Text
  import opened Sorting
  import opened Grouping
  import opened JsNumbers
  import opened IsoDates

  const Vencido: string := "VENCIDO"
  const AVencer: string := "A VENCER"
  /** The value of the "Data Base: (Tudo)" option. */
  const AllDates: string := "__ALL__"

  /** Which of the two pages runs the pipeline; they differ in a few labels. */
  datatype Page = Payables | Receivables

  /**
   * A ledger row. Text columns are None when the database holds `null`.
   * `party` is `favorecido` on the payables page and `sacado` on the
   * receivables page; `portador`, `operacao` and `dias` exist only on the
   * receivables page. `valor` is in cents. `baseIso`, `vencIso` and
   * `statusCalc` are the fields the page adds (`__data_base_iso`,
   * `__venc_iso`, `__status_calc`).
   */
  datatype Row = Row(
    tipo: Option<string>, subtipo: Option<string>, grupo: Option<string>,
    classificacao: Option<string>, natFinanceira: Option<string>, party: Option<string>,
    portador: Option<string>, operacao: Option<string>,
    status: Option<string>, aging: Option<string>, dias: Cell, valor: Option<int>,
    dataBase: RawDate, vencimento: RawDate,
    baseIso: Option<string>, vencIso: Option<string>, statusCalc: string)

  // ---------------------------------------------------------------------------
  // Labels
  // ---------------------------------------------------------------------------

  /** `safeStr(v, fallback)`: the trimmed text, or `fallback` when it is blank. */
  function SafeStr(v: Option<string>, fallback: string): (r: string)
    ensures Trim(v.GetOr("")) == "" ==> r == fallback
    ensures Trim(v.GetOr("")) != "" ==> r == Trim(v.GetOr("")) && Trim(r) == r
  {
    TrimIdempotent(v.GetOr(""));
    var s := Trim(v.GetOr(""));
    if |s| > 0 then s else fallback
  }

  /** The aging label used when a row has none. */
  function NoAging(page: Page): string {
    if page.Payables? then "(SEM AGING)" else "SEM AGING"
  }

  /** `agingBucketLabel(aging)`: the trimmed label upper-cased, or the page's sentinel. */
  function AgingLabel(page: Page, aging: Option<string>): (r: string)
    ensures r != ""
    ensures Trim(aging.GetOr("")) == "" ==> r == NoAging(page)
    ensures |Trim(aging.GetOr(""))| > 0 ==> |r| == |Trim(aging.GetOr(""))|
  {
    var a := Trim(aging.GetOr(""));
    if |a| > 0 then ToUpper(a) else NoAging(page)
  }

  /**
   * The label ignores surrounding white space and is the upper-cased text
   * that remains: "  30 dias " and "30 DIAS" are both "30 DIAS".
   */
  lemma AgingLabelOf(page: Page, pre: string, y: string, post: string)
    requires |y| > 0 && !IsSpace(y[0]) && !IsSpace(y[|y| - 1])
    requires forall i :: 0 <= i < |pre| ==> IsSpace(pre[i])
    requires forall i :: 0 <= i < |post| ==> IsSpace(post[i])
    ensures AgingLabel(page, Some(pre + y + post)) == ToUpper(y)
  {
    TrimAround(pre, y, post);
  }

  /** Two agings that differ only in letter case get the same label. */
  lemma AgingLabelIgnoresCase(page: Page, a: string, b: string)
    requires ToUpper(a) == ToUpper(b)
    ensures AgingLabel(page, Some(a)) == AgingLabel(page, Some(b))
  {
    TrimUpper(a);
    TrimUpper(b);
  }

  /** A label read back as an aging gives itself: labels are already trimmed and upper-case. */
  lemma AgingLabelIdempotent(page: Page, aging: Option<string>)
    ensures AgingLabel(page, Some(AgingLabel(page, aging))) == AgingLabel(page, aging)
  {
    var a := Trim(aging.GetOr(""));
    if |a| > 0 {
      UpperTrimmedIsTrimmed(aging.GetOr(""));
    } else {
      NoAgingIsLabel(page);
    }
  }

  lemma UpperTrimmedIsTrimmed(s: string)
    requires |Trim(s)| > 0
    ensures Trim(ToUpper(Trim(s))) == ToUpper(Trim(s)) && ToUpper(ToUpper(Trim(s))) == ToUpper(Trim(s))
  {
    TrimIdempotent(s);
    TrimUpper(Trim(s));
    ToUpperIdempotent(Trim(s));
  }

  lemma NoAgingIsLabel(page: Page)
    ensures Trim(NoAging(page)) == NoAging(page) && ToUpper(NoAging(page)) == NoAging(page)
  {
    var r := NoAging(page);
    assert !IsSpace(r[0]) && !IsSpace(r[|r| - 1]);
    forall i | 0 <= i < |r| ensures UpperChar(r[i]) == r[i] {
      if page.Payables? {
        assert r[i] in "(SEM AGING)";
      } else {
        assert r[i] in "SEM AGING";
      }
    }
    TrimmedUpperIsItself(r);
  }

  /** A text with non-space ends whose letters are all upper-case is its own trimmed upper case. */
  lemma TrimmedUpperIsItself(r: string)
    requires |r| > 0 && !IsSpace(r[0]) && !IsSpace(r[|r| - 1])
    requires forall i :: 0 <= i < |r| ==> UpperChar(r[i]) == r[i]
    ensures Trim(r) == r && ToUpper(r) == r
  {
    TrimAround("", r, "");
    assert "" + r + "" == r;
  }

  /** `String(status || "").trim().toUpperCase()`. */
  function StatusText(status: Option<string>): string {
    ToUpper(Trim(status.GetOr("")))
  }

  /** The payables page's fallback: the file status, or SEM STATUS when blank. */
  function FileStatus(status: Option<string>): (r: string)
    ensures r != ""
    ensures StatusText(status) == "" ==> r == "SEM STATUS"
    ensures StatusText(status) != "" ==> r == StatusText(status)
  {
    var x := StatusText(status);
    if x == "" then "SEM STATUS" else x
  }

  /** `normStatus(s)`, the receivables page's fallback. */
  function NormStatus(status: Option<string>): (r: string)
    ensures r != ""
    ensures StatusText(status) == "" ==> r == "SEM STATUS"
    ensures StatusText(status) != "" && Contains(StatusText(status), "VENC") ==> r == Vencido
  {
    var x := StatusText(status);
    if x == "" then "SEM STATUS"
    else if Contains(x, "VENC") then Vencido
    else if Contains(x, "AVENC") || Contains(x, "A VENC") then AVencer
    else x
  }

  /**
   * The A VENCER branch of `normStatus` is never taken: every text it tests
   * for contains "VENC", which the branch before it catches. So the file
   * status never classifies a row as A VENCER.
   */
  lemma NormStatusNeverAVencer(status: Option<string>)
    ensures NormStatus(status) != AVencer
  {
    var x := StatusText(status);
    if !Contains(x, "VENC") {
      WithoutVenc(x);
      AVencerHasVenc();
    }
  }

  /** A status that mentions no "VENC" is passed through, trimmed and upper-cased. */
  lemma NormStatusKeepsOther(status: Option<string>)
    requires StatusText(status) != "" && !Contains(StatusText(status), "VENC")
    ensures NormStatus(status) == StatusText(status)
  {
    WithoutVenc(StatusText(status));
  }

  lemma WithoutVenc(x: string)
    requires !Contains(x, "VENC")
    ensures !Contains(x, "AVENC") && !Contains(x, "A VENC")
  {
    assert "AVENC" == "A" + "VENC" && "A VENC" == "A " + "VENC";
    if Contains(x, "AVENC") {
      ContainsTail(x, "A", "VENC");
    }
    if Contains(x, "A VENC") {
      ContainsTail(x, "A ", "VENC");
    }
  }

  lemma AVencerHasVenc()
    ensures Contains(AVencer, "VENC")
  {
    assert IsPrefix("VENC", AVencer[2..]);
    ContainsDrop(AVencer, 2, "VENC");
  }

  /** What a row falls back to when a date is missing. */
  function Fallback(page: Page, status: Option<string>): (r: string)
    ensures r != ""
  {
    match page
    case Payables => FileStatus(status)
    case Receivables => NormStatus(status)
  }

  // ---------------------------------------------------------------------------
  // Loading, filtering by reference date, classification
  // ---------------------------------------------------------------------------

  /** The load step: every row gets `toISO` of its two dates, nothing else changes. */
  function Normalise(rows: seq<Row>, hostParse: HostDateParser): (r: seq<Row>)
    ensures |r| == |rows|
    ensures forall i :: 0 <= i < |rows| ==>
      r[i].baseIso == ToIso(rows[i].dataBase, hostParse) && r[i].vencIso == ToIso(rows[i].vencimento, hostParse)
      && r[i].(baseIso := rows[i].baseIso, vencIso := rows[i].vencIso) == rows[i]
  {
    seq(|rows|, i requires 0 <= i < |rows| =>
      rows[i].(baseIso := ToIso(rows[i].dataBase, hostParse), vencIso := ToIso(rows[i].vencimento, hostParse)))
  }

  /** `dataBaseSelected === "__ALL__" ? null : dataBaseSelected`, read for truthiness. */
  function ActiveBase(sel: string): (b: Option<string>)
    ensures Truthy(b) <==> sel != AllDates && sel != ""
    ensures Truthy(b) ==> b == Some(sel)
  {
    if sel == AllDates || sel == "" then None else Some(sel)
  }

  /** `base || r.__data_base_iso`. */
  function RefDate(r: Row, base: Option<string>): Option<string> {
    if Truthy(base) then base else r.baseIso
  }

  /** The status a row gets under reference date `base` (`__status_calc`). */
  function Classify(page: Page, r: Row, base: Option<string>): (c: Row)
    ensures c.(statusCalc := r.statusCalc) == r
  {
    var ref := RefDate(r, base);
    var status :=
      if Truthy(ref) && Truthy(r.vencIso) then
        if IsBeforeOrEq(r.vencIso, ref) then Vencido
        else if IsAfter(r.vencIso, ref) then AVencer
        else Fallback(page, r.status)
      else Fallback(page, r.status);
    r.(statusCalc := status)
  }

  /** With both dates present: VENCIDO exactly when due on or before the reference, A VENCER exactly when after. */
  lemma ClassifyByDates(page: Page, r: Row, base: Option<string>)
    requires Truthy(RefDate(r, base)) && Truthy(r.vencIso)
    ensures Classify(page, r, base).statusCalc == Vencido <==> LexLe(r.vencIso.value, RefDate(r, base).value)
    ensures Classify(page, r, base).statusCalc == AVencer <==> LexLt(RefDate(r, base).value, r.vencIso.value)
  {
    ComparatorsSplit(r.vencIso, RefDate(r, base));
    LexLeOrGreater(r.vencIso.value, RefDate(r, base).value);
  }

  /** A row due on its reference date is already VENCIDO. */
  lemma DueOnReferenceIsVencido(page: Page, r: Row, base: Option<string>)
    requires Truthy(r.vencIso) && RefDate(r, base) == r.vencIso
    ensures Classify(page, r, base).statusCalc == Vencido
  {
    LexLeTotal(r.vencIso.value, r.vencIso.value);
    ClassifyByDates(page, r, base);
  }

  /** For ISO dates the string comparison is the calendar comparison (section 5.1 of RFC 3339). */
  lemma ClassifyIsChronological(page: Page, r: Row, base: Option<string>)
    requires RefDate(r, base).Some? && IsIsoShape(RefDate(r, base).value)
    requires r.vencIso.Some? && IsIsoShape(r.vencIso.value)
    ensures Classify(page, r, base).statusCalc == Vencido <==> ChronoLe(r.vencIso.value, RefDate(r, base).value)
  {
    ClassifyByDates(page, r, base);
    IsoOrderIsChronological(r.vencIso.value, RefDate(r, base).value);
  }

  /** Without both dates the file status decides. */
  lemma ClassifyFallsBack(page: Page, r: Row, base: Option<string>)
    requires !(Truthy(RefDate(r, base)) && Truthy(r.vencIso))
    ensures Classify(page, r, base).statusCalc == Fallback(page, r.status)
  {
  }

  /** `rows.filter(r => !base || r.__data_base_iso === base)`. */
  function Visible(rows: seq<Row>, base: Option<string>): (v: seq<Row>)
    ensures |v| <= |rows|
  {
    if |rows| == 0 then []
    else
      var r := rows[|rows| - 1];
      Visible(rows[..|rows| - 1], base) + (if !Truthy(base) || r.baseIso == base then [r] else [])
  }

  lemma {:induction false} VisibleAll(rows: seq<Row>, base: Option<string>)
    requires !Truthy(base)
    ensures Visible(rows, base) == rows
  {
    if |rows| > 0 {
      VisibleAll(rows[..|rows| - 1], base);
      assert rows == rows[..|rows| - 1] + [rows[|rows| - 1]];
    }
  }

  lemma {:induction false} VisibleSelected(rows: seq<Row>, base: Option<string>)
    requires Truthy(base)
    ensures forall i :: 0 <= i < |Visible(rows, base)| ==>
      Visible(rows, base)[i].baseIso == base && Visible(rows, base)[i] in rows
    ensures forall j :: 0 <= j < |rows| && rows[j].baseIso == base ==> rows[j] in Visible(rows, base)
  {
    if |rows| > 0 {
      var init := rows[..|rows| - 1];
      VisibleSelected(init, base);
      assert rows == init + [rows[|rows| - 1]];
    }
  }

  function ClassifyAll(page: Page, v: seq<Row>, base: Option<string>): (c: seq<Row>)
    ensures |c| == |v| && forall i :: 0 <= i < |v| ==> c[i] == Classify(page, v[i], base)
  {
    seq(|v|, i requires 0 <= i < |v| => Classify(page, v[i], base))
  }

  /** `filteredRows`: the rows of the selected reference date, classified. */
  function FilterRows(page: Page, rows: seq<Row>, sel: string): seq<Row> {
    var base := ActiveBase(sel);
    ClassifyAll(page, Visible(rows, base), base)
  }

  /** "(Tudo)": every row survives and is classified against its own `data_base`. */
  lemma FilterAllDates(page: Page, rows: seq<Row>, sel: string)
    requires sel == AllDates || sel == ""
    ensures |FilterRows(page, rows, sel)| == |rows|
    ensures forall i :: 0 <= i < |rows| ==>
      FilterRows(page, rows, sel)[i] == Classify(page, rows[i], None)
      && RefDate(rows[i], ActiveBase(sel)) == rows[i].baseIso
  {
    VisibleAll(rows, ActiveBase(sel));
  }

  /**
   * A selected date: exactly the rows with that `data_base` survive, and each
   * is classified against the selected date.
   */
  lemma FilterSelectedDate(page: Page, rows: seq<Row>, sel: string)
    requires sel != AllDates && sel != ""
    ensures forall i :: 0 <= i < |FilterRows(page, rows, sel)| ==>
      FilterRows(page, rows, sel)[i].baseIso == Some(sel)
      && exists j :: 0 <= j < |rows| && rows[j].baseIso == Some(sel)
                     && FilterRows(page, rows, sel)[i] == Classify(page, rows[j], Some(sel))
    ensures forall j :: 0 <= j < |rows| && rows[j].baseIso == Some(sel) ==>
      Classify(page, rows[j], Some(sel)) in FilterRows(page, rows, sel)
  {
    var base := ActiveBase(sel);
    var v := Visible(rows, base);
    var f := FilterRows(page, rows, sel);
    VisibleSelected(rows, base);
    forall i | 0 <= i < |f|
      ensures f[i].baseIso == Some(sel)
      ensures exists j :: 0 <= j < |rows| && rows[j].baseIso == Some(sel) && f[i] == Classify(page, rows[j], Some(sel))
    {
      assert v[i] in rows;
      var j :| 0 <= j < |rows| && rows[j] == v[i];
      assert f[i] == Classify(page, rows[j], Some(sel));
    }
    forall j | 0 <= j < |rows| && rows[j].baseIso == Some(sel)
      ensures Classify(page, rows[j], Some(sel)) in f
    {
      var i :| 0 <= i < |v| && v[i] == rows[j];
      assert f[i] == Classify(page, rows[j], Some(sel));
    }
  }

  /**
   * `dataBaseOptions`: the distinct non-empty reference dates of the rows,
   * collected into a `Set` and sorted newest first.
   */
  method DataBaseOptions(rows: seq<Row>) returns (opts: seq<string>)
    ensures StrictlyDescending(opts)
    ensures forall d :: d in opts <==> exists i :: 0 <= i < |rows| && rows[i].baseIso == Some(d) && d != ""
  {
    var seen: seq<string> := [];
    var i := 0;
    while i < |rows|
      invariant 0 <= i <= |rows|
      invariant forall a, b :: 0 <= a < b < |seen| ==> seen[a] != seen[b]
      invariant forall d :: d in seen <==> exists j :: 0 <= j < i && rows[j].baseIso == Some(d) && d != ""
    {
      var iso := rows[i].baseIso;
      if Truthy(iso) && iso.value !in seen {
        seen := seen + [iso.value];
      }
      i := i + 1;
    }
    opts := SortedDistinctDesc(seen);
  }

  // ---------------------------------------------------------------------------
  // Sums and aging buckets
  // ---------------------------------------------------------------------------

  /** `Number(r.valor) || 0`: a missing amount counts as zero. */
  function Amount(r: Row): int {
    r.valor.GetOr(0)
  }

  /** `sum(rows.map(r => r.valor))`, `sumValor(rows)`. */
  function SumValor(rows: seq<Row>): int {
    SumBy(rows, Amount)
  }

  function StatusOf(r: Row): string {
    r.statusCalc
  }

  /** The aging label of a row as a grouping key. */
  function LabelOf(page: Page): Row -> string {
    (r: Row) => AgingLabel(page, r.aging)
  }

  /** `rows.filter(r => r.__status_calc === st)`. */
  function WithStatus(rows: seq<Row>, st: string): seq<Row> {
    Select(rows, StatusOf, st)
  }

  function SumStatus(rows: seq<Row>, st: string): int {
    SumValor(WithStatus(rows, st))
  }

  /** The sum of the rows of status `st` whose aging label is `a`. */
  function SumStatusAging(page: Page, rows: seq<Row>, st: string, a: string): int {
    SumValor(Select(WithStatus(rows, st), LabelOf(page), a))
  }

  /** The aging labels of the rows of status `st`, in row order. */
  function StatusLabels(page: Page, rows: seq<Row>, st: string): (r: seq<string>)
    ensures |r| == |WithStatus(rows, st)|
    ensures forall i :: 0 <= i < |r| ==> r[i] == AgingLabel(page, WithStatus(rows, st)[i].aging)
  {
    var w := WithStatus(rows, st);
    seq(|w|, i requires 0 <= i < |w| => AgingLabel(page, w[i].aging))
  }

  lemma StatusLabelsMembers(page: Page, rows: seq<Row>, st: string)
    ensures forall a :: a in StatusLabels(page, rows, st) <==>
      exists i :: 0 <= i < |rows| && rows[i].statusCalc == st && AgingLabel(page, rows[i].aging) == a
  {
    SelectMembers(rows, StatusOf, st);
    forall a | a in StatusLabels(page, rows, st)
      ensures exists i :: 0 <= i < |rows| && rows[i].statusCalc == st && AgingLabel(page, rows[i].aging) == a
    {
      StatusLabelFrom(page, rows, st, a);
    }
    forall i | 0 <= i < |rows| && rows[i].statusCalc == st
      ensures AgingLabel(page, rows[i].aging) in StatusLabels(page, rows, st)
    {
      StatusLabelOf(page, rows, st, i);
    }
  }

  lemma StatusLabelFrom(page: Page, rows: seq<Row>, st: string, a: string)
    requires a in StatusLabels(page, rows, st)
    requires forall i :: 0 <= i < |WithStatus(rows, st)| ==>
      WithStatus(rows, st)[i] in rows && WithStatus(rows, st)[i].statusCalc == st
    ensures exists i :: 0 <= i < |rows| && rows[i].statusCalc == st && AgingLabel(page, rows[i].aging) == a
  {
    var w := WithStatus(rows, st);
    var labels := StatusLabels(page, rows, st);
    var k :| 0 <= k < |labels| && labels[k] == a;
    var i :| 0 <= i < |rows| && rows[i] == w[k];
  }

  lemma StatusLabelOf(page: Page, rows: seq<Row>, st: string, i: int)
    requires 0 <= i < |rows| && rows[i].statusCalc == st
    requires rows[i] in WithStatus(rows, st)
    ensures AgingLabel(page, rows[i].aging) in StatusLabels(page, rows, st)
  {
    var w := WithStatus(rows, st);
    var k :| 0 <= k < |w| && w[k] == rows[i];
    assert StatusLabels(page, rows, st)[k] == AgingLabel(page, rows[i].aging);
  }

  /**
   * `agingBuckets.vencido` / `.aVencer`: the distinct aging labels of the
   * rows of status `st`, sorted.
   */
  function AgingBuckets(page: Page, rows: seq<Row>, st: string): (r: seq<string>)
    ensures StrictlyAscending(r)
    ensures forall a :: a in r <==>
      exists i :: 0 <= i < |rows| && rows[i].statusCalc == st && AgingLabel(page, rows[i].aging) == a
  {
    StatusLabelsMembers(page, rows, st);
    SortedDistinct(StatusLabels(page, rows, st))
  }

  /** The KPI cards: everything, VENCIDO and A VENCER. */
  datatype Totals = Totals(total: int, vencido: int, aVencer: int)

  function KpiTotals(rows: seq<Row>): Totals {
    Totals(SumValor(rows), SumStatus(rows, Vencido), SumStatus(rows, AVencer))
  }

  /** When every row is VENCIDO or A VENCER, the two cards add up to the total card. */
  lemma KpiTotalsSplit(rows: seq<Row>)
    requires forall i :: 0 <= i < |rows| ==> rows[i].statusCalc == Vencido || rows[i].statusCalc == AVencer
    ensures KpiTotals(rows).total == KpiTotals(rows).vencido + KpiTotals(rows).aVencer
  {
    var keys := [Vencido, AVencer];
    assert forall i :: 0 <= i < |rows| ==> StatusOf(rows[i]) in keys;
    SumGroupsCovers(rows, StatusOf, keys, Amount);
    assert keys[1..] == [AVencer] && keys[1..][1..] == [];
    assert SumGroups(rows, StatusOf, keys[1..][1..], Amount) == 0;
    assert SumGroups(rows, StatusOf, keys[1..], Amount) == SumStatus(rows, AVencer);
    assert SumGroups(rows, StatusOf, keys, Amount) == SumStatus(rows, Vencido) + SumStatus(rows, AVencer);
  }

  lemma StrictlyAscendingDistinct(s: seq<string>)
    requires StrictlyAscending(s)
    ensures forall i, j :: 0 <= i < j < |s| ==> s[i] != s[j]
  {
  }

  /**
   * For rows drawn from `filtered`, the per-bucket sums of status `st` over
   * the global buckets of `st` add up to the sum of status `st`: no row of
   * that status falls outside the buckets.
   */
  lemma BucketsCoverStatus(page: Page, filtered: seq<Row>, rows: seq<Row>, st: string)
    requires forall i :: 0 <= i < |rows| ==> rows[i] in filtered
    ensures SumGroups(WithStatus(rows, st), LabelOf(page), AgingBuckets(page, filtered, st), Amount)
         == SumStatus(rows, st)
  {
    var w := WithStatus(rows, st);
    var buckets := AgingBuckets(page, filtered, st);
    SelectMembers(rows, StatusOf, st);
    forall i | 0 <= i < |w| ensures LabelOf(page)(w[i]) in buckets {
      assert w[i] in rows;
      assert w[i] in filtered;
      var j :| 0 <= j < |filtered| && filtered[j] == w[i];
      assert filtered[j].statusCalc == st;
    }
    SumGroupsCovers(w, LabelOf(page), buckets, Amount);
  }
}

=== FILE: nesting.dfy ===
/**
 * The month → week nesting behind the Disponibilidade table: rows grouped
 * by month key (months in order of first appearance), and within each month
 * by week key (weeks in order of first appearance, then sorted by their
 * label). Stated over any row type and its three key functions.
 */
module Nesting {
  import opened Text
  import opened Sorting
  import opened Grouping
  import opened JsNumbers

  /** How a row is keyed: its month key, its week key, and the week label it shows. */
  datatype Keys<!T> = Keys(month: T -> string, weekKey: T -> string, week: T -> string)

  datatype WeekGroup<T> = WeekGroup(weekKey: string, week: string, rows: seq<T>)

  datatype MonthGroup<T> = MonthGroup(monthKey: string, rows: seq<T>, weeks: seq<WeekGroup<T>>)

  /** The week label of the first row with week key `k`: the label its group keeps ("—" when there is none). */
  function FirstWeek<T>(s: seq<T>, k: string, ks: Keys<T>): string {
    if |s| == 0 then "—" else if ks.weekKey(s[0]) == k then ks.week(s[0]) else FirstWeek(s[1..], k, ks)
  }

  lemma {:induction false} FirstWeekAppend<T>(s: seq<T>, x: T, k: string, ks: Keys<T>)
    ensures k in DistinctKeys(s, ks.weekKey) ==> FirstWeek(s + [x], k, ks) == FirstWeek(s, k, ks)
    ensures k !in DistinctKeys(s, ks.weekKey) && ks.weekKey(x) == k ==> FirstWeek(s + [x], k, ks) == ks.week(x)
  {
    DistinctKeysMembers(s, ks.weekKey);
    if |s| == 0 {
      assert s + [x] == [x];
    } else {
      assert (s + [x])[1..] == s[1..] + [x];
      FirstWeekAppend(s[1..], x, k, ks);
      DistinctKeysMembers(s[1..], ks.weekKey);
      if ks.weekKey(s[0]) != k && k in DistinctKeys(s, ks.weekKey) {
        var i :| 0 <= i < |s| && ks.weekKey(s[i]) == k;
        assert s[1..][i - 1] == s[i];
      }
    }
  }

  /** The week group of key `k` among one month's rows. */
  function WeekGroupOf<T>(rows: seq<T>, k: string, ks: Keys<T>): WeekGroup<T> {
    WeekGroup(k, FirstWeek(rows, k, ks), Select(rows, ks.weekKey, k))
  }

  function WeeksFor<T>(rows: seq<T>, keys: seq<string>, ks: Keys<T>): (r: seq<WeekGroup<T>>)
    ensures |r| == |keys|
  {
    if |keys| == 0 then [] else [WeekGroupOf(rows, keys[0], ks)] + WeeksFor(rows, keys[1..], ks)
  }

  /**
   * The week order, as "a may come first": `Number(a) - Number(b)` when both
   * are finite numbers, else `localeCompare`.
   */
  predicate WeekTextLe(a: string, b: string) {
    var na, nb := StringToNumber(a), StringToNumber(b);
    if na.Finite? && nb.Finite? then na.v <= nb.v else LexLe(a, b)
  }

  /** The same order on week groups, by their labels. */
  predicate WeekLe<T>(a: WeekGroup<T>, b: WeekGroup<T>) {
    WeekTextLe(a.week, b.week)
  }

  /** The week groups of one month's rows, in order of first appearance. */
  function MonthWeeks<T>(rows: seq<T>, ks: Keys<T>): seq<WeekGroup<T>> {
    WeeksFor(rows, DistinctKeys(rows, ks.weekKey), ks)
  }

  /** A month's group: its rows, and its weeks (in order of first appearance, then sorted). */
  function MonthGroupOf<T>(dated: seq<T>, k: string, ks: Keys<T>): MonthGroup<T> {
    var rows := Select(dated, ks.month, k);
    MonthGroup(k, rows, SortBy(MonthWeeks(rows, ks), WeekLe))
  }

  function MonthsFor<T>(dated: seq<T>, keys: seq<string>, ks: Keys<T>): (r: seq<MonthGroup<T>>)
    ensures |r| == |keys|
  {
    if |keys| == 0 then [] else [MonthGroupOf(dated, keys[0], ks)] + MonthsFor(dated, keys[1..], ks)
  }

  /** All months of `dated`, in order of first appearance. */
  function Nest<T>(dated: seq<T>, ks: Keys<T>): seq<MonthGroup<T>> {
    MonthsFor(dated, DistinctKeys(dated, ks.month), ks)
  }

  lemma {:induction false} MonthsForSnoc<T>(dated: seq<T>, keys: seq<string>, k: string, ks: Keys<T>)
    ensures MonthsFor(dated, keys + [k], ks) == MonthsFor(dated, keys, ks) + [MonthGroupOf(dated, k, ks)]
  {
    if |keys| > 0 {
      assert (keys + [k])[1..] == keys[1..] + [k];
      MonthsForSnoc(dated, keys[1..], k, ks);
    } else {
      assert keys + [k] == [k];
    }
  }

  // ---------------------------------------------------------------------------
  // The scan's state
  // ---------------------------------------------------------------------------

  /** One month's record while the rows are scanned: its rows, its week keys in order of creation, its weeks. */
  datatype MonthAcc<T> = MonthAcc(rows: seq<T>, weekKeys: seq<string>, weeks: map<string, WeekGroup<T>>)

  function EmptyMonth<T>(): MonthAcc<T> {
    MonthAcc([], [], map[])
  }

  /** `acc` is the record of exactly the rows `rows`. */
  ghost predicate AccOf<T>(acc: MonthAcc<T>, rows: seq<T>, ks: Keys<T>) {
    && acc.rows == rows
    && acc.weekKeys == DistinctKeys(rows, ks.weekKey)
    && (forall w :: w in acc.weeks <==> w in acc.weekKeys)
    && (forall w :: w in acc.weeks ==> acc.weeks[w] == WeekGroupOf(rows, w, ks))
  }

  /** `m.rows.push(r)`, the week created on first sight, then `weeks.get(weekKey).rows.push(r)`. */
  function Push<T>(acc: MonthAcc<T>, r: T, ks: Keys<T>): MonthAcc<T> {
    var wk := ks.weekKey(r);
    var keys := if wk in acc.weeks then acc.weekKeys else acc.weekKeys + [wk];
    var w := if wk in acc.weeks then acc.weeks[wk] else WeekGroup(wk, ks.week(r), []);
    MonthAcc(acc.rows + [r], keys, acc.weeks[wk := w.(rows := w.rows + [r])])
  }

  lemma PushKeeps<T>(acc: MonthAcc<T>, rows: seq<T>, r: T, ks: Keys<T>)
    requires AccOf(acc, rows, ks)
    ensures AccOf(Push(acc, r, ks), rows + [r], ks)
  {
    var s := rows + [r];
    var wk := ks.weekKey(r);
    assert s[..|rows|] == rows;
    var next := Push(acc, r, ks);
    forall w | w in next.weeks ensures next.weeks[w] == WeekGroupOf(s, w, ks) {
      SelectAppend(rows, r, ks.weekKey, w);
      FirstWeekAppend(rows, r, w, ks);
      if w == wk && wk !in acc.weeks {
        SelectEmpty(rows, ks.weekKey, wk);
      }
    }
  }

  /** The month records after scanning `s`, one `Push` per row. */
  function Records<T>(s: seq<T>, ks: Keys<T>): map<string, MonthAcc<T>>
  {
    if |s| == 0 then map[]
    else
      var p := Records(s[..|s| - 1], ks);
      var r := s[|s| - 1];
      var k := ks.month(r);
      p[k := Push(if k in p then p[k] else EmptyMonth(), r, ks)]
  }

  lemma RecordsSnoc<T>(s: seq<T>, r: T, ks: Keys<T>)
    ensures DistinctKeys(s + [r], ks.month) == if ks.month(r) in DistinctKeys(s, ks.month) then DistinctKeys(s, ks.month) else DistinctKeys(s, ks.month) + [ks.month(r)]
    ensures ks.month(r) in Records(s, ks) <==> ks.month(r) in DistinctKeys(s, ks.month)
    ensures var p := Records(s, ks);
            var k := ks.month(r);
            Records(s + [r], ks) == p[k := Push(if k in p then p[k] else EmptyMonth(), r, ks)]
  {
    assert (s + [r])[..|s|] == s;
    RecordsDomain(s, ks.month(r), ks);
  }

  lemma {:induction false} RecordsDomain<T>(s: seq<T>, k: string, ks: Keys<T>)
    ensures k in Records(s, ks) <==> k in DistinctKeys(s, ks.month)
  {
    if |s| > 0 {
      RecordsDomain(s[..|s| - 1], k, ks);
    }
  }

  /** Each record holds exactly its month's rows, and its weeks are that month's week groups. */
  lemma {:induction false} RecordsSound<T>(s: seq<T>, k: string, ks: Keys<T>)
    requires k in Records(s, ks)
    ensures AccOf(Records(s, ks)[k], Select(s, ks.month, k), ks)
  {
    var init := s[..|s| - 1];
    var r := s[|s| - 1];
    var p := Records(init, ks);
    var before := Select(init, ks.month, k);
    if ks.month(r) == k {
      var acc := if k in p then p[k] else EmptyMonth();
      assert AccOf(acc, before, ks) by {
        if k in p {
          RecordsSound(init, k, ks);
        } else {
          RecordsDomain(init, k, ks);
          SelectEmpty(init, ks.month, k);
          assert DistinctKeys([], ks.weekKey) == [];
        }
      }
      PushKeeps(acc, before, r, ks);
      assert Records(s, ks)[k] == Push(acc, r, ks);
      assert Select(s, ks.month, k) == before + [r];
    } else {
      assert Records(s, ks)[k] == p[k];
      assert Select(s, ks.month, k) == before + [];
      assert before + [] == before;
      RecordsSound(init, k, ks);
    }
  }

  /** `Array.from(weeks.values())`: the weeks of a record, in order of creation. */
  function WeeksIn<T>(keys: seq<string>, weeks: map<string, WeekGroup<T>>): seq<WeekGroup<T>>
  {
    if |keys| == 0 then []
    else (if keys[0] in weeks then [weeks[keys[0]]] else []) + WeeksIn(keys[1..], weeks)
  }

  lemma {:induction false} WeeksInRecord<T>(keys: seq<string>, weeks: map<string, WeekGroup<T>>, rows: seq<T>, ks: Keys<T>)
    requires forall t :: 0 <= t < |keys| ==> keys[t] in weeks
    requires forall w :: w in weeks ==> weeks[w] == WeekGroupOf(rows, w, ks)
    ensures WeeksIn(keys, weeks) == WeeksFor(rows, keys, ks)
  {
    if |keys| > 0 {
      WeeksInRecord(keys[1..], weeks, rows, ks);
    }
  }

  /** A month's record at the end of the scan yields that month's group. */
  lemma MonthFromRecord<T>(seen: seq<T>, k: string, ks: Keys<T>)
    requires k in DistinctKeys(seen, ks.month)
    ensures k in Records(seen, ks)
    ensures var m := Records(seen, ks)[k];
            MonthGroup(k, m.rows, SortBy(WeeksIn(m.weekKeys, m.weeks), WeekLe)) == MonthGroupOf(seen, k, ks)
  {
    RecordsDomain(seen, k, ks);
    var m := Records(seen, ks)[k];
    RecordsSound(seen, k, ks);
    WeeksInRecord(m.weekKeys, m.weeks, m.rows, ks);
  }

  lemma MonthsForPrefix<T>(dated: seq<T>, keys: seq<string>, j: nat, ks: Keys<T>)
    requires j < |keys|
    ensures MonthsFor(dated, keys[..j + 1], ks) == MonthsFor(dated, keys[..j], ks) + [MonthGroupOf(dated, keys[j], ks)]
  {
    PrefixSnoc(keys, j);
    MonthsForSnoc(dated, keys[..j], keys[j], ks);
  }

  /** The second half of the scan: each month in order of creation, its weeks sorted (`ws.sort(...)`). */
  method AssembleMonths<T>(monthKeys: seq<string>, byMonth: map<string, MonthAcc<T>>, ghost seen: seq<T>, ks: Keys<T>)
    returns (months: seq<MonthGroup<T>>)
    requires monthKeys == DistinctKeys(seen, ks.month) && byMonth == Records(seen, ks)
    ensures months == MonthsFor(seen, monthKeys, ks)
  {
    months := [];
    for j := 0 to |monthKeys|
      invariant months == MonthsFor(seen, monthKeys[..j], ks)
    {
      var k := monthKeys[j];
      MonthFromRecord(seen, k, ks);
      MonthsForPrefix(seen, monthKeys, j, ks);
      var m := byMonth[k];
      var ws := WeeksIn(m.weekKeys, m.weeks);
      months := months + [MonthGroup(k, m.rows, SortBy(ws, WeekLe))];
    }
    assert monthKeys[..|monthKeys|] == monthKeys;
  }

  // ---------------------------------------------------------------------------
  // What the nesting guarantees
  // ---------------------------------------------------------------------------

  function RowsOfMonth<T>(m: MonthGroup<T>): seq<T> {
    m.rows
  }

  function RowsOfWeek<T>(w: WeekGroup<T>): seq<T> {
    w.rows
  }

  lemma {:induction false} MonthsForAt<T>(dated: seq<T>, keys: seq<string>, i: nat, ks: Keys<T>)
    requires i < |keys|
    ensures MonthsFor(dated, keys, ks)[i] == MonthGroupOf(dated, keys[i], ks)
  {
    if i > 0 {
      MonthsForAt(dated, keys[1..], i - 1, ks);
    }
  }

  lemma {:induction false} MonthsRows<T>(dated: seq<T>, keys: seq<string>, ks: Keys<T>)
    ensures FlatMap(MonthsFor(dated, keys, ks), RowsOfMonth) == Concat(dated, ks.month, keys)
  {
    if |keys| > 0 {
      MonthsRows(dated, keys[1..], ks);
    }
  }

  lemma {:induction false} WeeksRows<T>(rows: seq<T>, keys: seq<string>, ks: Keys<T>)
    ensures FlatMap(WeeksFor(rows, keys, ks), RowsOfWeek) == Concat(rows, ks.weekKey, keys)
  {
    if |keys| > 0 {
      WeeksRows(rows, keys[1..], ks);
    }
  }

  /** The months hold every row exactly once: together they are a permutation of the rows. */
  lemma NestPartition<T>(dated: seq<T>, ks: Keys<T>)
    ensures multiset(FlatMap(Nest(dated, ks), RowsOfMonth)) == multiset(dated)
  {
    MonthsRows(dated, DistinctKeys(dated, ks.month), ks);
    GroupsPartition(dated, ks.month);
  }

  /** A month's weeks hold each of its rows exactly once, whatever order the sort leaves them in. */
  lemma WeeksPartition<T>(dated: seq<T>, k: string, ks: Keys<T>)
    ensures var m := MonthGroupOf(dated, k, ks);
            multiset(FlatMap(m.weeks, RowsOfWeek)) == multiset(m.rows)
  {
    var rows := Select(dated, ks.month, k);
    var ws := MonthWeeks(rows, ks);
    FlatMapPermutation(SortBy(ws, WeekLe), ws, RowsOfWeek);
    WeeksRows(rows, DistinctKeys(rows, ks.weekKey), ks);
    GroupsPartition(rows, ks.weekKey);
  }

  /** A month group holds exactly the rows with its month key, in their original order, and is never empty. */
  lemma MonthHoldsItsRows<T>(dated: seq<T>, i: nat, ks: Keys<T>)
    requires i < |Nest(dated, ks)|
    ensures var m := Nest(dated, ks)[i];
            && m.rows != []
            && (forall x :: x in m.rows ==> x in dated && ks.month(x) == m.monthKey)
            && (forall x :: x in dated && ks.month(x) == m.monthKey ==> x in m.rows)
  {
    var keys := DistinctKeys(dated, ks.month);
    MonthsForAt(dated, keys, i, ks);
    SelectNonEmpty(dated, ks.month, keys[i]);
    SelectMembers(dated, ks.month, keys[i]);
  }

  /** No two months share a key, and every row's month has a group. */
  lemma NestKeys<T>(dated: seq<T>, ks: Keys<T>)
    ensures forall i, j :: 0 <= i < j < |Nest(dated, ks)| ==> Nest(dated, ks)[i].monthKey != Nest(dated, ks)[j].monthKey
    ensures forall x :: x in dated ==> exists i :: 0 <= i < |Nest(dated, ks)| && Nest(dated, ks)[i].monthKey == ks.month(x)
  {
    var keys := DistinctKeys(dated, ks.month);
    var n := Nest(dated, ks);
    forall i | 0 <= i < |n| ensures n[i].monthKey == keys[i] {
      MonthsForAt(dated, keys, i, ks);
    }
    DistinctKeysMembers(dated, ks.month);
    forall x | x in dated ensures exists i :: 0 <= i < |n| && n[i].monthKey == ks.month(x) {
      var t :| 0 <= t < |dated| && dated[t] == x;
      assert ks.month(x) in keys;
      var i :| 0 <= i < |keys| && keys[i] == ks.month(x);
      assert n[i].monthKey == ks.month(x);
    }
  }

  /** A week group keeps the label of one of the rows with its key. */
  lemma {:induction false} FirstWeekOfRow<T>(s: seq<T>, k: string, ks: Keys<T>)
    requires k in DistinctKeys(s, ks.weekKey)
    ensures exists i :: 0 <= i < |s| && FirstWeek(s, k, ks) == ks.week(s[i])
  {
    DistinctKeysMembers(s, ks.weekKey);
    if ks.weekKey(s[0]) != k {
      DistinctKeysMembers(s[1..], ks.weekKey);
      var i :| 0 <= i < |s| && ks.weekKey(s[i]) == k;
      assert s[1..][i - 1] == s[i];
      FirstWeekOfRow(s[1..], k, ks);
      var j :| 0 <= j < |s[1..]| && FirstWeek(s[1..], k, ks) == ks.week(s[1..][j]);
      assert s[1..][j] == s[j + 1];
    }
  }

  lemma {:induction false} WeeksForAt<T>(rows: seq<T>, keys: seq<string>, i: nat, ks: Keys<T>)
    requires i < |keys|
    ensures WeeksFor(rows, keys, ks)[i] == WeekGroupOf(rows, keys[i], ks)
  {
    if i > 0 {
      WeeksForAt(rows, keys[1..], i - 1, ks);
    }
  }

  /** A property every row's week label has, every week group's label has. */
  lemma WeekLabelsFromRows<T>(rows: seq<T>, ks: Keys<T>, p: string -> bool)
    requires forall i :: 0 <= i < |rows| ==> p(ks.week(rows[i]))
    ensures forall t :: 0 <= t < |MonthWeeks(rows, ks)| ==> p(MonthWeeks(rows, ks)[t].week)
  {
    var keys := DistinctKeys(rows, ks.weekKey);
    var ws := WeeksFor(rows, keys, ks);
    forall t | 0 <= t < |ws| ensures p(ws[t].week) {
      WeeksForAt(rows, keys, t, ks);
      FirstWeekOfRow(rows, keys[t], ks);
    }
  }

  /** Sorting keeps every label's property. */
  lemma SortKeepsLabels<T>(ws: seq<WeekGroup<T>>, p: string -> bool)
    requires forall t :: 0 <= t < |ws| ==> p(ws[t].week)
    ensures forall t :: 0 <= t < |SortBy(ws, WeekLe)| ==> p(SortBy(ws, WeekLe)[t].week)
  {
    var sorted := SortBy(ws, WeekLe);
    forall t | 0 <= t < |sorted| ensures p(sorted[t].week) {
      assert sorted[t] in multiset(ws);
    }
  }

  /** The labels of a month's weeks share any property all its rows' labels have. */
  lemma MonthLabels<T>(dated: seq<T>, k: string, ks: Keys<T>, p: string -> bool)
    requires forall x :: x in dated && ks.month(x) == k ==> p(ks.week(x))
    ensures forall t :: 0 <= t < |MonthWeeks(Select(dated, ks.month, k), ks)| ==> p(MonthWeeks(Select(dated, ks.month, k), ks)[t].week)
  {
    var rows := Select(dated, ks.month, k);
    SelectMembers(dated, ks.month, k);
    assert forall i :: 0 <= i < |rows| ==> p(ks.week(rows[i]));
    WeekLabelsFromRows(rows, ks, p);
  }

  predicate IsNumeric(s: string) {
    StringToNumber(s).Finite?
  }

  predicate NotNumeric(s: string) {
    !StringToNumber(s).Finite?
  }

  /** `Number(s)` for a numeric label (0 otherwise, where the week order does not use it). */
  function WeekNumber(s: string): real {
    match StringToNumber(s)
    case Finite(v) => v
    case _ => 0.0
  }

  /**
   * What the week order promises for a list of labels: ascending numbers
   * when every label is a number, ascending text when none is.
   */
  ghost predicate InWeekOrder(s: seq<string>) {
    && ((forall t :: 0 <= t < |s| ==> IsNumeric(s[t])) ==> forall i, j :: 0 <= i < j < |s| ==> WeekNumber(s[i]) <= WeekNumber(s[j]))
    && ((forall t :: 0 <= t < |s| ==> NotNumeric(s[t])) ==> forall i, j :: 0 <= i < j < |s| ==> LexLe(s[i], s[j]))
  }

  lemma NumericPreorder<T>(ws: seq<WeekGroup<T>>)
    requires forall t :: 0 <= t < |ws| ==> IsNumeric(ws[t].week)
    ensures TotalPreorderOn(ws, WeekLe)
  {
  }

  lemma NumericLabelsPreorder(s: seq<string>)
    requires forall t :: 0 <= t < |s| ==> IsNumeric(s[t])
    ensures TotalPreorderOn(s, WeekTextLe)
  {
  }

  lemma TextLabelsPreorder(s: seq<string>)
    requires forall t :: 0 <= t < |s| ==> NotNumeric(s[t])
    ensures TotalPreorderOn(s, WeekTextLe)
  {
    forall i, j | 0 <= i < |s| && 0 <= j < |s| ensures WeekTextLe(s[i], s[j]) || WeekTextLe(s[j], s[i]) {
      LexLeTotal(s[i], s[j]);
    }
    forall i, j, l | 0 <= i < |s| && 0 <= j < |s| && 0 <= l < |s| && WeekTextLe(s[i], s[j]) && WeekTextLe(s[j], s[l])
      ensures WeekTextLe(s[i], s[l])
    {
      LexLeTransitive(s[i], s[j], s[l]);
    }
  }

  lemma TextPreorder<T>(ws: seq<WeekGroup<T>>)
    requires forall t :: 0 <= t < |ws| ==> NotNumeric(ws[t].week)
    ensures TotalPreorderOn(ws, WeekLe)
  {
    forall i, j | 0 <= i < |ws| && 0 <= j < |ws| ensures WeekLe(ws[i], ws[j]) || WeekLe(ws[j], ws[i]) {
      LexLeTotal(ws[i].week, ws[j].week);
    }
    forall i, j, l | 0 <= i < |ws| && 0 <= j < |ws| && 0 <= l < |ws| && WeekLe(ws[i], ws[j]) && WeekLe(ws[j], ws[l])
      ensures WeekLe(ws[i], ws[l])
    {
      LexLeTransitive(ws[i].week, ws[j].week, ws[l].week);
    }
  }

  /** When every row of a month has a numeric week, the month's weeks come in ascending numeric order. */
  lemma WeeksAscendNumerically<T>(dated: seq<T>, k: string, ks: Keys<T>)
    requires forall x :: x in dated && ks.month(x) == k ==> IsNumeric(ks.week(x))
    ensures var ws := MonthGroupOf(dated, k, ks).weeks;
            && (forall t :: 0 <= t < |ws| ==> IsNumeric(ws[t].week))
            && (forall i, j :: 0 <= i < j < |ws| ==> WeekNumber(ws[i].week) <= WeekNumber(ws[j].week))
  {
    var ws := MonthWeeks(Select(dated, ks.month, k), ks);
    MonthLabels(dated, k, ks, IsNumeric);
    NumericPreorder(ws);
    SortByOrdered(ws, WeekLe);
    SortKeepsLabels(ws, IsNumeric);
  }

  /** When no row of a month has a numeric week, the month's weeks come in ascending text order. */
  lemma WeeksAscendAsText<T>(dated: seq<T>, k: string, ks: Keys<T>)
    requires forall x :: x in dated && ks.month(x) == k ==> NotNumeric(ks.week(x))
    ensures var ws := MonthGroupOf(dated, k, ks).weeks;
            forall i, j :: 0 <= i < j < |ws| ==> LexLe(ws[i].week, ws[j].week)
  {
    var ws := MonthWeeks(Select(dated, ks.month, k), ks);
    MonthLabels(dated, k, ks, NotNumeric);
    TextPreorder(ws);
    SortByOrdered(ws, WeekLe);
    SortKeepsLabels(ws, NotNumeric);
  }
}

=== FILE: payables.dfy ===
/**
 * The payables dashboard (Contas a Pagar): the six-level tree
 * tipo → subtipo → grupo → classificação → natureza financeira → favorecido
 * built by pushing each filtered row into its leaf, siblings sorted by
 * absolute total, and every node annotated with its totals by status and by
 * aging bucket; plus the page's view state (expanded nodes, open aging axes).
 */
module Payables {
  import opened Wrappers
  import opened Text
  import opened Sorting
  import opened Grouping
  import opened Hierarchy
  import opened Ledger
  import opened Toggles
  import JsNumbers

  /** `safeStr`'s placeholder for an empty field. */
  const Empty: string := "(vazio)"

  /** The six tree levels, each a column read through `safeStr`. */
  const Levels: seq<Row -> string> := [
    (r: Row) => SafeStr(r.tipo, Empty),
    (r: Row) => SafeStr(r.subtipo, Empty),
    (r: Row) => SafeStr(r.grupo, Empty),
    (r: Row) => SafeStr(r.classificacao, Empty),
    (r: Row) => SafeStr(r.natFinanceira, Empty),
    (r: Row) => SafeStr(r.party, Empty)
  ]

  // ---------------------------------------------------------------------------
  // Totals and the sibling order
  // ---------------------------------------------------------------------------

  /** `totalOf(node)`: the sum of a leaf's rows, or of the children's totals. */
  function TotalOf(t: Tree<Row>): int {
    if |t.rows| > 0 then SumValor(t.rows) else TotalOfEach(t.children)
  }

  function TotalOfEach(f: seq<Tree<Row>>): int {
    if |f| == 0 then 0 else TotalOf(f[0]) + TotalOfEach(f[1..])
  }

  /** A node's total is the sum of the rows it collects. */
  lemma {:induction false} TotalOfCollects(t: Tree<Row>)
    ensures TotalOf(t) == SumValor(CollectRows(t))
  {
    if |t.rows| == 0 {
      TotalOfEachCollects(t.children);
    }
  }

  lemma {:induction false} TotalOfEachCollects(f: seq<Tree<Row>>)
    ensures TotalOfEach(f) == SumValor(CollectForest(f))
  {
    if |f| > 0 {
      TotalOfCollects(f[0]);
      TotalOfEachCollects(f[1..]);
      SumByConcat(CollectRows(f[0]), CollectForest(f[1..]), Amount);
    }
  }

  /** Sorting a node's descendants does not change its total. */
  lemma SortKeepsTotal(t: Tree<Row>, o: Order<Row>)
    ensures TotalOf(SortTree(t, o)) == TotalOf(t)
  {
    TotalOfCollects(t);
    TotalOfCollects(SortTree(t, o));
    SortTreeCollects(t, o);
    SumByPermutation(CollectRows(SortTree(t, o)), CollectRows(t), Amount);
  }

  function Abs(x: int): nat {
    if x < 0 then -x else x
  }

  /** The sort key of `mapToArr`: `Math.abs(totalOf(node))`, largest first. */
  const BySize: Order<Row> := ByKeyDesc((t: Tree<Row>) => Abs(TotalOf(t)) as real)

  /** `mapToArr(root)`: the partition of the filtered rows, siblings sorted by absolute total. */
  function PayablesTree(filtered: seq<Row>): seq<Tree<Row>> {
    SortForest(Partition(filtered, Levels, false), BySize)
  }

  /** The tree `useMemo`: push every row into its leaf (`getNode`), then sort. */
  method BuildTree(filtered: seq<Row>) returns (tree: seq<Tree<Row>>)
    ensures tree == PayablesTree(filtered)
  {
    var roots := BuildByInsertion(filtered, Levels);
    tree := SortForest(roots, BySize);
  }

  /**
   * Every filtered row lies in exactly one leaf, six levels down, under the
   * labels of its own columns; no row is lost; siblings are in non-increasing
   * order of absolute total at every level.
   */
  lemma PayablesTreeSound(filtered: seq<Row>)
    ensures multiset(CollectForest(PayablesTree(filtered))) == multiset(filtered)
    ensures AllShaped(PayablesTree(filtered), 6, false)
    ensures AllPlaced(PayablesTree(filtered), Levels)
    ensures OrderedLevel(PayablesTree(filtered), BySize) && AllOrdered(PayablesTree(filtered), BySize)
  {
    var p := Partition(filtered, Levels, false);
    PartitionCollectsAll(filtered, Levels, false);
    SortForestCollects(p, BySize);
    PartitionShaped(filtered, Levels, false);
    SortForestShaped(p, BySize, Levels, false);
    SortForestOrdered(p, BySize);
  }

  // ---------------------------------------------------------------------------
  // Per-node totals (`withTotals`)
  // ---------------------------------------------------------------------------

  function ByLabel(): Row -> string {
    LabelOf(Payables)
  }

  /**
   * The by-aging object of a node (`__vencByAging`, `__avByAging`): every
   * global bucket, and every label of `rows`, mapped to the sum of the rows
   * with that label. The loops of lines 308-322 that fill it are
   * Grouping.AccumulateByKey with `init` the global buckets.
   */
  function ByAgingOf(rows: seq<Row>, buckets: seq<string>): map<string, int> {
    KeySums(rows, ByLabel(), Amount, buckets)
  }

  /** A node of the annotated tree (`withTotals`). */
  datatype Summary = Summary(
    name: string, total: int, vencido: int, aVencer: int,
    vencByAging: map<string, int>, avByAging: map<string, int>,
    children: seq<Summary>)

  /** `withTotals(node)`, with the global bucket lists `vb` and `ab`. */
  function WithTotals(t: Tree<Row>, vb: seq<string>, ab: seq<string>): Summary {
    var rows := CollectRows(t);
    Summary(t.name, SumValor(rows), SumStatus(rows, Vencido), SumStatus(rows, AVencer),
            ByAgingOf(WithStatus(rows, Vencido), vb), ByAgingOf(WithStatus(rows, AVencer), ab),
            WithTotalsEach(t.children, vb, ab))
  }

  function WithTotalsEach(f: seq<Tree<Row>>, vb: seq<string>, ab: seq<string>): (r: seq<Summary>)
    ensures |r| == |f|
  {
    if |f| == 0 then [] else [WithTotals(f[0], vb, ab)] + WithTotalsEach(f[1..], vb, ab)
  }

  function TotalField(s: Summary): int { s.total }
  function VencidoField(s: Summary): int { s.vencido }
  function AVencerField(s: Summary): int { s.aVencer }

  lemma {:induction false} ChildrenSums(f: seq<Tree<Row>>, vb: seq<string>, ab: seq<string>)
    ensures SumBy(WithTotalsEach(f, vb, ab), TotalField) == SumValor(CollectForest(f))
    ensures SumBy(WithTotalsEach(f, vb, ab), VencidoField) == SumStatus(CollectForest(f), Vencido)
    ensures SumBy(WithTotalsEach(f, vb, ab), AVencerField) == SumStatus(CollectForest(f), AVencer)
  {
    if |f| > 0 {
      ChildrenSums(f[1..], vb, ab);
      var a, b := CollectRows(f[0]), CollectForest(f[1..]);
      SumByConcat(a, b, Amount);
      SelectConcat(a, b, StatusOf, Vencido);
      SelectConcat(a, b, StatusOf, AVencer);
      SumByConcat(WithStatus(a, Vencido), WithStatus(b, Vencido), Amount);
      SumByConcat(WithStatus(a, AVencer), WithStatus(b, AVencer), Amount);
    }
  }

  /** An inner node's total, VENCIDO and A VENCER sums are the sums of its children's. */
  lemma InnerNodeAddsUp(t: Tree<Row>, vb: seq<string>, ab: seq<string>)
    requires |t.rows| == 0
    ensures WithTotals(t, vb, ab).total == SumBy(WithTotals(t, vb, ab).children, TotalField)
    ensures WithTotals(t, vb, ab).vencido == SumBy(WithTotals(t, vb, ab).children, VencidoField)
    ensures WithTotals(t, vb, ab).aVencer == SumBy(WithTotals(t, vb, ab).children, AVencerField)
  {
    ChildrenSums(t.children, vb, ab);
  }

  // ---------------------------------------------------------------------------
  // Aging columns of a node
  // ---------------------------------------------------------------------------

  /** `"__single__"`, the placeholder column of an open axis without buckets. */
  const Single: string := "__single__"

  /** No aging label is the placeholder: labels are upper-cased, the placeholder is not. */
  lemma LabelIsNotSingle(page: Page, aging: Option<string>)
    ensures AgingLabel(page, aging) != Single
  {
    var a := Trim(aging.GetOr(""));
    if |a| > 0 && |a| == |Single| {
      assert AgingLabel(page, aging) == ToUpper(a);
      assert ToUpper(a)[2] == UpperChar(a[2]);
      assert Single[2] == 's';
    }
  }

  /** `byAging?.[a] || 0`. */
  function Lookup(m: map<string, int>, a: string): int {
    if a in m then m[a] else 0
  }

  /** The number of grid columns of one status axis (`gridCols`). */
  function AxisTracks(open: bool, buckets: nat): (n: nat)
    ensures n >= 1
  {
    if open then (if buckets > 1 then buckets else 1) else 1
  }

  /** The cells one row renders for a status axis, left to right. */
  function AxisCells(open: bool, total: int, byAging: map<string, int>, buckets: seq<string>): (r: seq<int>)
    ensures |r| == AxisTracks(open, |buckets|)
  {
    if !open then [total]
    else
      var cols := if |buckets| > 0 then buckets else [Single];
      seq(|cols|, i requires 0 <= i < |cols| => if cols[i] == Single then total else Lookup(byAging, cols[i]))
  }

  function LookupAll(m: map<string, int>, ks: seq<string>): (r: seq<int>)
    ensures |r| == |ks|
  {
    seq(|ks|, i requires 0 <= i < |ks| => Lookup(m, ks[i]))
  }

  lemma LookupAllTail(m: map<string, int>, ks: seq<string>)
    requires |ks| > 0
    ensures LookupAll(m, ks)[0] == Lookup(m, ks[0])
    ensures LookupAll(m, ks)[1..] == LookupAll(m, ks[1..])
  {
  }

  /** A global bucket's entry is the sum of the rows with that label. */
  lemma LookupBucket(rows: seq<Row>, buckets: seq<string>, k: string)
    requires k in buckets
    ensures Lookup(ByAgingOf(rows, buckets), k) == SumBy(Select(rows, ByLabel(), k), Amount)
  {
    assert k in SeqSet(buckets);
  }

  lemma {:induction false} LookupAllIsSumGroups(rows: seq<Row>, buckets: seq<string>, ks: seq<string>)
    requires forall k :: k in ks ==> k in buckets
    ensures SumSeq(LookupAll(ByAgingOf(rows, buckets), ks)) == SumGroups(rows, ByLabel(), ks, Amount)
  {
    if |ks| > 0 {
      var m := ByAgingOf(rows, buckets);
      LookupBucket(rows, buckets, ks[0]);
      LookupAllTail(m, ks);
      LookupAllIsSumGroups(rows, buckets, ks[1..]);
    }
  }

  /**
   * For rows drawn from the filtered rows, the by-aging object of status
   * `st` has exactly the global buckets of `st` as keys.
   */
  lemma ByAgingKeys(filtered: seq<Row>, rows: seq<Row>, st: string)
    requires forall i :: 0 <= i < |rows| ==> rows[i] in filtered
    ensures ByAgingOf(WithStatus(rows, st), AgingBuckets(Payables, filtered, st)).Keys
         == SeqSet(AgingBuckets(Payables, filtered, st))
  {
    var buckets := AgingBuckets(Payables, filtered, st);
    var w := WithStatus(rows, st);
    SelectMembers(rows, StatusOf, st);
    forall i | 0 <= i < |w| ensures AgingLabel(Payables, w[i].aging) in buckets {
      assert w[i] in rows && w[i] in filtered;
      var j :| 0 <= j < |filtered| && filtered[j] == w[i];
    }
  }

  /** No global bucket is the placeholder column. */
  lemma BucketsAreNotSingle(filtered: seq<Row>, st: string)
    ensures Single !in AgingBuckets(Payables, filtered, st)
  {
    var buckets := AgingBuckets(Payables, filtered, st);
    if Single in buckets {
      var j :| 0 <= j < |filtered| && filtered[j].statusCalc == st && AgingLabel(Payables, filtered[j].aging) == Single;
      LabelIsNotSingle(Payables, filtered[j].aging);
    }
  }

  /**
   * For rows drawn from the filtered rows, the cells of an axis, open or
   * closed, add up to that axis's status total.
   */
  lemma AxisCellsAddUp(filtered: seq<Row>, rows: seq<Row>, open: bool, st: string)
    requires forall i :: 0 <= i < |rows| ==> rows[i] in filtered
    ensures SumSeq(AxisCells(open, SumStatus(rows, st),
                             ByAgingOf(WithStatus(rows, st), AgingBuckets(Payables, filtered, st)),
                             AgingBuckets(Payables, filtered, st)))
         == SumStatus(rows, st)
  {
    var buckets := AgingBuckets(Payables, filtered, st);
    var w := WithStatus(rows, st);
    var m := ByAgingOf(w, buckets);
    if open && |buckets| > 0 {
      BucketsCoverStatus(Payables, filtered, rows, st);
      BucketsAreNotSingle(filtered, st);
      assert AxisCells(open, SumStatus(rows, st), m, buckets) == LookupAll(m, buckets);
      LookupAllIsSumGroups(w, buckets, buckets);
    }
  }

  // ---------------------------------------------------------------------------
  // View state
  // ---------------------------------------------------------------------------

  /** `keyFor(pathArr)`: the labels from the root, joined with " > ". */
  function KeyFor(path: seq<string>): string {
    Join(path, " > ")
  }

  /** `gridCols` for one axis: `repeat(n, 180px)` when open, a single column otherwise. */
  function AxisTemplate(open: bool, buckets: nat): string {
    if open then "repeat(" + JsNumbers.NatToString(AxisTracks(open, buckets)) + ", 180px)" else "180px"
  }

  /** `gridCols`: the structure column, the VENCIDO axis, the A VENCER axis, then TOTAL. */
  function GridCols(vencOpen: bool, avOpen: bool, vencBuckets: nat, avBuckets: nat): string {
    "minmax(420px, 1fr) " + AxisTemplate(vencOpen, vencBuckets) + " " + AxisTemplate(avOpen, avBuckets) + " 180px"
  }

  /** The page's UI state that the model covers. */
  class PayablesView {
    var expanded: set<string>
    var openAgingVencido: bool
    var openAgingAVencer: bool
    var dataBaseSelected: string

    /** The state after a project is (re)loaded. */
    constructor ()
      ensures expanded == {} && !openAgingVencido && !openAgingAVencer && dataBaseSelected == AllDates
    {
      expanded := {};
      openAgingVencido := false;
      openAgingAVencer := false;
      dataBaseSelected := AllDates;
    }

    /** Loading a project closes every node and both axes and selects "(Todas)" again. */
    method LoadProject()
      modifies this
      ensures expanded == {} && !openAgingVencido && !openAgingAVencer && dataBaseSelected == AllDates
    {
      expanded := {};
      openAgingVencido := false;
      openAgingAVencer := false;
      dataBaseSelected := AllDates;
    }

    predicate IsOpen(path: seq<string>)
      reads this
    {
      KeyFor(path) in expanded
    }

    /** `toggleNode(pathArr)`: flips the node's key and nothing else. */
    method ToggleNode(path: seq<string>)
      modifies this
      ensures expanded == Toggled(old(expanded), KeyFor(path))
      ensures openAgingVencido == old(openAgingVencido) && openAgingAVencer == old(openAgingAVencer)
      ensures dataBaseSelected == old(dataBaseSelected)
    {
      var k := KeyFor(path);
      var next := expanded;
      if k in next {
        next := next - {k};
      } else {
        next := next + {k};
      }
      expanded := next;
    }

    /** A click on a VENCIDO header: the closed header opens the axis, a bucket header closes it. */
    method SetAgingVencido(open: bool)
      modifies this
      ensures openAgingVencido == open
      ensures expanded == old(expanded) && openAgingAVencer == old(openAgingAVencer)
      ensures dataBaseSelected == old(dataBaseSelected)
    {
      openAgingVencido := open;
    }

    method SetAgingAVencer(open: bool)
      modifies this
      ensures openAgingAVencer == open
      ensures expanded == old(expanded) && openAgingVencido == old(openAgingVencido)
      ensures dataBaseSelected == old(dataBaseSelected)
    {
      openAgingAVencer := open;
    }

    method SelectDataBase(sel: string)
      modifies this
      ensures dataBaseSelected == sel
      ensures expanded == old(expanded)
      ensures openAgingVencido == old(openAgingVencido) && openAgingAVencer == old(openAgingAVencer)
    {
      dataBaseSelected := sel;
    }

    /** The current grid template. */
    function Grid(filtered: seq<Row>): string
      reads this
    {
      GridCols(openAgingVencido, openAgingAVencer,
               |AgingBuckets(Payables, filtered, Vencido)|, |AgingBuckets(Payables, filtered, AVencer)|)
    }
  }
}

=== FILE: projects.dfy ===
/**
 * The project status page: how a phone number and a status are shown, which
 * projects the search and the status filter keep, what a submitted form
 * sends, and how the list in memory follows a save.
 */
module Projects {
  import opened Wrappers
  import opened Text

  /** What the page shows for a missing value. */
  const Dash := "—"

  // ---------------------------------------------------------------------------
  // `formatPhone`
  // ---------------------------------------------------------------------------

  /** `!phone`: a missing phone or the empty text. */
  predicate Falsy(s: Option<string>) {
    s.None? || s.value == ""
  }

  /** `(AA) B CCCC-DDDD` from eleven digits. */
  function Mobile(d: string): string
    requires |d| == 11
  {
    "(" + d[..2] + ") " + d[2..3] + " " + d[3..7] + "-" + d[7..]
  }

  /** `(AA) BBBB-CCCC` from ten digits. */
  function Landline(d: string): string
    requires |d| == 10
  {
    "(" + d[..2] + ") " + d[2..6] + "-" + d[6..]
  }

  /** `formatPhone(phone)`. */
  function FormatPhone(phone: Option<string>): (r: string)
    ensures Falsy(phone) ==> r == Dash
    ensures !Falsy(phone) && |DigitsOf(phone.value)| != 10 && |DigitsOf(phone.value)| != 11 ==> r == phone.value
  {
    if Falsy(phone) then Dash
    else
      var digits := DigitsOf(phone.value);
      if |digits| == 11 then Mobile(digits)
      else if |digits| == 10 then Landline(digits)
      else phone.value
  }

  /** `r` follows `mask`: a digit where the mask has `#`, the mask's own character elsewhere. */
  predicate Masked(r: string, mask: string) {
    |r| == |mask| && forall i :: 0 <= i < |r| ==> if mask[i] == '#' then IsDigit(r[i]) else r[i] == mask[i]
  }

  /** Appending a separator without digits and then digits adds exactly those digits. */
  lemma DigitsOfStep(p: string, sep: string, x: string)
    requires DigitsOf(sep) == "" && AllDigits(x)
    ensures DigitsOf(p + sep + x) == DigitsOf(p) + x
  {
    DigitsOfAppend(p, sep);
    assert DigitsOf(p + sep) == DigitsOf(p);
    DigitsOfAppend(p + sep, x);
    assert DigitsOf(x) == x;
  }

  lemma SplitMobile(d: string)
    requires |d| == 11
    ensures d[..2] + d[2..3] + d[3..7] + d[7..] == d
  {
  }

  lemma SplitLandline(d: string)
    requires |d| == 10
    ensures d[..2] + d[2..6] + d[6..] == d
  {
  }

  lemma SeparatorsHaveNoDigits()
    ensures DigitsOf("(") == "" && DigitsOf(") ") == "" && DigitsOf(" ") == "" && DigitsOf("-") == ""
  {
  }

  lemma DigitsOfMobile(d: string)
    requires |d| == 11 && AllDigits(d)
    ensures DigitsOf(Mobile(d)) == d
  {
    var a, b, c, e := d[..2], d[2..3], d[3..7], d[7..];
    SeparatorsHaveNoDigits();
    var s1 := "(" + a;
    assert DigitsOf(s1) == a by {
      DigitsOfStep("", "(", a);
      assert "" + "(" + a == s1;
    }
    var s3 := s1 + ") " + b;
    DigitsOfStep(s1, ") ", b);
    var s5 := s3 + " " + c;
    DigitsOfStep(s3, " ", c);
    var s7 := s5 + "-" + e;
    DigitsOfStep(s5, "-", e);
    assert Mobile(d) == s7;
    SplitMobile(d);
  }

  lemma DigitsOfLandline(d: string)
    requires |d| == 10 && AllDigits(d)
    ensures DigitsOf(Landline(d)) == d
  {
    var a, b, c := d[..2], d[2..6], d[6..];
    SeparatorsHaveNoDigits();
    var s1 := "(" + a;
    assert DigitsOf(s1) == a by {
      DigitsOfStep("", "(", a);
      assert "" + "(" + a == s1;
    }
    var s3 := s1 + ") " + b;
    DigitsOfStep(s1, ") ", b);
    var s5 := s3 + "-" + c;
    DigitsOfStep(s3, "-", c);
    assert Landline(d) == s5;
    SplitLandline(d);
  }

  lemma MobileMask(d: string)
    requires |d| == 11 && AllDigits(d)
    ensures Masked(Mobile(d), "(##) # ####-####")
  {
    var r, mask := Mobile(d), "(##) # ####-####";
    assert r == ['('] + d[..2] + [')', ' '] + d[2..3] + [' '] + d[3..7] + ['-'] + d[7..];
    forall i | 0 <= i < |r| ensures if mask[i] == '#' then IsDigit(r[i]) else r[i] == mask[i] {
      if i == 0 || i == 3 || i == 4 || i == 6 || i == 11 {
      } else if i < 3 {
        assert r[i] == d[i - 1];
      } else if i == 5 {
        assert r[i] == d[2];
      } else if i < 11 {
        assert r[i] == d[i - 4];
      } else {
        assert r[i] == d[i - 5];
      }
    }
  }

  lemma LandlineMask(d: string)
    requires |d| == 10 && AllDigits(d)
    ensures Masked(Landline(d), "(##) ####-####")
  {
    var r, mask := Landline(d), "(##) ####-####";
    assert r == ['('] + d[..2] + [')', ' '] + d[2..6] + ['-'] + d[6..];
    forall i | 0 <= i < |r| ensures if mask[i] == '#' then IsDigit(r[i]) else r[i] == mask[i] {
      if i == 0 || i == 3 || i == 4 || i == 9 {
      } else if i < 3 {
        assert r[i] == d[i - 1];
      } else if i < 9 {
        assert r[i] == d[i - 3];
      } else {
        assert r[i] == d[i - 4];
      }
    }
  }

  /**
   * With eleven or ten digits the phone is laid out on the mobile or the
   * landline mask; the digits, in order, are those of the input.
   */
  lemma FormatPhoneLayout(phone: Option<string>)
    ensures !Falsy(phone) && |DigitsOf(phone.value)| == 11 ==>
              Masked(FormatPhone(phone), "(##) # ####-####") && DigitsOf(FormatPhone(phone)) == DigitsOf(phone.value)
    ensures !Falsy(phone) && |DigitsOf(phone.value)| == 10 ==>
              Masked(FormatPhone(phone), "(##) ####-####") && DigitsOf(FormatPhone(phone)) == DigitsOf(phone.value)
  {
    if !Falsy(phone) {
      var d := DigitsOf(phone.value);
      if |d| == 11 {
        DigitsOfMobile(d);
        MobileMask(d);
      } else if |d| == 10 {
        DigitsOfLandline(d);
        LandlineMask(d);
      }
    }
  }

  /** Formatting a shown phone again changes nothing. */
  lemma FormatPhoneIdempotent(phone: Option<string>)
    ensures FormatPhone(Some(FormatPhone(phone))) == FormatPhone(phone)
  {
    if Falsy(phone) {
      assert DigitsOf(Dash) == "";
    } else {
      var d := DigitsOf(phone.value);
      if |d| == 11 {
        DigitsOfMobile(d);
      } else if |d| == 10 {
        DigitsOfLandline(d);
      }
    }
  }

  // ---------------------------------------------------------------------------
  // `getStatusConfig`
  // ---------------------------------------------------------------------------

  /** The four looks of a status badge: green, indigo, red and grey. */
  datatype Tone = Progress | Review | Halted | Neutral

  /** The badge: its text (`label`) and its look. */
  datatype StatusConfig = StatusConfig(text: string, tone: Tone)

  /** The badge colours of a look: background, border and text. */
  datatype Style = Style(bg: string, border: string, color: string)

  function StyleOf(t: Tone): Style {
    match t
    case Progress => Style("rgba(34,197,94,0.12)", "rgba(34,197,94,0.6)", "#bbf7d0")
    case Review => Style("rgba(129,140,248,0.12)", "rgba(129,140,248,0.6)", "#c7d2fe")
    case Halted => Style("rgba(248,113,113,0.12)", "rgba(248,113,113,0.6)", "#fecaca")
    case Neutral => Style("rgba(148,163,184,0.12)", "rgba(148,163,184,0.4)", "#e5e7eb")
  }

  predicate InProgress(l: string) {
    Contains(l, "andamento")
  }

  predicate InReview(l: string) {
    Contains(l, "análise") || Contains(l, "analise")
  }

  predicate OnHold(l: string) {
    Contains(l, "susp") || Contains(l, "hold")
  }

  /**
   * `getStatusConfig(status)`: a missing status reads "Sem status"; otherwise
   * the status is its own label and the first of "andamento", "análise" or
   * "analise", "susp" or "hold" found in it (ignoring case) picks the look.
   */
  function StatusConfigOf(status: Option<string>): (c: StatusConfig)
    ensures Falsy(status) ==> c == StatusConfig("Sem status", Neutral)
    ensures !Falsy(status) ==> c.text == status.value
    ensures !Falsy(status) ==> var l := ToLower(status.value);
              && (c.tone == Progress <==> InProgress(l))
              && (c.tone == Review <==> !InProgress(l) && InReview(l))
              && (c.tone == Halted <==> !InProgress(l) && !InReview(l) && OnHold(l))
              && (c.tone == Neutral <==> !InProgress(l) && !InReview(l) && !OnHold(l))
  {
    if Falsy(status) then StatusConfig("Sem status", Neutral)
    else
      var l := ToLower(status.value);
      var tone :=
        if InProgress(l) then Progress
        else if InReview(l) then Review
        else if OnHold(l) then Halted
        else Neutral;
      StatusConfig(status.value, tone)
  }

  // ---------------------------------------------------------------------------
  // Projects and `filteredProjects`
  // ---------------------------------------------------------------------------

  /** A row of `projects`; `None` is a `null` column. */
  datatype Project = Project(
    id: string,
    title: Option<string>,
    status: Option<string>,
    socio: Option<string>,
    telefone: Option<string>,
    produto: Option<string>,
    description: Option<string>,
    observacoes: Option<string>,
    expectativa: Option<string>)

  /** `a ?? b`. */
  function Coalesce(a: Option<string>, b: string): string {
    if a.Some? then a.value else b
  }

  /** The lower-cased text the search looks in: title, partner, product (or description) and notes. */
  function SearchText(p: Project): string {
    var produto := Coalesce(p.produto, Coalesce(p.description, ""));
    ToLower(Coalesce(p.title, "") + " " + Coalesce(p.socio, "") + " " + produto + " " + Coalesce(p.observacoes, ""))
  }

  /** The filter predicate of `filteredProjects`. */
  predicate Matches(p: Project, search: string, statusFilter: string) {
    && Contains(SearchText(p), ToLower(search))
    && (statusFilter == "todos" || ToLower(Coalesce(p.status, "")) == ToLower(statusFilter))
  }

  /** `a` is `b` with some elements left out, the rest in the same order. */
  predicate SubsequenceOf<T(==)>(a: seq<T>, b: seq<T>) {
    if |a| == 0 then true
    else if |b| == 0 then false
    else if a[|a| - 1] == b[|b| - 1] then SubsequenceOf(a[..|a| - 1], b[..|b| - 1])
    else SubsequenceOf(a, b[..|b| - 1])
  }

  /** `filteredProjects`: the projects that match, in list order. */
  function FilterProjects(ps: seq<Project>, search: string, statusFilter: string): (r: seq<Project>)
    ensures forall p :: p in r <==> p in ps && Matches(p, search, statusFilter)
    ensures SubsequenceOf(r, ps)
  {
    if |ps| == 0 then []
    else
      var init := FilterProjects(ps[..|ps| - 1], search, statusFilter);
      var last := ps[|ps| - 1];
      assert forall p :: p in ps <==> p in ps[..|ps| - 1] || p == last;
      if Matches(last, search, statusFilter) then
        var r := init + [last];
        assert r[..|r| - 1] == init;
        r
      else init
  }

  /** The empty search matches every text. */
  lemma {:induction false} ContainsEmpty(s: string)
    ensures Contains(s, "")
  {
    assert IsPrefix("", s);
  }

  lemma DropLastSnoc<T>(s: seq<T>)
    requires |s| > 0
    ensures s[..|s| - 1] + [s[|s| - 1]] == s
  {
  }

  lemma MatchesEverything(p: Project)
    ensures Matches(p, "", "todos")
  {
    ContainsEmpty(SearchText(p));
    assert ToLower("") == "";
  }

  /** The last project is shown after the others exactly when it matches. */
  lemma FilterSnoc(ps: seq<Project>, search: string, statusFilter: string)
    requires |ps| > 0
    ensures FilterProjects(ps, search, statusFilter)
         == FilterProjects(ps[..|ps| - 1], search, statusFilter)
            + (if Matches(ps[|ps| - 1], search, statusFilter) then [ps[|ps| - 1]] else [])
  {
  }

  /** With an empty search and the status filter "todos" every project is shown. */
  lemma {:induction false} FilterKeepsAll(ps: seq<Project>)
    ensures FilterProjects(ps, "", "todos") == ps
  {
    if |ps| > 0 {
      var init, last := ps[..|ps| - 1], ps[|ps| - 1];
      MatchesEverything(last);
      FilterSnoc(ps, "", "todos");
      FilterKeepsAll(init);
      DropLastSnoc(ps);
    }
  }

  /** Filtering the filtered list again changes nothing. */
  lemma {:induction false} FilterIdempotent(ps: seq<Project>, search: string, statusFilter: string)
    ensures FilterProjects(FilterProjects(ps, search, statusFilter), search, statusFilter) == FilterProjects(ps, search, statusFilter)
  {
    if |ps| > 0 {
      var init := ps[..|ps| - 1];
      var last := ps[|ps| - 1];
      FilterIdempotent(init, search, statusFilter);
      var f := FilterProjects(init, search, statusFilter);
      if Matches(last, search, statusFilter) {
        assert (f + [last])[..|f|] == f;
      }
    }
  }

  // ---------------------------------------------------------------------------
  // The form, the submitted payload and the list in memory
  // ---------------------------------------------------------------------------

  /** The fields of the project form, as typed. */
  datatype Form = Form(
    empresa: string,
    status: string,
    responsavel: string,
    telefone: string,
    produto: string,
    observacoes: string,
    expectativa: string)

  /** The columns `handleSubmitProject` sends for both insert and update. */
  datatype Payload = Payload(
    title: string,
    status: Option<string>,
    socio: Option<string>,
    telefone: Option<string>,
    produto: Option<string>,
    observacoes: Option<string>,
    expectativa: Option<string>)

  /** A column as the form writes it: `null`, or a non-empty text that neither starts nor ends with white space. */
  predicate Clean(v: Option<string>) {
    v.None? || (v.value != "" && !IsSpace(v.value[0]) && !IsSpace(v.value[|v.value| - 1]))
  }

  /** A text with no white space at either end is its own trim. */
  lemma TrimClean(s: string)
    requires Clean(Some(s))
    ensures Trim(s) == s
  {
    assert TrimStart(s) == s;
    assert TrimEnd(s) == s;
  }

  /** `s.trim() || null`. */
  function TrimOrNull(s: string): (r: Option<string>)
    ensures r.None? <==> Trim(s) == ""
    ensures r.Some? ==> r.value == Trim(s) && Clean(r)
  {
    if Trim(s) == "" then None else Some(Trim(s))
  }

  /** `a || b` for an optional text. */
  function OrElse(a: Option<string>, b: string): string {
    if Falsy(a) then b else a.value
  }

  /**
   * `basePayload` of `handleSubmitProject`: nothing is sent without a signed-in
   * user or with a blank company name; otherwise every text is trimmed and an
   * empty one becomes `null` (the status is sent as chosen, `null` if empty).
   */
  function Submit(f: Form, signedIn: bool): (r: Option<Payload>)
    ensures r.None? <==> !signedIn || Trim(f.empresa) == ""
    ensures r.Some? ==> r.value.title == Trim(f.empresa) && r.value.title != ""
    ensures r.Some? ==> (r.value.status.None? <==> f.status == "") && (r.value.status.Some? ==> r.value.status.value == f.status)
    ensures r.Some? ==> var p := r.value;
              && (p.socio.None? <==> Trim(f.responsavel) == "")
              && (p.telefone.None? <==> Trim(f.telefone) == "")
              && (p.produto.None? <==> Trim(f.produto) == "")
              && (p.observacoes.None? <==> Trim(f.observacoes) == "")
              && (p.expectativa.None? <==> Trim(f.expectativa) == "")
    ensures r.Some? ==> var p := r.value;
              Clean(p.socio) && Clean(p.telefone) && Clean(p.produto) && Clean(p.observacoes) && Clean(p.expectativa)
  {
    if !signedIn || Trim(f.empresa) == "" then None
    else
      var p := Payload(Trim(f.empresa), if f.status == "" then None else Some(f.status),
                       TrimOrNull(f.responsavel), TrimOrNull(f.telefone), TrimOrNull(f.produto),
                       TrimOrNull(f.observacoes), TrimOrNull(f.expectativa));
      Some(p)
  }

  /** `openEditProjectModal(project)`: the form filled from a project. */
  function EditForm(p: Project): Form {
    Form(OrElse(p.title, ""), OrElse(p.status, "Em Andamento"), OrElse(p.socio, ""), OrElse(p.telefone, ""),
         OrElse(p.produto, OrElse(p.description, "")), OrElse(p.observacoes, ""), OrElse(p.expectativa, ""))
  }

  /** A clean column put in the form and read back with `trim() || null` is unchanged. */
  lemma CleanRoundTrip(v: Option<string>)
    requires Clean(v)
    ensures TrimOrNull(OrElse(v, "")) == v
  {
    if v.None? {
      assert Trim("") == "";
    } else {
      TrimClean(v.value);
    }
  }

  /**
   * Opening a saved project and saving it unchanged sends its own columns
   * back, except that a missing status becomes "Em Andamento" and a missing
   * product takes the description.
   */
  lemma EditRoundTrip(p: Project)
    requires p.title.Some? && Clean(p.title)
    requires Clean(p.socio) && Clean(p.telefone) && Clean(p.produto) && Clean(p.description)
    requires Clean(p.observacoes) && Clean(p.expectativa)
    ensures Submit(EditForm(p), true) == Some(Payload(
              p.title.value,
              Some(OrElse(p.status, "Em Andamento")),
              p.socio, p.telefone,
              if p.produto.Some? then p.produto else p.description,
              p.observacoes, p.expectativa))
  {
    var f := EditForm(p);
    var produto := if p.produto.Some? then p.produto else p.description;
    assert f.status != "" by {
      assert "Em Andamento" != "";
    }
    CleanRoundTrip(p.socio);
    CleanRoundTrip(p.telefone);
    CleanRoundTrip(p.observacoes);
    CleanRoundTrip(p.expectativa);
    if p.produto.Some? {
      CleanRoundTrip(p.produto);
    } else {
      CleanRoundTrip(p.description);
    }
    TrimClean(p.title.value);
    SubmitFields(f, p.title.value, p.socio, p.telefone, produto, p.observacoes, p.expectativa);
  }

  /** The payload of a form whose fields are known after trimming. */
  lemma SubmitFields(f: Form, title: string, socio: Option<string>, telefone: Option<string>, produto: Option<string>,
                     observacoes: Option<string>, expectativa: Option<string>)
    requires Trim(f.empresa) == title && title != "" && f.status != ""
    requires TrimOrNull(f.responsavel) == socio && TrimOrNull(f.telefone) == telefone && TrimOrNull(f.produto) == produto
    requires TrimOrNull(f.observacoes) == observacoes && TrimOrNull(f.expectativa) == expectativa
    ensures Submit(f, true) == Some(Payload(title, Some(f.status), socio, telefone, produto, observacoes, expectativa))
  {
  }

  /** After an update the saved row replaces the rows with its id; the list keeps its length. */
  function ReplaceById(ps: seq<Project>, saved: Project): (r: seq<Project>)
    ensures |r| == |ps|
    ensures forall i :: 0 <= i < |ps| ==> r[i] == (if ps[i].id == saved.id then saved else ps[i])
  {
    seq(|ps|, i requires 0 <= i < |ps| => if ps[i].id == saved.id then saved else ps[i])
  }

  /** After an insert the new row comes first. */
  function Prepend(ps: seq<Project>, saved: Project): (r: seq<Project>)
    ensures |r| == |ps| + 1 && r[0] == saved && r[1..] == ps
  {
    [saved] + ps
  }

  /** Saving the same row twice leaves the list as saving it once. */
  lemma ReplaceByIdIdempotent(ps: seq<Project>, saved: Project)
    ensures ReplaceById(ReplaceById(ps, saved), saved) == ReplaceById(ps, saved)
  {
  }

  /** An update keeps the ids, and so the order, of the list. */
  lemma ReplaceByIdKeepsIds(ps: seq<Project>, saved: Project)
    ensures forall i :: 0 <= i < |ps| ==> ReplaceById(ps, saved)[i].id == ps[i].id
  {
  }

  /** A new project that matches the current filter shows up first in the filtered list. */
  lemma {:induction false} InsertedShowsFirst(ps: seq<Project>, saved: Project, search: string, statusFilter: string)
    requires Matches(saved, search, statusFilter)
    ensures FilterProjects(Prepend(ps, saved), search, statusFilter) == [saved] + FilterProjects(ps, search, statusFilter)
  {
    if |ps| > 0 {
      var init := ps[..|ps| - 1];
      InsertedShowsFirst(init, saved, search, statusFilter);
      assert Prepend(ps, saved)[..|ps|] == Prepend(init, saved);
      var f := FilterProjects(init, search, statusFilter);
      assert [saved] + f + [ps[|ps| - 1]] == [saved] + (f + [ps[|ps| - 1]]);
    } else {
      assert Prepend(ps, saved)[..0] == [];
    }
  }
}

=== FILE: receivables.dfy ===
/**
 * The receivables dashboard (Contas a Receber): three trees over the
 * filtered rows — Hierarquia (tipo → subtipo → grupo → classificação →
 * natureza financeira → sacado, siblings by label), Fundos (portador →
 * operação) and Inadimplência (sacado → portador), both by descending sum —
 * where every node keeps all the rows of its group; the value columns of each
 * view, the days breakdown of an aging bucket, and the page's view state.
 */
module Receivables {
  import opened Wrappers
  import opened Text
  import opened Sorting
  import opened Grouping
  import opened Hierarchy
  import opened JsNumbers
  import opened IsoDates
  import opened Ledger
  import opened Toggles

  // ---------------------------------------------------------------------------
  // The three trees
  // ---------------------------------------------------------------------------

  /** The Hierarquia levels, each with its own placeholder for a blank field. */
  const HierLevels: seq<Row -> string> := [
    (r: Row) => SafeStr(r.tipo, "SEM TIPO"),
    (r: Row) => SafeStr(r.subtipo, "SEM SUBTIPO"),
    (r: Row) => SafeStr(r.grupo, "SEM GRUPO"),
    (r: Row) => SafeStr(r.classificacao, "SEM CLASSIFICAÇÃO"),
    (r: Row) => SafeStr(r.natFinanceira, "SEM NAT FIN"),
    (r: Row) => SafeStr(r.party, "SEM SACADO")
  ]

  const FundosLevels: seq<Row -> string> := [
    (r: Row) => SafeStr(r.portador, "SEM PORTADOR"),
    (r: Row) => SafeStr(r.operacao, "SEM OPERAÇÃO")
  ]

  const InadLevels: seq<Row -> string> := [
    (r: Row) => SafeStr(r.party, "SEM SACADO"),
    (r: Row) => SafeStr(r.portador, "SEM PORTADOR")
  ]

  /** `(a, b) => sumValor(b.rows) - sumValor(a.rows)`: largest sum first. */
  const BySum: Order<Row> := ByKeyDesc((t: Tree<Row>) => SumValor(t.rows) as real)

  /** `treeHier`: the nested groups, siblings sorted by label at every level (`sortRec`). */
  function HierTree(filtered: seq<Row>): seq<Tree<Row>> {
    SortForest(Partition(filtered, HierLevels, true), ByName)
  }

  /** `treeFundos`: portador → operação, siblings by descending sum. */
  function FundosTree(filtered: seq<Row>): seq<Tree<Row>> {
    SortForest(Partition(filtered, FundosLevels, true), BySum)
  }

  /** `treeInad`: sacado → portador, siblings by descending sum. */
  function InadTree(filtered: seq<Row>): seq<Tree<Row>> {
    SortForest(Partition(filtered, InadLevels, true), BySum)
  }

  method BuildHier(filtered: seq<Row>) returns (tree: seq<Tree<Row>>)
    ensures tree == HierTree(filtered)
  {
    var roots := BuildLevels(filtered, HierLevels);
    tree := SortForest(roots, ByName);
  }

  method BuildFundos(filtered: seq<Row>) returns (tree: seq<Tree<Row>>)
    ensures tree == FundosTree(filtered)
  {
    var roots := BuildLevels(filtered, FundosLevels);
    tree := SortForest(roots, BySum);
  }

  method BuildInad(filtered: seq<Row>) returns (tree: seq<Tree<Row>>)
    ensures tree == InadTree(filtered)
  {
    var roots := BuildLevels(filtered, InadLevels);
    tree := SortForest(roots, BySum);
  }

  /**
   * A sorted partition that keeps every group: no row is lost, leaves lie
   * `|levels|` down, every node holds the rows of its labels, each inner
   * node's rows are its children's rows, and siblings are in order.
   */
  lemma KeptTreeSound(filtered: seq<Row>, levels: seq<Row -> string>, o: Order<Row>)
    requires |levels| > 0
    ensures var t := SortForest(Partition(filtered, levels, true), o);
      && multiset(CollectForest(t)) == multiset(filtered)
      && AllShaped(t, |levels|, true) && AllPlaced(t, levels) && AllNested(t)
      && OrderedLevel(t, o) && AllOrdered(t, o)
  {
    var p := Partition(filtered, levels, true);
    PartitionCollectsAll(filtered, levels, true);
    SortForestCollects(p, o);
    PartitionShaped(filtered, levels, true);
    SortForestShaped(p, o, levels, true);
    PartitionNested(filtered, levels);
    SortForestNested(p, o);
    SortForestOrdered(p, o);
  }

  lemma HierTreeSound(filtered: seq<Row>)
    ensures multiset(CollectForest(HierTree(filtered))) == multiset(filtered)
    ensures AllShaped(HierTree(filtered), 6, true) && AllPlaced(HierTree(filtered), HierLevels)
    ensures AllNested(HierTree(filtered))
    ensures OrderedLevel(HierTree(filtered), ByName) && AllOrdered(HierTree(filtered), ByName)
  {
    KeptTreeSound(filtered, HierLevels, ByName);
  }

  lemma FundosTreeSound(filtered: seq<Row>)
    ensures multiset(CollectForest(FundosTree(filtered))) == multiset(filtered)
    ensures AllShaped(FundosTree(filtered), 2, true) && AllPlaced(FundosTree(filtered), FundosLevels)
    ensures AllNested(FundosTree(filtered))
    ensures OrderedLevel(FundosTree(filtered), BySum) && AllOrdered(FundosTree(filtered), BySum)
  {
    KeptTreeSound(filtered, FundosLevels, BySum);
  }

  lemma InadTreeSound(filtered: seq<Row>)
    ensures multiset(CollectForest(InadTree(filtered))) == multiset(filtered)
    ensures AllShaped(InadTree(filtered), 2, true) && AllPlaced(InadTree(filtered), InadLevels)
    ensures AllNested(InadTree(filtered))
    ensures OrderedLevel(InadTree(filtered), BySum) && AllOrdered(InadTree(filtered), BySum)
  {
    KeptTreeSound(filtered, InadLevels, BySum);
  }

  // ---------------------------------------------------------------------------
  // Bucket cells
  // ---------------------------------------------------------------------------

  /** The separator of a bucket column's header, `" · "`. */
  const Dot: string := " · "

  /** An open axis lists its buckets, or the single placeholder bucket when there are none. */
  function AxisBuckets(buckets: seq<string>): seq<string> {
    if |buckets| > 0 then buckets else [NoAging(Receivables)]
  }

  /** `sumByAgingAndStatus(rows, st, a)` for each bucket `a`, left to right. */
  function BucketCells(rows: seq<Row>, st: string, buckets: seq<string>): (r: seq<int>)
    ensures |r| == |buckets|
  {
    seq(|buckets|, i requires 0 <= i < |buckets| => SumStatusAging(Receivables, rows, st, buckets[i]))
  }

  /**
   * Over a duplicate-free bucket list holding the label of every row of
   * status `st`, the bucket cells add up to that status's sum.
   */
  lemma BucketCellsAddUp(rows: seq<Row>, st: string, buckets: seq<string>)
    requires Distinct(buckets)
    requires forall i :: 0 <= i < |WithStatus(rows, st)| ==> LabelOf(Receivables)(WithStatus(rows, st)[i]) in buckets
    ensures SumSeq(BucketCells(rows, st, buckets)) == SumStatus(rows, st)
  {
    var w := WithStatus(rows, st);
    assert BucketCells(rows, st, buckets) == GroupSums(w, LabelOf(Receivables), buckets, Amount);
    SumSeqGroupSums(w, LabelOf(Receivables), buckets, Amount);
    SumGroupsCovers(w, LabelOf(Receivables), buckets, Amount);
  }

  /** The label of every row of status `st` drawn from `filtered` is one of the global buckets of `st`. */
  lemma StatusRowsInBuckets(filtered: seq<Row>, rows: seq<Row>, st: string)
    requires forall i :: 0 <= i < |rows| ==> rows[i] in filtered
    ensures forall i :: 0 <= i < |WithStatus(rows, st)| ==>
      LabelOf(Receivables)(WithStatus(rows, st)[i]) in AgingBuckets(Receivables, filtered, st)
    ensures |AgingBuckets(Receivables, filtered, st)| == 0 ==> WithStatus(rows, st) == []
  {
    var w := WithStatus(rows, st);
    var buckets := AgingBuckets(Receivables, filtered, st);
    SelectMembers(rows, StatusOf, st);
    forall i | 0 <= i < |w| ensures LabelOf(Receivables)(w[i]) in buckets {
      assert w[i] in rows && w[i] in filtered;
      var j :| 0 <= j < |filtered| && filtered[j] == w[i];
    }
    if |w| > 0 {
      assert LabelOf(Receivables)(w[0]) in buckets;
    }
  }

  /**
   * For rows drawn from the filtered rows, the cells of an open axis over
   * the global buckets of `st` (or the placeholder) add up to the status sum.
   */
  lemma AxisBucketsAddUp(filtered: seq<Row>, rows: seq<Row>, st: string)
    requires forall i :: 0 <= i < |rows| ==> rows[i] in filtered
    ensures SumSeq(BucketCells(rows, st, AxisBuckets(AgingBuckets(Receivables, filtered, st)))) == SumStatus(rows, st)
  {
    var buckets := AgingBuckets(Receivables, filtered, st);
    StatusRowsInBuckets(filtered, rows, st);
    if |buckets| > 0 {
      BucketCellsAddUp(rows, st, buckets);
    } else {
      var cells := BucketCells(rows, st, AxisBuckets(buckets));
      assert SumSeq(cells) == cells[0] + SumSeq(cells[1..]);
      assert cells[1..] == [];
      assert WithStatus(rows, st) == [];
    }
  }

  // ---------------------------------------------------------------------------
  // Hierarquia columns (`colsHier`, `valueForHierCol`)
  // ---------------------------------------------------------------------------

  /** A value column: its key, header, the status it sums (none for TOTAL) and its aging bucket. */
  datatype Col = Col(id: string, header: string, kind: Option<string>, aging: Option<string>)

  const TotalCol: Col := Col("total", "TOTAL", None, None)

  /** One status axis: a single closed column, or one column per bucket. */
  function AxisCols(open: bool, buckets: seq<string>, st: string, closedId: string, prefix: string): (r: seq<Col>)
    ensures !open ==> |r| == 1
    ensures open ==> |r| == |AxisBuckets(buckets)|
  {
    if !open then [Col(closedId, st, Some(st), None)]
    else
      var bs := AxisBuckets(buckets);
      seq(|bs|, i requires 0 <= i < |bs| => Col(prefix + bs[i], st + Dot + bs[i], Some(st), Some(bs[i])))
  }

  function VencidoCols(open: bool, buckets: seq<string>): seq<Col> {
    AxisCols(open, buckets, Vencido, "vencido", "v:")
  }

  function AVencerCols(open: bool, buckets: seq<string>): seq<Col> {
    AxisCols(open, buckets, AVencer, "avencer", "a:")
  }

  /** `colsHier`: VENCIDO, A VENCER (each closed or split by bucket), TOTAL last. */
  function ColsHier(vOpen: bool, aOpen: bool, vb: seq<string>, ab: seq<string>): seq<Col> {
    if !vOpen && !aOpen then
      [Col("vencido", "VENCIDO", Some(Vencido), None), Col("avencer", "A VENCER", Some(AVencer), None), TotalCol]
    else VencidoCols(vOpen, vb) + AVencerCols(aOpen, ab) + [TotalCol]
  }

  /** The columns are always the VENCIDO axis, then the A VENCER axis, then TOTAL: the first branch is the closed case of the second. */
  lemma ColsHierLayout(vOpen: bool, aOpen: bool, vb: seq<string>, ab: seq<string>)
    ensures ColsHier(vOpen, aOpen, vb, ab) == VencidoCols(vOpen, vb) + AVencerCols(aOpen, ab) + [TotalCol]
    ensures |ColsHier(vOpen, aOpen, vb, ab)| == |VencidoCols(vOpen, vb)| + |AVencerCols(aOpen, ab)| + 1
  {
  }

  /** `valueForHierCol(rows, col)`. */
  function ValueForHierCol(rows: seq<Row>, c: Col): int {
    if c.id == "total" then SumValor(rows)
    else
      var f := if c.kind.None? then [] else WithStatus(rows, c.kind.value);
      if !Truthy(c.aging) then SumValor(f) else SumValor(Select(f, LabelOf(Receivables), c.aging.value))
  }

  /** The cells of one node's row. */
  function HierValues(rows: seq<Row>, cols: seq<Col>): (r: seq<int>)
    ensures |r| == |cols|
  {
    seq(|cols|, i requires 0 <= i < |cols| => ValueForHierCol(rows, cols[i]))
  }

  lemma HierValuesConcat(rows: seq<Row>, a: seq<Col>, b: seq<Col>)
    ensures HierValues(rows, a + b) == HierValues(rows, a) + HierValues(rows, b)
  {
  }

  lemma {:induction false} SumSeqConcat(a: seq<int>, b: seq<int>)
    ensures SumSeq(a + b) == SumSeq(a) + SumSeq(b)
  {
    if |a| == 0 {
      assert a + b == b;
    } else {
      assert (a + b)[1..] == a[1..] + b;
      SumSeqConcat(a[1..], b);
    }
  }

  /** A bucket column of status `st` sums the node's rows of that status in that bucket. */
  lemma BucketColValue(rows: seq<Row>, st: string, b: string, id: string, header: string)
    requires b != "" && id != "total"
    ensures ValueForHierCol(rows, Col(id, header, Some(st), Some(b))) == SumStatusAging(Receivables, rows, st, b)
  {
  }

  /** No global bucket, nor the placeholder, is the empty label. */
  lemma AxisBucketsNonEmpty(filtered: seq<Row>, st: string)
    ensures forall i :: 0 <= i < |AxisBuckets(AgingBuckets(Receivables, filtered, st))| ==>
      AxisBuckets(AgingBuckets(Receivables, filtered, st))[i] != ""
  {
    var buckets := AgingBuckets(Receivables, filtered, st);
    forall i | 0 <= i < |AxisBuckets(buckets)| ensures AxisBuckets(buckets)[i] != "" {
      if |buckets| > 0 {
        assert buckets[i] in buckets;
      }
    }
  }

  /** An open axis shows one bucket cell per bucket. */
  lemma OpenAxisValues(rows: seq<Row>, buckets: seq<string>, st: string, closedId: string, prefix: string)
    requires forall i :: 0 <= i < |AxisBuckets(buckets)| ==> AxisBuckets(buckets)[i] != ""
    requires |prefix| > 0 && prefix[0] != 't'
    ensures HierValues(rows, AxisCols(true, buckets, st, closedId, prefix)) == BucketCells(rows, st, AxisBuckets(buckets))
  {
    var bs := AxisBuckets(buckets);
    var cols := AxisCols(true, buckets, st, closedId, prefix);
    forall i | 0 <= i < |bs| ensures HierValues(rows, cols)[i] == BucketCells(rows, st, bs)[i] {
      assert (prefix + bs[i])[0] == prefix[0];
      BucketColValue(rows, st, bs[i], prefix + bs[i], st + Dot + bs[i]);
    }
  }

  /** The cells under one status axis add up to that status's sum. */
  lemma AxisColsAddUp(filtered: seq<Row>, rows: seq<Row>, open: bool, st: string, closedId: string, prefix: string)
    requires forall i :: 0 <= i < |rows| ==> rows[i] in filtered
    requires closedId != "total" && |prefix| > 0 && prefix[0] != 't'
    ensures SumSeq(HierValues(rows, AxisCols(open, AgingBuckets(Receivables, filtered, st), st, closedId, prefix)))
         == SumStatus(rows, st)
  {
    var buckets := AgingBuckets(Receivables, filtered, st);
    var vals := HierValues(rows, AxisCols(open, buckets, st, closedId, prefix));
    if !open {
      assert vals == [SumStatus(rows, st)];
      assert SumSeq(vals) == vals[0] + SumSeq(vals[1..]);
    } else {
      AxisBucketsNonEmpty(filtered, st);
      OpenAxisValues(rows, buckets, st, closedId, prefix);
      AxisBucketsAddUp(filtered, rows, st);
    }
  }

  /**
   * Whatever axes are open, a node's row shows the VENCIDO sum spread over
   * the VENCIDO columns, the A VENCER sum over the A VENCER columns, and the
   * sum of all its rows last.
   */
  lemma HierRowAddsUp(filtered: seq<Row>, rows: seq<Row>, vOpen: bool, aOpen: bool)
    requires forall i :: 0 <= i < |rows| ==> rows[i] in filtered
    ensures var vb := AgingBuckets(Receivables, filtered, Vencido);
      var ab := AgingBuckets(Receivables, filtered, AVencer);
      var vals := HierValues(rows, ColsHier(vOpen, aOpen, vb, ab));
      var nv := |VencidoCols(vOpen, vb)|;
      var na := |AVencerCols(aOpen, ab)|;
      && |vals| == nv + na + 1
      && SumSeq(vals[..nv]) == SumStatus(rows, Vencido)
      && SumSeq(vals[nv..nv + na]) == SumStatus(rows, AVencer)
      && vals[nv + na] == SumValor(rows)
  {
    var vb := AgingBuckets(Receivables, filtered, Vencido);
    var ab := AgingBuckets(Receivables, filtered, AVencer);
    var vc, ac := VencidoCols(vOpen, vb), AVencerCols(aOpen, ab);
    ColsHierLayout(vOpen, aOpen, vb, ab);
    HierValuesConcat(rows, vc + ac, [TotalCol]);
    HierValuesConcat(rows, vc, ac);
    var vals := HierValues(rows, ColsHier(vOpen, aOpen, vb, ab));
    assert vals == HierValues(rows, vc) + HierValues(rows, ac) + HierValues(rows, [TotalCol]);
    assert vals[..|vc|] == HierValues(rows, vc);
    assert vals[|vc|..|vc| + |ac|] == HierValues(rows, ac);
    AxisColsAddUp(filtered, rows, vOpen, Vencido, "vencido", "v:");
    AxisColsAddUp(filtered, rows, aOpen, AVencer, "avencer", "a:");
  }

  // ---------------------------------------------------------------------------
  // Fundos columns
  // ---------------------------------------------------------------------------

  function AllLabels(rows: seq<Row>): (r: seq<string>)
    ensures |r| == |rows| && forall i :: 0 <= i < |rows| ==> r[i] == AgingLabel(Receivables, rows[i].aging)
  {
    seq(|rows|, i requires 0 <= i < |rows| => AgingLabel(Receivables, rows[i].aging))
  }

  /** `fundosAgingBuckets`: none while closed; otherwise every aging label of the filtered rows, whatever their status, sorted. */
  function FundosBuckets(open: bool, filtered: seq<Row>): (r: seq<string>)
    ensures StrictlyAscending(r)
    ensures !open ==> r == []
    ensures open ==> forall a :: a in r <==>
      exists i :: 0 <= i < |filtered| && AgingLabel(Receivables, filtered[i].aging) == a
  {
    if !open then []
    else
      var labels := AllLabels(filtered);
      assert forall a :: a in labels <==>
        exists i :: 0 <= i < |filtered| && AgingLabel(Receivables, filtered[i].aging) == a by {
        forall a | a in labels
          ensures exists i :: 0 <= i < |filtered| && AgingLabel(Receivables, filtered[i].aging) == a
        {
          var i :| 0 <= i < |labels| && labels[i] == a;
        }
      }
      SortedDistinct(labels)
  }

  /** The three-parameter `sumByStatus(rows, st, agingWanted)`: the status sum, narrowed to one bucket when a bucket is given. */
  function SumByStatusFor(rows: seq<Row>, st: string, agingWanted: Option<string>): int {
    if !Truthy(agingWanted) then SumStatus(rows, st)
    else SumStatusAging(Receivables, rows, st, agingWanted.value)
  }

  /**
   * The cells of a Fundos row as the component computes them. The component
   * declares `sumByStatus` twice; the later, two-parameter declaration
   * replaces the earlier one everywhere in the function body, so the bucket
   * cells call it with the bucket as an ignored third argument and every
   * bucket cell shows the whole A VENCER sum.
   */
  function FundosCellsAsWritten(rows: seq<Row>, open: bool, buckets: seq<string>): seq<int> {
    [SumStatus(rows, Vencido)]
    + (if !open then [SumStatus(rows, AVencer)]
       else seq(|buckets|, i requires 0 <= i < |buckets| => SumStatus(rows, AVencer)))
    + [SumValor(rows)]
  }

  /** The cells of a Fundos row with each bucket cell narrowed to its bucket, as the three-argument calls intend. */
  function FundosCells(rows: seq<Row>, open: bool, buckets: seq<string>): seq<int> {
    [SumStatus(rows, Vencido)]
    + (if !open then [SumStatus(rows, AVencer)]
       else seq(|buckets|, i requires 0 <= i < |buckets| => SumByStatusFor(rows, AVencer, Some(buckets[i]))))
    + [SumValor(rows)]
  }

  lemma {:induction false} SumSeqConst(s: seq<int>, c: int)
    requires forall i :: 0 <= i < |s| ==> s[i] == c
    ensures SumSeq(s) == |s| * c
  {
    if |s| > 0 {
      SumSeqConst(s[1..], c);
    }
  }

  /** As written, the bucket cells of a Fundos row add up to the A VENCER sum once per bucket. */
  lemma FundosBucketsAsWritten(rows: seq<Row>, buckets: seq<string>)
    ensures var cells := FundosCellsAsWritten(rows, true, buckets);
      |cells| == |buckets| + 2 && SumSeq(cells[1..|buckets| + 1]) == |buckets| * SumStatus(rows, AVencer)
  {
    var cells := FundosCellsAsWritten(rows, true, buckets);
    SumSeqConst(cells[1..|buckets| + 1], SumStatus(rows, AVencer));
  }


  /**
   * With the bucket cells narrowed to their bucket, the open A VENCER axis
   * of a Fundos row adds up to the row's A VENCER sum.
   */
  lemma FundosBucketsAddUp(filtered: seq<Row>, rows: seq<Row>)
    requires forall i :: 0 <= i < |rows| ==> rows[i] in filtered
    ensures var buckets := FundosBuckets(true, filtered);
      var cells := FundosCells(rows, true, buckets);
      |cells| == |buckets| + 2 && SumSeq(cells[1..|buckets| + 1]) == SumStatus(rows, AVencer)
  {
    var buckets := FundosBuckets(true, filtered);
    var cells := FundosCells(rows, true, buckets);
    var w := WithStatus(rows, AVencer);
    SelectMembers(rows, StatusOf, AVencer);
    forall i | 0 <= i < |w| ensures LabelOf(Receivables)(w[i]) in buckets {
      assert w[i] in rows && w[i] in filtered;
      var j :| 0 <= j < |filtered| && filtered[j] == w[i];
    }
    forall i | 0 <= i < |buckets| ensures buckets[i] != "" {
      assert buckets[i] in buckets;
    }
    assert cells[1..|buckets| + 1] == BucketCells(rows, AVencer, buckets);
    StrictlyAscendingDistinct(buckets);
    BucketCellsAddUp(rows, AVencer, buckets);
  }

  // ---------------------------------------------------------------------------
  // Inadimplência columns
  // ---------------------------------------------------------------------------

  /** The cells of an Inadimplência row: VENCIDO, A VENCER or its buckets (`sumByAgingAndStatus`), TOTAL. */
  function InadCells(rows: seq<Row>, open: bool, avBuckets: seq<string>): seq<int> {
    [SumStatus(rows, Vencido)]
    + (if !open then [SumStatus(rows, AVencer)] else BucketCells(rows, AVencer, AxisBuckets(avBuckets)))
    + [SumValor(rows)]
  }

  /** The open A VENCER axis of an Inadimplência row adds up to the row's A VENCER sum. */
  lemma InadBucketsAddUp(filtered: seq<Row>, rows: seq<Row>)
    requires forall i :: 0 <= i < |rows| ==> rows[i] in filtered
    ensures var bs := AxisBuckets(AgingBuckets(Receivables, filtered, AVencer));
      var cells := InadCells(rows, true, AgingBuckets(Receivables, filtered, AVencer));
      |cells| == |bs| + 2 && SumSeq(cells[1..|bs| + 1]) == SumStatus(rows, AVencer)
  {
    var bs := AxisBuckets(AgingBuckets(Receivables, filtered, AVencer));
    var cells := InadCells(rows, true, AgingBuckets(Receivables, filtered, AVencer));
    assert cells[1..|bs| + 1] == BucketCells(rows, AVencer, bs);
    AxisBucketsAddUp(filtered, rows, AVencer);
  }

  // ---------------------------------------------------------------------------
  // Grid tracks of the Fundos and Inadimplência rows
  // ---------------------------------------------------------------------------

  /** The header labels of Fundos and Inadimplência (`labels`). */
  function HeaderLabels(open: bool, buckets: seq<string>): seq<string> {
    if open then ["VENCIDO"] + seq(|buckets|, i requires 0 <= i < |buckets| => AVencer + Dot + buckets[i]) + ["TOTAL"]
    else ["VENCIDO", "A VENCER", "TOTAL"]
  }

  /** `colCount` as written: `1 + buckets + 2` tracks when open, 3 when closed. */
  function RowTracksAsWritten(open: bool, buckets: nat): nat {
    if open then 1 + buckets + 2 else 3
  }

  /** One track per rendered cell: VENCIDO, the buckets, TOTAL. */
  function RowTracks(open: bool, buckets: nat): nat {
    if open then buckets + 2 else 3
  }

  /**
   * As written, an open row grid has one track more than the header grid
   * and than the cells it renders, in both views.
   */
  lemma RowTracksAsWrittenMismatch(rows: seq<Row>, fb: seq<string>, ab: seq<string>)
    ensures RowTracksAsWritten(true, |fb|) == |FundosCells(rows, true, fb)| + 1
    ensures RowTracksAsWritten(true, |fb|) == |HeaderLabels(true, fb)| + 1
    ensures RowTracksAsWritten(true, |AxisBuckets(ab)|) == |InadCells(rows, true, ab)| + 1
    ensures RowTracksAsWritten(true, |AxisBuckets(ab)|) == |HeaderLabels(true, AxisBuckets(ab))| + 1
  {
  }

  /** With one track per cell, each row lines up with the header, open or closed. */
  lemma RowTracksAlign(rows: seq<Row>, open: bool, fb: seq<string>, ab: seq<string>)
    ensures RowTracks(open, |fb|) == |FundosCells(rows, open, fb)| == |HeaderLabels(open, fb)|
    ensures RowTracks(open, |AxisBuckets(ab)|) == |InadCells(rows, open, ab)| == |HeaderLabels(open, AxisBuckets(ab))|
  {
  }

  // ---------------------------------------------------------------------------
  // Days breakdown (`diasBucketLabel`, `diasBucketsFor`)
  // ---------------------------------------------------------------------------

  /** The display order of the day buckets. */
  const DiasOrder: seq<string> := ["0", "1-7", "8-15", "16-30", "31-60", "61-90", "90+", "(sem dias)"]

  lemma DiasOrderDistinct()
    ensures Distinct(DiasOrder)
  {
  }

  /** The upper bounds of the finite day buckets, in display order. */
  const DayLimits: seq<real> := [0.0, 7.0, 15.0, 30.0, 60.0, 90.0]

  /**
   * The position in the display order of a finite number of days: the
   * first limit the count does not exceed, or the open bucket after the last.
   */
  function DayBucket(n: real): (k: nat)
    ensures k < |DiasOrder| - 1 && k <= |DayLimits|
    ensures forall j :: 0 <= j < k ==> DayLimits[j] < n
    ensures k < |DayLimits| ==> n <= DayLimits[k]
  {
    if n <= 0.0 then 0
    else if n <= 7.0 then 1
    else if n <= 15.0 then 2
    else if n <= 30.0 then 3
    else if n <= 60.0 then 4
    else if n <= 90.0 then 5
    else 6
  }

  /** `diasBucketLabel(d)`: the bucket of `Number(d)`; a non-finite value goes to "(sem dias)". */
  function DiasBucketLabel(d: Cell): (r: string)
    ensures r in DiasOrder
    ensures !ToNumber(d).Finite? ==> r == "(sem dias)"
    ensures ToNumber(d).Finite? ==>
      var n := ToNumber(d).v;
      && (r == "0" <==> n <= 0.0)
      && (r == "1-7" <==> 0.0 < n <= 7.0)
      && (r == "8-15" <==> 7.0 < n <= 15.0)
      && (r == "16-30" <==> 15.0 < n <= 30.0)
      && (r == "31-60" <==> 30.0 < n <= 60.0)
      && (r == "61-90" <==> 60.0 < n <= 90.0)
      && (r == "90+" <==> 90.0 < n)
  {
    match ToNumber(d)
    case Finite(n) => DiasOrder[DayBucket(n)]
    case _ => DiasOrder[|DiasOrder| - 1]
  }

  /** `s.indexOf(x)`: the first position of `x` in `s`, -1 when absent. */
  function IndexIn(s: seq<string>, x: string): (r: int)
    ensures -1 <= r < |s|
    ensures r >= 0 ==> s[r] == x
    ensures r == -1 <==> x !in s
  {
    if |s| == 0 then -1
    else if s[0] == x then 0
    else
      var k := IndexIn(s[1..], x);
      if k == -1 then -1 else k + 1
  }

  /** In a duplicate-free list each element is found at its own position. */
  lemma IndexInDistinct(s: seq<string>, k: nat)
    requires Distinct(s) && k < |s|
    ensures IndexIn(s, s[k]) == k
  {
    var r := IndexIn(s, s[k]);
    assert s[r] == s[k];
  }

  /** `order.indexOf(l)`: the position of `l` in the display order. */
  function Rank(l: string): int {
    IndexIn(DiasOrder, l)
  }

  /** The bucket index never decreases as the day count grows. */
  lemma DayBucketMonotone(x: real, y: real)
    requires x <= y
    ensures DayBucket(x) <= DayBucket(y)
  {
  }

  /** Each label of the order ranks at its own position. */
  lemma RankAt(k: nat)
    requires k < |DiasOrder|
    ensures Rank(DiasOrder[k]) == k
  {
    DiasOrderDistinct();
    IndexInDistinct(DiasOrder, k);
  }

  /** Fewer days never land in a later bucket, and every finite count comes before "(sem dias)". */
  lemma DiasBucketsFollowDays(x: real, y: real)
    requires x <= y
    ensures Rank(DiasBucketLabel(Num(Finite(x)))) <= Rank(DiasBucketLabel(Num(Finite(y))))
    ensures Rank(DiasBucketLabel(Num(Finite(x)))) < Rank(DiasBucketLabel(Num(NaN)))
  {
    assert DiasBucketLabel(Num(Finite(x))) == DiasOrder[DayBucket(x)];
    assert DiasBucketLabel(Num(Finite(y))) == DiasOrder[DayBucket(y)];
    assert DiasBucketLabel(Num(NaN)) == DiasOrder[|DiasOrder| - 1];
    DayBucketMonotone(x, y);
    RankAt(DayBucket(x));
    RankAt(DayBucket(y));
    RankAt(|DiasOrder| - 1);
  }

  /** The comparator `(a, b) => order.indexOf(a) - order.indexOf(b)`, as "a may come first". */
  function ByPosition(order: seq<string>): (string, string) -> bool {
    (a: string, b: string) => IndexIn(order, a) <= IndexIn(order, b)
  }

  lemma ByPositionPreorder(order: seq<string>, s: seq<string>)
    ensures TotalPreorderOn(s, ByPosition(order))
  {
  }

  function DiasOf(r: Row): string {
    DiasBucketLabel(r.dias)
  }

  /** `only`: the rows of status `st` in aging bucket `a`. */
  function DiasOnly(rows: seq<Row>, st: string, a: string): seq<Row> {
    Select(WithStatus(rows, st), LabelOf(Receivables), a)
  }

  /** One line of the breakdown. */
  datatype DiasLine = DiasLine(bucket: string, value: int)

  function LineValues(out: seq<DiasLine>): (r: seq<int>)
    ensures |r| == |out| && forall i :: 0 <= i < |out| ==> r[i] == out[i].value
  {
    seq(|out|, i requires 0 <= i < |out| => out[i].value)
  }

  /** The lines for the sorted keys: each key with its accumulated value, `m.get(k) || 0`. */
  function Lines(sorted: seq<string>, m: map<string, int>): (out: seq<DiasLine>)
    ensures |out| == |sorted|
    ensures forall i :: 0 <= i < |sorted| ==> out[i] == DiasLine(sorted[i], if sorted[i] in m then m[sorted[i]] else 0)
  {
    seq(|sorted|, i requires 0 <= i < |sorted| => DiasLine(sorted[i], if sorted[i] in m then m[sorted[i]] else 0))
  }

  /** The day buckets the lines show. */
  function Buckets(out: seq<DiasLine>): set<string> {
    set i | 0 <= i < |out| :: out[i].bucket
  }

  /**
   * `diasBucketsFor(rows, st, a)`: the rows of status `st` in bucket `a`,
   * summed per day bucket (a `Map` keyed in order of first appearance), the
   * keys then sorted into display order.
   */
  method DiasBucketsFor(rows: seq<Row>, st: string, a: string) returns (out: seq<DiasLine>)
    ensures forall i, j :: 0 <= i < j < |out| ==> Rank(out[i].bucket) < Rank(out[j].bucket)
    ensures Buckets(out) == KeysOf(DiasOnly(rows, st, a), DiasOf)
    ensures forall i :: 0 <= i < |out| ==> out[i].value == SumValor(Select(DiasOnly(rows, st, a), DiasOf, out[i].bucket))
    ensures SumSeq(LineValues(out)) == SumStatusAging(Receivables, rows, st, a)
  {
    var only := DiasOnly(rows, st, a);
    var m := AccumulateByKey(only, DiasOf, Amount, []);
    var keys := DistinctKeys(only, DiasOf);
    var sorted := SortBy(keys, ByPosition(DiasOrder));
    out := Lines(sorted, m);
    DiasOrderDistinct();
    forall j | 0 <= j < |only| ensures DiasOf(only[j]) in DiasOrder {
    }
    LinesSound(only, DiasOf, Amount, DiasOrder, keys, sorted, m, out);
  }

  /** The keys sorted by any comparator: duplicate-free, and exactly the keys of the elements. */
  lemma SortedKeys<T>(only: seq<T>, key: T -> string, keys: seq<string>, sorted: seq<string>)
    requires keys == DistinctKeys(only, key) && multiset(sorted) == multiset(keys)
    ensures Distinct(sorted)
    ensures SeqSet(sorted) == KeysOf(only, key)
  {
    forall k | k in SeqSet(sorted) ensures k in KeysOf(only, key) {
      assert k in multiset(sorted);
      assert k in keys;
      DistinctKeysMembers(only, key);
    }
    forall k | k in KeysOf(only, key) ensures k in SeqSet(sorted) {
      DistinctKeysMembers(only, key);
      assert k in keys;
      assert k in multiset(sorted);
    }
    DistinctPermutation(keys, sorted);
  }

  /** Distinct labels of the order, sorted by position, have strictly increasing positions. */
  lemma PositionsIncrease(order: seq<string>, sorted: seq<string>)
    requires Distinct(sorted) && Ordered(sorted, ByPosition(order))
    requires forall i :: 0 <= i < |sorted| ==> sorted[i] in order
    ensures forall i, j :: 0 <= i < j < |sorted| ==> IndexIn(order, sorted[i]) < IndexIn(order, sorted[j])
  {
    forall i, j | 0 <= i < j < |sorted| ensures IndexIn(order, sorted[i]) < IndexIn(order, sorted[j]) {
      assert ByPosition(order)(sorted[i], sorted[j]);
      assert order[IndexIn(order, sorted[i])] == sorted[i];
      assert order[IndexIn(order, sorted[j])] == sorted[j];
    }
  }

  /** Sorting the distinct keys by their position in `order` puts them in strictly increasing position. */
  lemma KeysByPosition<T>(only: seq<T>, key: T -> string, order: seq<string>, keys: seq<string>, sorted: seq<string>)
    requires forall j :: 0 <= j < |only| ==> key(only[j]) in order
    requires keys == DistinctKeys(only, key) && sorted == SortBy(keys, ByPosition(order))
    ensures Distinct(sorted)
    ensures SeqSet(sorted) == KeysOf(only, key)
    ensures forall i, j :: 0 <= i < j < |sorted| ==> IndexIn(order, sorted[i]) < IndexIn(order, sorted[j])
  {
    SortedKeys(only, key, keys, sorted);
    forall i | 0 <= i < |sorted| ensures sorted[i] in order {
      assert sorted[i] in SeqSet(sorted);
    }
    ByPositionPreorder(order, keys);
    SortByOrdered(keys, ByPosition(order));
    PositionsIncrease(order, sorted);
  }

  /** Each line carries the accumulated sum of its key. */
  lemma LinesValues<T>(only: seq<T>, key: T -> string, f: T -> int, sorted: seq<string>, m: map<string, int>)
    requires m == KeySums(only, key, f, [])
    requires SeqSet(sorted) == KeysOf(only, key)
    ensures LineValues(Lines(sorted, m)) == GroupSums(only, key, sorted, f)
  {
    forall i | 0 <= i < |sorted| ensures sorted[i] in m {
      assert sorted[i] in SeqSet(sorted);
    }
  }

  /** The line values add up to the whole of the selected rows. */
  lemma LinesSum<T>(only: seq<T>, key: T -> string, f: T -> int, sorted: seq<string>, m: map<string, int>)
    requires Distinct(sorted)
    requires SeqSet(sorted) == KeysOf(only, key)
    requires LineValues(Lines(sorted, m)) == GroupSums(only, key, sorted, f)
    ensures SumSeq(LineValues(Lines(sorted, m))) == SumBy(only, f)
  {
    forall j | 0 <= j < |only| ensures key(only[j]) in sorted {
      assert key(only[j]) in KeysOf(only, key);
    }
    SumSeqGroupSums(only, key, sorted, f);
    SumGroupsCovers(only, key, sorted, f);
  }

  /** The lines keep the buckets of `sorted`, in the same order. */
  lemma LinesFollowKeys(order: seq<string>, sorted: seq<string>, m: map<string, int>, out: seq<DiasLine>)
    requires forall i, j :: 0 <= i < j < |sorted| ==> IndexIn(order, sorted[i]) < IndexIn(order, sorted[j])
    requires out == Lines(sorted, m)
    ensures forall i, j :: 0 <= i < j < |out| ==> IndexIn(order, out[i].bucket) < IndexIn(order, out[j].bucket)
    ensures Buckets(out) == SeqSet(sorted)
  {
    forall k | k in SeqSet(sorted) ensures k in Buckets(out) {
      var i :| 0 <= i < |sorted| && sorted[i] == k;
      assert out[i].bucket == k;
    }
  }

  /** The breakdown lines from the accumulated map, for any key into a display order. */
  lemma LinesSound<T>(only: seq<T>, key: T -> string, f: T -> int, order: seq<string>,
                      keys: seq<string>, sorted: seq<string>, m: map<string, int>, out: seq<DiasLine>)
    requires forall j :: 0 <= j < |only| ==> key(only[j]) in order
    requires keys == DistinctKeys(only, key) && sorted == SortBy(keys, ByPosition(order))
    requires m == KeySums(only, key, f, [])
    requires out == Lines(sorted, m)
    ensures forall i, j :: 0 <= i < j < |out| ==> IndexIn(order, out[i].bucket) < IndexIn(order, out[j].bucket)
    ensures Buckets(out) == KeysOf(only, key)
    ensures forall i :: 0 <= i < |out| ==> out[i].value == SumBy(Select(only, key, out[i].bucket), f)
    ensures SumSeq(LineValues(out)) == SumBy(only, f)
  {
    KeysByPosition(only, key, order, keys, sorted);
    LinesFollowKeys(order, sorted, m, out);
    LinesValues(only, key, f, sorted, m);
    LinesSum(only, key, f, sorted, m);
    forall i | 0 <= i < |out| ensures out[i].value == SumBy(Select(only, key, out[i].bucket), f) {
      assert LineValues(out)[i] == out[i].value;
    }
  }

  // ---------------------------------------------------------------------------
  // View state
  // ---------------------------------------------------------------------------

  /** The three views of the page. */
  datatype View = Fundos | Inadimplencia | Hierarquia

  /** A node's key: the level's tag, `:`, then the labels from the root joined with `|`. */
  function NodeKey(tags: seq<string>, path: seq<string>): string
    requires 0 < |path| <= |tags|
  {
    tags[|path| - 1] + ":" + Join(path, "|")
  }

  const HierTags: seq<string> := ["tipo", "subtipo", "grupo", "cls", "nat", "sacado"]
  const FundosTags: seq<string> := ["portador", "op"]
  const InadTags: seq<string> := ["sacado", "inad"]

  /** The UI state of the page that the model covers. */
  class ReceivablesView {
    var dataBaseSelected: string
    var view: View
    var openHier: set<string>
    var openFundos: set<string>
    var openInad: set<string>
    var hierAgingOpenVenc: bool
    var hierAgingOpenAV: bool
    var fundosAgingOpen: bool
    var inadAgingOpenAV: bool
    var openDiasByAging: set<string>

    ghost predicate Reset()
      reads this
    {
      && openHier == {} && openFundos == {} && openInad == {}
      && !hierAgingOpenVenc && !hierAgingOpenAV && !fundosAgingOpen && !inadAgingOpenAV
      && openDiasByAging == {} && dataBaseSelected == AllDates
    }

    /** The first render: the Fundos view, everything closed, every data base. */
    constructor ()
      ensures Reset() && view == Fundos
    {
      dataBaseSelected := AllDates;
      view := Fundos;
      openHier, openFundos, openInad := {}, {}, {};
      hierAgingOpenVenc, hierAgingOpenAV, fundosAgingOpen, inadAgingOpenAV := false, false, false, false;
      openDiasByAging := {};
    }

    /** Loading another project closes everything and clears the data-base filter; the view stays. */
    method LoadProject()
      modifies this
      ensures Reset() && view == old(view)
    {
      openHier, openFundos, openInad := {}, {}, {};
      hierAgingOpenVenc, hierAgingOpenAV, fundosAgingOpen, inadAgingOpenAV := false, false, false, false;
      openDiasByAging := {};
      dataBaseSelected := AllDates;
    }

    /** The expand button of a Hierarquia node. */
    method ToggleHier(path: seq<string>)
      requires 0 < |path| <= |HierTags|
      modifies this
      ensures openHier == Toggled(old(openHier), NodeKey(HierTags, path))
      ensures openFundos == old(openFundos) && openInad == old(openInad) && openDiasByAging == old(openDiasByAging)
      ensures hierAgingOpenVenc == old(hierAgingOpenVenc) && hierAgingOpenAV == old(hierAgingOpenAV)
      ensures fundosAgingOpen == old(fundosAgingOpen) && inadAgingOpenAV == old(inadAgingOpenAV)
      ensures dataBaseSelected == old(dataBaseSelected) && view == old(view)
    {
      var k := NodeKey(HierTags, path);
      var next := openHier;
      if k in next {
        next := next - {k};
      } else {
        next := next + {k};
      }
      openHier := next;
    }

    /** The expand button of a Fundos node. */
    method ToggleFundos(path: seq<string>)
      requires 0 < |path| <= |FundosTags|
      modifies this
      ensures openFundos == Toggled(old(openFundos), NodeKey(FundosTags, path))
      ensures openHier == old(openHier) && openInad == old(openInad) && openDiasByAging == old(openDiasByAging)
      ensures hierAgingOpenVenc == old(hierAgingOpenVenc) && hierAgingOpenAV == old(hierAgingOpenAV)
      ensures fundosAgingOpen == old(fundosAgingOpen) && inadAgingOpenAV == old(inadAgingOpenAV)
      ensures dataBaseSelected == old(dataBaseSelected) && view == old(view)
    {
      var k := NodeKey(FundosTags, path);
      var next := openFundos;
      if k in next {
        next := next - {k};
      } else {
        next := next + {k};
      }
      openFundos := next;
    }

    /** The expand button of an Inadimplência node. */
    method ToggleInad(path: seq<string>)
      requires 0 < |path| <= |InadTags|
      modifies this
      ensures openInad == Toggled(old(openInad), NodeKey(InadTags, path))
      ensures openHier == old(openHier) && openFundos == old(openFundos) && openDiasByAging == old(openDiasByAging)
      ensures hierAgingOpenVenc == old(hierAgingOpenVenc) && hierAgingOpenAV == old(hierAgingOpenAV)
      ensures fundosAgingOpen == old(fundosAgingOpen) && inadAgingOpenAV == old(inadAgingOpenAV)
      ensures dataBaseSelected == old(dataBaseSelected) && view == old(view)
    {
      var k := NodeKey(InadTags, path);
      var next := openInad;
      if k in next {
        next := next - {k};
      } else {
        next := next + {k};
      }
      openInad := next;
    }

    /** `toggleAgingDias(label)`: a click on an A VENCER bucket cell flips that bucket's days breakdown. */
    method ToggleAgingDias(key: string)
      modifies this
      ensures openDiasByAging == Toggled(old(openDiasByAging), key)
      ensures openHier == old(openHier) && openFundos == old(openFundos) && openInad == old(openInad)
      ensures hierAgingOpenVenc == old(hierAgingOpenVenc) && hierAgingOpenAV == old(hierAgingOpenAV)
      ensures fundosAgingOpen == old(fundosAgingOpen) && inadAgingOpenAV == old(inadAgingOpenAV)
      ensures dataBaseSelected == old(dataBaseSelected) && view == old(view)
    {
      var next := openDiasByAging;
      if key in next {
        next := next - {key};
      } else {
        next := next + {key};
      }
      openDiasByAging := next;
    }

    /** `isAgingDiasOpen(label)`. */
    predicate IsAgingDiasOpen(key: string)
      reads this
    {
      key in openDiasByAging
    }

    /** The Hierarquia header buttons: a closed header opens its axis, a bucket header closes it. */
    method SetHierAging(vencOpen: bool, avOpen: bool)
      modifies this
      ensures hierAgingOpenVenc == vencOpen && hierAgingOpenAV == avOpen
      ensures openHier == old(openHier) && openFundos == old(openFundos) && openInad == old(openInad)
      ensures openDiasByAging == old(openDiasByAging)
      ensures fundosAgingOpen == old(fundosAgingOpen) && inadAgingOpenAV == old(inadAgingOpenAV)
      ensures dataBaseSelected == old(dataBaseSelected) && view == old(view)
    {
      hierAgingOpenVenc, hierAgingOpenAV := vencOpen, avOpen;
    }

    /** The A VENCER header of Fundos (open) and its bucket headers (close). */
    method SetFundosAging(open: bool)
      modifies this
      ensures fundosAgingOpen == open
      ensures openHier == old(openHier) && openFundos == old(openFundos) && openInad == old(openInad)
      ensures openDiasByAging == old(openDiasByAging)
      ensures hierAgingOpenVenc == old(hierAgingOpenVenc) && hierAgingOpenAV == old(hierAgingOpenAV)
      ensures inadAgingOpenAV == old(inadAgingOpenAV)
      ensures dataBaseSelected == old(dataBaseSelected) && view == old(view)
    {
      fundosAgingOpen := open;
    }

    /** The A VENCER header of Inadimplência (open) and its bucket headers (close). */
    method SetInadAging(open: bool)
      modifies this
      ensures inadAgingOpenAV == open
      ensures openHier == old(openHier) && openFundos == old(openFundos) && openInad == old(openInad)
      ensures openDiasByAging == old(openDiasByAging)
      ensures hierAgingOpenVenc == old(hierAgingOpenVenc) && hierAgingOpenAV == old(hierAgingOpenAV)
      ensures fundosAgingOpen == old(fundosAgingOpen)
      ensures dataBaseSelected == old(dataBaseSelected) && view == old(view)
    {
      inadAgingOpenAV := open;
    }

    method SelectDataBase(sel: string)
      modifies this
      ensures dataBaseSelected == sel
      ensures openHier == old(openHier) && openFundos == old(openFundos) && openInad == old(openInad)
      ensures openDiasByAging == old(openDiasByAging)
      ensures hierAgingOpenVenc == old(hierAgingOpenVenc) && hierAgingOpenAV == old(hierAgingOpenAV)
      ensures fundosAgingOpen == old(fundosAgingOpen) && inadAgingOpenAV == old(inadAgingOpenAV)
      ensures view == old(view)
    {
      dataBaseSelected := sel;
    }

    method SelectView(v: View)
      modifies this
      ensures view == v
      ensures openHier == old(openHier) && openFundos == old(openFundos) && openInad == old(openInad)
      ensures openDiasByAging == old(openDiasByAging)
      ensures hierAgingOpenVenc == old(hierAgingOpenVenc) && hierAgingOpenAV == old(hierAgingOpenAV)
      ensures fundosAgingOpen == old(fundosAgingOpen) && inadAgingOpenAV == old(inadAgingOpenAV)
      ensures dataBaseSelected == old(dataBaseSelected)
    {
      view := v;
    }

    /** The current Hierarquia columns. */
    function HierColumns(filtered: seq<Row>): seq<Col>
      reads this
    {
      ColsHier(hierAgingOpenVenc, hierAgingOpenAV,
               AgingBuckets(Receivables, filtered, Vencido), AgingBuckets(Receivables, filtered, AVencer))
    }

    /**
     * The Fundos row as the page renders it: every bucket cell is the whole
     * A VENCER sum (the later `sumByStatus` declaration) and an open row has
     * one grid track more than it has cells and header labels.
     */
    function FundosRowAsWritten(filtered: seq<Row>, rows: seq<Row>): (r: (seq<int>, nat))
      reads this
      ensures var buckets := FundosBuckets(fundosAgingOpen, filtered);
        && |r.0| == |HeaderLabels(fundosAgingOpen, buckets)|
        && (fundosAgingOpen ==> r.1 == |r.0| + 1)
        && (!fundosAgingOpen ==> r.1 == |r.0|)
        && (fundosAgingOpen ==> forall i :: 1 <= i < |r.0| - 1 ==> r.0[i] == SumStatus(rows, AVencer))
    {
      var buckets := FundosBuckets(fundosAgingOpen, filtered);
      RowTracksAsWrittenMismatch(rows, buckets, []);
      (FundosCellsAsWritten(rows, fundosAgingOpen, buckets), RowTracksAsWritten(fundosAgingOpen, |buckets|))
    }

    /**
     * The Fundos row with both defects corrected: each bucket cell narrowed
     * to its bucket and one grid track per cell. It lines up with the
     * header, starts with VENCIDO, ends with TOTAL, and the bucket cells of
     * an open row add up to the row's A VENCER sum.
     */
    function FundosRow(filtered: seq<Row>, rows: seq<Row>): (r: (seq<int>, nat))
      reads this
      ensures r.1 == |r.0| == |HeaderLabels(fundosAgingOpen, FundosBuckets(fundosAgingOpen, filtered))|
      ensures r.0[0] == SumStatus(rows, Vencido) && r.0[|r.0| - 1] == SumValor(rows)
      ensures fundosAgingOpen && (forall i :: 0 <= i < |rows| ==> rows[i] in filtered) ==>
        SumSeq(r.0[1..|r.0| - 1]) == SumStatus(rows, AVencer)
    {
      var buckets := FundosBuckets(fundosAgingOpen, filtered);
      var row := (FundosCells(rows, fundosAgingOpen, buckets), RowTracks(fundosAgingOpen, |buckets|));
      if fundosAgingOpen && (forall i :: 0 <= i < |rows| ==> rows[i] in filtered) then
        FundosBucketsAddUp(filtered, rows);
        row
      else row
    }

    /**
     * The Inadimplência row as the page renders it: the cells are right, but
     * an open row has one grid track more than it has cells and header labels.
     */
    function InadRowAsWritten(filtered: seq<Row>, rows: seq<Row>): (r: (seq<int>, nat))
      reads this
      ensures var bs := AxisBuckets(AgingBuckets(Receivables, filtered, AVencer));
        && |r.0| == |HeaderLabels(inadAgingOpenAV, bs)|
        && (inadAgingOpenAV ==> r.1 == |r.0| + 1)
        && (!inadAgingOpenAV ==> r.1 == |r.0|)
    {
      var ab := AgingBuckets(Receivables, filtered, AVencer);
      RowTracksAsWrittenMismatch(rows, [], ab);
      (InadCells(rows, inadAgingOpenAV, ab), RowTracksAsWritten(inadAgingOpenAV, |AxisBuckets(ab)|))
    }

    /**
     * The Inadimplência row with one grid track per cell. It lines up with
     * the header, starts with VENCIDO, ends with TOTAL, and the bucket cells
     * of an open row add up to the row's A VENCER sum.
     */
    function InadRow(filtered: seq<Row>, rows: seq<Row>): (r: (seq<int>, nat))
      reads this
      ensures r.1 == |r.0| == |HeaderLabels(inadAgingOpenAV, AxisBuckets(AgingBuckets(Receivables, filtered, AVencer)))|
      ensures r.0[0] == SumStatus(rows, Vencido) && r.0[|r.0| - 1] == SumValor(rows)
      ensures inadAgingOpenAV && (forall i :: 0 <= i < |rows| ==> rows[i] in filtered) ==>
        SumSeq(r.0[1..|r.0| - 1]) == SumStatus(rows, AVencer)
    {
      var ab := AgingBuckets(Receivables, filtered, AVencer);
      var row := (InadCells(rows, inadAgingOpenAV, ab), RowTracks(inadAgingOpenAV, |AxisBuckets(ab)|));
      if inadAgingOpenAV && (forall i :: 0 <= i < |rows| ==> rows[i] in filtered) then
        InadBucketsAddUp(filtered, rows);
        row
      else row
    }
  }
}

=== FILE: receivables_example.dfy ===
/**
 * A concrete Fundos row on which the page's bucket cells and the intended
 * bucket cells differ.
 */
module ReceivablesExample {
  import opened Wrappers
  import opened Text
  import opened Sorting
  import opened Grouping
  import opened JsNumbers
  import opened IsoDates
  import opened Ledger
  import opened Receivables

  /** A row with the given status, aging and amount; every other column empty. */
  function SampleRow(status: string, aging: string, valor: int): Row {
    Row(None, None, None, None, None, None, None, None, None, Some(aging), Null, Some(valor),
        Missing, Missing, None, None, status)
  }

  /** A two-digit label is its own aging bucket. */
  lemma DigitLabel(s: string)
    requires |s| == 2 && '0' <= s[0] <= '9' && '0' <= s[1] <= '9'
    ensures AgingLabel(Receivables, Some(s)) == s
  {
    TrimNoSpaceEnds(s);
    assert ToUpper(s) == s;
  }

  /** `filter` over two elements. */
  lemma SelectTwo<T>(x: T, y: T, key: T -> string, k: string)
    ensures Select([x, y], key, k) == (if key(x) == k then [x] else []) + (if key(y) == k then [y] else [])
  {
    assert [x, y][..1] == [x];
  }

  /** The two sample rows of the counterexample below. */
  function SampleRows(): seq<Row> {
    [SampleRow(AVencer, "30", 100), SampleRow(AVencer, "60", 50)]
  }

  lemma SampleStatusSums()
    ensures SumStatus(SampleRows(), AVencer) == 150
    ensures SumStatus(SampleRows(), Vencido) == 0
    ensures SumValor(SampleRows()) == 150
  {
    var x, y := SampleRow(AVencer, "30", 100), SampleRow(AVencer, "60", 50);
    SelectTwo(x, y, StatusOf, AVencer);
    SelectTwo(x, y, StatusOf, Vencido);
    SumByTwo(x, y, Amount);
  }

  lemma SampleLabel(st: string, a: string, v: int)
    requires |a| == 2 && '0' <= a[0] <= '9' && '0' <= a[1] <= '9'
    ensures LabelOf(Receivables)(SampleRow(st, a, v)) == a
  {
    DigitLabel(a);
  }

  /** Of two rows of status `st`, only the one whose label is `k` counts in bucket `k`. */
  lemma PairBucketSum(x: Row, y: Row, st: string, k: string)
    requires StatusOf(x) == st && StatusOf(y) == st
    requires LabelOf(Receivables)(x) != LabelOf(Receivables)(y)
    requires k == LabelOf(Receivables)(x) || k == LabelOf(Receivables)(y)
    ensures SumStatusAging(Receivables, [x, y], st, k) == if k == LabelOf(Receivables)(x) then Amount(x) else Amount(y)
  {
    SelectTwo(x, y, StatusOf, st);
    assert WithStatus([x, y], st) == [x, y];
    SelectTwo(x, y, LabelOf(Receivables), k);
    if k == LabelOf(Receivables)(x) {
      assert Select([x, y], LabelOf(Receivables), k) == [x];
      SumByTwo(x, x, Amount);
    } else {
      assert Select([x, y], LabelOf(Receivables), k) == [y];
      SumByTwo(y, y, Amount);
    }
  }

  lemma SampleBucketSums()
    ensures SumStatusAging(Receivables, SampleRows(), AVencer, "30") == 100
    ensures SumStatusAging(Receivables, SampleRows(), AVencer, "60") == 50
  {
    var x, y := SampleRow(AVencer, "30", 100), SampleRow(AVencer, "60", 50);
    SampleLabel(AVencer, "30", 100);
    SampleLabel(AVencer, "60", 50);
    PairBucketSum(x, y, AVencer, "30");
    PairBucketSum(x, y, AVencer, "60");
  }

  /**
   * Two A VENCER rows, 100 in bucket "30" and 50 in bucket "60": with the
   * axis open the page shows 150 under both buckets, where the buckets hold
   * 100 and 50.
   */
  lemma FundosBucketCellCounterexample()
    ensures FundosCellsAsWritten(SampleRows(), true, ["30", "60"]) == [0, 150, 150, 150]
    ensures FundosCells(SampleRows(), true, ["30", "60"]) == [0, 100, 50, 150]
  {
    var rows := SampleRows();
    SampleStatusSums();
    SampleBucketSums();
    TwoBucketCells(rows, "30", "60");
  }

  /** The cells of a Fundos row whose open A VENCER axis has two buckets. */
  lemma TwoBucketCells(rows: seq<Row>, a: string, b: string)
    ensures FundosCellsAsWritten(rows, true, [a, b])
         == [SumStatus(rows, Vencido), SumStatus(rows, AVencer), SumStatus(rows, AVencer), SumValor(rows)]
    ensures FundosCells(rows, true, [a, b])
         == [SumStatus(rows, Vencido), SumByStatusFor(rows, AVencer, Some(a)), SumByStatusFor(rows, AVencer, Some(b)), SumValor(rows)]
  {
  }

  lemma SumByTwo<T>(x: T, y: T, f: T -> int)
    ensures SumBy([x, y], f) == f(x) + f(y) && SumBy([x], f) == f(x)
  {
    assert [y][1..] == [] && [x][1..] == [];
    assert SumBy([y], f) == f(y);
    assert [x, y][1..] == [y];
  }
}

=== FILE: sorting.dfy ===
/**
 * The orderings the dashboards apply with `Array.prototype.sort`, which is
 * stable: a stable insertion sort by a numeric key (non-increasing), a stable
 * insertion sort by a comparator, and the sorted duplicate-free list that
 * `Array.from(new Set(xs)).sort()` produces. Sums and concatenations over a
 * sequence do not depend on its order, which the permutation lemmas state.
 */
module Sorting {
  import opened Text

  // ---------------------------------------------------------------------------
  // Sums and concatenations over a sequence
  // ---------------------------------------------------------------------------

  function SumBy<T>(s: seq<T>, f: T -> int): int {
    if |s| == 0 then 0 else f(s[0]) + SumBy(s[1..], f)
  }

  lemma {:induction false} SumByConcat<T>(a: seq<T>, b: seq<T>, f: T -> int)
    ensures SumBy(a + b, f) == SumBy(a, f) + SumBy(b, f)
  {
    if |a| == 0 {
      assert a + b == b;
    } else {
      assert (a + b)[1..] == a[1..] + b;
      SumByConcat(a[1..], b, f);
    }
  }

  /** Taking one element out of a sequence takes its value out of the sum. */
  lemma SumByRemove<T>(b: seq<T>, i: int, f: T -> int)
    requires 0 <= i < |b|
    ensures SumBy(b, f) == f(b[i]) + SumBy(b[..i] + b[i + 1..], f)
  {
    assert b == b[..i] + b[i..];
    SumByConcat(b[..i], b[i..], f);
    assert b[i..][1..] == b[i + 1..];
    SumByConcat(b[..i], b[i + 1..], f);
  }

  /** Reordering a sequence does not change its sum. */
  lemma {:induction false} SumByPermutation<T>(a: seq<T>, b: seq<T>, f: T -> int)
    requires multiset(a) == multiset(b)
    ensures SumBy(a, f) == SumBy(b, f)
    decreases |a|
  {
    if |a| == 0 {
      assert |b| == |multiset(b)| == 0;
    } else {
      var x := a[0];
      assert x in multiset(b);
      var i :| 0 <= i < |b| && b[i] == x;
      var rest := b[..i] + b[i + 1..];
      assert b == b[..i] + [x] + b[i + 1..];
      assert a == [x] + a[1..];
      assert multiset(rest) == multiset(b[..i]) + multiset(b[i + 1..]);
      assert multiset(a[1..]) == multiset(a) - multiset{x};
      assert multiset(rest) == multiset(b) - multiset{x};
      SumByPermutation(a[1..], rest, f);
      SumByRemove(b, i, f);
    }
  }

  /** The sum of a list of amounts (`cells.reduce((a, b) => a + b, 0)`). */
  function SumSeq(s: seq<int>): int {
    if |s| == 0 then 0 else s[0] + SumSeq(s[1..])
  }

  ghost predicate Distinct<T>(s: seq<T>) {
    forall i, j :: 0 <= i < j < |s| ==> s[i] != s[j]
  }

  /** A duplicate-free sequence holds each value at most once. */
  lemma {:induction false} DistinctCount<T>(s: seq<T>, x: T)
    requires Distinct(s)
    ensures multiset(s)[x] <= 1
  {
    if |s| > 0 {
      assert s == [s[0]] + s[1..];
      DistinctCount(s[1..], x);
      if x == s[0] {
        assert x !in s[1..];
      }
    }
  }

  /** A reordering of a duplicate-free sequence is duplicate-free. */
  lemma DistinctPermutation<T>(s: seq<T>, t: seq<T>)
    requires Distinct(s) && multiset(s) == multiset(t)
    ensures Distinct(t)
  {
    forall i, j | 0 <= i < j < |t| ensures t[i] != t[j] {
      DistinctCount(s, t[i]);
      assert t == t[..j] + [t[j]] + t[j + 1..];
      assert t[..j][i] == t[i];
      assert multiset(t)[t[i]] == multiset(t[..j])[t[i]] + multiset([t[j]])[t[i]] + multiset(t[j + 1..])[t[i]];
    }
  }

  /** The concatenation of `f(x)` for every `x` of `s`, in order. */
  function FlatMap<T, U>(s: seq<T>, f: T -> seq<U>): seq<U> {
    if |s| == 0 then [] else f(s[0]) + FlatMap(s[1..], f)
  }

  lemma {:induction false} FlatMapConcat<T, U>(a: seq<T>, b: seq<T>, f: T -> seq<U>)
    ensures FlatMap(a + b, f) == FlatMap(a, f) + FlatMap(b, f)
  {
    if |a| == 0 {
      assert a + b == b;
    } else {
      assert (a + b)[1..] == a[1..] + b;
      FlatMapConcat(a[1..], b, f);
    }
  }

  /** Taking one element out of a sequence takes its image out of the flattening. */
  lemma FlatMapRemove<T, U>(b: seq<T>, i: nat, f: T -> seq<U>)
    requires i < |b|
    ensures multiset(FlatMap(b, f)) == multiset(f(b[i])) + multiset(FlatMap(b[..i] + b[i + 1..], f))
  {
    var x, p, q := b[i], b[..i], b[i + 1..];
    assert b == (p + [x]) + q;
    FlatMapConcat(p + [x], q, f);
    FlatMapConcat(p, [x], f);
    FlatMapConcat(p, q, f);
    assert FlatMap([x], f) == f(x) by {
      assert [x][1..] == [];
    }
    var fp, fq := FlatMap(p, f), FlatMap(q, f);
    assert FlatMap(b, f) == (fp + f(x)) + fq;
    assert FlatMap(p + q, f) == fp + fq;
    assert multiset((fp + f(x)) + fq) == multiset(fp + f(x)) + multiset(fq);
    assert multiset(fp + f(x)) == multiset(fp) + multiset(f(x));
    assert multiset(fp + fq) == multiset(fp) + multiset(fq);
  }

  /** Removing the element at `i` removes one occurrence from the multiset. */
  lemma MultisetRemove<T>(b: seq<T>, i: nat)
    requires i < |b|
    ensures multiset(b[..i] + b[i + 1..]) == multiset(b) - multiset{b[i]}
  {
    assert b == b[..i] + [b[i]] + b[i + 1..];
    assert multiset(b) == multiset(b[..i]) + multiset{b[i]} + multiset(b[i + 1..]);
  }

  /** Reordering a sequence keeps the multiset of what it flattens to. */
  lemma {:induction false} FlatMapPermutation<T, U>(a: seq<T>, b: seq<T>, f: T -> seq<U>)
    requires multiset(a) == multiset(b)
    ensures multiset(FlatMap(a, f)) == multiset(FlatMap(b, f))
    decreases |a|
  {
    if |a| == 0 {
      assert |b| == |multiset(b)| == 0;
    } else {
      var x := a[0];
      assert x in multiset(b);
      var i :| 0 <= i < |b| && b[i] == x;
      var rest := b[..i] + b[i + 1..];
      MultisetRemove(b, i);
      assert a == [x] + a[1..];
      assert multiset(a[1..]) == multiset(rest);
      FlatMapPermutation(a[1..], rest, f);
      FlatMapRemove(b, i, f);
      assert FlatMap(a, f) == f(x) + FlatMap(a[1..], f);
    }
  }

  /** The elements of `s` that satisfy `p`, in order. */
  function Keep<T>(s: seq<T>, p: T -> bool): seq<T> {
    if |s| == 0 then [] else (if p(s[0]) then [s[0]] else []) + Keep(s[1..], p)
  }

  lemma {:induction false} KeepConcat<T>(a: seq<T>, b: seq<T>, p: T -> bool)
    ensures Keep(a + b, p) == Keep(a, p) + Keep(b, p)
  {
    if |a| == 0 {
      assert a + b == b;
    } else {
      assert a + b == [a[0]] + (a[1..] + b);
      KeepCons(a[0], a[1..] + b, p);
      KeepTail(a, p);
      KeepConcat(a[1..], b, p);
      ConcatAssoc(if p(a[0]) then [a[0]] else [], Keep(a[1..], p), Keep(b, p));
    }
  }

  lemma ConcatAssoc<T>(a: seq<T>, b: seq<T>, c: seq<T>)
    ensures a + (b + c) == (a + b) + c
  {
  }

  lemma KeepCons<T>(h: T, s: seq<T>, p: T -> bool)
    ensures Keep([h] + s, p) == (if p(h) then [h] else []) + Keep(s, p)
  {
    assert ([h] + s)[1..] == s;
  }

  lemma KeepSnoc<T>(s: seq<T>, y: T, p: T -> bool)
    ensures Keep(s + [y], p) == Keep(s, p) + (if p(y) then [y] else [])
  {
    KeepConcat(s, [y], p);
    KeepCons(y, [], p);
    assert [y] + [] == [y];
  }

  lemma SplitLast<T>(s: seq<T>)
    requires |s| > 0
    ensures s == s[..|s| - 1] + [s[|s| - 1]]
  {
  }

  /** One step of an insertion sort keeps the kept elements in order when the insertion does. */
  lemma KeepInsertStep<T>(s: seq<T>, init: seq<T>, y: T, r: seq<T>, ins: seq<T>, p: T -> bool)
    requires s == init + [y]
    requires Keep(r, p) == Keep(init, p)
    requires Keep(ins, p) == Keep(r, p) + (if p(y) then [y] else [])
    ensures Keep(ins, p) == Keep(s, p)
  {
    KeepSnoc(init, y, p);
  }

  lemma KeepTail<T>(s: seq<T>, p: T -> bool)
    requires |s| > 0
    ensures Keep(s, p) == (if p(s[0]) then [s[0]] else []) + Keep(s[1..], p)
  {
  }

  lemma {:induction false} KeepNone<T>(s: seq<T>, p: T -> bool)
    requires forall i :: 0 <= i < |s| ==> !p(s[i])
    ensures Keep(s, p) == []
  {
    if |s| > 0 {
      KeepNone(s[1..], p);
    }
  }

  // ---------------------------------------------------------------------------
  // Stable sort by a numeric key, largest first
  // ---------------------------------------------------------------------------

  ghost predicate SortedDesc<T>(s: seq<T>, key: T -> real) {
    forall i, j :: 0 <= i < j < |s| ==> key(s[i]) >= key(s[j])
  }

  /** Places `x` after every element whose key is at least `key(x)`. */
  function InsertDesc<T>(s: seq<T>, x: T, key: T -> real): (r: seq<T>)
    requires SortedDesc(s, key)
    ensures SortedDesc(r, key)
    ensures multiset(r) == multiset(s) + multiset{x}
  {
    if |s| == 0 || key(s[0]) < key(x) then [x] + s
    else
      var rest := InsertDesc(s[1..], x, key);
      assert s == [s[0]] + s[1..];
      ConsSortedDesc(s, x, rest, key);
      [s[0]] + rest
  }

  /** The head of a sorted sequence still leads after `x` joins the tail. */
  lemma ConsSortedDesc<T>(s: seq<T>, x: T, rest: seq<T>, key: T -> real)
    requires SortedDesc(s, key) && |s| > 0 && key(x) <= key(s[0])
    requires SortedDesc(rest, key) && multiset(rest) == multiset(s[1..]) + multiset{x}
    ensures SortedDesc([s[0]] + rest, key)
  {
    forall j | 0 <= j < |rest|
      ensures key(rest[j]) <= key(s[0])
    {
      assert rest[j] in multiset(rest);
      if rest[j] != x {
        assert rest[j] in multiset(s[1..]);
        var k :| 0 <= k < |s[1..]| && s[1..][k] == rest[j];
        assert s[k + 1] == rest[j];
      }
    }
  }

  /** `s.slice().sort((a, b) => key(b) - key(a))`: stable, non-increasing by `key`. */
  function SortDesc<T>(s: seq<T>, key: T -> real): (r: seq<T>)
    ensures SortedDesc(r, key)
    ensures multiset(r) == multiset(s)
    ensures |r| == |s|
  {
    if |s| == 0 then []
    else
      assert s == s[..|s| - 1] + [s[|s| - 1]];
      var r := InsertDesc(SortDesc(s[..|s| - 1], key), s[|s| - 1], key);
      assert |r| == |multiset(r)|;
      r
  }

  /** Inserting `x` puts it after every element that shares its key. */
  lemma {:induction false} InsertDescTies<T>(s: seq<T>, x: T, key: T -> real, same: T -> bool)
    requires SortedDesc(s, key)
    requires same(x) && forall e :: same(e) ==> key(e) == key(x)
    ensures Keep(InsertDesc(s, x, key), same) == Keep(s, same) + [x]
  {
    if |s| == 0 {
    } else if key(s[0]) < key(x) {
      KeepCons(x, s, same);
      KeepNoneBelow(s, x, key, same);
    } else {
      InsertDescTies(s[1..], x, key, same);
      var rest := InsertDesc(s[1..], x, key);
      assert InsertDesc(s, x, key) == [s[0]] + rest;
      KeepCons(s[0], rest, same);
      KeepTail(s, same);
      ConcatAssoc(if same(s[0]) then [s[0]] else [], Keep(s[1..], same), [x]);
    }
  }

  /** No element of a sequence led by a smaller key shares the key of `x`. */
  lemma KeepNoneBelow<T>(s: seq<T>, x: T, key: T -> real, same: T -> bool)
    requires SortedDesc(s, key) && |s| > 0 && key(s[0]) < key(x)
    requires forall e :: same(e) ==> key(e) == key(x)
    ensures Keep(s, same) == []
  {
    forall i | 0 <= i < |s| ensures !same(s[i]) {
      assert key(s[i]) <= key(s[0]);
    }
    KeepNone(s, same);
  }

  /** Inserting an element that is not kept leaves the kept ones where they were. */
  lemma {:induction false} InsertDescOthers<T>(s: seq<T>, x: T, key: T -> real, same: T -> bool)
    requires SortedDesc(s, key) && !same(x)
    ensures Keep(InsertDesc(s, x, key), same) == Keep(s, same)
  {
    if |s| == 0 {
    } else if key(s[0]) < key(x) {
      KeepCons(x, s, same);
    } else {
      InsertDescOthers(s[1..], x, key, same);
      KeepCons(s[0], InsertDesc(s[1..], x, key), same);
      KeepTail(s, same);
    }
  }

  /** The sort is stable: the elements that share the key `v` keep their input order. */
  lemma {:induction false} SortDescStable<T>(s: seq<T>, key: T -> real, v: real)
    ensures Keep(SortDesc(s, key), e => key(e) == v) == Keep(s, e => key(e) == v)
  {
    if |s| > 0 {
      var same := e => key(e) == v;
      var init, y := s[..|s| - 1], s[|s| - 1];
      SortDescStable(init, key, v);
      var r := SortDesc(init, key);
      SortDescUnfold(s, key);
      if same(y) {
        InsertDescTies(r, y, key, same);
      } else {
        InsertDescOthers(r, y, key, same);
      }
      SplitLast(s);
      KeepInsertStep(s, init, y, r, InsertDesc(r, y, key), same);
    }
  }

  lemma SortDescUnfold<T>(s: seq<T>, key: T -> real)
    requires |s| > 0
    ensures SortDesc(s, key) == InsertDesc(SortDesc(s[..|s| - 1], key), s[|s| - 1], key)
  {
  }

  // ---------------------------------------------------------------------------
  // Stable sort by a comparator (`le(a, b)` means "compare(a, b) <= 0")
  // ---------------------------------------------------------------------------

  /** Places `x` after every leading element `e` with `le(e, x)`. */
  function InsertBy<T>(s: seq<T>, x: T, le: (T, T) -> bool): (r: seq<T>)
    ensures multiset(r) == multiset(s) + multiset{x}
  {
    if |s| == 0 || !le(s[0], x) then [x] + s
    else
      assert s == [s[0]] + s[1..];
      [s[0]] + InsertBy(s[1..], x, le)
  }

  function SortBy<T>(s: seq<T>, le: (T, T) -> bool): (r: seq<T>)
    ensures multiset(r) == multiset(s)
    ensures |r| == |s|
  {
    if |s| == 0 then []
    else
      assert s == s[..|s| - 1] + [s[|s| - 1]];
      var r := InsertBy(SortBy(s[..|s| - 1], le), s[|s| - 1], le);
      assert |r| == |multiset(r)|;
      r
  }

  ghost predicate Ordered<T>(s: seq<T>, le: (T, T) -> bool) {
    forall i, j :: 0 <= i < j < |s| ==> le(s[i], s[j])
  }

  /** `le` is total and transitive on the elements of `s`. */
  ghost predicate TotalPreorderOn<T>(s: seq<T>, le: (T, T) -> bool) {
    && (forall i, j :: 0 <= i < |s| && 0 <= j < |s| ==> le(s[i], s[j]) || le(s[j], s[i]))
    && (forall i, j, k :: 0 <= i < |s| && 0 <= j < |s| && 0 <= k < |s| && le(s[i], s[j]) && le(s[j], s[k]) ==> le(s[i], s[k]))
  }

  lemma TotalPreorderOnSub<T>(s: seq<T>, t: seq<T>, le: (T, T) -> bool)
    requires TotalPreorderOn(s, le)
    requires forall x :: x in t ==> x in s
    ensures TotalPreorderOn(t, le)
  {
    forall i, j | 0 <= i < |t| && 0 <= j < |t| ensures le(t[i], t[j]) || le(t[j], t[i]) {
      assert t[i] in s && t[j] in s;
    }
    forall i, j, k | 0 <= i < |t| && 0 <= j < |t| && 0 <= k < |t| && le(t[i], t[j]) && le(t[j], t[k])
      ensures le(t[i], t[k])
    {
      assert t[i] in s && t[j] in s && t[k] in s;
    }
  }

  lemma {:induction false} InsertByOrdered<T>(s: seq<T>, x: T, le: (T, T) -> bool)
    requires Ordered(s, le)
    requires TotalPreorderOn(s + [x], le)
    ensures Ordered(InsertBy(s, x, le), le)
  {
    var sx := s + [x];
    assert sx[|s|] == x;
    if |s| == 0 {
    } else if !le(s[0], x) {
      assert sx[0] == s[0];
      assert le(x, s[0]);
      forall j | 0 <= j < |s| ensures le(x, s[j]) {
        if j > 0 {
          assert sx[j] == s[j];
        }
      }
    } else {
      TotalPreorderOnSub(sx, s[1..] + [x], le);
      InsertByOrdered(s[1..], x, le);
      var rest := InsertBy(s[1..], x, le);
      assert s == [s[0]] + s[1..];
      forall j | 0 <= j < |rest| ensures le(s[0], rest[j]) {
        assert rest[j] in multiset(s[1..]) + multiset{x};
        if rest[j] != x {
          var k :| 0 <= k < |s[1..]| && s[1..][k] == rest[j];
          assert s[k + 1] == rest[j];
        }
      }
    }
  }

  /** With a consistent comparator the stable sort really orders its input. */
  lemma {:induction false} SortByOrdered<T>(s: seq<T>, le: (T, T) -> bool)
    requires TotalPreorderOn(s, le)
    ensures Ordered(SortBy(s, le), le)
  {
    if |s| > 0 {
      var init := s[..|s| - 1];
      TotalPreorderOnSub(s, init, le);
      SortByOrdered(init, le);
      var sorted := SortBy(init, le);
      forall y | y in sorted + [s[|s| - 1]] ensures y in s {
        if y in sorted {
          assert y in multiset(init);
        }
      }
      TotalPreorderOnSub(s, sorted + [s[|s| - 1]], le);
      InsertByOrdered(sorted, s[|s| - 1], le);
    }
  }

  /** Inserting `y` into an ordered sequence puts it after every kept element that ranks at most `y`. */
  lemma {:induction false} InsertByTies<T>(s: seq<T>, y: T, le: (T, T) -> bool, same: T -> bool)
    requires Ordered(s, le) && TotalPreorderOn(s + [y], le)
    requires same(y) && forall i :: 0 <= i < |s| && same(s[i]) ==> le(s[i], y)
    ensures Keep(InsertBy(s, y, le), same) == Keep(s, same) + [y]
  {
    if |s| == 0 {
    } else if !le(s[0], y) {
      KeepCons(y, s, same);
      KeepNoneAbove(s, y, le, same);
    } else {
      TotalPreorderOnSub(s + [y], s[1..] + [y], le);
      InsertByTies(s[1..], y, le, same);
      var rest := InsertBy(s[1..], y, le);
      assert InsertBy(s, y, le) == [s[0]] + rest;
      KeepCons(s[0], rest, same);
      KeepTail(s, same);
      ConcatAssoc(if same(s[0]) then [s[0]] else [], Keep(s[1..], same), [y]);
    }
  }

  /** When `y` ranks below the head, no kept element ranks at most `y`. */
  lemma KeepNoneAbove<T>(s: seq<T>, y: T, le: (T, T) -> bool, same: T -> bool)
    requires Ordered(s, le) && TotalPreorderOn(s + [y], le)
    requires |s| > 0 && !le(s[0], y)
    requires forall i :: 0 <= i < |s| && same(s[i]) ==> le(s[i], y)
    ensures Keep(s, same) == []
  {
    var t := s + [y];
    forall i | 0 <= i < |s| ensures !same(s[i]) {
      assert t[i] == s[i] && t[0] == s[0] && t[|s|] == y;
    }
    KeepNone(s, same);
  }

  /** Inserting an element that is not kept leaves the kept ones where they were. */
  lemma {:induction false} InsertByOthers<T>(s: seq<T>, y: T, le: (T, T) -> bool, same: T -> bool)
    requires !same(y)
    ensures Keep(InsertBy(s, y, le), same) == Keep(s, same)
  {
    if |s| == 0 {
    } else if !le(s[0], y) {
      KeepCons(y, s, same);
    } else {
      InsertByOthers(s[1..], y, le, same);
      var rest := InsertBy(s[1..], y, le);
      assert InsertBy(s, y, le) == [s[0]] + rest;
      KeepCons(s[0], rest, same);
      KeepTail(s, same);
    }
  }

  /** The sort is stable: the elements `le` ranks level with `x` keep their input order. */
  lemma {:induction false} SortByStable<T>(s: seq<T>, le: (T, T) -> bool, x: T)
    requires TotalPreorderOn(s + [x], le)
    ensures Keep(SortBy(s, le), e => le(e, x) && le(x, e)) == Keep(s, e => le(e, x) && le(x, e))
  {
    if |s| > 0 {
      var same := e => le(e, x) && le(x, e);
      var init, y := s[..|s| - 1], s[|s| - 1];
      SplitLast(s);
      TotalPreorderOnSub(s + [x], init + [x], le);
      SortByStable(init, le, x);
      var r := SortBy(init, le);
      SortByUnfold(s, le);
      if same(y) {
        SortedTiesRankBelow(s, le, x);
        InsertByTies(r, y, le, same);
      } else {
        InsertByOthers(r, y, le, same);
      }
      KeepInsertStep(s, init, y, r, InsertBy(r, y, le), same);
    }
  }

  lemma SortByUnfold<T>(s: seq<T>, le: (T, T) -> bool)
    requires |s| > 0
    ensures SortBy(s, le) == InsertBy(SortBy(s[..|s| - 1], le), s[|s| - 1], le)
  {
  }

  /** Before the last element of `s` is inserted, the sorted rest meets what `InsertByTies` needs. */
  lemma SortedTiesRankBelow<T>(s: seq<T>, le: (T, T) -> bool, x: T)
    requires |s| > 0 && TotalPreorderOn(s + [x], le)
    ensures var r, y := SortBy(s[..|s| - 1], le), s[|s| - 1];
      && Ordered(r, le) && TotalPreorderOn(r + [y], le)
      && (le(y, x) && le(x, y) ==> forall i :: 0 <= i < |r| && le(r[i], x) && le(x, r[i]) ==> le(r[i], y))
  {
    var init, y := s[..|s| - 1], s[|s| - 1];
    var sx := s + [x];
    TotalPreorderOnSub(sx, init, le);
    SortByOrdered(init, le);
    var r := SortBy(init, le);
    forall i | 0 <= i < |r| ensures r[i] in sx {
      assert r[i] in multiset(init);
      var k :| 0 <= k < |init| && init[k] == r[i];
      assert sx[k] == r[i];
    }
    assert sx[|s| - 1] == y && sx[|s|] == x;
    TotalPreorderOnSub(sx, r + [y], le);
    TotalPreorderOnSub(sx, r + [y, x], le);
    var t := r + [y, x];
    forall i | 0 <= i < |r| && le(r[i], x) && le(x, r[i]) && le(y, x) && le(x, y) ensures le(r[i], y) {
      assert t[i] == r[i] && t[|r|] == y && t[|r| + 1] == x;
    }
  }

  // ---------------------------------------------------------------------------
  // Duplicate-free sorted string lists (`Array.from(new Set(xs)).sort(...)`)
  // ---------------------------------------------------------------------------

  ghost predicate StrictlyAscending(s: seq<string>) {
    forall i, j :: 0 <= i < j < |s| ==> LexLt(s[i], s[j])
  }

  ghost predicate StrictlyDescending(s: seq<string>) {
    forall i, j :: 0 <= i < j < |s| ==> LexLt(s[j], s[i])
  }

  function InsertUnique(s: seq<string>, x: string): (r: seq<string>)
    requires StrictlyAscending(s)
    ensures StrictlyAscending(r)
    ensures forall y :: y in r <==> y in s || y == x
  {
    if |s| == 0 then [x]
    else if s[0] == x then s
    else if LexLe(x, s[0]) then
      assert forall j :: 0 <= j < |s| ==> LexLt(x, s[j]) by {
        forall j | 0 <= j < |s| ensures LexLt(x, s[j]) {
          if j > 0 {
            LexLtTransitive(x, s[0], s[j]);
          }
        }
      }
      [x] + s
    else
      LexLeTotal(x, s[0]);
      var rest := InsertUnique(s[1..], x);
      assert s == [s[0]] + s[1..];
      assert forall j :: 0 <= j < |rest| ==> LexLt(s[0], rest[j]) by {
        forall j | 0 <= j < |rest| ensures LexLt(s[0], rest[j]) {
          assert rest[j] in rest;
          if rest[j] != x {
            assert rest[j] in s[1..];
            var k :| 0 <= k < |s[1..]| && s[1..][k] == rest[j];
            assert s[k + 1] == rest[j];
          }
        }
      }
      [s[0]] + rest
  }

  /** The distinct values of `s`, in ascending string order. */
  function SortedDistinct(s: seq<string>): (r: seq<string>)
    ensures StrictlyAscending(r)
    ensures forall y :: y in r <==> y in s
  {
    if |s| == 0 then []
    else
      assert s == s[..|s| - 1] + [s[|s| - 1]];
      InsertUnique(SortedDistinct(s[..|s| - 1]), s[|s| - 1])
  }

  function Reverse<T>(s: seq<T>): (r: seq<T>)
    ensures |r| == |s| && forall i :: 0 <= i < |s| ==> r[i] == s[|s| - 1 - i]
  {
    if |s| == 0 then [] else Reverse(s[1..]) + [s[0]]
  }

  /** The distinct values of `s`, in descending string order. */
  function SortedDistinctDesc(s: seq<string>): (r: seq<string>)
    ensures StrictlyDescending(r)
    ensures forall y :: y in r <==> y in s
  {
    var a := SortedDistinct(s);
    var r := Reverse(a);
    assert forall y :: y in r <==> y in a by {
      forall y ensures y in r <==> y in a {
        if y in a {
          var i :| 0 <= i < |a| && a[i] == y;
          assert r[|a| - 1 - i] == y;
        }
      }
    }
    r
  }
}

=== FILE: text.dfy ===
/**
 * String helpers shared by every page: JavaScript's white-space class, trim,
 * upper/lower case, substring search, joining and the code-point ordering
 * that stands in for string comparison and `localeCompare`.
 */
module Text {

  /** The characters JavaScript's `\s` and `String.prototype.trim` treat as white space. */
  predicate IsSpace(c: char) {
    c == ' ' || c == '\t' || c == '\n' || c == '\r' || c == '\U{000B}' || c == '\U{000C}'
    || c == '\U{00A0}' || c == '\U{1680}' || ('\U{2000}' <= c <= '\U{200A}')
    || c == '\U{2028}' || c == '\U{2029}' || c == '\U{202F}' || c == '\U{205F}'
    || c == '\U{3000}' || c == '\U{FEFF}'
  }

  predicate NoSpace(s: string) {
    forall i :: 0 <= i < |s| ==> !IsSpace(s[i])
  }

  /** Drops leading white space: what remains is a suffix that starts with a non-space. */
  function TrimStart(s: string): (r: string)
    ensures |r| <= |s| && r == s[|s| - |r|..]
    ensures r == [] || !IsSpace(r[0])
    ensures forall i :: 0 <= i < |s| - |r| ==> IsSpace(s[i])
  {
    if |s| > 0 && IsSpace(s[0]) then TrimStart(s[1..]) else s
  }

  /** Drops trailing white space: what remains is a prefix that ends with a non-space. */
  function TrimEnd(s: string): (r: string)
    ensures |r| <= |s| && r == s[..|r|]
    ensures r == [] || !IsSpace(r[|r| - 1])
    ensures forall i :: |r| <= i < |s| ==> IsSpace(s[i])
  {
    if |s| > 0 && IsSpace(s[|s| - 1]) then TrimEnd(s[..|s| - 1]) else s
  }

  /** `String.prototype.trim`. */
  function Trim(s: string): string {
    TrimEnd(TrimStart(s))
  }

  /** A trimmed string is empty exactly when the input held only white space. */
  lemma TrimEmptyIffBlank(s: string)
    ensures Trim(s) == [] <==> (forall i :: 0 <= i < |s| ==> IsSpace(s[i]))
  {
    var t := TrimStart(s);
    if Trim(s) != [] {
      var k := |s| - |t|;
      assert s[k] == t[0];
    }
  }

  /** A text that neither starts nor ends with white space is its own trim. */
  lemma TrimKeeps(s: string)
    requires s == [] || (!IsSpace(s[0]) && !IsSpace(s[|s| - 1]))
    ensures TrimStart(s) == s && TrimEnd(s) == s && Trim(s) == s
  {
  }

  /** Trimming a trimmed string changes nothing. */
  lemma TrimIdempotent(s: string)
    ensures Trim(Trim(s)) == Trim(s)
  {
    var u, t := TrimStart(s), Trim(s);
    if |t| > 0 {
      assert t == u[..|t|];
      assert t[0] == u[0];
    }
    TrimKeeps(t);
  }

  lemma TrimStartAround(pre: string, y: string)
    requires |y| > 0 && !IsSpace(y[0])
    requires forall i :: 0 <= i < |pre| ==> IsSpace(pre[i])
    ensures TrimStart(pre + y) == y
  {
    var s := pre + y;
    var a := TrimStart(s);
    var k := |s| - |a|;
    assert s[|pre|] == y[0];
  }

  lemma TrimEndAround(y: string, post: string)
    requires |y| > 0 && !IsSpace(y[|y| - 1])
    requires forall i :: 0 <= i < |post| ==> IsSpace(post[i])
    ensures TrimEnd(y + post) == y
  {
    var a := y + post;
    var b := TrimEnd(a);
    assert a[|y| - 1] == y[|y| - 1];
    assert b == a[..|y|];
  }

  /** White space around a text with non-space ends is exactly what `trim` removes. */
  lemma {:induction false} TrimAround(pre: string, y: string, post: string)
    requires |y| > 0 && !IsSpace(y[0]) && !IsSpace(y[|y| - 1])
    requires forall i :: 0 <= i < |pre| ==> IsSpace(pre[i])
    requires forall i :: 0 <= i < |post| ==> IsSpace(post[i])
    ensures Trim(pre + y + post) == y
  {
    assert pre + y + post == pre + (y + post);
    TrimStartAround(pre, y + post);
    TrimEndAround(y, post);
  }

  /** Upper-cases ASCII and Latin-1 letters; every other character is kept. */
  function UpperChar(c: char): char {
    if 'a' <= c <= 'z' then (c as int - 32) as char
    else if 'à' <= c <= 'þ' && c != '÷' then (c as int - 32) as char
    else c
  }

  /** Lower-cases ASCII and Latin-1 letters; every other character is kept. */
  function LowerChar(c: char): char {
    if 'A' <= c <= 'Z' then (c as int + 32) as char
    else if 'À' <= c <= 'Þ' && c != '×' then (c as int + 32) as char
    else c
  }

  function ToUpper(s: string): (r: string)
    ensures |r| == |s|
  {
    seq(|s|, i requires 0 <= i < |s| => UpperChar(s[i]))
  }

  function ToLower(s: string): (r: string)
    ensures |r| == |s|
  {
    seq(|s|, i requires 0 <= i < |s| => LowerChar(s[i]))
  }

  /** Case mapping leaves white space alone, so it commutes with trimming. */
  lemma UpperKeepsSpaces(c: char)
    ensures IsSpace(UpperChar(c)) <==> IsSpace(c)
  {
  }

  lemma UpperCharIdempotent(c: char)
    ensures UpperChar(UpperChar(c)) == UpperChar(c)
  {
  }

  /** Upper-casing an upper-cased text changes nothing. */
  lemma ToUpperIdempotent(s: string)
    ensures ToUpper(ToUpper(s)) == ToUpper(s)
  {
    forall i | 0 <= i < |s| ensures ToUpper(ToUpper(s))[i] == ToUpper(s)[i] {
      UpperCharIdempotent(s[i]);
    }
  }

  /** Upper-casing forgets a previous lower-casing: `toUpperCase` ignores the case of its input. */
  lemma UpperOfLower(s: string)
    ensures ToUpper(ToLower(s)) == ToUpper(s)
  {
  }

  lemma {:induction false} TrimStartUpper(s: string)
    ensures TrimStart(ToUpper(s)) == ToUpper(TrimStart(s))
  {
    if |s| > 0 {
      UpperKeepsSpaces(s[0]);
      assert ToUpper(s)[1..] == ToUpper(s[1..]);
      if IsSpace(s[0]) {
        TrimStartUpper(s[1..]);
      }
    }
  }

  lemma {:induction false} TrimEndUpper(s: string)
    ensures TrimEnd(ToUpper(s)) == ToUpper(TrimEnd(s))
  {
    if |s| > 0 {
      UpperKeepsSpaces(s[|s| - 1]);
      assert ToUpper(s)[..|s| - 1] == ToUpper(s[..|s| - 1]);
      if IsSpace(s[|s| - 1]) {
        TrimEndUpper(s[..|s| - 1]);
      }
    }
  }

  /** Trimming and upper-casing can be done in either order. */
  lemma TrimUpper(s: string)
    ensures Trim(ToUpper(s)) == ToUpper(Trim(s))
  {
    TrimStartUpper(s);
    TrimEndUpper(TrimStart(s));
  }

  predicate IsPrefix(p: string, s: string) {
    |p| <= |s| && s[..|p|] == p
  }

  /** `s.includes(sub)`. */
  predicate Contains(s: string, sub: string)
    decreases |s|
  {
    IsPrefix(sub, s) || (|s| > 0 && Contains(s[1..], sub))
  }

  lemma {:induction false} ContainsDrop(s: string, k: nat, sub: string)
    requires k <= |s| && Contains(s[k..], sub)
    ensures Contains(s, sub)
  {
    if k > 0 {
      assert s[1..][k - 1..] == s[k..];
      ContainsDrop(s[1..], k - 1, sub);
    }
  }

  /** A string containing `a + b` contains `b`. */
  lemma {:induction false} ContainsTail(s: string, a: string, b: string)
    requires Contains(s, a + b)
    ensures Contains(s, b)
    decreases |s|
  {
    if IsPrefix(a + b, s) {
      assert s[|a|..][..|b|] == (a + b)[|a|..] == b;
      assert Contains(s[|a|..], b);
      ContainsDrop(s, |a|, b);
    } else {
      ContainsTail(s[1..], a, b);
    }
  }

  /** `parts.join(sep)`. */
  function Join(parts: seq<string>, sep: string): string {
    if |parts| == 0 then ""
    else if |parts| == 1 then parts[0]
    else parts[0] + sep + Join(parts[1..], sep)
  }

  predicate IsDigit(c: char) {
    '0' <= c <= '9'
  }

  predicate AllDigits(s: string) {
    forall i :: 0 <= i < |s| ==> IsDigit(s[i])
  }

  /**
   * `s.replace(/\D/g, "")`: the ASCII digits of `s`, in order. A text of
   * digits is kept whole and a text without digits becomes empty; with
   * `DigitsOfAppend` this fixes the result of every text, character by
   * character.
   */
  function DigitsOf(s: string): (r: string)
    ensures AllDigits(r) && |r| <= |s|
    ensures AllDigits(s) ==> r == s
    ensures r == [] <==> forall i :: 0 <= i < |s| ==> !IsDigit(s[i])
  {
    if |s| == 0 then ""
    else if IsDigit(s[0]) then [s[0]] + DigitsOf(s[1..])
    else DigitsOf(s[1..])
  }

  lemma {:induction false} DigitsOfAppend(a: string, b: string)
    ensures DigitsOf(a + b) == DigitsOf(a) + DigitsOf(b)
  {
    if |a| > 0 {
      assert (a + b)[1..] == a[1..] + b;
      DigitsOfAppend(a[1..], b);
    } else {
      assert a + b == b;
    }
  }

  /**
   * String comparison (`<=` in JavaScript): lexicographic by character code,
   * a proper prefix sorts first. It also stands in for `localeCompare`.
   */
  predicate LexLe(a: string, b: string) {
    |a| == 0 || (|b| > 0 && (a[0] < b[0] || (a[0] == b[0] && LexLe(a[1..], b[1..]))))
  }

  predicate LexLt(a: string, b: string) {
    LexLe(a, b) && a != b
  }

  lemma {:induction false} LexLeTotal(a: string, b: string)
    ensures LexLe(a, b) || LexLe(b, a)
  {
    if |a| > 0 && |b| > 0 && a[0] == b[0] {
      LexLeTotal(a[1..], b[1..]);
    }
  }

  lemma {:induction false} LexLeAntisymmetric(a: string, b: string)
    requires LexLe(a, b) && LexLe(b, a)
    ensures a == b
  {
    if |a| > 0 && |b| > 0 {
      LexLeAntisymmetric(a[1..], b[1..]);
      assert a == [a[0]] + a[1..] && b == [b[0]] + b[1..];
    }
  }

  lemma {:induction false} LexLeTransitive(a: string, b: string, c: string)
    requires LexLe(a, b) && LexLe(b, c)
    ensures LexLe(a, c)
  {
    if |a| > 0 && a[0] == b[0] && b[0] == c[0] {
      LexLeTransitive(a[1..], b[1..], c[1..]);
    }
  }

  lemma LexLtTransitive(a: string, b: string, c: string)
    requires LexLt(a, b) && LexLt(b, c)
    ensures LexLt(a, c)
  {
    LexLeTransitive(a, b, c);
    if a == c {
      LexLeAntisymmetric(a, b);
    }
  }

  /** Exactly one of `a <= b` and `a > b` holds, the fact the classifier relies on. */
  lemma LexLeOrGreater(a: string, b: string)
    ensures LexLe(a, b) != LexLt(b, a)
  {
    LexLeTotal(a, b);
    if LexLe(a, b) && LexLe(b, a) {
      LexLeAntisymmetric(a, b);
    }
  }
}

=== FILE: toggles.dfy ===
/**
 * The expand / collapse state the pages keep in React state as a `Set` of
 * keys: a click copies the set, removes the key when present and adds it
 * otherwise, and stores the copy.
 */
module Toggles {
  /** The set after one click on `k`. */
  function Toggled(s: set<string>, k: string): (r: set<string>)
    ensures k in r <==> k !in s
    ensures forall x :: x != k ==> (x in r <==> x in s)
  {
    if k in s then s - {k} else s + {k}
  }

  /** Clicking the same key twice restores the set. */
  lemma ToggleTwice(s: set<string>, k: string)
    ensures Toggled(Toggled(s, k), k) == s
  {
    assert forall x :: x in Toggled(Toggled(s, k), k) <==> x in s;
  }

  /** Clicks on two different keys commute. */
  lemma TogglesCommute(s: set<string>, j: string, k: string)
    ensures Toggled(Toggled(s, j), k) == Toggled(Toggled(s, k), j)
  {
    assert forall x :: x in Toggled(Toggled(s, j), k) <==> x in Toggled(Toggled(s, k), j);
  }
}

=== FILE: wrappers.dfy ===
/** The optional value that the dashboards write as `null` / `undefined`. */
module Wrappers {

  datatype Option<+T> = None | Some(value: T) {

    /** The value, or `default` when there is none (the `??` operator). */
    function GetOr(default: T): T {
      match this
      case Some(v) => v
      case None => default
    }
  }
}
